=== FILE: README.md ===
# quic-test in Dafny

A Dafny model of the bookkeeping, verification and parsing core of the
saorsa-testnet `quic-test` crate. The crate is a test network for QUIC
connectivity, NAT traversal and gossip. Its core is made of these parts:

- **Connection bookkeeping for the terminal UI.** This covers the six-slot
  (D4, D6, N4, N6, R4, R6) outcome matrix, the connection-history status
  machine, RTT quality buckets, rolling latency statistics, the 30-second
  connectivity-test countdown and the geographic distribution
  (`tui_types.dfy`). It also covers the `App` object with its tabs, peers,
  counters, protocol-frame buffer, history pruning and scrolling
  (`tui_app.dfy`), and `handle_tui_event`, which applies network events to
  the `App` (`tui_events.dfy`). The events are grouped by the part of the
  `App` they change: the peers, the connectivity test, the counters, the
  registration, the status line and the messages. Each group has a handler,
  and a two-state predicate (`PeerEffect`, `ConnectivityEffect`,
  `CountEffect`, `StatusEffect`, `StatusLineEffect`, `MessagingEffect`)
  says what each of its events does to that part of the `App`.
- **The proof engine.** This covers the proof orchestrator with its per-node
  state, verification summaries and comprehensive test run
  (`proof_orchestrator.dfy`), and CRDT convergence verification with vector
  clocks, concurrency and majority hashes (`crdt_verification.dfy`). It also
  covers HyParView, SWIM and Plumtree figures derived from per-node gossip
  counters (`gossip_verification.dfy`), and the automated debugger: log
  parsing, pattern matching, the timeline, anomaly correlation, root cause
  and suggestions (`debug_automation.dfy`).
- **Library verification results and issue reports.** These are in
  `lib_verification.dfy` and `issue_reporter.dfy`.
- **Small parsers, tables and converters.** These are:
  - the command-line parser and gossip-stats conversion (`cli.dfy`);
  - the legacy duration parser (`duration.dfy`);
  - the Prometheus page parser and CSV rows of the legacy log aggregator
    (`logging.dfy`);
  - the MCP tool categories and tables and the public-key parser
    (`mcp_client.dfy`);
  - the bootstrap peer table (`bootstrap_peers.dfy`);
  - the Communitas demo identity (`communitas.dfy`);
  - the dashboard outcome summary (`dashboard_types.dfy`);
  - the metric-to-display bridges (`data_bridge.dfy`, `stats_bridge.dfy`).

`wrappers.dfy` (Option, Result), `text.dfy` (the `str` operations the code
relies on), `mapsum.dfy` (order-free sums over maps) and `sorting.dfy` (a
sort by key standing in for `sort_by_key`) are shared foundations.

The model follows the shape of the code:
- An object whose fields the code updates in place is a `class` whose
  methods name what they modify. These are `App`, `ProofOrchestrator`,
  `OperationTracker`, `CrdtVerifier`, `LiveConvergenceVerifier`,
  `GossipVerifier`, `AutomatedDebugger`, `Timeline` and
  `LibraryVerificationResult`.
- Loops that fill vectors are methods with loop invariants, each proved
  equal to a specification function.
- Structs that are owned by value are datatypes with update functions.
- `HashMap`s are Dafny maps. Every total over one is an order-free sum.
- Clocks, fresh identifiers, SHA-256, the four-word encoder, the base64
  decoders and `f64` parsing are parameters.
- Floating-point quantities are `real`. Integer widths are written out
  where the code relies on them (the `u64` multiplication of the duration
  parser, the saturating `f64 as u32` cast, the unsigned subtractions of
  the placement bridge).

## Model

| member | source | states |
|---|---|---|
| TuiTypes.FormatElapsedShort | crates/quic-test/src/tui/types.rs:12-22 | the suffix is `s` below a minute, `m` below an hour and `h` otherwise |
| TuiTypes.FormatElapsedShortReadsBack | crates/quic-test/src/tui/types.rs:12-22 | the number before the suffix is the elapsed time rounded down to whole units of that suffix |
| TuiTypes.SlotOf | crates/quic-test/src/tui/types.rs:117-148 | the path chosen for an attempt is an IPv6 slot exactly when the attempt used IPv6 |
| TuiTypes.SlotOfInjective | crates/quic-test/src/tui/types.rs:117-148 | distinct (method, IP version) pairs update distinct slots |
| TuiTypes.DefaultStatsFresh | crates/quic-test/src/tui/types.rs:85-103 | the default statistics are balanced, every slot is Unknown and neither IP version has been used |
| TuiTypes.UpdateOutcome | crates/quic-test/src/tui/types.rs:150-160 | a Success slot stays Success; a slot only changes to Success, or from Unknown to Failed |
| TuiTypes.BestOf | crates/quic-test/src/tui/types.rs:204-211 | the result is one of the two outcomes and ranks at least as high as both |
| TuiTypes.UpdateOutcomeIsBestOf | crates/quic-test/src/tui/types.rs:150-160 | updating a slot is the commutative, idempotent join of `best_of` on Unknown < Failed < Success |
| TuiTypes.MethodBest | crates/quic-test/src/tui/types.rs:190-202 | the best outcome of a method is one of its two slots, and Unknown only when both are |
| TuiTypes.RecordWithIpVersion | crates/quic-test/src/tui/types.rs:117-148 | one more attempt, one more success or failure, the last method recorded, and only the slot for (method, IP version) updated |
| TuiTypes.RecordAttempt | crates/quic-test/src/tui/types.rs:109-115 | an attempt without IP version is recorded as IPv4 and leaves its IPv4 slot known |
| TuiTypes.RecordKeepsInvariants | crates/quic-test/src/tui/types.rs:117-160 | attempts = successes + failures is kept, Success slots never change, slots only move up, and the used IP version is marked |
| TuiTypes.FromRttBands | crates/quic-test/src/tui/types.rs:417-430 | the quality is exactly the level whose band (<50, <100, <200, <500, ≥500 ms) holds the RTT |
| TuiTypes.FromRttMonotone | crates/quic-test/src/tui/types.rs:417-430 | a larger RTT never gives a better quality |
| TuiTypes.ShortId | crates/quic-test/src/tui/types.rs:251-255 | the first 8 characters of a longer id, otherwise the whole id |
| TuiTypes.ConnectedPeer.CountSent | crates/quic-test/src/tui/app.rs:280-283 | one more packet sent and the transmit indicator on; nothing else changes |
| TuiTypes.ConnectedPeer.CountReceived | crates/quic-test/src/tui/app.rs:295-298 | one more packet received and the receive indicator on; nothing else changes |
| TuiTypes.WithDirection | crates/quic-test/src/tui/types.rs:566-613 | a new peer is verified in exactly the direction it connected, has no RTT, Fair quality and no packets |
| TuiTypes.UpdateRtt | crates/quic-test/src/tui/types.rs:643-647 | the RTT is stored with the quality of its band; nothing else changes |
| TuiTypes.ConnectionHistoryEntry.CountPacket | crates/quic-test/src/tui/app.rs:284-287 | one more packet and last seen now; nothing else changes |
| TuiTypes.NewEntry | crates/quic-test/src/tui/types.rs:250-275 | a new entry is Coordinating, seen now, with default statistics in both directions and no connections |
| TuiTypes.RecordAttemptWithIp | crates/quic-test/src/tui/types.rs:333-367 | the attempt is counted in its direction only; Connected never changes, a success moves any other status to Disconnected, a failure moves only Coordinating to Failed |
| TuiTypes.RecordAttemptWithIpKeeps | crates/quic-test/src/tui/types.rs:333-367 | both directions stay balanced and an entry becomes Connected by no attempt |
| TuiTypes.BetterRtt | crates/quic-test/src/tui/types.rs:302-322 | the best RTT is the smaller of the two known values and missing only when both are |
| TuiTypes.FromConnectedPeer | crates/quic-test/src/tui/types.rs:277-300 | a Connected entry counting one connection, the peer's packets and RTT, with one successful attempt in the peer's direction |
| TuiTypes.UpdateFromPeer | crates/quic-test/src/tui/types.rs:302-322 | a reconnect: Connected, one more connection, packets added, best RTT kept, NAT verification sticky, identity unchanged |
| TuiTypes.NewEntryValid | crates/quic-test/src/tui/types.rs:250-275 | a new entry is balanced in both directions |
| TuiTypes.FromConnectedPeerValid | crates/quic-test/src/tui/types.rs:277-300 | an entry built from a live peer is balanced in both directions |
| TuiTypes.UpdateFromPeerValid | crates/quic-test/src/tui/types.rs:302-322 | a reconnect keeps both directions balanced |
| TuiTypes.MarkDisconnected | crates/quic-test/src/tui/types.rs:369-373 | the status becomes Disconnected and last seen now; nothing else changes |
| TuiTypes.RecordLatency | crates/quic-test/src/tui/types.rs:1782-1798 | one more sample, min ≤ sample ≤ max, history gains the sample last and drops its oldest past 60 |
| TuiTypes.RecordLatencyValid | crates/quic-test/src/tui/types.rs:1782-1798 | recording keeps history at most 60 long and every kept sample between min and max |
| TuiTypes.StartTest | crates/quic-test/src/tui/types.rs:1559-1563 | the test enters Registering with its start time; nothing else changes |
| TuiTypes.StartInboundPhase | crates/quic-test/src/tui/types.rs:1565-1569 | the test waits for inbound connections from now; nothing else changes |
| TuiTypes.CountdownSeconds | crates/quic-test/src/tui/types.rs:1571-1585 | 30 before the inbound phase starts, never above 30, 0 exactly when 30 s have passed, otherwise 30 minus the elapsed seconds |
| TuiTypes.CountdownCompleteWhen | crates/quic-test/src/tui/types.rs:1587-1590 | the countdown is complete exactly when the inbound phase began at least 30 s ago |
| TuiTypes.CountdownNonIncreasing | crates/quic-test/src/tui/types.rs:1571-1585 | a later reading never shows more seconds left |
| TuiTypes.ResultFor | crates/quic-test/src/tui/types.rs:1600-1617 | the existing result of a peer, or an empty one under its short id |
| TuiTypes.RecordInbound | crates/quic-test/src/tui/types.rs:1592-1619 | one more inbound attempt (and success), appended to that peer's inbound list only; other peers unchanged; totals stay consistent |
| TuiTypes.RecordOutbound | crates/quic-test/src/tui/types.rs:1621-1648 | one more outbound attempt (and success), appended to that peer's outbound list only; other peers unchanged; totals stay consistent |
| TuiTypes.AddPeer | crates/quic-test/src/tui/types.rs:2576-2580 | one more peer in total and in its region; other regions unchanged |
| TuiTypes.AddPeerKeepsTotal | crates/quic-test/src/tui/types.rs:2576-2580 | the total stays equal to the sum of the region counts |
| TuiTypes.EmptyDistributionValid | crates/quic-test/src/tui/types.rs:2571-2574 | the empty distribution has total equal to its (empty) sum |
| TuiTypes.CategoryIndex | crates/quic-test/src/tui/types.rs:2300-2308 | every category has its position in `ALL` |
| TuiTypes.NextCategory | crates/quic-test/src/tui/types.rs:2337-2348 | `next` moves one position forward in `ALL`, wrapping |
| TuiTypes.PrevCategory | crates/quic-test/src/tui/types.rs:2350-2361 | `prev` moves one position back in `ALL`, wrapping |
| TuiTypes.IterateNextIndex | crates/quic-test/src/tui/types.rs:2337-2348 | n steps of `next` move n positions, modulo 7 |
| TuiTypes.CategoryCycle | crates/quic-test/src/tui/types.rs:2337-2361 | `next` and `prev` undo each other, seven steps return to the start and no fewer do |
| TuiTypes.CategoryIndexInjective | crates/quic-test/src/tui/types.rs:2300-2308 | no category appears twice in `ALL` |
| TuiApp.TabIndex | crates/quic-test/src/tui/app.rs:28-51 | every tab has one of ten positions |
| TuiApp.TabAfter | crates/quic-test/src/tui/app.rs:179-193 | `next_tab` moves one position forward, wrapping after the tenth tab |
| TuiApp.TabBefore | crates/quic-test/src/tui/app.rs:195-209 | `prev_tab` moves one position back, wrapping before the first tab |
| TuiApp.TabsAfterIndex | crates/quic-test/src/tui/app.rs:179-193 | n presses of Tab move n positions, modulo 10 |
| TuiApp.TabIndexInjective | crates/quic-test/src/tui/app.rs:28-51 | no two tabs share a position |
| TuiApp.TabCycle | crates/quic-test/src/tui/app.rs:179-209 | next and previous tab undo each other; ten presses return to the start and no fewer do |
| TuiApp.CountSuccess | crates/quic-test/src/tui/app.rs:319-333 | exactly the counter of the success's method goes up by one; the three add up to one more |
| TuiApp.KeepLast | crates/quic-test/src/tui/app.rs:421-437 | the last n elements, all of them when there are fewer |
| TuiApp.PrunedFromProperties | crates/quic-test/src/tui/app.rs:566-584 | pruning only removes entries, never a Connected one, does nothing up to 1000 entries and never goes below 1000 |
| TuiApp.OldestKey | crates/quic-test/src/tui/app.rs:571-572 | a candidate seen no later than any other candidate |
| TuiApp.OldestRemovable | crates/quic-test/src/tui/app.rs:571-579 | the keys removed are the non-Connected ones among the `to_remove` least recently seen entries |
| TuiApp.ScrollTarget | crates/quic-test/src/tui/app.rs:596-608 | scrolling up saturates at 0, scrolling down stops at the last row, otherwise moves by the amount |
| TuiApp.ScrollStaysInside | crates/quic-test/src/tui/app.rs:596-608 | a selection inside the table stays inside it |
| TuiApp.App.constructor | crates/quic-test/src/tui/app.rs:128-167 | a running app on the Overview tab, auto-connecting, with no peers, history or frames and the default registry URL |
| TuiApp.App.ToggleProofHelp | crates/quic-test/src/tui/app.rs:174-177 | the proof help flag flips |
| TuiApp.App.NextTab | crates/quic-test/src/tui/app.rs:179-193 | the active tab becomes the next one |
| TuiApp.App.PrevTab | crates/quic-test/src/tui/app.rs:195-209 | the active tab becomes the previous one |
| TuiApp.App.StartGossipTests | crates/quic-test/src/tui/app.rs:222-225 | gossip tests are marked running |
| TuiApp.App.PeerSeen | crates/quic-test/src/tui/app.rs:227-230 | the peer joins the set of peers seen |
| TuiApp.App.Quit | crates/quic-test/src/tui/app.rs:242-245 | the app should quit afterwards |
| TuiApp.App.UpdatePeer | crates/quic-test/src/tui/app.rs:247-261 | the peer is stored under its id and its history entry is created or updated as a reconnect |
| TuiApp.App.RemovePeer | crates/quic-test/src/tui/app.rs:263-269 | the peer is removed and its history entry, if any, is marked Disconnected |
| TuiApp.App.PacketSent | crates/quic-test/src/tui/app.rs:276-289 | one more packet and 5120 bytes sent; the peer and its history entry, when present, count the packet |
| TuiApp.App.PacketReceived | crates/quic-test/src/tui/app.rs:291-304 | one more packet and 5120 bytes received; the peer and its history entry, when present, count the packet |
| TuiApp.App.ClearTrafficIndicators | crates/quic-test/src/tui/app.rs:306-312 | every peer's transmit and receive indicators are off; nothing else changes |
| TuiApp.App.ConnectionAttempted | crates/quic-test/src/tui/app.rs:314-317 | one more connection attempt |
| TuiApp.App.ConnectionSucceeded | crates/quic-test/src/tui/app.rs:319-333 | one more success, counted under its method |
| TuiApp.App.ConnectionFailed | crates/quic-test/src/tui/app.rs:335-338 | one more failure |
| TuiApp.App.SetError | crates/quic-test/src/tui/app.rs:340-343 | the error message is set |
| TuiApp.App.ClearError | crates/quic-test/src/tui/app.rs:345-348 | the error message is cleared |
| TuiApp.App.SetInfo | crates/quic-test/src/tui/app.rs:350-353 | the info message is set |
| TuiApp.App.ClearInfo | crates/quic-test/src/tui/app.rs:355-358 | the info message is cleared |
| TuiApp.App.SetRegistered | crates/quic-test/src/tui/app.rs:360-366 | the registration flag is set; registering also stamps the heartbeat |
| TuiApp.App.HeartbeatSent | crates/quic-test/src/tui/app.rs:368-371 | the heartbeat time is now |
| TuiApp.App.UpdatePeerRtt | crates/quic-test/src/tui/app.rs:373-378 | a known peer gets the RTT and its quality; unknown peers change nothing |
| TuiApp.App.AddProtocolFrame | crates/quic-test/src/tui/app.rs:421-437 | the frame is appended last and only the latest 200 are kept; the peer it names is touched in history, which is then pruned |
| TuiApp.App.UpdateNatPhase | crates/quic-test/src/tui/app.rs:439-450 | a known peer gets the phase and coordinator; unknown peers change nothing |
| TuiApp.App.UpdateTrafficType | crates/quic-test/src/tui/app.rs:452-479 | protocol and test-data traffic set their pair of flags to the direction; relay traffic sets one flag; other peers unchanged |
| TuiApp.WithTraffic | crates/quic-test/src/tui/app.rs:459-476 | protocol and test-data traffic set their own pair of flags to the direction and leave the other pair; relay traffic sets the protocol flag of its direction and leaves the other three |
| TuiApp.App.UpdatePeerNatTestState | crates/quic-test/src/tui/app.rs:490-498 | a known peer gets the NAT test state; unknown peers change nothing |
| TuiApp.App.UpdateGeographicDistribution | crates/quic-test/src/tui/app.rs:500-502 | the distribution is stored |
| TuiApp.App.StartConnectivityTest | crates/quic-test/src/tui/app.rs:504-506 | the connectivity test is started now |
| TuiApp.App.ConnectivityTestInboundPhase | crates/quic-test/src/tui/app.rs:508-510 | the inbound phase starts now |
| TuiApp.App.RecordInboundConnection | crates/quic-test/src/tui/app.rs:512-527 | the inbound attempt is recorded in the test and in the peer's history entry, which is then pruned |
| TuiApp.App.RecordOutboundConnection | crates/quic-test/src/tui/app.rs:529-544 | the outbound attempt is recorded in the test and in the peer's history entry, which is then pruned |
| TuiApp.App.RecordHistoryAttempt | crates/quic-test/src/tui/app.rs:546-561 | the peer's entry (created if new) records the attempt, then history is pruned |
| TuiApp.App.PruneHistoryIfNeeded | crates/quic-test/src/tui/app.rs:566-584 | history is pruned as `PrunedFrom` describes and stays keyed by peer id |
| TuiApp.App.ConnectivityCountdown | crates/quic-test/src/tui/app.rs:587-589 | the countdown never exceeds 30 |
| TuiApp.App.ScrollConnectionsBy | crates/quic-test/src/tui/app.rs:596-608 | an empty table keeps its selection; otherwise the selection moves to the clamped target |
| TuiApp.App.ScrollConnectionsUp | crates/quic-test/src/tui/app.rs:610-612 | scroll by -1 |
| TuiApp.App.ScrollConnectionsDown | crates/quic-test/src/tui/app.rs:614-616 | scroll by 1 |
| TuiApp.App.ScrollConnectionsPageUp | crates/quic-test/src/tui/app.rs:618-620 | scroll by -10 |
| TuiApp.App.ScrollConnectionsPageDown | crates/quic-test/src/tui/app.rs:622-624 | scroll by 10 |
| TuiApp.ConnectHistory | crates/quic-test/src/tui/app.rs:247-261 | the peer's entry is new from the peer or updated as a reconnect, Connected and seen now; other entries unchanged |
| TuiApp.ConnectHistoryValid | crates/quic-test/src/tui/app.rs:247-261 | history stays keyed by peer id with balanced entries |
| TuiApp.TouchHistory | crates/quic-test/src/tui/app.rs:425-433 | a frame naming a real peer touches or creates its entry; a frame from "registry" or with an empty id changes nothing |
| TuiApp.AttemptHistory | crates/quic-test/src/tui/app.rs:546-561 | the peer's entry, created Coordinating if new, records the attempt; other entries unchanged |
| TuiApp.TouchHistoryValid | crates/quic-test/src/tui/app.rs:425-433 | touching keeps history keyed and balanced |
| TuiApp.AttemptHistoryValid | crates/quic-test/src/tui/app.rs:546-561 | recording an attempt keeps history keyed and balanced |
| TuiApp.FromKeyMap | crates/quic-test/src/tui/app.rs:690-722 | q, Q and Esc quit; Tab and BackTab move tabs; arrows and j/k scroll; other keys are unknown |
| TuiApp.FromKeyChars | crates/quic-test/src/tui/app.rs:690-722 | a character key is unknown exactly when it is not one of the bound characters, and quits exactly for q and Q |
| TuiApp.DigitKeysSelectTabs | crates/quic-test/src/tui/app.rs:706-719 | digit keys 1–9 select tabs one to nine and 0 selects the tenth |
| TuiEvents.MethodLabel | crates/quic-test/src/tui/mod.rs:861-874 | the frame context names the connection method: DIRECT, PUNCHED or RELAYED, one per method |
| TuiEvents.ConnectedFrame | crates/quic-test/src/tui/mod.rs:875-881 | a received CONNECTED frame for the peer, with the method label as context |
| TuiEvents.ConnectedStats | crates/quic-test/src/tui/mod.rs:861-900 | one more attempt and success, one more connection of the peer's method, the peer in both unique-peer sets; nothing else changes |
| TuiEvents.NatTestInfo | crates/quic-test/src/tui/mod.rs:1032-1085 | exactly the six NAT-test events set an info message |
| TuiEvents.NatTestStep | crates/quic-test/src/tui/mod.rs:1032-1085 | the NAT-test events name the peer and its new test state; connect-back success marks it Verified, unreachable marks it Unreachable |
| TuiEvents.FirewallMessage | crates/quic-test/src/tui/mod.rs:1086-1091 | the firewall warning starts with the warning sign |
| TuiEvents.PacketHistory | crates/quic-test/src/tui/app.rs:284-287 | one test packet adds one to the peer's history packet count and stamps it; other entries and the key set are unchanged |
| TuiEvents.TestPacketPeers | crates/quic-test/src/tui/mod.rs:909-923 | after a successful test packet the peer has one more packet each way, both activity flags set, and the new RTT if one was measured; other peers unchanged |
| TuiEvents.NatTestPeers | crates/quic-test/src/tui/mod.rs:1032-1085 | a known peer takes the NAT test state; other peers and the key set unchanged |
| TuiEvents.HandlePeerConnected | crates/quic-test/src/tui/mod.rs:857-901 | the peer is seen, stored and Connected in history, the CONNECTED frame logged, the success recorded in the test's direction and the statistics updated as `ConnectedStats` says |
| TuiEvents.LogConnectedPeer | crates/quic-test/src/tui/mod.rs:875-897 | the frame is logged, the attempt recorded in the peer's direction and the peer stored with a Connected history entry |
| TuiEvents.RecordConnectedAttempt | crates/quic-test/src/tui/mod.rs:882-894 | a connected peer is a successful test attempt, inbound or outbound as it connected, in the test results and the pruned history |
| TuiEvents.HandleTestPacketResult | crates/quic-test/src/tui/mod.rs:909-923 | a failed result changes nothing; a success marks the peer seen, counts one packet and 5120 bytes each way in the statistics, for the peer and twice in its history, and stores the measured RTT |
| TuiEvents.HandleNatTest | crates/quic-test/src/tui/mod.rs:1032-1085 | the info message is set and a known peer gets its new NAT test state; the test results and history are unchanged |
| TuiEvents.HandleCountEvent | crates/quic-test/src/tui/mod.rs:902-983 | per event: a failure counts a failure and an attempt; attempts, directions and address families count one each; a gossip peer or relay is counted and seen; a seen peer joins the set; SWIM and HyParView figures are copied; the other of the two fields is unchanged |
| TuiEvents.HandleStatusEvent | crates/quic-test/src/tui/mod.rs:812-856 | per event: a local node update keeps an earlier registration; the registered count is stored; registration and heartbeats stamp the time; Quit quits; completion registers and says so; the other fields are unchanged |
| TuiEvents.HandleStatusLineEvent | crates/quic-test/src/tui/mod.rs:840-849 | per event: error and info set their line and clear none; clearing empties both; a firewall warning is the error (lines 1086-1091); gossip tests start with their info line (1092-1095); a crate result changes nothing (1101-1115) |
| TuiEvents.HandleMessagingEvent | crates/quic-test/src/tui/mod.rs:1141-1168 | per event: a contact is appended or the list replaced; failures set the error line; a sent message sets the info line; a received message is appended and announced; the other fields are unchanged |
| TuiEvents.HandleConnectivityTestInbound | crates/quic-test/src/tui/mod.rs:1010-1017 | the inbound attempt is recorded in the test results and in the pruned history |
| TuiEvents.HandleConnectivityTestStart | crates/quic-test/src/tui/mod.rs:1018-1020 | the test enters its inbound phase |
| TuiEvents.HandleConnectivityTestOutbound | crates/quic-test/src/tui/mod.rs:1021-1028 | the outbound attempt is recorded in the test results and in the pruned history |
| TuiEvents.HandleConnectivityTestComplete | crates/quic-test/src/tui/mod.rs:1029-1031 | the test phase is Complete and nothing else in the results changes |
| TuiEvents.HandleConnectivityEvent | crates/quic-test/src/tui/mod.rs:1010-1085 | each connectivity-test or NAT-test event has the effect its own handler states; the parts of the group it does not name are unchanged |
| TuiEvents.HandleUpdatePeer | crates/quic-test/src/tui/mod.rs:819-821 | the peer is stored under its full id and its history entry refreshed |
| TuiEvents.HandleRemovePeer | crates/quic-test/src/tui/mod.rs:822-824 | the peer leaves the live table; its history entry, if any, is Disconnected |
| TuiEvents.HandlePacketSent | crates/quic-test/src/tui/mod.rs:828-830 | one packet and 5120 bytes sent in the statistics, one more for a known peer and in its history |
| TuiEvents.HandlePacketReceived | crates/quic-test/src/tui/mod.rs:831-833 | one packet and 5120 bytes received in the statistics, one more for a known peer and in its history |
| TuiEvents.HandleProtocolFrame | crates/quic-test/src/tui/mod.rs:984-986 | the frame is appended to a log of at most 200 frames and the named peer's history refreshed |
| TuiEvents.HandleNatPhaseUpdate | crates/quic-test/src/tui/mod.rs:987-993 | a known peer takes the phase and coordinator; other peers unchanged |
| TuiEvents.HandleTrafficTypeUpdate | crates/quic-test/src/tui/mod.rs:994-1000 | a known peer's traffic flags follow `WithTraffic`; other peers unchanged |
| TuiEvents.HandleGeographicDistributionUpdate | crates/quic-test/src/tui/mod.rs:1007-1009 | the distribution is replaced |
| TuiEvents.HandlePeerEvent | crates/quic-test/src/tui/mod.rs:819-1009 | each peer, packet, frame or NAT-phase event has the effect its own handler states; the parts of the group it does not name are unchanged |
| TuiEvents.HandleTuiEvent | crates/quic-test/src/tui/mod.rs:810-1168 | the app stays consistent and every modelled event has its group's effect, event by event |
| Cli.DefaultArgs | crates/quic-test/src/main.rs:45-61 | the defaults: port 8080, QUIC port 9001 (not the P2P port 9000), bind port 0, 10 peers, 2 proof nodes, gossip first, all other flags off |
| Cli.KindOf | crates/quic-test/src/main.rs:68-123 | every argument is exactly one of a flag, an option taking a value, a help request or unknown |
| Cli.NumberOr | crates/quic-test/src/main.rs:70-76 | a value that parses within the option's integer range replaces the setting; any other value leaves it |
| Cli.ParseArgs | crates/quic-test/src/main.rs:63-128 | the argument loop computes the same outcome as the parse specification |
| Cli.NoArgumentsGiveDefaults | crates/quic-test/src/main.rs:63-128 | no arguments give the defaults |
| Cli.HelpExitsZero | crates/quic-test/src/main.rs:115-118 | `-h` or `--help` ends parsing with exit code 0 |
| Cli.UnknownExitsOne | crates/quic-test/src/main.rs:119-123 | an unknown argument ends parsing with exit code 1 |
| Cli.ExitCodes | crates/quic-test/src/main.rs:115-123 | parsing only ever exits with code 0 or 1 |
| Cli.TrailingOptionIgnored | crates/quic-test/src/main.rs:70-76 | an option with no value after it changes nothing |
| Cli.BadNumberConsumed | crates/quic-test/src/main.rs:70-76 | a numeric option whose value does not parse consumes the value and changes nothing |
| Cli.FlagSwallowedAsValue | crates/quic-test/src/main.rs:70-76 | the word after `--port` is taken as its value even when it is a flag, so `--port --quiet` leaves quiet off |
| Cli.LaterGossipFlagWins | crates/quic-test/src/main.rs:106-107 | of `--gossip-first` and `--no-gossip-first`, the later one decides |
| Cli.LaterValueWins | crates/quic-test/src/main.rs:70-113 | a repeated option takes its later valid value: any value within the option's own range (u16 for ports, u64 for `--max-peers` and `--min-proof-nodes`), or any text for `--registry-url` |
| Cli.SetFlagKeepsValues | crates/quic-test/src/main.rs:69-107 | a flag changes no value setting |
| Cli.SetFlagEffect | crates/quic-test/src/main.rs:69-107 | flags only switch on, except `--no-gossip-first`, which alone switches gossip-first off |
| Cli.SetValueKeepsFlags | crates/quic-test/src/main.rs:70-113 | an option with a value changes no flag |
| Cli.SetValueEffect | crates/quic-test/src/main.rs:70-113 | an option with a value changes only its own setting |
| Cli.FlagsSticky | crates/quic-test/src/main.rs:63-128 | over a whole command line, flags once on stay on; gossip-first stays on unless `--no-gossip-first` appears |
| Cli.QuietStaysOn | crates/quic-test/src/main.rs:103 | a command line starting with `-q` parses to quiet |
| Cli.ValuesOnlyFromTheirOption | crates/quic-test/src/main.rs:63-128 | a setting whose option is absent keeps its default |
| Cli.RegistryCommandLine | crates/quic-test/src/main.rs:63-128 | `--registry --port 9090 -q` gives the defaults with registry mode, port 9090 and quiet |
| Cli.ConvertGossipStats | crates/quic-test/src/main.rs:312-372 | counters the node does not report are zero, and coordinator mode is on exactly when coordination is active |
| Cli.ConversionLossless | crates/quic-test/src/main.rs:312-372 | every reported counter can be read back from the converted statistics |
| Cli.ConversionOnto | crates/quic-test/src/main.rs:312-372 | the converted statistics are exactly those with the unreported counters at zero |
| DurationParser.UnitSeconds | src.old/main.rs:207-213 | a unit is accepted only if it is made of letters, and is worth at least a second |
| DurationParser.UnitsAccepted | src.old/main.rs:207-213 | exactly s/sec/secs, m/min/mins, h/hr/hrs and d/day/days are accepted, worth 1, 60, 3600 and 86400 seconds |
| DurationParser.WrapU64 | src.old/main.rs:208-210 | a value within u64 is kept; a larger one wraps to a different value within u64 |
| DurationParser.Seconds | src.old/main.rs:208-211 | multiplying by a unit never gives fewer seconds than the count |
| DurationParser.FirstAlpha | src.old/main.rs:198-201 | the position of the first letter, absent exactly when there is none |
| DurationParser.Message | src.old/main.rs:200-213 | the three error texts of the source |
| DurationParser.ReadDuration | src.old/main.rs:195-206 | the trimmed text is refused as a bad format exactly when it has no letter; a reading has a u64 count and a unit of at least a second |
| DurationParser.ReadDurationSound | src.old/main.rs:195-213 | a reading splits the trimmed text into a number and a known unit that give its count and unit |
| DurationParser.ReadDurationComplete | src.old/main.rs:195-213 | every such split is read back as that count and unit |
| DurationParser.ParseDuration | src.old/main.rs:194-215 | succeeds exactly when the text reads and the seconds fit in u64, giving count times unit; refusals carry the reading's error |
| DurationParser.ParseDurationAsWritten | src.old/main.rs:207-213 | the source's multiplication: any reading succeeds, with the product wrapped to u64 |
| DurationParser.AsWrittenAgreesWithoutOverflow | src.old/main.rs:194-215 | without overflow the source and the corrected parser agree |
| DurationParser.CanonicalSplit | src.old/main.rs:198-201 | a number followed by a unit splits at the unit's first letter |
| DurationParser.DigitsAreNumberText | src.old/main.rs:198-201 | a run of digits has no letter and no surrounding space |
| DurationParser.ReadCanonical | src.old/main.rs:195-206 | a number and a known unit read back as that count and unit |
| DurationParser.DurationRoundTrip | src.old/main.rs:194-215 | rendering a count with a unit and parsing it gives count times unit seconds |
| DurationParser.OverflowWraps | src.old/main.rs:209-211 | when the product passes u64 the source returns a wrapped, wrong value and the corrected parser an error |
| DurationParser.MinutesOverflowExample | src.old/main.rs:208 | "307445734561825861m" overflows u64 and wraps to 44 seconds |
| DurationParser.DefaultDuration | src.old/main.rs:127 | the default test duration "1h" is 3600 seconds |
| DurationParser.DefaultInterval | src.old/main.rs:154 | the default interval "5s" is 5 seconds |
| DurationParser.NumberRefused | src.old/main.rs:203-204 | a number out of u64 range is refused as an invalid number |
| DurationParser.UnitRefused | src.old/main.rs:211 | a known-format text with another unit is refused as an unknown unit |
| DurationParser.DigitsOnlyRefused | src.old/main.rs:198-201 | digits without a unit are refused as a bad format |
| DurationParser.FractionRefused | src.old/main.rs:203-204 | a fractional number is refused as an invalid number |
| Logging.StripCr | src.old/logging/mod.rs:228 | a line loses at most its trailing carriage return and is otherwise a prefix of the raw piece |
| Logging.Lines | src.old/logging/mod.rs:228 | the lines of the text contain no newline, and empty text has no lines |
| Logging.TrimStartMatches | src.old/logging/mod.rs:244 | removes exactly the leading run of the character: what is left is a suffix that does not start with it |
| Logging.TrimEndMatches | src.old/logging/mod.rs:244 | removes exactly the trailing run of the character: what is left is a prefix that does not end with it |
| Logging.TrimMatches | src.old/logging/mod.rs:244 | the result neither starts nor ends with the character, and a value that neither starts nor ends with it is unchanged |
| Logging.TrimQuoted | src.old/logging/mod.rs:244 | a label value written in quotes reads back without them |
| Logging.LabelKey | src.old/logging/mod.rs:246 | a label's field key is `label_` followed by the trimmed label name |
| Logging.LabelPairs | src.old/logging/mod.rs:241-242 | labels are read exactly when the text after `{` ends with `}` |
| Logging.EntryOf | src.old/logging/mod.rs:228-271 | a line gives an entry exactly when it is neither a comment, nor blank, nor without a space; the entry is stamped with the scrape time, level INFO, no node, component "metrics", and its message is `Metric: ` and the first space-free word of the line |
| Logging.ReservedKeys | src.old/logging/mod.rs:238-258 | label fields never collide with the `metric` and `value` fields |
| Logging.LabelsIntoKeys | src.old/logging/mod.rs:242-249 | reading labels adds only `label_` keys |
| Logging.LabelsIntoKeeps | src.old/logging/mod.rs:242-249 | reading labels leaves every other field as it was |
| Logging.LabelLastWins | src.old/logging/mod.rs:242-249 | when a label name repeats, the value of its last pair is kept, without its surrounding quotes |
| Logging.LabelStepOther | src.old/logging/mod.rs:243-248 | a pair that does not name a label leaves that label's field as it was |
| Logging.LabelOrigin | src.old/logging/mod.rs:242-249 | every label field comes from some pair naming it |
| Logging.MetricIsName | src.old/logging/mod.rs:237-253 | the `metric` field is the metric name up to its first `{` |
| Logging.LabelsNeedBraces | src.old/logging/mod.rs:237-253 | without `{`, or without the closing `}`, the only name field is `metric` |
| Logging.LabelsFromPairs | src.old/logging/mod.rs:237-251 | with braces, a label field exists exactly when some pair names that label |
| Logging.EntryFields | src.old/logging/mod.rs:233-262 | an entry holds `metric`, holds `value` exactly when the trimmed value parses (a non-finite value becomes 0), and has no other keys than label fields |
| Logging.ValueIntoKeys | src.old/logging/mod.rs:256-261 | a value that parses adds the `value` field and nothing else; one that does not parse adds nothing |
| Logging.NameFieldsKeys | src.old/logging/mod.rs:236-254 | the name always gives `metric`, and otherwise only label fields |
| Logging.EntriesCount | src.old/logging/mod.rs:228-272 | there is one entry per sample line |
| Logging.EntriesShareHeader | src.old/logging/mod.rs:226-270 | every entry of one scrape carries the same time, level INFO, no node and component "metrics" |
| Logging.EntriesAppend | src.old/logging/mod.rs:228-272 | parsing lines one after another gives the entries of each part in order |
| Logging.ParsePrometheusMetrics | src.old/logging/mod.rs:224-275 | the loop over the lines computes the entries of the parse specification |
| Logging.EntriesSnoc | src.old/logging/mod.rs:228-272 | one more line adds at most its own entry at the end |
| Logging.MetricFields | src.old/logging/mod.rs:234-254 | the field map the loop builds for a metric name is the one the specification gives |
| Logging.InsertLabels | src.old/logging/mod.rs:242-250 | the label loop computes the fold of its pairs into the fields |
| Logging.LabelsIntoSnoc | src.old/logging/mod.rs:242-250 | one more pair is one more label step |
| Logging.Escape | src.old/logging/mod.rs:330 | doubling quotes never shortens a message and leaves a message without quotes unchanged |
| Logging.EscapeRoundTrip | src.old/logging/mod.rs:330 | a CSV reader reads an escaped, quote-terminated message back as the original message |
| Logging.ReadDoubledQuote | src.old/logging/mod.rs:330 | a doubled quote reads back as one quote |
| Logging.ReadPlainChar | src.old/logging/mod.rs:330 | any other character reads back as itself |
| Logging.RowMessage | src.old/logging/mod.rs:323-331 | the last column of a row reads back as the entry's message, followed by the line end |
| Logging.RowColumns | src.old/logging/mod.rs:323-331 | when no column holds a comma, the first four columns are the time, level, node id and component, absent ones empty |
| Logging.ExportCsv | src.old/logging/mod.rs:312-334 | the text written is the header line followed by one row per entry, in order |
| CrdtVerification.MutualBoundEqual | crates/quic-test/src/crdt_verification.rs:129-134 | clocks without zero entries that each bound the other are equal |
| CrdtVerification.HappensBeforeAsymmetric | crates/quic-test/src/crdt_verification.rs:129-134 | between clocks without zero entries, happens-before never holds both ways |
| CrdtVerification.HappensBeforeZeroEntry | crates/quic-test/src/crdt_verification.rs:129-134 | an example, not a general property: with a zero entry both directions can hold, since the empty clock and `{n: 0}` each happen before the other |
| CrdtVerification.HappensBeforeTransitive | crates/quic-test/src/crdt_verification.rs:129-134 | happens-before is transitive |
| CrdtVerification.AreConcurrentSymmetric | crates/quic-test/src/crdt_verification.rs:121-126 | concurrency is symmetric |
| CrdtVerification.Count | crates/quic-test/src/crdt_verification.rs:90-91 | a node's operation count never exceeds the number of operations |
| CrdtVerification.OpsOf | crates/quic-test/src/crdt_verification.rs:97-100 | a node's list holds as many operations as the node recorded, all of them its own |
| CrdtVerification.CountAppend | crates/quic-test/src/crdt_verification.rs:84-103 | recording adds one to its own node's count and list, and nothing to the others |
| CrdtVerification.CountMonotone | crates/quic-test/src/crdt_verification.rs:84-103 | a node's count only grows as operations are recorded |
| CrdtVerification.CountPrefixGrows | crates/quic-test/src/crdt_verification.rs:90-91 | a later operation of the same node sees a strictly larger count |
| CrdtVerification.RecordedOrdering | crates/quic-test/src/crdt_verification.rs:84-134 | recorded operations of one node are ordered by happens-before in recording order, and operations of different nodes are always concurrent, because each node's clock only ever holds its own entry |
| CrdtVerification.StampedOwnCount | crates/quic-test/src/crdt_verification.rs:90-94 | every recorded operation carries a positive count for its own node |
| CrdtVerification.RecordKeepsValid | crates/quic-test/src/crdt_verification.rs:84-103 | recording keeps the operation list, per-node lists and clocks consistent |
| CrdtVerification.TrackerLookup | crates/quic-test/src/crdt_verification.rs:86-100 | in a consistent tracker a node's clock entry is its count, ticking it gives the clock with only that entry, and its list is its operations |
| CrdtVerification.OperationTracker.constructor | crates/quic-test/src/crdt_verification.rs:79-82 | a new tracker is empty and consistent |
| CrdtVerification.OperationTracker.Record | crates/quic-test/src/crdt_verification.rs:84-103 | the operation is stamped with its node's ticked clock and appended to the list, its node's list and its node's clock |
| CrdtVerification.OperationTracker.FindConcurrentPairs | crates/quic-test/src/crdt_verification.rs:137-148 | the nested loop computes the concurrent pairs of the specification |
| CrdtVerification.OperationTracker.Clear | crates/quic-test/src/crdt_verification.rs:150-155 | clearing empties the lists and clocks |
| CrdtVerification.StampedAppend | crates/quic-test/src/crdt_verification.rs:90-94 | appending an operation stamped with its ticked count keeps every operation stamped with its own count |
| CrdtVerification.RecordKeepsClocks | crates/quic-test/src/crdt_verification.rs:86-91 | recording keeps each node's clock equal to its count |
| CrdtVerification.RecordKeepsLists | crates/quic-test/src/crdt_verification.rs:97-100 | recording keeps each node's list equal to its operations |
| CrdtVerification.RowMembers | crates/quic-test/src/crdt_verification.rs:140-146 | the inner loop's pairs are the concurrent partners of one operation, in index order |
| CrdtVerification.RowsMembers | crates/quic-test/src/crdt_verification.rs:139-146 | the pairs of the first rows are the concurrent pairs starting below the row count, in order |
| CrdtVerification.ConcurrentPairsExact | crates/quic-test/src/crdt_verification.rs:137-148 | every concurrent pair i < j is found exactly once, in index order, and nothing else |
| CrdtVerification.HashCountBounds | crates/quic-test/src/crdt_verification.rs:225-228 | a hash that occurs is counted at least once and at most once per node |
| CrdtVerification.HashCountAdd | crates/quic-test/src/crdt_verification.rs:225-228 | one more node is counted under its own hash only |
| CrdtVerification.MostCommon | crates/quic-test/src/crdt_verification.rs:230-233 | the chosen hash occurs and no hash occurs more often |
| CrdtVerification.AllAgreeDistinct | crates/quic-test/src/crdt_verification.rs:192-203 | all nodes agree exactly when at most one distinct hash is reported |
| CrdtVerification.OutliersEmptyIffAgree | crates/quic-test/src/crdt_verification.rs:219-244 | no node diverges from a most common hash exactly when all nodes agree |
| CrdtVerification.OutliersPartition | crates/quic-test/src/crdt_verification.rs:219-244 | the divergent nodes and the nodes with the majority hash together are all nodes |
| CrdtVerification.NewConvergenceState | crates/quic-test/src/crdt_verification.rs:172-180 | a new state has no hashes, no convergence time and starts now |
| CrdtVerification.IsConvergedDistinct | crates/quic-test/src/crdt_verification.rs:192-203 | converged exactly when at most one distinct hash is reported |
| CrdtVerification.MarkConverged | crates/quic-test/src/crdt_verification.rs:206-210 | a convergence time is set only the first time |
| CrdtVerification.MarkConvergedIdempotent | crates/quic-test/src/crdt_verification.rs:206-210 | marking again changes nothing |
| CrdtVerification.ConvergenceTimeMs | crates/quic-test/src/crdt_verification.rs:213-216 | a time exists exactly once convergence was marked, and spans at least from start to that moment |
| CrdtVerification.DivergentNodes | crates/quic-test/src/crdt_verification.rs:219-244 | nothing for at most one node; otherwise the nodes differing from some most common hash; empty exactly when converged |
| CrdtVerification.AddRemoveCount | crates/quic-test/src/crdt_verification.rs:348-354 | the add/remove conflicts are at most the concurrent pairs |
| CrdtVerification.CrdtVerifier.constructor | crates/quic-test/src/crdt_verification.rs:272-281 | a new verifier has the given type, configuration and id, no operations and a fresh convergence state |
| CrdtVerification.CrdtVerifier.RecordInitialState | crates/quic-test/src/crdt_verification.rs:293-295 | sets the node's initial hash and nothing else |
| CrdtVerification.CrdtVerifier.RecordOperation | crates/quic-test/src/crdt_verification.rs:298-300 | the operation is stamped with its node's ticked clock and appended to the tracker's list, its node's list and its node's clock; the tracker stays consistent |
| CrdtVerification.CrdtVerifier.UpdateState | crates/quic-test/src/crdt_verification.rs:303-305 | sets the node's current hash and nothing else |
| CrdtVerification.CrdtVerifier.CheckConvergence | crates/quic-test/src/crdt_verification.rs:308-314 | true exactly when at most one distinct hash is reported, and then the first convergence time is recorded |
| CrdtVerification.ResolutionDetails | crates/quic-test/src/crdt_verification.rs:334-386 | the details read "No concurrent operations detected" exactly when no pair of operations is concurrent; otherwise they are the per-type line counting the concurrent pairs (add/remove pairs for an OR-Set) |
| CrdtVerification.CrdtVerifier.VerifyConflictResolution | crates/quic-test/src/crdt_verification.rs:333-395 | conflicts exist exactly when some pair of operations is concurrent, and count as resolved when there are none or the states converged; the details are `ResolutionDetails` of the operations |
| CrdtVerification.CrdtVerifier.GetSummary | crates/quic-test/src/crdt_verification.rs:422-440 | the summary reports the node and operation counts, the convergence verdict and time, the divergent nodes are none for at most one node and otherwise exactly the nodes differing from some most common hash (none exactly when converged); conflicts are reported exactly when some pair of recorded operations is concurrent, and resolved when there are none or the states converged, with the details given by `ResolutionDetails` |
| CrdtVerification.CrdtVerifier.Reset | crates/quic-test/src/crdt_verification.rs:443-447 | no operations, a fresh convergence state and the new test id |
| CrdtVerification.CrdtStateText | crates/quic-test/src/crdt_verification.rs:563-571 | the hashed text starts with the entry count field |
| CrdtVerification.HashesNonEmpty | crates/quic-test/src/crdt_verification.rs:661-677 | one hash per captured node, so some hash whenever a node was captured |
| CrdtVerification.LiveConvergenceVerifier.constructor | crates/quic-test/src/crdt_verification.rs:626-632 | a new verifier has no states, no cached verdict and the given maximum age |
| CrdtVerification.LiveConvergenceVerifier.CaptureState | crates/quic-test/src/crdt_verification.rs:637-642 | stores the node's state, hashed and stamped now, and drops the cached verdict |
| CrdtVerification.LiveConvergenceVerifier.Verify | crates/quic-test/src/crdt_verification.rs:653-715 | the verdict describes the captured states: converged exactly when at most one distinct hash was captured, otherwise a most common hash and exactly the nodes without it; a cached verdict is returned unchanged; every node's freshness is its age against the maximum |
| CrdtVerification.LiveConvergenceVerifier.CheckConvergence | crates/quic-test/src/crdt_verification.rs:647-650 | true exactly when at most one distinct hash was captured |
| CrdtVerification.LiveConvergenceVerifier.Reset | crates/quic-test/src/crdt_verification.rs:728-731 | no states and no cached verdict |
| GossipVerification.AddSwimRaisesProbes | crates/quic-test/src/gossip_verification.rs:162-175 | a SWIM measurement raises the all-node indirect-probe totals by exactly what it reports |
| GossipVerification.AddSwimLatencies | crates/quic-test/src/gossip_verification.rs:169-174 | the node gains one detection latency exactly when the measurement carries one |
| GossipVerification.AddSwimRaisesLatencies | crates/quic-test/src/gossip_verification.rs:162-175 | the all-node latency count and total rise by that latency, if any |
| GossipVerification.AddPlumtreeRaisesTotals | crates/quic-test/src/gossip_verification.rs:183-194 | a Plumtree measurement raises the all-node IHAVE, GRAFT and recovery totals by exactly what it reports |
| GossipVerification.AddHyParViewRaisesTotals | crates/quic-test/src/gossip_verification.rs:202-213 | a HyParView measurement raises the all-node shuffle and view-update totals by exactly what it reports |
| GossipVerification.Ratio | crates/quic-test/src/gossip_verification.rs:296-297 | a ratio is 0 without a divisor, non-negative, at most 1 when the part is at most the whole, and times the divisor gives the part |
| GossipVerification.SwimFigures | crates/quic-test/src/gossip_verification.rs:343-407 | probes are the ping and ack totals; the ping success rate is acks per ping, 0 without pings; the suspect share lies in [0, 1], 0 without suspects; the indirect-probe rate is successes per request, falling back to the ping success rate without requests |
| GossipVerification.PlumtreeFigures | crates/quic-test/src/gossip_verification.rs:435-500 | delivery and recovery rates lie in [0, 1] and are 0 without eager or lazy peers; the IHAVE/GRAFT rate is grafts per IHAVE when IHAVEs were sent and 0 without any activity; the tree is valid when duplicates are under half of what was received, when peers exist but nothing was received, and otherwise exactly when nothing was sent |
| GossipVerification.MaxValue | crates/quic-test/src/gossip_verification.rs:310-319 | the largest value of the map, 0 for an empty map |
| GossipVerification.GossipVerifier.constructor | crates/quic-test/src/gossip_verification.rs:121-131 | a new verifier has the configuration and no data |
| GossipVerification.GossipVerifier.RecordNodeStats | crates/quic-test/src/gossip_verification.rs:133-135 | a node's stats replace its earlier ones |
| GossipVerification.GossipVerifier.RecordViewConvergence | crates/quic-test/src/gossip_verification.rs:138-140 | a node's view convergence time replaces its earlier one |
| GossipVerification.GossipVerifier.RecordFailureDetection | crates/quic-test/src/gossip_verification.rs:143-145 | a node's failure detection time replaces its earlier one |
| GossipVerification.GossipVerifier.RecordMessageDelivery | crates/quic-test/src/gossip_verification.rs:148-154 | the delivery time is appended to the message's list |
| GossipVerification.GossipVerifier.RecordSwimMeasurement | crates/quic-test/src/gossip_verification.rs:162-175 | the measurement is added to the node's running SWIM totals |
| GossipVerification.GossipVerifier.RecordPlumtreeMeasurement | crates/quic-test/src/gossip_verification.rs:183-194 | the measurement is added to the node's running Plumtree totals |
| GossipVerification.GossipVerifier.RecordHyParViewMeasurement | crates/quic-test/src/gossip_verification.rs:202-213 | the measurement is added to the node's running HyParView totals |
| GossipVerification.GossipVerifier.AggregatedSwim | crates/quic-test/src/gossip_verification.rs:216-226 | the aggregate holds the all-node indirect-probe totals and gathers every node's detection latencies |
| GossipVerification.GossipVerifier.AggregatedPlumtree | crates/quic-test/src/gossip_verification.rs:229-237 | the aggregate holds the all-node IHAVE, GRAFT and recovery totals |
| GossipVerification.GossipVerifier.AggregatedHyParView | crates/quic-test/src/gossip_verification.rs:240-248 | the aggregate holds the all-node shuffle and view-update totals |
| GossipVerification.GossipVerifier.BidirectionalConnections | crates/quic-test/src/gossip_verification.rs:264-284 | (a, b) is a connection exactly when a and b are distinct recorded nodes that both report a non-empty active view |
| GossipVerification.GossipVerifier.VerifyHyParView | crates/quic-test/src/gossip_verification.rs:251-322 | view sizes are integer averages over the recorded nodes; connections as above; the shuffle rate is completed per initiated shuffle when measured, else the share of nodes with an active view when more than one node reports shuffles, else 0; the view convergence time is the largest recorded, 0 when none |
| GossipVerification.GossipVerifier.VerifySwim | crates/quic-test/src/gossip_verification.rs:325-410 | the SWIM figures over the all-node totals, with the mean measured detection latency taking precedence over the mean timing data |
| GossipVerification.GossipVerifier.VerifyPlumtree | crates/quic-test/src/gossip_verification.rs:413-503 | the Plumtree figures over the all-node totals, with the mean delivery time over all messages |
| GossipVerification.GossipVerifier.Clear | crates/quic-test/src/gossip_verification.rs:563-569 | no stats, timing data or measurements remain |
| GossipVerification.HalfRatioFacts | crates/quic-test/src/gossip_verification.rs:491-493 | the duplicate-rate test is "twice the duplicates are fewer than the received messages" |
| GossipVerification.ScaleLess | crates/quic-test/src/gossip_verification.rs:491-493 | scaling both sides by a positive number keeps a strict order |
| DebugAutomation.Rank | crates/quic-test/src/debug_automation.rs:50-59 | a severity's place in the declaration order is one of four |
| DebugAutomation.SeverityTotalOrder | crates/quic-test/src/debug_automation.rs:50-59 | severities are totally ordered, Info < Warning < Error < Critical |
| DebugAutomation.TestSeverity | crates/quic-test/src/debug_automation.rs:357-362 | a reported anomaly's severity is 2 for Info up to 5 for Critical |
| DebugAutomation.FixPriority | crates/quic-test/src/debug_automation.rs:692-697 | a fix's priority is 25 for Info up to 100 for Critical |
| DebugAutomation.SeverityScore | crates/quic-test/src/debug_automation.rs:648-653 | the severity part of the confidence is 0.4 for Info up to 1.0 for Critical |
| DebugAutomation.SeverityNumbersMonotone | crates/quic-test/src/debug_automation.rs:357-362 | both numeric severities follow the severity order, in both directions |
| DebugAutomation.BarLower | crates/quic-test/src/debug_automation.rs:467-480 | lower-casing neither adds nor removes a vertical bar |
| DebugAutomation.MatchesPatternIgnoresCase | crates/quic-test/src/debug_automation.rs:467-480 | matching ignores case on both sides |
| DebugAutomation.MatchesSomeAlternative | crates/quic-test/src/debug_automation.rs:467-480 | with a vertical bar in the pattern, a message matches exactly when some trimmed alternative occurs in it, ignoring case |
| DebugAutomation.MatchingAlternative | crates/quic-test/src/debug_automation.rs:467-480 | a match names an alternative of the pattern that occurs in the message |
| DebugAutomation.MatchingLoweredAlternative | crates/quic-test/src/debug_automation.rs:467-480 | a match names a lower-cased, trimmed alternative that occurs in the lower-cased message |
| DebugAutomation.AlternativeMatches | crates/quic-test/src/debug_automation.rs:467-480 | one alternative occurring in the message is enough for a match |
| DebugAutomation.MatchesWholePattern | crates/quic-test/src/debug_automation.rs:467-480 | without a vertical bar, a message matches exactly when the whole pattern occurs in it, ignoring case |
| DebugAutomation.LevelOf | crates/quic-test/src/debug_automation.rs:506-518 | the level is the first of ERROR, WARN, INFO, DEBUG and TRACE the line mentions, in upper or lower case, and INFO when it mentions none |
| DebugAutomation.ParseLogLine | crates/quic-test/src/debug_automation.rs:497-526 | nothing exactly for a blank line; otherwise the trimmed line, of the given node and time, with the level it mentions |
| DebugAutomation.Room | crates/quic-test/src/debug_automation.rs:488-494 | never more than the incoming entries, never past the cap, and at least one while there is room |
| DebugAutomation.NodeIndexExact | crates/quic-test/src/debug_automation.rs:274-284 | the rebuilt node index lists, for each node, exactly the positions of its events, in increasing order |
| DebugAutomation.NodeIndexStep | crates/quic-test/src/debug_automation.rs:278-283 | indexing one more event appends its position under its node |
| DebugAutomation.OfNode | crates/quic-test/src/debug_automation.rs:255-260 | a node's events are exactly the events of that node |
| DebugAutomation.NodeIndexLookup | crates/quic-test/src/debug_automation.rs:255-260 | looking up a node's positions gives exactly its events, in timeline order |
| DebugAutomation.AtPrefix | crates/quic-test/src/debug_automation.rs:255-260 | positions before the last event pick the same events without it |
| DebugAutomation.AtSnoc | crates/quic-test/src/debug_automation.rs:255-260 | one more position picks one more event |
| DebugAutomation.InWindow | crates/quic-test/src/debug_automation.rs:263-271 | the window holds exactly the events whose timestamp lies in the closed range |
| DebugAutomation.Timeline.constructor | crates/quic-test/src/debug_automation.rs:237-239 | a new timeline is empty with an empty index |
| DebugAutomation.Timeline.AddEvent | crates/quic-test/src/debug_automation.rs:242-247 | the event is appended and its position is recorded under its node |
| DebugAutomation.Timeline.EventsForNode | crates/quic-test/src/debug_automation.rs:255-260 | a node's events, in timeline order |
| DebugAutomation.Timeline.EventsInWindow | crates/quic-test/src/debug_automation.rs:263-271 | exactly the events inside the closed window |
| DebugAutomation.Timeline.SortByTime | crates/quic-test/src/debug_automation.rs:274-284 | the events end sorted by timestamp, as a permutation of the old ones, and the index is rebuilt for the new positions |
| DebugAutomation.BuildNodeIndex | crates/quic-test/src/debug_automation.rs:277-283 | the loop builds the node index of the specification |
| DebugAutomation.DisconnectedHasConnected | crates/quic-test/src/debug_automation.rs:537-539 | a text containing "disconnected" contains "connected" |
| DebugAutomation.ClassifyAsWritten | crates/quic-test/src/debug_automation.rs:533-553 | the timeline classification as the program computes it: an error exactly when the level mentions ERROR, otherwise a warning exactly when it mentions WARN, and a lost connection never for a message containing "connected" (as-written half of a finding) |
| DebugAutomation.AsWrittenDisconnectIsNeverLost | crates/quic-test/src/debug_automation.rs:537-542 | as written, a message saying "disconnected" is never classified as a lost connection |
| DebugAutomation.Classify | crates/quic-test/src/debug_automation.rs:533-553 | the corrected classification agrees with the source on every message that mentions neither a disconnection nor a lost connection |
| DebugAutomation.DisconnectIsLost | crates/quic-test/src/debug_automation.rs:539-542 | in the corrected classification, a non-error, non-warning line saying "disconnected" is a lost connection |
| DebugAutomation.EventOf | crates/quic-test/src/debug_automation.rs:533-561 | the event keeps the line's node, time and message, carries the line itself, and is classified as the program does |
| DebugAutomation.TimelineDisconnectExample | crates/quic-test/src/debug_automation.rs:537-542 | an INFO line "peer disconnected" enters the timeline as a connection established, where the corrected classification says connection lost |
| DebugAutomation.EventsOf | crates/quic-test/src/debug_automation.rs:532-562 | one timeline event per log line, in log order, each the event of its line |
| DebugAutomation.ToTestAnomaly | crates/quic-test/src/debug_automation.rs:356-374 | the reported anomaly has the pattern as its type, the node as its only node, and severity 2 to 5 |
| DebugAutomation.RowOfMembers | crates/quic-test/src/debug_automation.rs:573-588 | a log line's anomalies are exactly those it raises under a pattern it matches at or above the minimum severity |
| DebugAutomation.DetectedMembers | crates/quic-test/src/debug_automation.rs:569-589 | an anomaly is detected exactly when some log line raises it |
| DebugAutomation.DetectedRows | crates/quic-test/src/debug_automation.rs:572-589 | an anomaly is detected exactly when it belongs to some log line's row |
| DebugAutomation.CloseTo | crates/quic-test/src/debug_automation.rs:598-622 | an anomaly's partners below a bound are exactly the others within the window |
| DebugAutomation.RelatedSymmetric | crates/quic-test/src/debug_automation.rs:598-622 | correlation is symmetric and never relates an anomaly to itself |
| DebugAutomation.PartnersStep | crates/quic-test/src/debug_automation.rs:616-619 | comparing one pair links each to the other, at the end of their lists, and nothing else |
| DebugAutomation.PartnersRowDone | crates/quic-test/src/debug_automation.rs:601-621 | finishing one row is starting the next |
| DebugAutomation.PartnersAllDone | crates/quic-test/src/debug_automation.rs:601-621 | after all rows each anomaly is linked to everything in its window |
| DebugAutomation.PartnersNone | crates/quic-test/src/debug_automation.rs:598-601 | nothing is linked before the loops start |
| DebugAutomation.Correlated | crates/quic-test/src/debug_automation.rs:598-622 | correlation keeps the number of anomalies |
| DebugAutomation.Linked | crates/quic-test/src/debug_automation.rs:598-622 | the loop keeps the number of anomalies and their timestamps |
| DebugAutomation.LinkStart | crates/quic-test/src/debug_automation.rs:598-601 | before the loops the anomalies are unchanged |
| DebugAutomation.LinkStep | crates/quic-test/src/debug_automation.rs:616-619 | comparing a close pair appends each index to the other's list; a distant pair changes nothing |
| DebugAutomation.LinkRow | crates/quic-test/src/debug_automation.rs:601-621 | finishing one row is starting the next |
| DebugAutomation.LinkEnd | crates/quic-test/src/debug_automation.rs:601-621 | after all rows the anomalies are the correlated ones |
| DebugAutomation.CorrelateAnomalies | crates/quic-test/src/debug_automation.rs:598-622 | the nested loops over the array leave it holding the correlated anomalies |
| DebugAutomation.PatternNames | crates/quic-test/src/debug_automation.rs:631-634 | one pattern name per anomaly position |
| DebugAutomation.PatternNamesSize | crates/quic-test/src/debug_automation.rs:631-634 | as many names as anomalies |
| DebugAutomation.PatternCountBounds | crates/quic-test/src/debug_automation.rs:631-634 | a pattern that occurs is counted at least once and at most once per anomaly |
| DebugAutomation.FirstWith | crates/quic-test/src/debug_automation.rs:641-643 | the first anomaly with the pattern |
| DebugAutomation.EvidenceFor | crates/quic-test/src/debug_automation.rs:657-662 | the evidence lines come only from anomalies with the pattern |
| DebugAutomation.PatternCountSnoc | crates/quic-test/src/debug_automation.rs:631-634 | one more anomaly is counted under its own pattern only |
| DebugAutomation.EvidenceForComplete | crates/quic-test/src/debug_automation.rs:657-662 | every anomaly with the pattern contributes its line, one line per such anomaly |
| DebugAutomation.EvidenceForAppend | crates/quic-test/src/debug_automation.rs:657-662 | the evidence keeps the anomalies' order: the lines of an earlier run come before those of a later one |
| DebugAutomation.Alternatives | crates/quic-test/src/debug_automation.rs:666-673 | the alternatives are exactly the other patterns |
| DebugAutomation.Share | crates/quic-test/src/debug_automation.rs:647 | a share of a non-empty part lies in (0, 1] |
| DebugAutomation.RootCauseFor | crates/quic-test/src/debug_automation.rs:641-680 | the cause of the first anomaly with the pattern, the first five of its evidence lines (all of them when there are fewer), the other patterns as alternatives, and a confidence in (0.2, 1] |
| DebugAutomation.FixTextsStep | crates/quic-test/src/debug_automation.rs:688-690 | one more anomaly adds its fix text to the texts seen |
| DebugAutomation.DeduplicatedCovers | crates/quic-test/src/debug_automation.rs:685-706 | one fix is kept per distinct fix text |
| DebugAutomation.DeduplicatedDistinct | crates/quic-test/src/debug_automation.rs:686-690 | no two kept fixes share a text |
| DebugAutomation.DeduplicatedFirst | crates/quic-test/src/debug_automation.rs:688-705 | each kept fix comes from the first anomaly suggesting its text |
| DebugAutomation.EarliestMs | crates/quic-test/src/debug_automation.rs:743 | the earliest log time |
| DebugAutomation.LatestMs | crates/quic-test/src/debug_automation.rs:744 | the latest log time |
| DebugAutomation.TimeSpanMs | crates/quic-test/src/debug_automation.rs:742-746 | the span bounds the difference of any two log times and is one of them; zero when there are no logs |
| DebugAutomation.TallyStep | crates/quic-test/src/debug_automation.rs:734-739 | one more anomaly adds one to its severity's count |
| DebugAutomation.TallyCount | crates/quic-test/src/debug_automation.rs:734-739 | each severity is counted exactly by its number of anomalies, and only present severities appear |
| DebugAutomation.TallySum | crates/quic-test/src/debug_automation.rs:734-739 | the counts add up to the number of anomalies |
| DebugAutomation.AutomatedDebugger.constructor | crates/quic-test/src/debug_automation.rs:459-464 | a new debugger has the configuration and no logs |
| DebugAutomation.AutomatedDebugger.AddLogs | crates/quic-test/src/debug_automation.rs:488-494 | incoming entries are appended in order while there is room under the cap, and the rest dropped |
| DebugAutomation.AutomatedDebugger.BuildTimeline | crates/quic-test/src/debug_automation.rs:529-566 | a timeline of one event per log line, classified as the program does, sorted by timestamp, with a consistent node index |
| DebugAutomation.AutomatedDebugger.DetectAnomalies | crates/quic-test/src/debug_automation.rs:569-595 | every match at or above the minimum severity, correlated in time |
| DebugAutomation.AutomatedDebugger.IdentifyRootCause | crates/quic-test/src/debug_automation.rs:625-681 | no root cause exactly when there are no anomalies; otherwise the root cause of a most frequent pattern |
| DebugAutomation.AutomatedDebugger.GenerateSuggestions | crates/quic-test/src/debug_automation.rs:684-710 | one fix per distinct fix text, in non-increasing priority |
| DebugAutomation.AutomatedDebugger.CountBySeverity | crates/quic-test/src/debug_automation.rs:733-739 | each severity's count is its number of anomalies, and the counts add up to all anomalies |
| DebugAutomation.AutomatedDebugger.Investigate | crates/quic-test/src/debug_automation.rs:713-757 | the report holds the timeline (classified as the program does), the anomalies, their root cause and fixes, the number of lines and nodes, the time span and the per-severity counts |
| DebugAutomation.AutomatedDebugger.Clear | crates/quic-test/src/debug_automation.rs:760-762 | no logs remain |
| Sorting.SortByKey | crates/quic-test/src/debug_automation.rs:274-275 | the result is ordered by the key and is a permutation of the input, of the same length |
| Sorting.SortByKeyStable | crates/quic-test/src/debug_automation.rs:274-275 | the sort is stable: the elements sharing any one key keep their input order, as `sort_by_key` and `sort_by` guarantee |
| ProofOrchestration.VerificationKey | crates/quic-test/src/proof_orchestrator.rs:501-512 | the key starts with the peer id and a colon |
| ProofOrchestration.VerificationKeyInjective | crates/quic-test/src/proof_orchestrator.rs:501-512 | two connections share a key exactly when peer, IP version and direction all agree, even for peer ids holding colons |
| ProofOrchestration.SuccessRate | crates/quic-test/src/proof_orchestrator.rs:172-178 | 0 without tests; otherwise verified per test in percent, within [0, 100] when the counters are consistent |
| ProofOrchestration.SummaryOfRemove | crates/quic-test/src/proof_orchestrator.rs:527-545 | any stored result can be counted first: the total does not depend on map order |
| ProofOrchestration.SummaryStep | crates/quic-test/src/proof_orchestrator.rs:527-545 | counting one more result keeps the running total on course |
| ProofOrchestration.CountedBalanced | crates/quic-test/src/proof_orchestrator.rs:528-544 | counting a result keeps the counters consistent: verified plus failed is the test count, and each of IPv4/IPv6 and outbound/inbound splits the verified count |
| ProofOrchestration.PlusAssoc | crates/quic-test/src/proof_orchestrator.rs:733-739 | adding summaries is associative |
| ProofOrchestration.PlusSwap | crates/quic-test/src/proof_orchestrator.rs:733-739 | adding summaries is order-free |
| ProofOrchestration.SummaryOfBalanced | crates/quic-test/src/proof_orchestrator.rs:519-548 | a node's summary counts one test per stored result, with consistent counters |
| ProofOrchestration.SummaryOfCounter | crates/quic-test/src/proof_orchestrator.rs:527-545 | each counter of the summary is the sum over the results of what each adds to it |
| ProofOrchestration.HasVerifiedMeaning | crates/quic-test/src/proof_orchestrator.rs:157-159 | a summary shows verified connections exactly when some stored result succeeded |
| ProofOrchestration.HasDualStackMeaning | crates/quic-test/src/proof_orchestrator.rs:162-164 | dual stack exactly when some IPv4 and some IPv6 result succeeded |
| ProofOrchestration.HasBidirectionalMeaning | crates/quic-test/src/proof_orchestrator.rs:167-169 | bidirectional exactly when some outbound and some inbound result succeeded |
| ProofOrchestration.VerifyGossip | crates/quic-test/src/proof_orchestrator.rs:746-794 | the gossip step passes exactly when all three protocols are valid, and otherwise carries one severity-4 anomaly per invalid protocol |
| ProofOrchestration.DivergenceAnomalies | crates/quic-test/src/proof_orchestrator.rs:805-811 | one divergence anomaly per divergent node, in order |
| ProofOrchestration.Enumerate | crates/quic-test/src/proof_orchestrator.rs:805 | the divergent nodes in some order, each once |
| ProofOrchestration.FailedNames | crates/quic-test/src/proof_orchestrator.rs:919-923 | the names of failed steps: none exactly when every step passed, and only names of failed steps |
| ProofOrchestration.AssembleReport | crates/quic-test/src/proof_orchestrator.rs:871-946 | the report passes exactly when every step passes, exactly when no anomaly was found; it carries every step's anomalies in step order, the connectivity proof, the debug report, and a failure summary exactly when it failed |
| ProofOrchestration.Updated | crates/quic-test/src/proof_orchestrator.rs:446-516 | a recording sets its own field, stamps the update time and leaves every other field as it was; a verification adds its connection's key |
| ProofOrchestration.Record | crates/quic-test/src/proof_orchestrator.rs:446-516 | an unregistered node is ignored, and no other node's entry changes |
| ProofOrchestration.LatestVerificationKept | crates/quic-test/src/proof_orchestrator.rs:499-515 | a verification replaces any earlier result for the same connection and leaves other connections' results as they were |
| ProofOrchestration.CountOne | crates/quic-test/src/proof_orchestrator.rs:528-544 | one pass of the summary loop adds the result's counts |
| ProofOrchestration.Summarise | crates/quic-test/src/proof_orchestrator.rs:525-547 | the loop over the results computes the summary of the specification, with consistent counters and one test per result |
| ProofOrchestration.SummaryOfEmpty | crates/quic-test/src/proof_orchestrator.rs:525 | no results give the zero summary |
| ProofOrchestration.PlusZero | crates/quic-test/src/proof_orchestrator.rs:729 | the zero summary adds nothing |
| ProofOrchestration.SummaryLoopStep | crates/quic-test/src/proof_orchestrator.rs:527-545 | one iteration keeps the loop invariant of the summary loop and shrinks what is left |
| ProofOrchestration.ProofOrchestrator.constructor | crates/quic-test/src/proof_orchestrator.rs:401-415 | a new orchestrator has no nodes and fresh, empty gossip and CRDT verifiers and debugger |
| ProofOrchestration.ProofOrchestrator.RegisterNode | crates/quic-test/src/proof_orchestrator.rs:428-438 | inserts or replaces a responsive entry with nothing recorded |
| ProofOrchestration.ProofOrchestrator.UpdateNodeState | crates/quic-test/src/proof_orchestrator.rs:441-443 | the entry is replaced by the given state |
| ProofOrchestration.ProofOrchestrator.RecordConnections | crates/quic-test/src/proof_orchestrator.rs:446-451 | a registered node's peers are replaced |
| ProofOrchestration.ProofOrchestrator.RecordGossipStats | crates/quic-test/src/proof_orchestrator.rs:454-465 | the gossip verifier keeps the stats even for an unregistered node; a registered node's entry records them |
| ProofOrchestration.ProofOrchestrator.RecordStateHash | crates/quic-test/src/proof_orchestrator.rs:468-474 | the CRDT verifier keeps the hash even for an unregistered node; a registered node's entry records it |
| ProofOrchestration.ProofOrchestrator.RecordPeerAddress | crates/quic-test/src/proof_orchestrator.rs:477-482 | a registered node records the peer's address |
| ProofOrchestration.ProofOrchestrator.RecordDataVerification | crates/quic-test/src/proof_orchestrator.rs:493-516 | a registered node records the result under its connection's key |
| ProofOrchestration.ProofOrchestrator.GetVerificationSummary | crates/quic-test/src/proof_orchestrator.rs:519-548 | zeros for an unknown node; otherwise the summary of its results, one test per result, with consistent counters |
| ProofOrchestration.ProofOrchestrator.GetAggregatedVerificationSummary | crates/quic-test/src/proof_orchestrator.rs:728-743 | every counter is the counter-by-counter sum of all nodes' summaries, in any order: one test per stored result of every node, with consistent counters |
| ProofOrchestration.AggregateOfRemove | crates/quic-test/src/proof_orchestrator.rs:728-743 | any node can be added first: the aggregate does not depend on map order |
| ProofOrchestration.AggregateOfCounter | crates/quic-test/src/proof_orchestrator.rs:728-743 | each counter of the aggregate (verified, failed, IPv4, IPv6, outbound, inbound, tests) is the sum over the nodes of that counter of the node's summary |
| ProofOrchestration.ProofOrchestrator.AddLogs | crates/quic-test/src/proof_orchestrator.rs:551-553 | the debugger keeps the logs that fit under its cap |
| ProofOrchestration.ProofOrchestrator.CollectConnectivity | crates/quic-test/src/proof_orchestrator.rs:586-604 | the loop over the nodes yields their figures: the node count, the full mesh, the total connected peers, the verified connections and tests summed over all nodes' summaries, and one `id:peers/verified` entry per node, each node once |
| ProofOrchestration.ProofOrchestrator.VerifyConnectivity | crates/quic-test/src/proof_orchestrator.rs:565-635 | the connectivity step fails exactly when fewer nodes than required are registered, with the "Insufficient nodes" details and one severity-4 "insufficient_nodes" anomaly; otherwise it passes whatever the connections, with details rendering the nodes' figures in the source's format |
| ProofOrchestration.InsufficientNodes | crates/quic-test/src/proof_orchestrator.rs:569-583 | the failed step is named "connectivity" and carries one severity-4 "insufficient_nodes" anomaly |
| ProofOrchestration.FullMeshIsProduct | crates/quic-test/src/proof_orchestrator.rs:607 | the full mesh, built up one node at a time, has `n * (n - 1)` links, none exactly when there is at most one node |
| ProofOrchestration.ExpectedFullMeshAsWritten | crates/quic-test/src/proof_orchestrator.rs:607 | `node_count * (node_count - 1)` in a debug build panics exactly when there are no nodes |
| ProofOrchestration.FullMeshAsWrittenAgrees | crates/quic-test/src/proof_orchestrator.rs:607 | with at least one node the code computes the full mesh |
| ProofOrchestration.FullMeshUnderflowExample | crates/quic-test/src/proof_orchestrator.rs:607 | with no nodes the code panics where the full mesh is empty |
| ProofOrchestration.MeshPercent | crates/quic-test/src/proof_orchestrator.rs:608-612 | 100 for an empty mesh; otherwise the connections as a percentage of the full mesh |
| ProofOrchestration.VerificationRate | crates/quic-test/src/proof_orchestrator.rs:615-619 | 100 when nothing was tested; otherwise verified per test in percent, within [0, 100] when no more are verified than tested |
| ProofOrchestration.AggregateTests | crates/quic-test/src/proof_orchestrator.rs:597 | the tests summed over all nodes' summaries are the results stored at all nodes |
| ProofOrchestration.AggregateBalanced | crates/quic-test/src/proof_orchestrator.rs:597-598 | the counters summed over all nodes still agree |
| ProofOrchestration.ConnectivityTotals | crates/quic-test/src/proof_orchestrator.rs:591-619 | in the figures of the nodes the tests are the stored results and no more are verified than tested, so the verification rate lies in [0, 100] |
| ProofOrchestration.VisitStep | crates/quic-test/src/proof_orchestrator.rs:591-604 | visiting one more node adds its entry and keeps each visited node listed once |
| ProofOrchestration.ProofOrchestrator.GenerateConnectivityProof | crates/quic-test/src/proof_orchestrator.rs:829-856 | every registered node is expected and observed, with its own peers as its row of the matrix |
| ProofOrchestration.ProofOrchestrator.VerifyCrdt | crates/quic-test/src/proof_orchestrator.rs:797-826 | the CRDT step passes exactly when the nodes report at most one distinct hash, then recording the convergence time; otherwise it has one severity-5 anomaly per divergent node |
| ProofOrchestration.ProofOrchestrator.RunSteps | crates/quic-test/src/proof_orchestrator.rs:877-905 | connectivity, gossip and CRDT steps, in order: the connectivity step as `verify_connectivity` gives it, the gossip step of the summary, the CRDT step passing exactly when at most one hash was reported; each reports anomalies exactly when it fails |
| ProofOrchestration.ProofOrchestrator.InvestigateFailure | crates/quic-test/src/proof_orchestrator.rs:911-915 | a failed run is investigated exactly when the configuration asks for it, reporting the debugger's correlated anomalies |
| ProofOrchestration.ProofOrchestrator.RunComprehensiveTest | crates/quic-test/src/proof_orchestrator.rs:871-946 | the three steps in order, as `RunSteps` gives them, assembled into a report that passes exactly when all pass, with a debug report exactly when it failed and debugging on failure is configured |
| ProofOrchestration.ProofOrchestrator.Reset | crates/quic-test/src/proof_orchestrator.rs:949-956 | fresh verifiers and debugger, no nodes and the new session id |
| IssueReporter.EnvironmentInfo.WithLibraryVersion | crates/quic-test/src/lib_verification/issue_reporter.rs:82-85 | sets the library version and changes nothing else |
| IssueReporter.EnvironmentInfo.WithCommitHash | crates/quic-test/src/lib_verification/issue_reporter.rs:89-92 | sets the commit hash and changes nothing else |
| IssueReporter.EnvironmentInfo.AddContext | crates/quic-test/src/lib_verification/issue_reporter.rs:95-97 | adds or replaces one context entry and keeps the others |
| IssueReporter.Capture | crates/quic-test/src/lib_verification/issue_reporter.rs:69-78 | the given OS, OS version and Rust version, with no library version, commit or context |
| IssueReporter.CommitText | crates/quic-test/src/lib_verification/issue_reporter.rs:287-290 | the commit hash, or "unknown" without one |
| IssueReporter.Lookup | crates/quic-test/src/lib_verification/issue_reporter.rs:250-253 | nothing exactly when no entry has the key; otherwise the value of the first entry with it |
| IssueReporter.LookupRepos | crates/quic-test/src/lib_verification/issue_reporter.rs:25-28 | the repository table maps saorsa-gossip and ant-quic to their GitHub repositories and nothing else |
| IssueReporter.IssueReport.GithubRepo | crates/quic-test/src/lib_verification/issue_reporter.rs:249-254 | a report's repository is known exactly for saorsa-gossip and ant-quic |
| IssueReporter.IssueReport.ToGithubMarkdown | crates/quic-test/src/lib_verification/issue_reporter.rs:258-294 | the markdown starts with the bug-report heading naming the library and its version |
| IssueReporter.MarkdownShowsCommit | crates/quic-test/src/lib_verification/issue_reporter.rs:267-269 | the markdown shows the commit line, "unknown" without a commit |
| IssueReporter.MarkdownShowsLabels | crates/quic-test/src/lib_verification/issue_reporter.rs:274-275 | the markdown shows the labels joined by commas |
| IssueReporter.IssueReportBuilder.Title | crates/quic-test/src/lib_verification/issue_reporter.rs:126-129 | sets the title and changes nothing else |
| IssueReporter.IssueReportBuilder.TestName | crates/quic-test/src/lib_verification/issue_reporter.rs:133-136 | sets the test name and changes nothing else |
| IssueReporter.IssueReportBuilder.Expected | crates/quic-test/src/lib_verification/issue_reporter.rs:140-143 | sets the expected behaviour and changes nothing else |
| IssueReporter.IssueReportBuilder.Actual | crates/quic-test/src/lib_verification/issue_reporter.rs:147-150 | sets the actual behaviour and changes nothing else |
| IssueReporter.IssueReportBuilder.Body | crates/quic-test/src/lib_verification/issue_reporter.rs:154-157 | sets the raw body and changes nothing else |
| IssueReporter.IssueReportBuilder.Label | crates/quic-test/src/lib_verification/issue_reporter.rs:161-164 | appends one label and changes nothing else |
| IssueReporter.IssueReportBuilder.Labels | crates/quic-test/src/lib_verification/issue_reporter.rs:168-171 | appends the labels in order after the earlier ones and changes nothing else |
| IssueReporter.IssueReportBuilder.Step | crates/quic-test/src/lib_verification/issue_reporter.rs:175-178 | appends one reproduction step and changes nothing else |
| IssueReporter.IssueReportBuilder.Notes | crates/quic-test/src/lib_verification/issue_reporter.rs:182-185 | sets the notes and changes nothing else |
| IssueReporter.IssueReportBuilder.Sections | crates/quic-test/src/lib_verification/issue_reporter.rs:209-234 | one section per field that is set |
| IssueReporter.IssueReportBuilder.FormatBody | crates/quic-test/src/lib_verification/issue_reporter.rs:208-237 | the sections joined by blank lines; empty when no section is set |
| IssueReporter.IssueReportBuilder.Build | crates/quic-test/src/lib_verification/issue_reporter.rs:189-205 | the raw body when one was set, else the formatted sections; library, title, labels and test name carried over; the captured environment |
| IssueReporter.NewBuilder | crates/quic-test/src/lib_verification/issue_reporter.rs:117-122 | a builder for the library with everything else empty |
| IssueReporter.SectionsInOrder | crates/quic-test/src/lib_verification/issue_reporter.rs:212-234 | expected behaviour first, actual behaviour next, notes last |
| IssueReporter.StepsNumberedFromOne | crates/quic-test/src/lib_verification/issue_reporter.rs:220-228 | the reproduction steps are one line each, numbered from 1 in order |
| IssueReporter.LabelsIsRepeatedLabel | crates/quic-test/src/lib_verification/issue_reporter.rs:161-171 | adding several labels is adding them one at a time |
| LibVerification.TestResult.WithDuration | crates/quic-test/src/lib_verification/mod.rs:209-212 | sets the duration and changes nothing else |
| LibVerification.Pass | crates/quic-test/src/lib_verification/mod.rs:149-158 | a passed result with no message, duration or issue |
| LibVerification.PassWithMessage | crates/quic-test/src/lib_verification/mod.rs:161-170 | a passed result with the message and no duration or issue |
| LibVerification.Fail | crates/quic-test/src/lib_verification/mod.rs:173-182 | a failed result with the message and the issue to report |
| LibVerification.Warn | crates/quic-test/src/lib_verification/mod.rs:185-194 | a warning result with the message and no issue |
| LibVerification.Skip | crates/quic-test/src/lib_verification/mod.rs:197-206 | a skipped result with the reason as its message and no issue |
| LibVerification.ConstructorsKeepIssuesToFailures | crates/quic-test/src/lib_verification/mod.rs:149-212 | only a failed result carries an issue, whatever its duration |
| LibVerification.Count | crates/quic-test/src/lib_verification/mod.rs:115-128 | one more test run, and exactly the counter of its status goes up |
| LibVerification.TallyOfCounts | crates/quic-test/src/lib_verification/mod.rs:115-128 | after a run of results, the run count is their number and each status counter is its number of occurrences |
| LibVerification.OccurrencesZero | crates/quic-test/src/lib_verification/mod.rs:117-127 | a status is counted zero times exactly when it never occurs |
| LibVerification.AllPassedMeaning | crates/quic-test/src/lib_verification/mod.rs:100-102 | all passed exactly when some test ran and none failed |
| LibVerification.Queued | crates/quic-test/src/lib_verification/mod.rs:119-124 | a result queues its issue exactly when it failed and carries one |
| LibVerification.StatusesOf | crates/quic-test/src/lib_verification/mod.rs:117 | the status of each result, in order |
| LibVerification.QueuedAtMostFailed | crates/quic-test/src/lib_verification/mod.rs:115-128 | never more issues queued than tests failed |
| LibVerification.LibraryVerificationResult.constructor | crates/quic-test/src/lib_verification/mod.rs:83-96 | a new result for the library and version, with no tests or issues, stamped now |
| LibVerification.LibraryVerificationResult.PassRate | crates/quic-test/src/lib_verification/mod.rs:106-112 | 0 when nothing ran; otherwise passed per run in percent, within [0, 100] |
| LibVerification.LibraryVerificationResult.AddResult | crates/quic-test/src/lib_verification/mod.rs:115-128 | counts the result under its status, queues its issue when it failed and carries one, and keeps the counters consistent |
| LibVerification.Percent | crates/quic-test/src/lib_verification/mod.rs:110 | part per whole in percent, within [0, 100] when the part is at most the whole |
| LibVerification.AddedInOrder | crates/quic-test/src/lib_verification/mod.rs:115-128 | adding results one after another counts and queues them in order |
| LibVerification.PresetsCompared | crates/quic-test/src/lib_verification/mod.rs:246-285 | CI uses 3 nodes without stress tests, production creates issues and stresses; timeouts and cluster sizes grow from CI through default to production |
| McpClient.McpToolCategory.DisplayName | crates/quic-test/src/mcp/client.rs:51-61 | every category has a name of at least four characters |
| McpClient.McpToolCategory.ToolCount | crates/quic-test/src/mcp/client.rs:64-74 | every category advertises at least one tool |
| McpClient.AllCategoriesOnce | crates/quic-test/src/mcp/client.rs:38-48 | `all` lists seven categories, each exactly once, and none is missing |
| McpClient.DisplayNamesDistinct | crates/quic-test/src/mcp/client.rs:51-61 | no two categories share a display name |
| McpClient.FromToolName | crates/quic-test/src/mcp/client.rs:77-150 | the category is that of the first rule in source order the name satisfies (authentication, entities, messages, files, kanban, then network before social), and Network when no rule matches |
| McpClient.AuthenticateIsAuth | crates/quic-test/src/mcp/client.rs:951-952 | `authenticate` is an authentication tool |
| McpClient.CreateEntityIsEntities | crates/quic-test/src/mcp/client.rs:955-956 | `create_entity` is an entity tool |
| McpClient.SendMessageIsMessages | crates/quic-test/src/mcp/client.rs:959-960 | `send_message` is a messaging tool |
| McpClient.ToolsFor | crates/quic-test/src/mcp/client.rs:812-942 | one tool per table entry of the category, in table order, each tagged with that category and without parameters |
| McpClient.TableCounts | crates/quic-test/src/mcp/client.rs:64-74 | the advertised tool count of each category equals the number of tools its table lists |
| McpClient.ToolsOfLength | crates/quic-test/src/mcp/client.rs:381-392 | the concatenated listing has as many tools as the categories' counts add up to |
| McpClient.ToolsOfTagged | crates/quic-test/src/mcp/client.rs:381-392 | every tool of the concatenated listing belongs to one of the listed categories |
| McpClient.GetAllTools | crates/quic-test/src/mcp/client.rs:386-392 | the loop appends each category's tools in `all` order: 103 tools, each in a known category |
| McpClient.CountOfAll | crates/quic-test/src/mcp/client.rs:64-74 | the advertised counts add up to 103 |
| McpClient.ToolListed | crates/quic-test/src/mcp/client.rs:812-942 | every listed tool appears in the table of the category it is tagged with |
| McpClient.ProfileListedUnderEntities | crates/quic-test/src/mcp/client.rs:844 | `get_profile` is listed among the entity tools and not among the file tools |
| McpClient.ProfileFiledUnderFiles | crates/quic-test/src/mcp/client.rs:109-111 | the name rules file `get_profile` under Files, because it contains `file` (as-written half of a finding) |
| McpClient.ListingCategory | crates/quic-test/src/mcp/client.rs:812-942 | the first of the given categories whose table lists the name, or none exactly when no table lists it |
| McpClient.CategoryOf | crates/quic-test/src/mcp/client.rs:77-150 | a listed tool gets a category whose table lists it; an unlisted name gets what the name rules say (corrected half of a finding) |
| McpClient.ListedToolsAgree | crates/quic-test/src/mcp/client.rs:386-392 | every tool `get_all_tools` returns is categorised by the corrected rule into a category that lists it |
| McpClient.HexDecode | crates/quic-test/src/mcp/client.rs:765-767 | decoding succeeds exactly on an even number of hex digits and yields half as many bytes |
| McpClient.HexDecodeDigits | crates/quic-test/src/mcp/client.rs:765-767 | byte i of a decoding is the value of digits 2i and 2i+1, the first the more significant |
| McpClient.HexEncode | crates/quic-test/src/mcp/client.rs:765-767 | two hex digits per byte |
| McpClient.HexRoundTrip | crates/quic-test/src/mcp/client.rs:765-767 | decoding the hex encoding of any bytes gives back those bytes |
| McpClient.Quoted | crates/quic-test/src/mcp/client.rs:782-786 | input of at most 16 characters is shown whole; longer input as its first 16 characters and `...` |
| McpClient.ParsePubkey | crates/quic-test/src/mcp/client.rs:763-788 | hex is tried first, then standard base64, then URL-safe base64, and the first decoder that succeeds gives the key; the error, with the quoted input, comes exactly when all three fail |
| McpClient.ParsePubkeyHex | crates/quic-test/src/mcp/client.rs:996-1004 | the hex encoding of any key parses back to that key, whatever the base64 decoders do |
| BootstrapPeers.BootstrapPeer.SocketAddrV4 | crates/quic-test/src/bootstrap_peers.rs:50-53 | the peer's IPv4 address on the peer's port |
| BootstrapPeers.BootstrapPeer.SocketAddrV6 | crates/quic-test/src/bootstrap_peers.rs:56-60 | an address exactly when the peer has an IPv6 address, on the peer's port |
| BootstrapPeers.BootstrapPeer.AllAddrs | crates/quic-test/src/bootstrap_peers.rs:63-70 | the IPv4 address first, followed by the IPv6 address when there is one |
| BootstrapPeers.TableShape | crates/quic-test/src/bootstrap_peers.rs:76-162 | nine peers, all on port 9000 and all coordinators; only the first is a relay; only the third and fourth have IPv6 addresses |
| BootstrapPeers.BootstrapAddrsV4 | crates/quic-test/src/bootstrap_peers.rs:166-171 | one IPv4 address per peer, in table order |
| BootstrapPeers.AddrsV4OnP2pPort | crates/quic-test/src/bootstrap_peers.rs:248-252 | every IPv4 bootstrap address is on port 9000 |
| BootstrapPeers.AddrsOfShape | crates/quic-test/src/bootstrap_peers.rs:175-180 | flattening the peers' addresses gives one address per peer plus one per IPv6 address, each belonging to some peer |
| BootstrapPeers.BootstrapAddrsAllShape | crates/quic-test/src/bootstrap_peers.rs:175-180 | a fact about the constant table, checked entry by entry: eleven addresses, each recognised as a VPS address |
| BootstrapPeers.RelayNode | crates/quic-test/src/bootstrap_peers.rs:184-186 | the first peer, saorsa-1, which is a relay |
| BootstrapPeers.Coordinators | crates/quic-test/src/bootstrap_peers.rs:190-195 | exactly the coordinator peers of the input (a peer is in the result if and only if it is in the input and coordinates), and the whole input when every peer is a coordinator |
| BootstrapPeers.CoordinatorsAppend | crates/quic-test/src/bootstrap_peers.rs:190-195 | the filter keeps input order: the coordinators of two runs of peers are those of the first run followed by those of the second |
| BootstrapPeers.CoordinatorNodes | crates/quic-test/src/bootstrap_peers.rs:255-259 | all nine peers are coordinators, so the result is the whole table in its order |
| BootstrapPeers.AnyV4 | crates/quic-test/src/bootstrap_peers.rs:201 | true exactly when some peer has that IPv4 address |
| BootstrapPeers.AnyV6 | crates/quic-test/src/bootstrap_peers.rs:202 | true exactly when some peer has that IPv6 address |
| BootstrapPeers.IsVpsIp | crates/quic-test/src/bootstrap_peers.rs:199-204 | an IPv4 address is a VPS address exactly when a peer has it as IPv4; an IPv6 address exactly when a peer has it as IPv6 |
| BootstrapPeers.IsVpsAddr | crates/quic-test/src/bootstrap_peers.rs:208-210 | decided by the address's IP alone, whatever the port |
| BootstrapPeers.VpsIpExamples | crates/quic-test/src/bootstrap_peers.rs:239-245 | 77.42.75.115 is a VPS address and 1.2.3.4 is not |
| BootstrapPeers.FindByName | crates/quic-test/src/bootstrap_peers.rs:214-216 | none exactly when no peer has the name; otherwise the first peer with it |
| BootstrapPeers.GetPeerByName | crates/quic-test/src/bootstrap_peers.rs:214-216 | the first table peer with the name, which is in the table; none exactly when no table peer has it |
| BootstrapPeers.PeerByNameExample | crates/quic-test/src/bootstrap_peers.rs:232-236 | saorsa-1 is found and is the relay node |
| BootstrapPeers.PeerByNameSaorsa5 | crates/quic-test/src/bootstrap_peers.rs:262-266 | an example lookup: saorsa-5 is found, with IPv4 address 144.126.230.161 |
| DataBridge.FromRoutingTable | crates/quic-test/src/tui/data_bridge.rs:21-39 | the routing-peer total is the sum of the bucket sizes; the buckets, operations, latency, record count and replication factor are kept as given, with no records by type, no distance samples and the refresh time set to now |
| DataBridge.RoutingPeersTotal | crates/quic-test/src/tui/data_bridge.rs:28 | the routing-peer total is at least every bucket's size, and zero exactly when every bucket is empty |
| DataBridge.RoutingPeersAppend | crates/quic-test/src/tui/data_bridge.rs:28 | the total over two runs of buckets is the sum of their totals |
| DataBridge.RoutingTableExample | crates/quic-test/src/tui/data_bridge.rs:448-462 | buckets 5, 10, 15, 0, 0 give 30 routing peers |
| DataBridge.UpdateOperations | crates/quic-test/src/tui/data_bridge.rs:43-58 | the six get, put and delete counters take the new values; routing counters and every other field are unchanged |
| DataBridge.UpdateLatency | crates/quic-test/src/tui/data_bridge.rs:62-67 | the three percentiles take the new values; every other field is unchanged |
| DataBridge.ToTrustEntry | crates/quic-test/src/tui/data_bridge.rs:89-99 | the entry keeps the peer's id, score, flags and transaction count and shortens the id to its first eight characters |
| DataBridge.FromTrustData | crates/quic-test/src/tui/data_bridge.rs:76-111 | one entry per input peer, in order; the pre-trusted and suspicious counts are the numbers of input peers carrying each flag; history is empty and the update time is now |
| DataBridge.TrustCountsMatchFlags | crates/quic-test/src/tui/data_bridge.rs:83-84 | each count is zero exactly when no peer carries the flag, and equals the number of peers exactly when every peer does |
| DataBridge.TrustShortIdExample | crates/quic-test/src/tui/data_bridge.rs:464-477 | peer `peer123456789` is shown as `peer1234` |
| DataBridge.LastN | crates/quic-test/src/tui/data_bridge.rs:118-120 | the last n elements, or the whole sequence when it is no longer than n |
| DataBridge.UpdateLocalScore | crates/quic-test/src/tui/data_bridge.rs:115-122 | the score becomes the local score and the newest history entry, the oldest entry is dropped when the history would exceed 60, and the update time is now |
| DataBridge.HistoryKeepsLastSixty | crates/quic-test/src/tui/data_bridge.rs:115-122 | after any run of updates the history is the last 60 of the old history followed by the new scores |
| DataBridge.FromLearningData | crates/quic-test/src/tui/data_bridge.rs:131-167 | the total pull count is the sum of the arms' pulls; arms, best arm, exploration ratio, Q-learning and churn stats are kept as given and the three strategy scores and the active strategy are filed in order |
| DataBridge.TotalPullsBoundsEachArm | crates/quic-test/src/tui/data_bridge.rs:140 | the total pull count is at least every arm's pulls, and zero exactly when no arm was pulled |
| DataBridge.CreateQLearningStats | crates/quic-test/src/tui/data_bridge.rs:171-192 | the miss rate is 100 minus the hit rate, within 0 and 100 when the hit rate is; every other figure is kept |
| DataBridge.RiskLevel | crates/quic-test/src/tui/data_bridge.rs:208-216 | Critical from 0.8, High from 0.6, Medium from 0.4, Low below 0.4 |
| DataBridge.RiskLevelMonotone | crates/quic-test/src/tui/data_bridge.rs:208-216 | a higher risk never gets a lower level |
| DataBridge.CreateChurnStats | crates/quic-test/src/tui/data_bridge.rs:196-230 | one entry per at-risk peer, in order, with its id, risk and churn time and the level its risk maps to; the counters are kept |
| DataBridge.ChurnLevelsExample | crates/quic-test/src/tui/data_bridge.rs:503-518 | risks 0.9 and 0.5 are Critical and Medium |
| DataBridge.SuccessPercent | crates/quic-test/src/tui/data_bridge.rs:245-250 | 100 when there were no placements, otherwise successes over total times 100, within 0 and 100 when successes do not exceed the total |
| DataBridge.FromPlacementData | crates/quic-test/src/tui/data_bridge.rs:240-289 | the success rate as above; diversity scores, regions, placement counters and replication figures are filed in order, with no replication targets |
| DataBridge.PlacementRateExample | crates/quic-test/src/tui/data_bridge.rs:521-544 | 95 successes in 100 placements is a 95 percent success rate |
| DataBridge.FromHealthData | crates/quic-test/src/tui/data_bridge.rs:295-316 | every figure is kept as given and the check time is now |
| DataBridge.CreateComponent | crates/quic-test/src/tui/data_bridge.rs:320-341 | status Healthy exactly when healthy and Unhealthy otherwise, with no message and the check time now |
| DataBridge.CreateAlert | crates/quic-test/src/tui/data_bridge.rs:344-359 | an unacknowledged alert with the given severity, message, component and age, stamped now |
| DataBridge.CreateAnomaly | crates/quic-test/src/tui/data_bridge.rs:362-377 | the given type, description, score, deviation and peer, stamped now |
| DataBridge.NetUtilisation | crates/quic-test/src/tui/data_bridge.rs:393-394 | traffic over a 125,000,000 bytes per second link as a percentage, capped at 100, which it reaches exactly from the link rate on |
| DataBridge.CreateResources | crates/quic-test/src/tui/data_bridge.rs:381-411 | network traffic is transmit plus receive, utilisation is within 0 and 100, descriptors and connections are zero, and every other figure is kept |
| DataBridge.NetUtilisationMonotone | crates/quic-test/src/tui/data_bridge.rs:393-394 | more traffic never shows lower utilisation |
| DataBridge.ConvertStatus | crates/quic-test/src/tui/data_bridge.rs:414-420 | Healthy, Degraded and Unhealthy map to the view's status of the same name, each exactly from its own core status; never Unknown or Critical |
| DataBridge.ConvertStatusInjective | crates/quic-test/src/tui/data_bridge.rs:414-420 | distinct core statuses stay distinct |
| DataBridge.InitialState | crates/quic-test/src/tui/data_bridge.rs:429-440 | disconnected, with the endpoint given and no tools, selection, inputs, history, server info or error |
| StatsBridge.KBucketEstimate | crates/quic-test/src/dht_metrics/stats_bridge.rs:288-305 | always 256 buckets; all zero when no bucket is filled, and zero from index `buckets_filled` on |
| StatsBridge.FilledBucketsNearAverage | crates/quic-test/src/dht_metrics/stats_bridge.rs:294-302 | each filled bucket holds between one and two times the average per filled bucket |
| StatsBridge.KBucketsNonIncreasing | crates/quic-test/src/dht_metrics/stats_bridge.rs:299-301 | a further bucket never holds more peers than a closer one |
| StatsBridge.EstimateKBuckets | crates/quic-test/src/dht_metrics/stats_bridge.rs:288-305 | the loop over the first `min(buckets_filled, 256)` of 256 zeroed buckets yields the estimate above |
| StatsBridge.BucketToScore | crates/quic-test/src/dht_metrics/stats_bridge.rs:308-315 | the parse of the part of the bucket name before its first `-`, or 0.5 when that does not parse |
| StatsBridge.BucketLeadUnique | crates/quic-test/src/dht_metrics/stats_bridge.rs:310 | the part before the first `-` is determined by the name |
| StatsBridge.Clamp01 | crates/quic-test/src/dht_metrics/stats_bridge.rs:325-326 | the value within [0, 1], unchanged when it already lies there, 0 below and 1 above |
| StatsBridge.CalculateHealthScore | crates/quic-test/src/dht_metrics/stats_bridge.rs:318-327 | the health score lies within [0, 1] |
| StatsBridge.HealthScoreIsWeightedAverage | crates/quic-test/src/dht_metrics/stats_bridge.rs:318-327 | with all four gauges within [0, 1] the score is 30% DHT success, 30% one minus Sybil score, 20% trust and 20% geographic diversity, with no clamping |
| StatsBridge.HealthScoreMonotoneInSuccess | crates/quic-test/src/dht_metrics/stats_bridge.rs:318-327 | a better DHT success rate never lowers the score |
| StatsBridge.HealthyScoreExample | crates/quic-test/src/dht_metrics/stats_bridge.rs:389-413 | success 0.95, Sybil 0.05, trust 0.9 and diversity 0.85 score above 0.8 |
| StatsBridge.ScoreToStatus | crates/quic-test/src/dht_metrics/stats_bridge.rs:330-340 | Healthy from 0.9, Degraded from 0.7, Unhealthy from 0.5, Critical below 0.5 |
| StatsBridge.ScoreToStatusMonotone | crates/quic-test/src/dht_metrics/stats_bridge.rs:330-340 | a higher score never gets a worse status |
| StatsBridge.AsU32 | crates/quic-test/src/dht_metrics/stats_bridge.rs:40-45 | the saturating float-to-u32 cast: 0 for non-positive values, the floor within range and the maximum above it |
| StatsBridge.AsU32Monotone | crates/quic-test/src/dht_metrics/stats_bridge.rs:40-45 | the cast never reverses an ordering |
| StatsBridge.ToDhtStats | crates/quic-test/src/dht_metrics/stats_bridge.rs:21-60 | buckets are the estimate; gets and puts are each half the operations (rounded down) and likewise their successes; no deletes; routing counters are the refresh count; p50, p95 and p99 are the saturating u32 casts of the snapshot's lookup percentiles, with p50 as minimum and p99 as maximum; stored records stand in for under-replicated keys |
| StatsBridge.ToDhtStatsLatencyValid | crates/quic-test/src/dht_metrics/stats_bridge.rs:39-48 | when p50 does not exceed p99 the latency record is consistent (minimum at most maximum, no history) |
| StatsBridge.ToDhtStatsExample | crates/quic-test/src/dht_metrics/stats_bridge.rs:349-368 | 100 routing peers and 50 operations give 100 peers and gets plus puts of 50 |
| StatsBridge.SyntheticRegion | crates/quic-test/src/dht_metrics/stats_bridge.rs:101-114 | region i is coded `R{i+1}` and named `Region-{i+1}`, is healthy, gets the rounded-down node share and an equal share of 100 percent |
| StatsBridge.SyntheticRegions | crates/quic-test/src/dht_metrics/stats_bridge.rs:100-117 | one region per covered region, and none when no region is covered |
| StatsBridge.RegionCodesDistinct | crates/quic-test/src/dht_metrics/stats_bridge.rs:104 | no two synthetic regions share a code |
| StatsBridge.SaturatingSub | crates/quic-test/src/dht_metrics/stats_bridge.rs:134 | the difference when it is non-negative, zero otherwise |
| StatsBridge.AuditPassRate | crates/quic-test/src/dht_metrics/stats_bridge.rs:127-132 | 1 with no audits, otherwise the passed share of audits, always within [0, 1] |
| StatsBridge.ToPlacementStats | crates/quic-test/src/dht_metrics/stats_bridge.rs:97-144 | regions as above; the success rate is the audit pass rate (passed audits per audit, 1 without audits), within [0, 1]; successes plus failures make up the records when failures fit; diversity is the mean of geographic and load balance; fixed replication defaults 8, 3 and 8.0 (corrected half of a finding) |
| StatsBridge.ToPlacementStatsAsWritten | crates/quic-test/src/dht_metrics/stats_bridge.rs:127-134 | the unsigned subtractions fail exactly when audit failures exceed the records, or exceed the audits when there are audits (as-written half of a finding) |
| StatsBridge.AsWrittenAgreesWithoutUnderflow | crates/quic-test/src/dht_metrics/stats_bridge.rs:127-134 | whenever neither subtraction underflows, the as-written conversion gives the corrected result |
| StatsBridge.PlacementUnderflowExample | crates/quic-test/src/dht_metrics/stats_bridge.rs:134 | one audit failure with no records underflows as written, while the corrected conversion reports zero successes |
| Communitas.PortFromSeed | crates/quic-test/src/communitas.rs:83-84 | the port lies in [1000, 56000), fits in 16 bits, and is the big-endian seed modulo 55000 offset by 1000 |
| Communitas.PortSeedRecovered | crates/quic-test/src/communitas.rs:83-84 | a seed below 55000 is recovered from its port |
| Communitas.PortSeedsCollide | crates/quic-test/src/communitas.rs:83-84 | seeds 0 and 55000 give the same port 1000 |
| Communitas.ReplaceChar | crates/quic-test/src/communitas.rs:90 | same length; every occurrence of the character is replaced and nothing else changes |
| Communitas.ReplaceAppend | crates/quic-test/src/communitas.rs:90 | replacing distributes over concatenation |
| Communitas.ReplaceJoin | crates/quic-test/src/communitas.rs:90 | replacing the separator of a join of separator-free words gives the join with the new separator |
| Communitas.EncoderInput | crates/quic-test/src/communitas.rs:79-84 | the encoder gets the first four digest bytes as the address and the port derived from bytes 4 and 5 |
| Communitas.GenerateFourWords | crates/quic-test/src/communitas.rs:75-91 | fails, with the context message, exactly when the encoder fails; otherwise the result has no dot left |
| Communitas.FourWordsDashed | crates/quic-test/src/communitas.rs:90 | four dotted words become those four words separated by dashes, and splitting on `-` gives the words back |
| Communitas.Capitalise | crates/quic-test/src/communitas.rs:96-104 | same length; first character upper-cased, the rest lower-cased; non-letters unchanged |
| Communitas.CapitaliseIdempotent | crates/quic-test/src/communitas.rs:96-104 | capitalising twice is capitalising once |
| Communitas.TitleCaseWords | crates/quic-test/src/communitas.rs:93-108 | for a name without spaces, splitting the title-cased name on spaces gives the capitalised dash-separated parts, in order |
| Communitas.CapitaliseNoSpace | crates/quic-test/src/communitas.rs:96-104 | capitalising never introduces a space |
| Communitas.PartHasNoSpace | crates/quic-test/src/communitas.rs:95 | a part of a split has no character the whole name lacks |
| Communitas.DisplayName | crates/quic-test/src/communitas.rs:22 | `Demo ` followed by the title-cased words |
| Communitas.Derive | crates/quic-test/src/communitas.rs:20-36 | succeeds exactly when the four words were generated and the directory was created; a word error is passed through; on success the display name is `Demo ` followed by the title-cased words and the storage directory is the base joined with `communitas` and the words, ending in the words |
| DashboardTypes.OutcomeSymbol | crates/quic-test/src/dashboard/types.rs:255-261 | one character: a tick exactly for `success`, a cross exactly for `failed`, a dot for anything else |
| DashboardTypes.DirectionalStatsApi.Outcomes | crates/quic-test/src/dashboard/types.rs:242-252 | one outcome per slot label |
| DashboardTypes.DirectionalStatsApi.Summary | crates/quic-test/src/dashboard/types.rs:242-252 | three characters per slot: its two-character label, then the symbol of its outcome |
| DashboardTypes.FromMethodOutcome | crates/quic-test/src/dashboard/types.rs:217-238 | keeps the counters and files the six outcomes in slot order |
| DashboardTypes.CellsAt | crates/quic-test/src/dashboard/types.rs:243-251 | three-character cells sit at multiples of three in their concatenation |
| DashboardTypes.SummaryShowsOnlySymbols | crates/quic-test/src/dashboard/types.rs:242-252 | two summaries are equal exactly when every slot's outcome maps to the same symbol |
| DashboardTypes.SummarySlot | crates/quic-test/src/dashboard/types.rs:242-252 | slot k of the summary is its label followed by its symbol |
| DashboardTypes.SummaryExample | crates/quic-test/src/dashboard/types.rs:241 | a success in the first slot and unknown elsewhere reads `D4✓D6·N4·N6·R4·R6·` |

## Left out

- Terminal rendering, the event channels, the dashboard web server, the metrics collector, the HTTP control binary, node processes, deployment, SSH and remote log sources are left out. They are I/O around the core.
- The async methods of the MCP client are left out. They call the Communitas app over the network.
- Wall-clock readings (`Instant::now`, `Utc::now`, `SystemTime`), fresh UUIDs and the RFC 3339 rendering of timestamps are parameters. Their values are not modelled.
- SHA-256 (CRDT state hashes, the Communitas identity), the four-word encoder, the base64 decoders, `f64` parsing and `serde_json` serialisation are parameters or are left out. The CRDT state hash is replaced by comparing the serialised state text.
- Floating-point rounding, NaN and the infinities are not modelled: every `f64` is a `real`. Left out for this reason:
  - the Shannon-entropy diversity score;
  - the SWIM protocol-period variance check (`protocol_period_consistent`, square root);
  - root-cause confidence;
  - the `avg_ms` rolling latency average (also absent from `TuiTypes.LatencyStats`);
  - decimal rendering of floats.
- `DataBridge.UpdateLatency`: does not set `avg_ms`, because the latency record does not carry the floating-point average.
- `StatsBridge.ToDhtStats`: does not state `avg_ms`, for the same reason.
- `StatsBridge.EstimateKBuckets`: the `f64` weight `1 + (256 - i) / 256` is computed exactly in integers (`avg * (512 - i) / 256`, rounded down). This agrees with the code except where `f64` rounding would differ.
- `ProofOrchestration.ProofOrchestrator.VerifyConnectivity`: the `{:.0}` rendering of the mesh and rate percentages is the parameter `percentText`. The per-node entries come in the map's iteration order, which is left open. The elapsed time of the step is not carried.
- Character handling is ASCII only. `str::trim`, `char::is_alphabetic`, `to_lowercase` and `to_uppercase` are modelled on ASCII letters and ASCII whitespace (`Text.Trim`, `Text.IsAlpha`, `Text.Lower`).
- `HashMap` iteration order is unspecified. Where the code's result depends on it, the model picks any element that qualifies. This applies to a most-frequent hash or pattern among equals, and to the order of map-derived lists.
- Counter sums over nodes are unbounded naturals. A `u64` overflow of a running total, or of `net_tx + net_rx` in `create_resources`, is not modelled. The duration parser's overflow is modelled (see Findings).
- `Cli.ParseArgs`: printing the help text and ending the process are the `Exit` outcome with the exit code. Nothing is printed.
- `to_eigentrust_stats`, `to_health_stats` and `default_mcp_state` of the stats bridge are not part of this model.
- `McpBridge::initial_state` builds a reduced `McpState` (connection, endpoint, tools, selection, inputs, history, server info, error). Fields of the full MCP state that this builder does not set are not carried.
- The placement success rate is a percentage in `from_placement_data` and a fraction in `to_placement_stats`. Both are modelled as written.
- `StatsBridge.BucketToScore`: the `f64` parse of the bucket's lead is the parameter `parseReal`.
- `Communitas.Derive`: `create_dir_all` is the parameter `dirCreated`. The error text omits the directory path and the underlying I/O error.
- `Communitas.GenerateFourWords`: the error text omits the encoder's own error, which `context` wraps.
- `App` does not carry several parts of the UI's state:
  - the per-screen statistics records (DHT, EigenTrust, adaptive, placement, health, MCP tools);
  - the cache and NAT analytics;
  - the gossip test results;
  - the proof status.
- `TuiEvents.HandleTuiEvent`: does not restate that the fields outside an event's group keep their values. The group handler's own `modifies` clause already frames them, and restating them makes the proof too expensive.
- `TuiEvents.HandleTuiEvent` leaves out the events that only replace those records: `UpdateDhtStats`, `UpdateEigenTrustStats`, `UpdateAdaptiveStats`, `UpdatePlacementStats`, `UpdateHealthStats`, `UpdateMcpState`, `UpdateGossipStats`, `CacheHealthUpdate`, `NatAnalyticsUpdate`, `ProofStatusUpdate`, `GossipTestsComplete` and `MessagesLoaded`.
- In the proof orchestrator, these are not part of this model:
  - `verify_connectivity_by_protocol`, `test_protocol_connectivity` and `verify_inbound_connectivity`;
  - `generate_gossip_proof` and `generate_crdt_proof`.
  The gossip verdict of a comprehensive run is a parameter, because the HyParView, SWIM and Plumtree validity checks it reads are defined in the crate's registry types (`registry/types.rs`), which are not part of this model. Step durations are not recorded.
- The legacy log aggregator's initialisation, tracing set-up and JSON/NDJSON export are left out.
- `Logging.ParsePrometheusMetrics`: the `Result` the code returns is always `Ok`, so the model returns the entries directly.
- `Logging.ExportCsv`: returns the CSV text instead of writing a file.
- Filing issues: `create_github_issue`, `check_for_duplicate` and `EnvironmentInfo::capture` run the `gh` CLI or read the operating system, and are left out. The build timestamp is a parameter.

## Findings

| source | as written | input that shows it | evidently intended | confidence | as-written member | corrected member |
|---|---|---|---|---|---|---|
| crates/quic-test/src/debug_automation.rs:537-542 | `build_timeline` tests for "connected" before "disconnected". Every message containing "disconnected" also contains "connected", so it is filed as a connection established. | an INFO line with message "peer disconnected" | such a line is a connection lost | high, not executed | DebugAutomation.ClassifyAsWritten (with DebugAutomation.AsWrittenDisconnectIsNeverLost, DebugAutomation.DisconnectedHasConnected and DebugAutomation.TimelineDisconnectExample); the timeline (`DebugAutomation.EventOf`, `DebugAutomation.BuildTimeline`) is built with it, as the code does | DebugAutomation.Classify (with DebugAutomation.DisconnectIsLost), the classification the timeline evidently means |
| crates/quic-test/src/mcp/client.rs:109-111 | `from_tool_name` files any name containing "file" under Files, ahead of the later rules. So `get_profile`, which the Entities table lists (line 844), is categorised as Files. | `get_profile` | a listed tool is categorised as the category whose table lists it | medium, not executed | McpClient.FromToolName (with McpClient.ProfileFiledUnderFiles and McpClient.ProfileListedUnderEntities) | McpClient.CategoryOf (with McpClient.ListedToolsAgree) |
| crates/quic-test/src/dht_metrics/stats_bridge.rs:127-134 | `audits_total - audit_failures_total` and `total_records - audit_failures_total` are unchecked `u64` subtractions. They panic in a debug build, and wrap otherwise, when failures exceed audits or records. | a snapshot with 1 audit failure, 1 audit and 0 records | successes stop at zero | medium, not executed | StatsBridge.ToPlacementStatsAsWritten, the debug build: an underflow is the panic, returned as `None` (with StatsBridge.PlacementUnderflowExample) | StatsBridge.ToPlacementStats (with StatsBridge.AsWrittenAgreesWithoutUnderflow) |
| src.old/main.rs:207-210 | `num * 60`, `num * 3600` and `num * 86400` are unchecked `u64` multiplications. They wrap in a release build and panic in a debug build. | "307445734561825861m", which wraps to 44 seconds | a duration too long for `u64` seconds is rejected | high, not executed | DurationParser.ParseDurationAsWritten, the release build: the product wraps modulo 2^64 (with DurationParser.OverflowWraps and DurationParser.MinutesOverflowExample) | DurationParser.ParseDuration (with DurationParser.DurationRoundTrip and DurationParser.AsWrittenAgreesWithoutOverflow) |
| crates/quic-test/src/proof_orchestrator.rs:607 | `expected_full_mesh = node_count * (node_count - 1)` is an unchecked `usize` subtraction. With no registered nodes it underflows, which panics in a debug build. The step is reached with no nodes whenever `min_nodes` is 0. | a configuration with `min_nodes` 0 and no registered nodes | an empty mesh of 0 links, so the step passes | medium, not executed | ProofOrchestration.ExpectedFullMeshAsWritten, the debug build: the underflow is the panic, returned as `None` (with ProofOrchestration.FullMeshUnderflowExample) | ProofOrchestration.ExpectedFullMesh (with ProofOrchestration.FullMeshIsProduct and ProofOrchestration.FullMeshAsWrittenAgrees), used by ProofOrchestration.FiguresFor |


=== FILE: bootstrap_peers.dfy ===
/**
 * The hard-coded VPS bootstrap peers of the gossip-first discovery and the
 * lookups over that table.
 */
module BootstrapPeers {
  import opened Wrappers
  import Sorting

  type Octet = n: nat | n < 256
  type Segment = n: nat | n < 0x1_0000

  datatype Ipv4Addr = Ipv4Addr(a: Octet, b: Octet, c: Octet, d: Octet)
  datatype Ipv6Addr = Ipv6Addr(s0: Segment, s1: Segment, s2: Segment, s3: Segment,
                               s4: Segment, s5: Segment, s6: Segment, s7: Segment)
  datatype IpAddr = V4(v4: Ipv4Addr) | V6(v6: Ipv6Addr)
  datatype SocketAddr = SocketAddr(ip: IpAddr, port: nat)

  datatype BootstrapPeer = BootstrapPeer(
    name: string, ipv4: Ipv4Addr, ipv6: Option<Ipv6Addr>, port: nat, isRelay: bool, isCoordinator: bool)
  {
    function SocketAddrV4(): (a: SocketAddr)
      ensures a.ip == V4(ipv4) && a.port == port
    {
      SocketAddr(V4(ipv4), port)
    }

    function SocketAddrV6(): (a: Option<SocketAddr>)
      ensures a.Some? <==> ipv6.Some?
      ensures a.Some? ==> a.value.ip == V6(ipv6.value) && a.value.port == port
    {
      match ipv6
      case None => None
      case Some(ip) => Some(SocketAddr(V6(ip), port))
    }

    /** The IPv4 address first, then the IPv6 address when there is one. */
    function AllAddrs(): (addrs: seq<SocketAddr>)
      ensures |addrs| == if ipv6.Some? then 2 else 1
      ensures addrs[0] == SocketAddrV4()
      ensures ipv6.Some? ==> addrs[1] == SocketAddrV6().value
    {
      [SocketAddrV4()] + match SocketAddrV6() case None => [] case Some(v6) => [v6]
    }
  }

  /** The P2P port every bootstrap peer listens on. */
  const P2P_PORT: nat := 9000

  const BOOTSTRAP_PEERS: seq<BootstrapPeer> := [
    BootstrapPeer("saorsa-1", Ipv4Addr(77, 42, 75, 115), None, P2P_PORT, true, true),
    BootstrapPeer("saorsa-2", Ipv4Addr(142, 93, 199, 50), None, P2P_PORT, false, true),
    BootstrapPeer("saorsa-3", Ipv4Addr(147, 182, 234, 192),
                  Some(Ipv6Addr(0x2604, 0xa880, 0x0004, 0x01d0, 0, 0x0001, 0x6ba1, 0xf000)), P2P_PORT, false, true),
    BootstrapPeer("saorsa-4", Ipv4Addr(206, 189, 7, 117),
                  Some(Ipv6Addr(0x2a03, 0xb0c0, 0x0002, 0x00f0, 0, 0x0001, 0x26a1, 0x8001)), P2P_PORT, false, true),
    BootstrapPeer("saorsa-5", Ipv4Addr(144, 126, 230, 161), None, P2P_PORT, false, true),
    BootstrapPeer("saorsa-6", Ipv4Addr(65, 21, 157, 229), None, P2P_PORT, false, true),
    BootstrapPeer("saorsa-7", Ipv4Addr(116, 203, 101, 172), None, P2P_PORT, false, true),
    BootstrapPeer("saorsa-8", Ipv4Addr(149, 28, 156, 231), None, P2P_PORT, false, true),
    BootstrapPeer("saorsa-9", Ipv4Addr(45, 77, 176, 184), None, P2P_PORT, false, true)
  ]

  /** Nine peers, all on the P2P port and all coordinators; only the first is a relay; the third and fourth have IPv6. */
  lemma TableShape()
    ensures |BOOTSTRAP_PEERS| == 9
    ensures forall i :: 0 <= i < |BOOTSTRAP_PEERS| ==>
      BOOTSTRAP_PEERS[i].port == P2P_PORT && BOOTSTRAP_PEERS[i].isCoordinator
    ensures forall i :: 0 <= i < |BOOTSTRAP_PEERS| ==> (BOOTSTRAP_PEERS[i].isRelay <==> i == 0)
    ensures forall i :: 0 <= i < |BOOTSTRAP_PEERS| ==> (BOOTSTRAP_PEERS[i].ipv6.Some? <==> i == 2 || i == 3)
  {
  }

  /** `bootstrap_addrs_v4`: one IPv4 socket address per peer, in table order. */
  function BootstrapAddrsV4(): (addrs: seq<SocketAddr>)
    ensures |addrs| == |BOOTSTRAP_PEERS|
    ensures forall i :: 0 <= i < |addrs| ==> addrs[i] == BOOTSTRAP_PEERS[i].SocketAddrV4()
  {
    seq(|BOOTSTRAP_PEERS|, i requires 0 <= i < |BOOTSTRAP_PEERS| => BOOTSTRAP_PEERS[i].SocketAddrV4())
  }

  /** Every IPv4 bootstrap address is on the P2P port. */
  lemma AddrsV4OnP2pPort()
    ensures forall a :: a in BootstrapAddrsV4() ==> a.port == P2P_PORT && a.ip.V4?
  {
    TableShape();
  }

  /** `flat_map(all_addrs)` over `peers`. */
  function AddrsOf(peers: seq<BootstrapPeer>): seq<SocketAddr>
    decreases |peers|
  {
    if |peers| == 0 then [] else AddrsOf(peers[..|peers| - 1]) + peers[|peers| - 1].AllAddrs()
  }

  /** How many of `peers` have an IPv6 address. */
  function V6Count(peers: seq<BootstrapPeer>): nat
    decreases |peers|
  {
    if |peers| == 0 then 0
    else V6Count(peers[..|peers| - 1]) + (if peers[|peers| - 1].ipv6.Some? then 1 else 0)
  }

  /**
   * The flattened list holds one IPv4 address per peer plus one IPv6 address
   * per peer that has one, and each address belongs to a peer of the list.
   */
  lemma {:induction false} AddrsOfShape(peers: seq<BootstrapPeer>)
    ensures |AddrsOf(peers)| == |peers| + V6Count(peers)
    ensures forall a :: a in AddrsOf(peers) ==> exists i :: 0 <= i < |peers| && a in peers[i].AllAddrs()
    decreases |peers|
  {
    if |peers| > 0 {
      var init := peers[..|peers| - 1];
      AddrsOfShape(init);
      forall a | a in AddrsOf(peers) ensures exists i :: 0 <= i < |peers| && a in peers[i].AllAddrs() {
        if a in AddrsOf(init) {
          var i :| 0 <= i < |init| && a in init[i].AllAddrs();
          assert peers[i] == init[i];
        } else {
          assert a in peers[|peers| - 1].AllAddrs();
        }
      }
    }
  }

  /** `bootstrap_addrs_all`. */
  function BootstrapAddrsAll(): seq<SocketAddr>
  {
    AddrsOf(BOOTSTRAP_PEERS)
  }

  /** A fact about the table: nine IPv4 and two IPv6 addresses, all of them VPS addresses. */
  lemma BootstrapAddrsAllShape()
    ensures |BootstrapAddrsAll()| == 11
    ensures forall a :: a in BootstrapAddrsAll() ==> IsVpsAddr(a)
  {
    AddrsOfShape(BOOTSTRAP_PEERS);
    var t := BOOTSTRAP_PEERS;
    assert V6Count(t) == 2 by {
      assert t[..1][..0] == [];
      assert V6Count(t[..1]) == 0;
      assert t[..2][..1] == t[..1];
      assert V6Count(t[..2]) == 0;
      assert t[..3][..2] == t[..2];
      assert V6Count(t[..3]) == 1;
      assert t[..4][..3] == t[..3];
      assert V6Count(t[..4]) == 2;
      assert t[..5][..4] == t[..4];
      assert V6Count(t[..5]) == 2;
      assert t[..6][..5] == t[..5];
      assert V6Count(t[..6]) == 2;
      assert t[..7][..6] == t[..6];
      assert V6Count(t[..7]) == 2;
      assert t[..8][..7] == t[..7];
      assert V6Count(t[..8]) == 2;
      assert t[..9][..8] == t[..8];
      assert V6Count(t[..9]) == 2;
      assert t[..9] == t;
    }
    forall a | a in BootstrapAddrsAll() ensures IsVpsAddr(a) {
      var i :| 0 <= i < |t| && a in t[i].AllAddrs();
      match a.ip
      case V4(v4) =>
        assert t[i].ipv4 == v4;
        AnyV4Found(t, v4, i);
      case V6(v6) =>
        assert t[i].ipv6 == Some(v6);
        AnyV6Found(t, v6, i);
    }
  }

  /** `relay_node`: the first table entry. */
  function RelayNode(): (p: BootstrapPeer)
    ensures p == BOOTSTRAP_PEERS[0] && p.name == "saorsa-1" && p.isRelay
  {
    BOOTSTRAP_PEERS[0]
  }

  /** `filter(is_coordinator)`. */
  function Coordinators(peers: seq<BootstrapPeer>): (r: seq<BootstrapPeer>)
    ensures |r| <= |peers|
    ensures forall p :: p in r <==> p in peers && p.isCoordinator
    ensures (forall i :: 0 <= i < |peers| ==> peers[i].isCoordinator) ==> r == peers
    decreases |peers|
  {
    if |peers| == 0 then []
    else
      var init := peers[..|peers| - 1];
      var last := peers[|peers| - 1];
      assert peers == init + [last];
      Coordinators(init) + (if last.isCoordinator then [last] else [])
  }

  /**
   * The filter keeps order: the coordinators of two runs of peers are those
   * of the first run followed by those of the second.
   */
  lemma {:induction false} CoordinatorsAppend(a: seq<BootstrapPeer>, b: seq<BootstrapPeer>)
    ensures Coordinators(a + b) == Coordinators(a) + Coordinators(b)
    decreases |b|
  {
    if |b| == 0 {
      assert a + b == a;
    } else {
      var init, last := b[..|b| - 1], b[|b| - 1];
      assert (a + b)[..|a + b| - 1] == a + init;
      assert (a + b)[|a + b| - 1] == last;
      var tail := if last.isCoordinator then [last] else [];
      assert Coordinators(a + b) == Coordinators(a + init) + tail;
      assert Coordinators(b) == Coordinators(init) + tail;
      CoordinatorsAppend(a, init);
      Sorting.ConcatAssoc(Coordinators(a), Coordinators(init), tail);
    }
  }

  /** `coordinator_nodes`: every bootstrap peer coordinates. */
  function CoordinatorNodes(): (r: seq<BootstrapPeer>)
    ensures |r| == 9
    ensures r == BOOTSTRAP_PEERS
  {
    TableShape();
    Coordinators(BOOTSTRAP_PEERS)
  }

  /** `iter().any(|p| p.ipv4 == v4)`. */
  function AnyV4(peers: seq<BootstrapPeer>, v4: Ipv4Addr): (b: bool)
    ensures b <==> exists i :: 0 <= i < |peers| && peers[i].ipv4 == v4
    decreases |peers|
  {
    if |peers| == 0 then false
    else if peers[0].ipv4 == v4 then true
    else
      var b := AnyV4(peers[1..], v4);
      assert b ==> exists i :: 0 <= i < |peers| && peers[i].ipv4 == v4 by {
        if b {
          var i :| 0 <= i < |peers[1..]| && peers[1..][i].ipv4 == v4;
          assert peers[i + 1].ipv4 == v4;
        }
      }
      assert (exists i :: 0 <= i < |peers| && peers[i].ipv4 == v4) ==> b by {
        if i :| 0 <= i < |peers| && peers[i].ipv4 == v4 {
          assert i > 0 && peers[1..][i - 1].ipv4 == v4;
        }
      }
      b
  }

  /** `iter().any(|p| p.ipv6 == Some(v6))`. */
  function AnyV6(peers: seq<BootstrapPeer>, v6: Ipv6Addr): (b: bool)
    ensures b <==> exists i :: 0 <= i < |peers| && peers[i].ipv6 == Some(v6)
    decreases |peers|
  {
    if |peers| == 0 then false
    else if peers[0].ipv6 == Some(v6) then true
    else
      var b := AnyV6(peers[1..], v6);
      assert b ==> exists i :: 0 <= i < |peers| && peers[i].ipv6 == Some(v6) by {
        if b {
          var i :| 0 <= i < |peers[1..]| && peers[1..][i].ipv6 == Some(v6);
          assert peers[i + 1].ipv6 == Some(v6);
        }
      }
      assert (exists i :: 0 <= i < |peers| && peers[i].ipv6 == Some(v6)) ==> b by {
        if i :| 0 <= i < |peers| && peers[i].ipv6 == Some(v6) {
          assert i > 0 && peers[1..][i - 1].ipv6 == Some(v6);
        }
      }
      b
  }

  lemma AnyV4Found(peers: seq<BootstrapPeer>, v4: Ipv4Addr, i: nat)
    requires i < |peers| && peers[i].ipv4 == v4
    ensures AnyV4(peers, v4)
  {
  }

  lemma AnyV6Found(peers: seq<BootstrapPeer>, v6: Ipv6Addr, i: nat)
    requires i < |peers| && peers[i].ipv6 == Some(v6)
    ensures AnyV6(peers, v6)
  {
  }

  /** `is_vps_ip`. */
  function IsVpsIp(addr: IpAddr): (b: bool)
    ensures addr.V4? ==> (b <==> exists i :: 0 <= i < |BOOTSTRAP_PEERS| && BOOTSTRAP_PEERS[i].ipv4 == addr.v4)
    ensures addr.V6? ==> (b <==> exists i :: 0 <= i < |BOOTSTRAP_PEERS| && BOOTSTRAP_PEERS[i].ipv6 == Some(addr.v6))
  {
    match addr
    case V4(v4) => AnyV4(BOOTSTRAP_PEERS, v4)
    case V6(v6) => AnyV6(BOOTSTRAP_PEERS, v6)
  }

  /** `is_vps_addr`: the port does not matter. */
  function IsVpsAddr(addr: SocketAddr): (b: bool)
    ensures b == IsVpsIp(addr.ip)
  {
    IsVpsIp(addr.ip)
  }

  /** The relay's address is a VPS address and 1.2.3.4 is not. */
  lemma VpsIpExamples()
    ensures IsVpsIp(V4(Ipv4Addr(77, 42, 75, 115)))
    ensures !IsVpsIp(V4(Ipv4Addr(1, 2, 3, 4)))
  {
    AnyV4Found(BOOTSTRAP_PEERS, Ipv4Addr(77, 42, 75, 115), 0);
  }

  /** `iter().find(|p| p.name == name)`. */
  function FindByName(peers: seq<BootstrapPeer>, name: string): (r: Option<BootstrapPeer>)
    ensures r.None? <==> forall i :: 0 <= i < |peers| ==> peers[i].name != name
    ensures r.Some? ==> exists i: nat :: FirstNamed(peers, name, i) && r.value == peers[i]
    decreases |peers|
  {
    if |peers| == 0 then None
    else if peers[0].name == name then
      assert FirstNamed(peers, name, 0);
      Some(peers[0])
    else
      var r := FindByName(peers[1..], name);
      assert r.None? ==> forall i :: 0 <= i < |peers| ==> peers[i].name != name by {
        if r.None? {
          forall i | 0 <= i < |peers| ensures peers[i].name != name {
            if i > 0 { assert peers[1..][i - 1] == peers[i]; }
          }
        }
      }
      assert r.Some? ==> exists i: nat :: FirstNamed(peers, name, i) && r.value == peers[i] by {
        if r.Some? {
          var j: nat :| FirstNamed(peers[1..], name, j) && r.value == peers[1..][j];
          assert FirstNamed(peers, name, j + 1);
        }
      }
      r
  }

  /** `i` is the first position of `peers` named `name`. */
  predicate FirstNamed(peers: seq<BootstrapPeer>, name: string, i: nat)
  {
    i < |peers| && peers[i].name == name && forall k :: 0 <= k < i ==> peers[k].name != name
  }

  /** `get_peer_by_name`. */
  function GetPeerByName(name: string): (r: Option<BootstrapPeer>)
    ensures r.None? <==> forall i :: 0 <= i < |BOOTSTRAP_PEERS| ==> BOOTSTRAP_PEERS[i].name != name
    ensures r.Some? ==> r.value.name == name && r.value in BOOTSTRAP_PEERS
    ensures r.Some? ==> exists i: nat :: FirstNamed(BOOTSTRAP_PEERS, name, i) && r.value == BOOTSTRAP_PEERS[i]
  {
    var r := FindByName(BOOTSTRAP_PEERS, name);
    assert r.Some? ==> r.value.name == name && r.value in BOOTSTRAP_PEERS by {
      if r.Some? {
        var i: nat :| FirstNamed(BOOTSTRAP_PEERS, name, i) && r.value == BOOTSTRAP_PEERS[i];
      }
    }
    r
  }

  /** The peer named "saorsa-1" is the relay. */
  lemma PeerByNameExample()
    ensures GetPeerByName("saorsa-1") == Some(RelayNode())
  {
    assert FirstNamed(BOOTSTRAP_PEERS, "saorsa-1", 0);
  }

  /** Example lookup: the peer named "saorsa-5" is found, at 144.126.230.161. */
  lemma PeerByNameSaorsa5()
    ensures GetPeerByName("saorsa-5").Some?
    ensures GetPeerByName("saorsa-5").value.ipv4 == Ipv4Addr(144, 126, 230, 161)
  {
    var t := BOOTSTRAP_PEERS;
    forall k | 0 <= k < 4 ensures t[k].name != "saorsa-5" {
      assert t[k].name[7] != "saorsa-5"[7];
    }
    assert FirstNamed(t, "saorsa-5", 4);
  }
}

=== FILE: cli.dfy ===
/**
 * The test-network binary's command line: the argument record with its
 * defaults, the hand-written argv parser, and the conversion of the gossip
 * counters a node reports to the registry into the statistics record the
 * proof orchestrator consumes.
 *
 * The process arguments are a parameter (`argv`, program name already
 * skipped). Printing the help text and ending the process become the
 * `Exit` outcome with the exit code.
 */
module Cli {
  import opened Wrappers
  import opened Text
  import Gossip = GossipVerification
  import Crdt = CrdtVerification
  import BootstrapPeers

  type U16 = n: nat | n <= 0xFFFF
  type Usize = n: nat | n <= 0xFFFF_FFFF_FFFF_FFFF

  // ---------------------------------------------------------------------------
  // Arguments
  // ---------------------------------------------------------------------------

  datatype Args = Args(
    registry: bool,
    proofTest: bool,
    port: U16,
    quicPort: U16,
    bindPort: U16,
    registryUrl: string,
    maxPeers: Usize,
    quiet: bool,
    localOnly: bool,
    minProofNodes: Usize,
    gossipFirst: bool)

  const DEFAULT_REGISTRY_URL := "https://saorsa-1.saorsalabs.com"

  /**
   * `Args::default`: client mode with gossip-first discovery. The registry's
   * QUIC port is kept off the port the P2P nodes listen on.
   */
  function DefaultArgs(): (a: Args)
    ensures a.port == 8080 && a.quicPort == 9001 && a.bindPort == 0
    ensures a.maxPeers == 10 && a.minProofNodes == 2 && a.registryUrl == DEFAULT_REGISTRY_URL
    ensures a.gossipFirst && !a.registry && !a.proofTest && !a.quiet && !a.localOnly
    ensures a.quicPort != BootstrapPeers.P2P_PORT
  {
    Args(false, false, 8080, 9001, 0, DEFAULT_REGISTRY_URL, 10, false, false, 2, true)
  }

  // ---------------------------------------------------------------------------
  // Classifying one argument
  // ---------------------------------------------------------------------------

  /** Arguments that set or clear a boolean field on their own. */
  const FLAGS: set<string> :=
    {"--registry", "-q", "--quiet", "--local-only", "--proof-test", "--gossip-first", "--no-gossip-first"}

  /** Options that take the following argument as their value. */
  const VALUE_OPTIONS: set<string> :=
    {"--port", "--registry-url", "--max-peers", "--bind-port", "--quic-port", "--min-proof-nodes"}

  /** The value options whose value must parse as an unsigned integer. */
  const NUMERIC_OPTIONS: set<string> := VALUE_OPTIONS - {"--registry-url"}

  const HELP: set<string> := {"-h", "--help"}

  datatype ArgKind = Flag | ValueOption | Help | Unknown

  /** The arm of the argument match that `arg` selects. */
  function KindOf(arg: string): (k: ArgKind)
    ensures k == Flag <==> arg in FLAGS
    ensures k == ValueOption <==> arg in VALUE_OPTIONS
    ensures k == Help <==> arg in HELP
    ensures k == Unknown <==> arg !in FLAGS + VALUE_OPTIONS + HELP
  {
    if arg in FLAGS then Flag
    else if arg in VALUE_OPTIONS then ValueOption
    else if arg in HELP then Help
    else Unknown
  }

  /** The effect of a flag on the arguments. */
  function SetFlag(args: Args, flag: string): Args
  {
    match flag
    case "--registry" => args.(registry := true)
    case "-q" => args.(quiet := true)
    case "--quiet" => args.(quiet := true)
    case "--local-only" => args.(localOnly := true)
    case "--proof-test" => args.(proofTest := true)
    case "--gossip-first" => args.(gossipFirst := true)
    case "--no-gossip-first" => args.(gossipFirst := false)
    case _ => args
  }

  /** The value `text` parses to when it is within `max`, or `current` when it is not. */
  function NumberOr(text: string, max: nat, current: nat): (n: nat)
    ensures ParseBounded(text, max).Some? ==> n == ParseBounded(text, max).value
    ensures ParseBounded(text, max).None? ==> n == current
  {
    match ParseBounded(text, max)
    case Some(v) => v
    case None => current
  }

  /** The effect of a value option and its value: a value that does not parse is dropped. */
  function SetValue(args: Args, option: string, value: string): Args
  {
    match option
    case "--port" => args.(port := NumberOr(value, U16_MAX, args.port))
    case "--registry-url" => args.(registryUrl := value)
    case "--max-peers" => args.(maxPeers := NumberOr(value, U64_MAX, args.maxPeers))
    case "--bind-port" => args.(bindPort := NumberOr(value, U16_MAX, args.bindPort))
    case "--quic-port" => args.(quicPort := NumberOr(value, U16_MAX, args.quicPort))
    case "--min-proof-nodes" => args.(minProofNodes := NumberOr(value, U64_MAX, args.minProofNodes))
    case _ => args
  }

  // ---------------------------------------------------------------------------
  // Parsing the argument list
  // ---------------------------------------------------------------------------

  /** The parser's result: the arguments, or the code the process exits with. */
  datatype Outcome = Parsed(args: Args) | Exit(code: nat)

  /**
   * The parse of the remaining arguments `argv`, starting from `args`: a
   * flag sets its field, a value option consumes the next argument, an
   * option with nothing after it ends the loop, help exits with 0 and
   * anything else exits with 1.
   */
  function ParseFrom(args: Args, argv: seq<string>): Outcome
    decreases |argv|
  {
    if |argv| == 0 then Parsed(args)
    else match KindOf(argv[0])
      case Flag => ParseFrom(SetFlag(args, argv[0]), argv[1..])
      case ValueOption =>
        if |argv| > 1 then ParseFrom(SetValue(args, argv[0], argv[1]), argv[2..])
        else Parsed(args)
      case Help => Exit(0)
      case Unknown => Exit(1)
  }

  /** The parse of a whole argument list, from the defaults. */
  function Parse(argv: seq<string>): Outcome
  {
    ParseFrom(DefaultArgs(), argv)
  }

  /** `parse_args`: one pass over the arguments, updating `args` in place. */
  method ParseArgs(argv: seq<string>) returns (outcome: Outcome)
    ensures outcome == Parse(argv)
  {
    var args := DefaultArgs();
    var i := 0;
    while i < |argv|
      invariant i <= |argv|
      invariant ParseFrom(args, argv[i..]) == Parse(argv)
      decreases |argv| - i
    {
      var arg := argv[i];
      match KindOf(arg)
      case Flag =>
        assert argv[i..][1..] == argv[i + 1..];
        args := SetFlag(args, arg);
        i := i + 1;
      case ValueOption =>
        if i + 1 < |argv| {
          assert argv[i..][2..] == argv[i + 2..];
          args := SetValue(args, arg, argv[i + 1]);
          i := i + 2;
        } else {
          // The iterator is exhausted: the loop ends with `args` as it is.
          return Parsed(args);
        }
      case Help =>
        return Exit(0);
      case Unknown =>
        return Exit(1);
    }
    outcome := Parsed(args);
  }

  // ---------------------------------------------------------------------------
  // Properties of the parser
  // ---------------------------------------------------------------------------

  /** With no arguments the defaults are used. */
  lemma NoArgumentsGiveDefaults()
    ensures Parse([]) == Parsed(DefaultArgs())
  {
  }

  /** Help ends the process successfully, whatever follows it. */
  lemma HelpExitsZero(args: Args, help: string, rest: seq<string>)
    requires help in HELP
    ensures ParseFrom(args, [help] + rest) == Exit(0)
  {
  }

  /** An unrecognised argument ends the process with code 1, whatever follows it. */
  lemma UnknownExitsOne(args: Args, arg: string, rest: seq<string>)
    requires arg !in FLAGS + VALUE_OPTIONS + HELP
    ensures ParseFrom(args, [arg] + rest) == Exit(1)
  {
  }

  /** The process only ever exits with 0 or 1. */
  lemma {:induction false} ExitCodes(args: Args, argv: seq<string>)
    ensures ParseFrom(args, argv).Exit? ==> ParseFrom(args, argv).code in {0, 1}
    decreases |argv|
  {
    if |argv| > 0 {
      match KindOf(argv[0])
      case Flag => ExitCodes(SetFlag(args, argv[0]), argv[1..]);
      case ValueOption =>
        if |argv| > 1 { ExitCodes(SetValue(args, argv[0], argv[1]), argv[2..]); }
      case Help =>
      case Unknown =>
    }
  }

  /** A value option given last, with no value after it, changes nothing. */
  lemma TrailingOptionIgnored(args: Args, option: string)
    requires option in VALUE_OPTIONS
    ensures ParseFrom(args, [option]) == Parsed(args)
  {
  }

  /**
   * A numeric option whose value does not parse still consumes that value,
   * and its field keeps the value it had.
   */
  lemma BadNumberConsumed(args: Args, option: string, value: string, rest: seq<string>)
    requires option in NUMERIC_OPTIONS && ParseNat(value).None?
    ensures ParseFrom(args, [option, value] + rest) == ParseFrom(args, rest)
  {
    assert ([option, value] + rest)[2..] == rest;
  }

  /** `--port --quiet`: the flag is taken as the port's value, so quiet mode stays off. */
  lemma FlagSwallowedAsValue()
    ensures Parse(["--port", "--quiet"]) == Parsed(DefaultArgs())
  {
    assert "--port" in VALUE_OPTIONS;
    assert ParseNat("--quiet").None? by {
      assert !IsDigit("--quiet"[1]);
    }
  }

  /** Of two gossip-mode flags in a row, the later one decides. */
  lemma LaterGossipFlagWins(args: Args, first: string, second: string, rest: seq<string>)
    requires first in {"--gossip-first", "--no-gossip-first"} && second in {"--gossip-first", "--no-gossip-first"}
    ensures ParseFrom(args, [first, second] + rest) == ParseFrom(args, [second] + rest)
  {
    assert ([first, second] + rest)[1..] == [second] + rest;
    assert ([second] + rest)[1..] == rest;
  }

  /** Giving an option twice in a row: a valid second value replaces the first. */
  lemma LaterValueWins(args: Args, option: string, first: string, second: string, rest: seq<string>)
    requires option in VALUE_OPTIONS
    requires option in NUMERIC_OPTIONS ==>
      ParseBounded(second, if option in {"--max-peers", "--min-proof-nodes"} then U64_MAX else U16_MAX).Some?
    ensures ParseFrom(args, [option, first, option, second] + rest) == ParseFrom(args, [option, second] + rest)
  {
    assert ([option, first, option, second] + rest)[2..] == [option, second] + rest;
    var a := SetValue(SetValue(args, option, first), option, second);
    if option == "--port" {
      assert a == SetValue(args, option, second);
    } else if option == "--registry-url" {
      assert a == SetValue(args, option, second);
    } else if option == "--max-peers" {
      assert a == SetValue(args, option, second);
    } else if option == "--bind-port" {
      assert a == SetValue(args, option, second);
    } else if option == "--quic-port" {
      assert a == SetValue(args, option, second);
    } else {
      assert a == SetValue(args, option, second);
    }
  }

  /** A flag leaves every value field alone. */
  lemma SetFlagKeepsValues(args: Args, flag: string)
    ensures var b := SetFlag(args, flag);
      b.port == args.port && b.quicPort == args.quicPort && b.bindPort == args.bindPort &&
      b.registryUrl == args.registryUrl && b.maxPeers == args.maxPeers && b.minProofNodes == args.minProofNodes
  {
  }

  /** A flag only ever sets the boolean it names, and only `--no-gossip-first` clears one. */
  lemma SetFlagEffect(args: Args, flag: string)
    ensures var b := SetFlag(args, flag);
      (args.registry ==> b.registry) && (args.proofTest ==> b.proofTest) &&
      (args.quiet ==> b.quiet) && (args.localOnly ==> b.localOnly) &&
      (args.gossipFirst && flag != "--no-gossip-first" ==> b.gossipFirst)
  {
  }

  /** A value option leaves every flag alone. */
  lemma SetValueKeepsFlags(args: Args, option: string, value: string)
    ensures var b := SetValue(args, option, value);
      b.registry == args.registry && b.proofTest == args.proofTest && b.quiet == args.quiet &&
      b.localOnly == args.localOnly && b.gossipFirst == args.gossipFirst
  {
  }

  /** A value option leaves every value field but its own alone. */
  lemma SetValueEffect(args: Args, option: string, value: string)
    ensures var b := SetValue(args, option, value);
      (option != "--port" ==> b.port == args.port) &&
      (option != "--quic-port" ==> b.quicPort == args.quicPort) &&
      (option != "--bind-port" ==> b.bindPort == args.bindPort) &&
      (option != "--registry-url" ==> b.registryUrl == args.registryUrl) &&
      (option != "--max-peers" ==> b.maxPeers == args.maxPeers) &&
      (option != "--min-proof-nodes" ==> b.minProofNodes == args.minProofNodes)
  {
    if option == "--port" {
    } else if option == "--registry-url" {
    } else if option == "--max-peers" {
    } else if option == "--bind-port" {
    } else if option == "--quic-port" {
    } else if option == "--min-proof-nodes" {
    }
  }

  /**
   * Flags only ever set `registry`, `proof_test`, `quiet` and `local_only`,
   * and only `--no-gossip-first` clears `gossip_first`.
   */
  lemma {:induction false} FlagsSticky(args: Args, argv: seq<string>)
    requires ParseFrom(args, argv).Parsed?
    ensures var b := ParseFrom(args, argv).args;
      (args.registry ==> b.registry) && (args.proofTest ==> b.proofTest) &&
      (args.quiet ==> b.quiet) && (args.localOnly ==> b.localOnly) &&
      (args.gossipFirst && "--no-gossip-first" !in argv ==> b.gossipFirst)
    decreases |argv|
  {
    if |argv| > 0 {
      var k := KindOf(argv[0]);
      if k == Flag {
        assert "--no-gossip-first" !in argv ==> argv[0] != "--no-gossip-first" && "--no-gossip-first" !in argv[1..];
        SetFlagEffect(args, argv[0]);
        FlagsSticky(SetFlag(args, argv[0]), argv[1..]);
      } else if k == ValueOption && |argv| > 1 {
        assert "--no-gossip-first" !in argv ==> "--no-gossip-first" !in argv[2..];
        SetValueKeepsFlags(args, argv[0], argv[1]);
        FlagsSticky(SetValue(args, argv[0], argv[1]), argv[2..]);
      }
    }
  }

  /** `-q` anywhere in front of a clean parse leaves quiet mode on. */
  lemma QuietStaysOn(args: Args, rest: seq<string>)
    requires ParseFrom(args, ["-q"] + rest).Parsed?
    ensures ParseFrom(args, ["-q"] + rest).args.quiet
  {
    assert (["-q"] + rest)[1..] == rest;
    FlagsSticky(args.(quiet := true), rest);
  }

  /** A value field changes only when its own option appears among the arguments. */
  lemma {:induction false} ValuesOnlyFromTheirOption(args: Args, argv: seq<string>)
    requires ParseFrom(args, argv).Parsed?
    ensures var b := ParseFrom(args, argv).args;
      ("--port" !in argv ==> b.port == args.port) &&
      ("--quic-port" !in argv ==> b.quicPort == args.quicPort) &&
      ("--bind-port" !in argv ==> b.bindPort == args.bindPort) &&
      ("--registry-url" !in argv ==> b.registryUrl == args.registryUrl) &&
      ("--max-peers" !in argv ==> b.maxPeers == args.maxPeers) &&
      ("--min-proof-nodes" !in argv ==> b.minProofNodes == args.minProofNodes)
    decreases |argv|
  {
    if |argv| > 0 {
      var k := KindOf(argv[0]);
      if k == Flag {
        assert forall o :: o !in argv ==> o !in argv[1..];
        SetFlagKeepsValues(args, argv[0]);
        ValuesOnlyFromTheirOption(SetFlag(args, argv[0]), argv[1..]);
      } else if k == ValueOption && |argv| > 1 {
        assert forall o :: o !in argv ==> o != argv[0] && o !in argv[2..];
        SetValueEffect(args, argv[0], argv[1]);
        ValuesOnlyFromTheirOption(SetValue(args, argv[0], argv[1]), argv[2..]);
      }
    }
  }

  /** A worked command line: registry mode on port 9090, quiet. */
  lemma RegistryCommandLine()
    ensures Parse(["--registry", "--port", "9090", "-q"]) ==
            Parsed(DefaultArgs().(registry := true, port := 9090, quiet := true))
  {
    assert ParseNat("9090") == Some(9090) by {
      assert AllDigits("9090");
      assert "9090"[..3] == "909" && "909"[..2] == "90" && "90"[..1] == "9" && "9"[..0] == "";
      assert DigitsValue("9") == 9;
      assert DigitsValue("90") == 90;
      assert DigitsValue("909") == 909;
    }
    var argv := ["--registry", "--port", "9090", "-q"];
    assert argv[1..] == ["--port", "9090", "-q"];
    assert argv[1..][2..] == ["-q"];
  }

  // ---------------------------------------------------------------------------
  // Gossip statistics conversion
  // ---------------------------------------------------------------------------

  /** The flat gossip counters a node reports with its heartbeat. */
  datatype NodeGossipStats = NodeGossipStats(
    hyparviewActive: nat, hyparviewPassive: nat, hyparviewShuffles: nat, hyparviewJoins: nat,
    swimAlive: nat, swimSuspect: nat, swimDead: nat, swimPingsSent: nat, swimAcksReceived: nat,
    plumtreeEager: nat, plumtreeLazy: nat, plumtreeSent: nat, plumtreeReceived: nat,
    connDirectIpv4: nat, connDirectIpv6: nat, connHolePunched: nat, connRelayed: nat,
    crdtEntries: nat, crdtMerges: nat, crdtVectorClockLen: nat,
    coordinatorActive: nat, coordinatorSuccess: nat, coordinatorFailed: nat,
    groupsCount: nat, groupsTotalMembers: nat,
    rendezvousRegistrations: nat, rendezvousDiscoveries: nat, rendezvousPoints: nat)

  /**
   * `convert_gossip_stats`: the node's counters regrouped per protocol.
   * Counters the node does not report are zero, and a node counts as a
   * coordinator exactly when it reports an active coordinator.
   */
  function ConvertGossipStats(n: NodeGossipStats): (g: Gossip.GossipStats)
    ensures g.plumtree.duplicates == 0 && g.plumtree.grafts == 0 && g.plumtree.prunes == 0
    ensures g.crdt.lastSyncAgeSecs == 0
    ensures g.coordinator.isCoordinator <==> n.coordinatorActive > 0
  {
    Gossip.GossipStats(
      Gossip.HyParViewStats(n.hyparviewActive, n.hyparviewPassive, n.hyparviewShuffles, n.hyparviewJoins),
      Gossip.SwimStats(n.swimAlive, n.swimSuspect, n.swimDead, n.swimPingsSent, n.swimAcksReceived),
      Gossip.PlumtreeStats(n.plumtreeEager, n.plumtreeLazy, n.plumtreeSent, n.plumtreeReceived, 0, 0, 0),
      Gossip.ConnectionBreakdown(n.connDirectIpv4, n.connDirectIpv6, n.connHolePunched, n.connRelayed),
      Crdt.CrdtStats(n.crdtEntries, n.crdtMerges, n.crdtVectorClockLen, 0),
      Gossip.CoordinatorStats(n.coordinatorActive > 0, n.coordinatorActive, n.coordinatorSuccess, n.coordinatorFailed),
      Gossip.GroupStats(n.groupsCount, n.groupsTotalMembers),
      Gossip.RendezvousStats(n.rendezvousRegistrations, n.rendezvousDiscoveries, n.rendezvousPoints))
  }

  /** The reported counters read back out of a converted record. */
  function NodeCounters(g: Gossip.GossipStats): NodeGossipStats
  {
    NodeGossipStats(
      g.hyparview.activeViewSize, g.hyparview.passiveViewSize, g.hyparview.shuffles, g.hyparview.joins,
      g.swim.aliveCount, g.swim.suspectCount, g.swim.deadCount, g.swim.pingsSent, g.swim.acksReceived,
      g.plumtree.eagerPeers, g.plumtree.lazyPeers, g.plumtree.messagesSent, g.plumtree.messagesReceived,
      g.connectionTypes.directIpv4, g.connectionTypes.directIpv6, g.connectionTypes.holePunched, g.connectionTypes.relayed,
      g.crdt.entries, g.crdt.merges, g.crdt.vectorClockLen,
      g.coordinator.activeCoordinators, g.coordinator.coordinationSuccess, g.coordinator.coordinationFailed,
      g.groups.groupsCount, g.groups.totalMembers,
      g.rendezvous.registrations, g.rendezvous.discoveries, g.rendezvous.activeProviders)
  }

  /** Records a conversion can produce: unreported counters zero, the coordinator flag consistent. */
  predicate Converted(g: Gossip.GossipStats)
  {
    g.plumtree.duplicates == 0 && g.plumtree.grafts == 0 && g.plumtree.prunes == 0 &&
    g.crdt.lastSyncAgeSecs == 0 &&
    (g.coordinator.isCoordinator <==> g.coordinator.activeCoordinators > 0)
  }

  /** The conversion loses no reported counter. */
  lemma ConversionLossless(n: NodeGossipStats)
    ensures NodeCounters(ConvertGossipStats(n)) == n
    ensures Converted(ConvertGossipStats(n))
  {
  }

  /** Every record of that shape is the conversion of its own counters. */
  lemma ConversionOnto(g: Gossip.GossipStats)
    ensures Converted(g) <==> ConvertGossipStats(NodeCounters(g)) == g
  {
  }
}

=== FILE: communitas.dfy ===
/**
 * The deterministic demo identity of the embedded Communitas app: a
 * four-word name derived from the peer id, a display name built from it, and
 * a storage directory named after it.
 *
 * SHA-256 and the four-word encoder are not modelled: the digest and the
 * encoder's dotted output are parameters.
 */
module Communitas {
  import opened Wrappers
  import opened Text

  type Octet = n: nat | n < 256

  // ---------------------------------------------------------------------------
  // Port derivation
  // ---------------------------------------------------------------------------

  /** Lowest port the derived identity encodes. */
  const PORT_BASE: nat := 1000
  /** Number of distinct ports the derivation can produce. */
  const PORT_SPAN: nat := 55000

  /** `(u16::from_be_bytes([hi, lo]) % 55000) + 1000`. */
  function PortFromSeed(hi: Octet, lo: Octet): (port: nat)
    ensures PORT_BASE <= port < PORT_BASE + PORT_SPAN
    ensures port < 0x1_0000
    ensures (port - PORT_BASE) % PORT_SPAN == (hi * 256 + lo) % PORT_SPAN
  {
    (hi * 256 + lo) % PORT_SPAN + PORT_BASE
  }

  /** A seed below the span is encoded one-to-one. */
  lemma PortSeedRecovered(hi: Octet, lo: Octet)
    requires hi * 256 + lo < PORT_SPAN
    ensures PortFromSeed(hi, lo) - PORT_BASE == hi * 256 + lo
  {
  }

  /** Seeds 0 and 55000 give the same port: the derivation is not injective. */
  lemma PortSeedsCollide()
    ensures PortFromSeed(0, 0) == PortFromSeed(214, 216) == PORT_BASE
  {
  }

  // ---------------------------------------------------------------------------
  // Four words
  // ---------------------------------------------------------------------------

  /** `str::replace(from, to)` for single characters. */
  function ReplaceChar(s: string, from: char, to: char): (r: string)
    ensures |r| == |s|
    ensures forall i :: 0 <= i < |s| ==> r[i] == if s[i] == from then to else s[i]
    ensures from != to ==> from !in r
  {
    seq(|s|, i requires 0 <= i < |s| => if s[i] == from then to else s[i])
  }

  lemma ReplaceAppend(a: string, b: string, from: char, to: char)
    ensures ReplaceChar(a + b, from, to) == ReplaceChar(a, from, to) + ReplaceChar(b, from, to)
  {
  }

  /** Replacing the separator of a join by another gives the join with the other. */
  lemma {:induction false} ReplaceJoin(words: seq<string>, from: char, to: char)
    requires forall i :: 0 <= i < |words| ==> from !in words[i]
    ensures ReplaceChar(Join(words, [from]), from, to) == Join(words, [to])
    decreases |words|
  {
    if |words| == 1 {
      assert ReplaceChar(words[0], from, to) == words[0];
    } else if |words| > 1 {
      ReplaceJoin(words[1..], from, to);
      ReplaceAppend(words[0] + [from], Join(words[1..], [from]), from, to);
      ReplaceAppend(words[0], [from], from, to);
      assert ReplaceChar(words[0], from, to) == words[0];
    }
  }

  /** The two address parts the encoder is given: the first four digest bytes and the derived port. */
  function EncoderInput(digest: seq<Octet>): (input: (seq<Octet>, nat))
    requires |digest| >= 6
    ensures input.0 == digest[..4] && input.1 == PortFromSeed(digest[4], digest[5])
  {
    (digest[..4], PortFromSeed(digest[4], digest[5]))
  }

  /**
   * `generate_four_words`: the encoder's dotted words, joined by `-` instead.
   * `encodeIpv4` stands for the four-word encoder; `None` is its failure.
   */
  function GenerateFourWords(digest: seq<Octet>, encodeIpv4: (seq<Octet>, nat) -> Option<string>)
    : (r: Result<string, string>)
    requires |digest| == 32
    ensures r.Err? <==> encodeIpv4(EncoderInput(digest).0, EncoderInput(digest).1).None?
    ensures r.Ok? ==> '.' !in r.value
    ensures r.Err? ==> r.error == "Failed to encode peer identity into four words"
  {
    var input := EncoderInput(digest);
    match encodeIpv4(input.0, input.1)
    case None => Err("Failed to encode peer identity into four words")
    case Some(dotted) => Ok(ReplaceChar(dotted, '.', '-'))
  }

  /**
   * When the encoder returns four dot-separated words, the identity is those
   * four words separated by exactly three dashes.
   */
  lemma FourWordsDashed(digest: seq<Octet>, encodeIpv4: (seq<Octet>, nat) -> Option<string>, words: seq<string>)
    requires |digest| == 32 && |words| == 4
    requires forall i :: 0 <= i < |words| ==> '.' !in words[i] && '-' !in words[i]
    requires encodeIpv4(EncoderInput(digest).0, EncoderInput(digest).1) == Some(Join(words, "."))
    ensures GenerateFourWords(digest, encodeIpv4) == Ok(Join(words, "-"))
    ensures Split(GenerateFourWords(digest, encodeIpv4).value, '-') == words
  {
    ReplaceJoin(words, '.', '-');
    SplitJoin(words, '-');
  }

  // ---------------------------------------------------------------------------
  // Title case and the display name
  // ---------------------------------------------------------------------------

  /** The first character in ASCII upper case, the rest in ASCII lower case. */
  function Capitalise(part: string): (r: string)
    ensures |r| == |part|
    ensures |part| > 0 ==> r[0] == UpperChar(part[0]) && r[1..] == Lower(part[1..])
    ensures forall i :: 0 <= i < |part| && !IsAlpha(part[i]) ==> r[i] == part[i]
  {
    if |part| == 0 then "" else [UpperChar(part[0])] + Lower(part[1..])
  }

  /** Capitalising twice is capitalising once. */
  lemma CapitaliseIdempotent(part: string)
    ensures Capitalise(Capitalise(part)) == Capitalise(part)
  {
    if |part| > 0 {
      var c := Capitalise(part);
      assert !IsLower(c[0]);
      LowerLower(part[1..]);
      assert c[1..] == Lower(part[1..]);
    }
  }

  /** `title_case`: split on `-`, capitalise each part, join with spaces. */
  function TitleCase(words: string): string
  {
    var parts := Split(words, '-');
    Join(seq(|parts|, i requires 0 <= i < |parts| => Capitalise(parts[i])), " ")
  }

  /**
   * For a name without spaces, the title-cased words are the capitalised
   * dash-separated parts, one word per part and in the same order.
   */
  lemma TitleCaseWords(words: string)
    requires ' ' !in words
    ensures var parts := Split(words, '-');
      Split(TitleCase(words), ' ') == seq(|parts|, i requires 0 <= i < |parts| => Capitalise(parts[i]))
  {
    var parts := Split(words, '-');
    var caps := seq(|parts|, i requires 0 <= i < |parts| => Capitalise(parts[i]));
    forall i | 0 <= i < |caps| ensures ' ' !in caps[i] {
      PartHasNoSpace(words, i);
      CapitaliseNoSpace(parts[i]);
    }
    SplitJoin(caps, ' ');
  }

  /** Capitalising never introduces a space. */
  lemma CapitaliseNoSpace(part: string)
    requires ' ' !in part
    ensures ' ' !in Capitalise(part)
  {
    var c := Capitalise(part);
    forall k | 0 <= k < |c| ensures c[k] != ' ' {
      assert part[k] != ' ';
    }
  }

  /** A part of a split has no character the whole string lacks. */
  lemma PartHasNoSpace(words: string, i: nat)
    requires ' ' !in words && i < |Split(words, '-')|
    ensures ' ' !in Split(words, '-')[i]
  {
    JoinSplit(words, '-');
    var parts := Split(words, '-');
    JoinHasNoChar(parts, '-', ' ', i);
  }

  /** Every part of a join occurs in it. */
  lemma {:induction false} JoinHasNoChar(parts: seq<string>, sep: char, c: char, i: nat)
    requires i < |parts| && c !in Join(parts, [sep])
    ensures c !in parts[i]
    decreases |parts|
  {
    if |parts| > 1 && i > 0 {
      assert Join(parts, [sep]) == parts[0] + [sep] + Join(parts[1..], [sep]);
      JoinHasNoChar(parts[1..], sep, c, i - 1);
    } else if |parts| > 1 {
      assert Join(parts, [sep]) == parts[0] + [sep] + Join(parts[1..], [sep]);
    }
  }

  /** A storage path, as its components. */
  type Path = seq<string>

  datatype DemoIdentity = DemoIdentity(fourWords: string, displayName: string, storageDir: Path)

  /** `format!("Demo {}", title_case(..))`. */
  function DisplayName(fourWords: string): (name: string)
    ensures "Demo " <= name
    ensures name[5..] == TitleCase(fourWords)
  {
    "Demo " + TitleCase(fourWords)
  }

  /**
   * `DemoIdentity::derive`, given the outcome of `generate_four_words` and
   * whether `create_dir_all` succeeded on the storage directory.
   */
  function Derive(fourWords: Result<string, string>, baseDir: Path, dirCreated: bool): (r: Result<DemoIdentity, string>)
    ensures r.Ok? <==> fourWords.Ok? && dirCreated
    ensures fourWords.Err? ==> r == Err(fourWords.error)
    ensures r.Ok? ==> r.value.fourWords == fourWords.value
    ensures r.Ok? ==> r.value.displayName == DisplayName(fourWords.value)
    ensures r.Ok? ==> "Demo " <= r.value.displayName
    ensures r.Ok? ==> r.value.storageDir == baseDir + ["communitas", fourWords.value]
    ensures r.Ok? ==> r.value.storageDir[|r.value.storageDir| - 1] == r.value.fourWords
  {
    match fourWords
    case Err(e) => Err(e)
    case Ok(words) =>
      var storageDir := baseDir + ["communitas", words];
      if dirCreated then Ok(DemoIdentity(words, DisplayName(words), storageDir))
      else Err("Failed to create Communitas storage directory")
  }
}

=== FILE: crdt_verification.dfy ===
/**
 * CRDT convergence verification: the operation tracker with its per-node
 * vector clocks, the happens-before and concurrency relations, the search
 * for concurrent pairs, the convergence state with its majority hash, the
 * `CrdtVerifier` that ties them together, and the `LiveConvergenceVerifier`
 * that caches its verdict until new state is captured.
 *
 * Times (`Instant`) are milliseconds on one clock, passed in as `now`.
 */
module CrdtVerification {
  import opened Wrappers
  import opened Text
  import opened MapSums

  // ---------------------------------------------------------------------------
  // Vector clocks
  // ---------------------------------------------------------------------------

  type VectorClock = map<string, nat>

  /** `clock.get(k).copied().unwrap_or(0)`. */
  function ClockGet(c: VectorClock, k: string): nat
  {
    if k in c then c[k] else 0
  }

  /** `happens_before`: every entry of `a` is at most the matching entry of `b`, and the clocks differ. */
  predicate HappensBefore(a: VectorClock, b: VectorClock)
  {
    (forall k :: k in a ==> ClockGet(b, k) >= a[k]) && a != b
  }

  /** A clock with no zero entry, as every clock the tracker hands out is. */
  predicate Positive(c: VectorClock)
  {
    forall k :: k in c ==> c[k] > 0
  }

  /** Clocks without zero entries that bound each other are equal. */
  lemma MutualBoundEqual(a: VectorClock, b: VectorClock)
    requires Positive(a) && Positive(b)
    requires forall k :: k in a ==> ClockGet(b, k) >= a[k]
    requires forall k :: k in b ==> ClockGet(a, k) >= b[k]
    ensures a == b
  {
    forall k | k in a ensures k in b { assert ClockGet(b, k) >= a[k] > 0; }
    forall k | k in b ensures k in a { assert ClockGet(a, k) >= b[k] > 0; }
    assert a.Keys == b.Keys;
  }

  /** Between clocks without zero entries, happens-before is never mutual. */
  lemma HappensBeforeAsymmetric(a: VectorClock, b: VectorClock)
    requires Positive(a) && Positive(b)
    ensures !(HappensBefore(a, b) && HappensBefore(b, a))
  {
    if HappensBefore(a, b) && HappensBefore(b, a) {
      MutualBoundEqual(a, b);
    }
  }

  /** Example: with a zero entry both directions can hold at once, as `{}` and `{"n": 0}` each precede the other. */
  lemma HappensBeforeZeroEntry()
    ensures HappensBefore(map[], map["n" := 0]) && HappensBefore(map["n" := 0], map[])
  {
    assert "n" in map["n" := 0];
  }

  /** Happens-before is transitive. */
  lemma HappensBeforeTransitive(a: VectorClock, b: VectorClock, c: VectorClock)
    requires Positive(a) && Positive(b) && Positive(c)
    requires HappensBefore(a, b) && HappensBefore(b, c)
    ensures HappensBefore(a, c)
  {
    forall k | k in a ensures ClockGet(c, k) >= a[k] {
      assert k in b;
    }
    if a == c {
      MutualBoundEqual(a, b);
    }
  }

  // ---------------------------------------------------------------------------
  // Operations and the tracker
  // ---------------------------------------------------------------------------

  /** The parts of a `CrdtOperation` the tracker reads and writes. */
  datatype CrdtOperation = CrdtOperation(nodeId: string, operationType: string, vectorClock: VectorClock)

  /** `are_concurrent`: neither operation's clock happened before the other's. */
  predicate AreConcurrent(x: CrdtOperation, y: CrdtOperation)
  {
    !HappensBefore(x.vectorClock, y.vectorClock) && !HappensBefore(y.vectorClock, x.vectorClock)
  }

  lemma AreConcurrentSymmetric(x: CrdtOperation, y: CrdtOperation)
    ensures AreConcurrent(x, y) <==> AreConcurrent(y, x)
  {
  }

  /** How many of `ops` come from `node`. */
  function Count(ops: seq<CrdtOperation>, node: string): (n: nat)
    ensures n <= |ops|
  {
    if |ops| == 0 then 0
    else Count(ops[..|ops| - 1], node) + (if ops[|ops| - 1].nodeId == node then 1 else 0)
  }

  /** The operations of `node`, in recording order. */
  function OpsOf(ops: seq<CrdtOperation>, node: string): (r: seq<CrdtOperation>)
    ensures |r| == Count(ops, node)
    ensures forall i :: 0 <= i < |r| ==> r[i].nodeId == node
  {
    if |ops| == 0 then []
    else OpsOf(ops[..|ops| - 1], node) + (if ops[|ops| - 1].nodeId == node then [ops[|ops| - 1]] else [])
  }

  /** The clock of `node` after `ops`: only its own entry, holding its operation count. */
  function ClockAfter(ops: seq<CrdtOperation>, node: string): VectorClock
  {
    map[node := Count(ops, node)]
  }

  /** Every operation carries the clock its node had right after recording it. */
  ghost predicate Stamped(ops: seq<CrdtOperation>)
  {
    forall i :: 0 <= i < |ops| ==> ops[i].vectorClock == ClockAfter(ops[..i + 1], ops[i].nodeId)
  }

  /** Appending one operation adds one to its own node's count and nothing to the others. */
  lemma CountAppend(ops: seq<CrdtOperation>, x: CrdtOperation, node: string)
    ensures Count(ops + [x], node) == Count(ops, node) + (if x.nodeId == node then 1 else 0)
    ensures OpsOf(ops + [x], node) == OpsOf(ops, node) + (if x.nodeId == node then [x] else [])
  {
    assert (ops + [x])[..|ops|] == ops;
  }

  lemma {:induction false} CountMonotone(ops: seq<CrdtOperation>, a: nat, b: nat, node: string)
    requires a <= b <= |ops|
    ensures Count(ops[..a], node) <= Count(ops[..b], node)
    decreases b - a
  {
    if a < b {
      CountMonotone(ops, a, b - 1, node);
      assert ops[..b] == ops[..b - 1] + [ops[b - 1]];
      CountAppend(ops[..b - 1], ops[b - 1], node);
    }
  }

  lemma CountPrefixGrows(ops: seq<CrdtOperation>, i: nat, j: nat)
    requires i < j < |ops| && ops[j].nodeId == ops[i].nodeId
    ensures 1 <= Count(ops[..i + 1], ops[i].nodeId) < Count(ops[..j + 1], ops[i].nodeId)
  {
    var n := ops[i].nodeId;
    assert ops[..i + 1] == ops[..i] + [ops[i]];
    CountAppend(ops[..i], ops[i], n);
    assert ops[..j + 1] == ops[..j] + [ops[j]];
    CountAppend(ops[..j], ops[j], n);
    CountMonotone(ops, i + 1, j, n);
  }

  /**
   * Operations recorded by the tracker from the same node are ordered by
   * happens-before in recording order, and operations from different nodes
   * are always concurrent.
   */
  lemma RecordedOrdering(ops: seq<CrdtOperation>, i: nat, j: nat)
    requires Stamped(ops) && i < j < |ops|
    ensures ops[i].nodeId == ops[j].nodeId ==> HappensBefore(ops[i].vectorClock, ops[j].vectorClock)
    ensures ops[i].nodeId != ops[j].nodeId ==> AreConcurrent(ops[i], ops[j])
  {
    var a, b := ops[i], ops[j];
    assert a.vectorClock == ClockAfter(ops[..i + 1], a.nodeId);
    assert b.vectorClock == ClockAfter(ops[..j + 1], b.nodeId);
    StampedOwnCount(ops, i);
    StampedOwnCount(ops, j);
    if a.nodeId == b.nodeId {
      CountPrefixGrows(ops, i, j);
      assert a.vectorClock[a.nodeId] < b.vectorClock[a.nodeId];
    } else {
      assert a.nodeId in a.vectorClock && ClockGet(b.vectorClock, a.nodeId) == 0;
      assert b.nodeId in b.vectorClock && ClockGet(a.vectorClock, b.nodeId) == 0;
    }
  }

  lemma StampedOwnCount(ops: seq<CrdtOperation>, i: nat)
    requires Stamped(ops) && i < |ops|
    ensures Count(ops[..i + 1], ops[i].nodeId) >= 1
  {
    assert ops[..i + 1] == ops[..i] + [ops[i]];
    CountAppend(ops[..i], ops[i], ops[i].nodeId);
  }

  /** A node has a clock exactly when it recorded something; the clock holds only its own count. */
  ghost predicate ClocksMatch(ops: seq<CrdtOperation>, clocks: map<string, VectorClock>)
  {
    (forall n :: n in clocks <==> Count(ops, n) > 0) &&
    (forall n :: n in clocks ==> clocks[n] == ClockAfter(ops, n))
  }

  /** Each node's list is its operations in recording order. */
  ghost predicate ListsMatch(ops: seq<CrdtOperation>, byNode: map<string, seq<CrdtOperation>>)
  {
    forall n :: n in byNode ==> byNode[n] == OpsOf(ops, n)
  }

  /**
   * Each operation carries its node's clock at recording time; a node has
   * a clock and a list exactly when it recorded something; its clock holds
   * only its own entry, the number of its operations; its list is its
   * operations in order.
   */
  ghost predicate TrackerValid(ops: seq<CrdtOperation>, byNode: map<string, seq<CrdtOperation>>,
                               clocks: map<string, VectorClock>)
  {
    Stamped(ops) && ClocksMatch(ops, clocks) && byNode.Keys == clocks.Keys && ListsMatch(ops, byNode)
  }

  /** Recording keeps the tracker's state consistent. */
  lemma RecordKeepsValid(ops: seq<CrdtOperation>, byNode: map<string, seq<CrdtOperation>>,
                         clocks: map<string, VectorClock>, stamped: CrdtOperation)
    requires TrackerValid(ops, byNode, clocks)
    requires stamped.vectorClock == map[stamped.nodeId := Count(ops, stamped.nodeId) + 1]
    ensures TrackerValid(ops + [stamped], byNode[stamped.nodeId := OpsOf(ops, stamped.nodeId) + [stamped]],
                         clocks[stamped.nodeId := stamped.vectorClock])
  {
    StampedAppend(ops, stamped);
    RecordKeepsClocks(ops, clocks, stamped);
    RecordKeepsLists(ops, byNode, stamped);
  }

  /** What a consistent tracker holds for `n`: a clock whose own entry is `n`'s count, and `n`'s operations. */
  lemma TrackerLookup(ops: seq<CrdtOperation>, byNode: map<string, seq<CrdtOperation>>,
                      clocks: map<string, VectorClock>, n: string)
    requires TrackerValid(ops, byNode, clocks)
    ensures var clock := if n in clocks then clocks[n] else map[];
      (if n in clock then clock[n] else 0) == Count(ops, n) && clock[n := Count(ops, n) + 1] == map[n := Count(ops, n) + 1]
    ensures (if n in byNode then byNode[n] else []) == OpsOf(ops, n)
  {
    var clock := if n in clocks then clocks[n] else map[];
    assert clock[n := Count(ops, n) + 1] == map[n := Count(ops, n) + 1];
    if n !in byNode {
      assert Count(ops, n) == 0;
    }
  }

  /**
   * `OperationTracker`: every operation in recording order, the operations
   * of each node, and each node's vector clock.
   */
  class OperationTracker {
    var operations: seq<CrdtOperation>
    var byNode: map<string, seq<CrdtOperation>>
    var vectorClocks: map<string, VectorClock>

    /**
     * The tracker's state is consistent (see `TrackerValid`).
     */
    ghost predicate Valid()
      reads this
    {
      TrackerValid(operations, byNode, vectorClocks)
    }

    constructor ()
      ensures Valid()
      ensures operations == [] && byNode == map[] && vectorClocks == map[]
    {
      operations, byNode, vectorClocks := [], map[], map[];
    }

    /**
     * `record`: tick the node's own clock entry, stamp the operation with a
     * copy of the clock, and append it to both lists.
     */
    method Record(op: CrdtOperation)
      requires Valid()
      modifies this
      ensures Valid()
      ensures var stamped := op.(vectorClock := map[op.nodeId := Count(old(operations), op.nodeId) + 1]);
        operations == old(operations) + [stamped] &&
        vectorClocks == old(vectorClocks)[op.nodeId := stamped.vectorClock] &&
        byNode == old(byNode)[op.nodeId := OpsOf(old(operations), op.nodeId) + [stamped]]
    {
      var n := op.nodeId;
      TrackerLookup(operations, byNode, vectorClocks, n);
      var clock := if n in vectorClocks then vectorClocks[n] else map[];
      var current := if n in clock then clock[n] else 0;
      clock := clock[n := current + 1];
      var stamped := op.(vectorClock := clock);
      var list := if n in byNode then byNode[n] else [];
      RecordKeepsValid(operations, byNode, vectorClocks, stamped);
      operations, vectorClocks, byNode := operations + [stamped], vectorClocks[n := clock], byNode[n := list + [stamped]];
    }

    /** `find_concurrent_pairs`: the index pairs (i, j), i < j, of concurrent operations, in index order. */
    method FindConcurrentPairs() returns (pairs: seq<(nat, nat)>)
      ensures pairs == ConcurrentPairs(operations)
    {
      var ops := operations;
      pairs := [];
      var i := 0;
      while i < |ops|
        invariant 0 <= i <= |ops|
        invariant pairs == Rows(ops, i)
      {
        var j := i + 1;
        while j < |ops|
          invariant i + 1 <= j <= |ops|
          invariant pairs == Rows(ops, i) + Row(ops, i, j)
        {
          if AreConcurrent(ops[i], ops[j]) {
            pairs := pairs + [(i, j)];
          }
          j := j + 1;
        }
        i := i + 1;
      }
    }

    /** `clear`. */
    method Clear()
      modifies this
      ensures Valid()
      ensures operations == [] && byNode == map[] && vectorClocks == map[]
    {
      operations, byNode, vectorClocks := [], map[], map[];
    }
  }

  lemma StampedAppend(ops: seq<CrdtOperation>, stamped: CrdtOperation)
    requires Stamped(ops)
    requires stamped.vectorClock == map[stamped.nodeId := Count(ops, stamped.nodeId) + 1]
    ensures Stamped(ops + [stamped])
  {
    var ops' := ops + [stamped];
    forall i | 0 <= i < |ops'|
      ensures ops'[i].vectorClock == ClockAfter(ops'[..i + 1], ops'[i].nodeId)
    {
      if i < |ops| {
        assert ops'[..i + 1] == ops[..i + 1];
      } else {
        assert ops'[..i + 1] == ops + [stamped];
        CountAppend(ops, stamped, stamped.nodeId);
      }
    }
  }

  lemma RecordKeepsClocks(ops: seq<CrdtOperation>, clocks: map<string, VectorClock>, stamped: CrdtOperation)
    requires ClocksMatch(ops, clocks)
    requires stamped.vectorClock == map[stamped.nodeId := Count(ops, stamped.nodeId) + 1]
    ensures ClocksMatch(ops + [stamped], clocks[stamped.nodeId := stamped.vectorClock])
  {
    var ops', clocks' := ops + [stamped], clocks[stamped.nodeId := stamped.vectorClock];
    forall m ensures m in clocks' <==> Count(ops', m) > 0 {
      CountAppend(ops, stamped, m);
    }
    forall m | m in clocks' ensures clocks'[m] == ClockAfter(ops', m) {
      CountAppend(ops, stamped, m);
    }
  }

  lemma RecordKeepsLists(ops: seq<CrdtOperation>, byNode: map<string, seq<CrdtOperation>>, stamped: CrdtOperation)
    requires ListsMatch(ops, byNode)
    ensures ListsMatch(ops + [stamped], byNode[stamped.nodeId := OpsOf(ops, stamped.nodeId) + [stamped]])
  {
    forall m {
      CountAppend(ops, stamped, m);
    }
  }

  // ---------------------------------------------------------------------------
  // Concurrent pairs, specified row by row
  // ---------------------------------------------------------------------------

  /** The concurrent pairs (i, k) with i < k < j. */
  function Row(ops: seq<CrdtOperation>, i: nat, j: nat): seq<(nat, nat)>
    requires i < |ops| && j <= |ops|
    decreases j
  {
    if j <= i + 1 then []
    else Row(ops, i, j - 1) + (if AreConcurrent(ops[i], ops[j - 1]) then [(i, j - 1)] else [])
  }

  /** The concurrent pairs whose first index is below `i`. */
  function Rows(ops: seq<CrdtOperation>, i: nat): seq<(nat, nat)>
    requires i <= |ops|
  {
    if i == 0 then [] else Rows(ops, i - 1) + Row(ops, i - 1, |ops|)
  }

  /** Every concurrent pair of indices, first index ascending, then second. */
  function ConcurrentPairs(ops: seq<CrdtOperation>): seq<(nat, nat)>
  {
    Rows(ops, |ops|)
  }

  predicate PairBefore(p: (nat, nat), q: (nat, nat))
  {
    p.0 < q.0 || (p.0 == q.0 && p.1 < q.1)
  }

  lemma {:induction false} RowMembers(ops: seq<CrdtOperation>, i: nat, j: nat)
    requires i < |ops| && j <= |ops|
    ensures forall p :: p in Row(ops, i, j) <==> p.0 == i && i < p.1 < j && AreConcurrent(ops[i], ops[p.1])
    ensures forall a, b :: 0 <= a < b < |Row(ops, i, j)| ==> PairBefore(Row(ops, i, j)[a], Row(ops, i, j)[b])
    decreases j
  {
    if j > i + 1 {
      RowMembers(ops, i, j - 1);
    }
  }

  lemma {:induction false} RowsMembers(ops: seq<CrdtOperation>, i: nat)
    requires i <= |ops|
    ensures forall p :: p in Rows(ops, i) <==> p.0 < i && p.0 < p.1 < |ops| && AreConcurrent(ops[p.0], ops[p.1])
    ensures forall a, b :: 0 <= a < b < |Rows(ops, i)| ==> PairBefore(Rows(ops, i)[a], Rows(ops, i)[b])
  {
    if i > 0 {
      RowsMembers(ops, i - 1);
      RowMembers(ops, i - 1, |ops|);
      var prev, row := Rows(ops, i - 1), Row(ops, i - 1, |ops|);
      forall a, b | 0 <= a < b < |prev + row| ensures PairBefore((prev + row)[a], (prev + row)[b]) {
        if b >= |prev| && a < |prev| {
          assert prev[a] in prev;
          assert row[b - |prev|] in row;
        }
      }
    }
  }

  /** `find_concurrent_pairs` finds every concurrent pair i < j once, in index order, and nothing else. */
  lemma ConcurrentPairsExact(ops: seq<CrdtOperation>)
    ensures forall p :: p in ConcurrentPairs(ops) <==> p.0 < p.1 < |ops| && AreConcurrent(ops[p.0], ops[p.1])
    ensures forall a, b :: 0 <= a < b < |ConcurrentPairs(ops)| ==> PairBefore(ConcurrentPairs(ops)[a], ConcurrentPairs(ops)[b])
  {
    RowsMembers(ops, |ops|);
  }

  // ---------------------------------------------------------------------------
  // Majority hash
  // ---------------------------------------------------------------------------

  /** How many keys (nodes) map to value (hash) `h`. */
  function HashCount<K(==), H(==)>(m: map<K, H>, h: H): nat
  {
    |set id | id in m && m[id] == h|
  }

  /** `h` is reported by some node, and by at least as many nodes as any other hash. */
  ghost predicate IsMostCommon<K, H>(m: map<K, H>, h: H)
  {
    h in m.Values && forall g :: g in m.Values ==> HashCount(m, g) <= HashCount(m, h)
  }

  /** A value that occurs is counted at least once and at most once per key. */
  lemma HashCountBounds<K, H>(m: map<K, H>, h: H)
    requires h in m.Values
    ensures 1 <= HashCount(m, h) <= |m|
  {
    var holders := set id | id in m && m[id] == h;
    var id :| id in m && m[id] == h;
    assert id in holders;
    SubsetCard(holders, m.Keys);
  }

  /** One more key counts under its own value only. */
  lemma HashCountAdd<K, H>(m: map<K, H>, k: K, v: H, h: H)
    requires k !in m
    ensures HashCount(m[k := v], h) == HashCount(m, h) + (if v == h then 1 else 0)
  {
    var m' := m[k := v];
    var before := set id | id in m && m[id] == h;
    var after := set id | id in m' && m'[id] == h;
    if v == h {
      assert after == before + {k};
    } else {
      assert after == before;
    }
  }

  /** `max_by_key` over the hash counts: some most frequent hash. */
  method MostCommon<K(==), H(==)>(m: map<K, H>) returns (h: H)
    requires |m| > 0
    ensures IsMostCommon(m, h)
  {
    var id :| id in m;
    h := m[id];
    var remaining := m.Values - {h};
    while remaining != {}
      invariant remaining <= m.Values
      invariant h in m.Values && h !in remaining
      invariant forall g :: g in m.Values - remaining ==> HashCount(m, g) <= HashCount(m, h)
      decreases |remaining|
    {
      var g :| g in remaining;
      if HashCount(m, g) > HashCount(m, h) {
        h := g;
      }
      remaining := remaining - {g};
    }
  }

  /** The nodes whose hash is not `majority`. */
  function Outliers<H(==)>(m: map<string, H>, majority: H): set<string>
  {
    set id | id in m && m[id] != majority
  }

  /** All nodes agree exactly when there is at most one distinct hash. */
  predicate AllAgree<H(==)>(m: map<string, H>)
  {
    forall a, b :: a in m && b in m ==> m[a] == m[b]
  }

  lemma AllAgreeDistinct<H>(m: map<string, H>)
    ensures AllAgree(m) <==> |m.Values| <= 1
  {
    if AllAgree(m) {
      if |m| == 0 {
        assert m.Values == {};
      } else {
        var a :| a in m;
        assert m.Values <= {m[a]};
        SubsetCard(m.Values, {m[a]});
      }
    } else {
      var a, b :| a in m && b in m && m[a] != m[b];
      assert {m[a], m[b]} <= m.Values;
      assert |{m[a], m[b]}| == 2;
      SubsetCard({m[a], m[b]}, m.Values);
    }
  }


  /** No node is an outlier against a most common hash exactly when all nodes agree. */
  lemma OutliersEmptyIffAgree<H>(m: map<string, H>, majority: H)
    requires IsMostCommon(m, majority)
    ensures Outliers(m, majority) == {} <==> AllAgree(m)
  {
    if AllAgree(m) {
      var a :| a in m && m[a] == majority;
      forall id | id in m ensures m[id] == majority { assert m[id] == m[a]; }
    }
    if Outliers(m, majority) == {} {
      forall a, b | a in m && b in m ensures m[a] == m[b] {
        assert a !in Outliers(m, majority) && b !in Outliers(m, majority);
      }
    }
  }

  /** The outliers and the nodes holding the majority hash split the nodes between them. */
  lemma OutliersPartition<H>(m: map<string, H>, majority: H)
    requires IsMostCommon(m, majority)
    ensures |Outliers(m, majority)| + HashCount(m, majority) == |m|
  {
    var same := set id | id in m && m[id] == majority;
    assert Outliers(m, majority) + same == m.Keys;
    assert Outliers(m, majority) * same == {};
  }

  // ---------------------------------------------------------------------------
  // Convergence state
  // ---------------------------------------------------------------------------

  type StateHash = seq<bv8>

  /** `ConvergenceState`: initial and current hash per node, and when convergence was first seen. */
  datatype ConvergenceState = ConvergenceState(
    initial: map<string, StateHash>,
    current: map<string, StateHash>,
    convergedAt: Option<nat>,
    startedAt: nat)

  function NewConvergenceState(now: nat): (s: ConvergenceState)
    ensures s.initial == map[] && s.current == map[] && s.convergedAt == None && s.startedAt == now
  {
    ConvergenceState(map[], map[], None, now)
  }

  /** `is_converged`: zero or one node, or every current hash equal to the first. */
  predicate IsConverged(s: ConvergenceState)
  {
    if |s.current| < 2 then |s.current| <= 1
    else AllAgree(s.current)
  }

  /** Converged exactly when the nodes report at most one distinct hash. */
  lemma IsConvergedDistinct(s: ConvergenceState)
    ensures IsConverged(s) <==> |s.current.Values| <= 1
  {
    AllAgreeDistinct(s.current);
    if |s.current| < 2 {
      assert AllAgree(s.current) by {
        forall a, b | a in s.current && b in s.current ensures s.current[a] == s.current[b] {
          if a != b {
            assert {a, b} <= s.current.Keys;
            SubsetCard({a, b}, s.current.Keys);
          }
        }
      }
    }
  }

  /** `mark_converged`: the first convergence time is kept. */
  function MarkConverged(s: ConvergenceState, now: nat): (r: ConvergenceState)
    ensures r.convergedAt.Some?
    ensures s.convergedAt.Some? ==> r == s
    ensures s.convergedAt.None? ==> r == s.(convergedAt := Some(now))
  {
    if s.convergedAt.None? then s.(convergedAt := Some(now)) else s
  }

  lemma MarkConvergedIdempotent(s: ConvergenceState, t1: nat, t2: nat)
    ensures MarkConverged(MarkConverged(s, t1), t2) == MarkConverged(s, t1)
  {
  }

  /** `convergence_time_ms`: time from start to first convergence (zero if the clock went backwards). */
  function ConvergenceTimeMs(s: ConvergenceState): (r: Option<nat>)
    ensures r.Some? <==> s.convergedAt.Some?
    ensures r.Some? ==> r.value + s.startedAt >= s.convergedAt.value
  {
    match s.convergedAt
    case None => None
    case Some(t) => Some(if t >= s.startedAt then t - s.startedAt else 0)
  }

  /**
   * `divergent_nodes`: nothing for one node or none; otherwise the nodes
   * whose hash differs from a most frequent hash (ties broken arbitrarily).
   */
  method DivergentNodes(s: ConvergenceState) returns (r: set<string>)
    ensures |s.current| <= 1 ==> r == {}
    ensures |s.current| > 1 ==> exists m :: IsMostCommon(s.current, m) && r == Outliers(s.current, m)
    ensures r <= s.current.Keys
    ensures r == {} <==> IsConverged(s)
  {
    if |s.current| <= 1 {
      IsConvergedDistinct(s);
      return {};
    }
    var majority := MostCommon(s.current);
    r := Outliers(s.current, majority);
    OutliersEmptyIffAgree(s.current, majority);
  }

  // ---------------------------------------------------------------------------
  // CrdtVerifier
  // ---------------------------------------------------------------------------

  datatype CrdtType = OrSet | GCounter | PnCounter | LwwRegister | PeerCache

  datatype CrdtVerifierConfig = CrdtVerifierConfig(
    convergenceTimeoutMs: nat, pollIntervalMs: nat, minNodes: nat, verifyConflictResolution: bool)

  const DEFAULT_CRDT_CONFIG := CrdtVerifierConfig(30000, 100, 2, true)

  datatype ConflictResolutionResult = ConflictResolutionResult(hadConflicts: bool, correctlyResolved: bool, details: string)

  datatype CrdtSummary = CrdtSummary(
    testId: string,
    crdtType: CrdtType,
    nodesParticipating: nat,
    operationsRecorded: nat,
    convergenceAchieved: bool,
    convergenceTimeMs: Option<nat>,
    divergentNodes: set<string>,
    conflictResult: ConflictResolutionResult)

  /** An add and a remove, in either order. */
  predicate AddRemove(a: CrdtOperation, b: CrdtOperation)
  {
    (a.operationType == "add" && b.operationType == "remove") ||
    (a.operationType == "remove" && b.operationType == "add")
  }

  /** How many of the index pairs are add/remove conflicts. */
  function AddRemoveCount(ops: seq<CrdtOperation>, pairs: seq<(nat, nat)>): (n: nat)
    requires forall p :: p in pairs ==> p.0 < |ops| && p.1 < |ops|
    ensures n <= |pairs|
  {
    if |pairs| == 0 then 0
    else
      var p := pairs[|pairs| - 1];
      assert p in pairs;
      AddRemoveCount(ops, pairs[..|pairs| - 1]) + (if AddRemove(ops[p.0], ops[p.1]) then 1 else 0)
  }

  /** The per-type description of the concurrent pairs found. */
  function ConflictDetails(t: CrdtType, pairCount: nat, addRemoveCount: nat): string
  {
    match t
    case OrSet => "OR-Set: " + NatToString(addRemoveCount) + " add/remove conflicts detected (add should win)"
    case GCounter => "G-Counter: " + NatToString(pairCount) + " concurrent increments (all should be applied)"
    case PnCounter => "PN-Counter: " + NatToString(pairCount) + " concurrent operations (inc/dec should merge)"
    case LwwRegister => "LWW-Register: " + NatToString(pairCount) + " concurrent writes (latest timestamp wins)"
    case PeerCache => "PeerCache: " + NatToString(pairCount) + " concurrent peer updates (add wins)"
  }

  /**
   * The details of a conflict check over `ops`: a fixed text when no pair is
   * concurrent, otherwise the per-type description of the pairs found.
   */
  function ResolutionDetails(t: CrdtType, ops: seq<CrdtOperation>): (r: string)
    ensures r == "No concurrent operations detected" <==>
            forall i, j :: 0 <= i < j < |ops| ==> !AreConcurrent(ops[i], ops[j])
  {
    var pairs := ConcurrentPairs(ops);
    ConcurrentPairsExact(ops);
    if |pairs| == 0 then
      assert forall i, j | 0 <= i < j < |ops| :: !AreConcurrent(ops[i], ops[j]) by {
        forall i, j | 0 <= i < j < |ops|
          ensures !AreConcurrent(ops[i], ops[j])
        {
          assert (i as nat, j as nat) !in pairs;
        }
      }
      "No concurrent operations detected"
    else
      assert pairs[0] in pairs;
      ConflictDetailsNotQuiet(t, |pairs|, AddRemoveCount(ops, pairs));
      ConflictDetails(t, |pairs|, AddRemoveCount(ops, pairs))
  }

  /** No per-type conflict line reads like the text for a conflict-free run. */
  lemma ConflictDetailsNotQuiet(t: CrdtType, pairCount: nat, addRemoveCount: nat)
    ensures ConflictDetails(t, pairCount, addRemoveCount) != "No concurrent operations detected"
  {
    assert ConflictDetails(t, pairCount, addRemoveCount)[0] != 'N';
  }

  class CrdtVerifier {
    const config: CrdtVerifierConfig
    const crdtType: CrdtType
    const operations: OperationTracker
    var convergence: ConvergenceState
    var testId: string

    ghost predicate Valid()
      reads this, operations
    {
      operations.Valid()
    }

    /** `with_config`: the test id (a fresh UUID in the source) and the clock are supplied by the caller. */
    constructor (crdtType: CrdtType, config: CrdtVerifierConfig, testId: string, now: nat)
      ensures Valid() && fresh(operations)
      ensures this.crdtType == crdtType && this.config == config && this.testId == testId
      ensures convergence == NewConvergenceState(now) && operations.operations == []
    {
      this.crdtType := crdtType;
      this.config := config;
      this.testId := testId;
      convergence := NewConvergenceState(now);
      operations := new OperationTracker();
    }

    method RecordInitialState(nodeId: string, hash: StateHash)
      modifies this`convergence
      ensures convergence == old(convergence).(initial := old(convergence).initial[nodeId := hash])
    {
      convergence := convergence.(initial := convergence.initial[nodeId := hash]);
    }

    method RecordOperation(op: CrdtOperation)
      requires Valid()
      modifies operations
      ensures Valid()
      ensures var stamped := op.(vectorClock := map[op.nodeId := Count(old(operations.operations), op.nodeId) + 1]);
        operations.operations == old(operations.operations) + [stamped] &&
        operations.vectorClocks == old(operations.vectorClocks)[op.nodeId := stamped.vectorClock] &&
        operations.byNode == old(operations.byNode)[op.nodeId := OpsOf(old(operations.operations), op.nodeId) + [stamped]]
    {
      operations.Record(op);
    }

    method UpdateState(nodeId: string, hash: StateHash)
      modifies this`convergence
      ensures convergence == old(convergence).(current := old(convergence).current[nodeId := hash])
    {
      convergence := convergence.(current := convergence.current[nodeId := hash]);
    }

    /** `check_convergence`: the verdict, remembering the first time it held. */
    method CheckConvergence(now: nat) returns (converged: bool)
      modifies this`convergence
      ensures converged <==> |old(convergence).current.Values| <= 1
      ensures converged ==> convergence == MarkConverged(old(convergence), now)
      ensures !converged ==> convergence == old(convergence)
    {
      IsConvergedDistinct(convergence);
      converged := IsConverged(convergence);
      if converged {
        convergence := MarkConverged(convergence, now);
      }
    }

    /**
     * `verify_conflict_resolution`: conflicts exist when some pair of
     * operations is concurrent; they count as resolved when the states
     * converged.
     */
    method VerifyConflictResolution() returns (r: ConflictResolutionResult)
      ensures r.hadConflicts <==> exists i, j :: 0 <= i < j < |operations.operations| &&
                                    AreConcurrent(operations.operations[i], operations.operations[j])
      ensures r.correctlyResolved <==> !r.hadConflicts || IsConverged(convergence)
      ensures r.details == ResolutionDetails(crdtType, operations.operations)
    {
      var pairs := operations.FindConcurrentPairs();
      ConcurrentPairsExact(operations.operations);
      if |pairs| == 0 {
        forall i: nat, j: nat | i < j < |operations.operations|
          ensures !AreConcurrent(operations.operations[i], operations.operations[j])
        {
          assert (i, j) !in pairs;
        }
        r := ConflictResolutionResult(false, true, "No concurrent operations detected");
        return;
      }
      assert pairs[0] in pairs;
      var details := ConflictDetails(crdtType, |pairs|, AddRemoveCount(operations.operations, pairs));
      r := ConflictResolutionResult(true, IsConverged(convergence), details);
    }

    /** `get_summary`. */
    method GetSummary() returns (r: CrdtSummary)
      ensures r.testId == testId && r.crdtType == crdtType
      ensures r.nodesParticipating == |convergence.current|
      ensures r.operationsRecorded == |operations.operations|
      ensures r.convergenceAchieved <==> IsConverged(convergence)
      ensures r.convergenceTimeMs == ConvergenceTimeMs(convergence)
      ensures |convergence.current| <= 1 ==> r.divergentNodes == {}
      ensures |convergence.current| > 1 ==>
        exists m :: IsMostCommon(convergence.current, m) && r.divergentNodes == Outliers(convergence.current, m)
      ensures r.divergentNodes == {} <==> r.convergenceAchieved
      ensures r.conflictResult.hadConflicts <==> exists i, j :: 0 <= i < j < |operations.operations| &&
                                                  AreConcurrent(operations.operations[i], operations.operations[j])
      ensures r.conflictResult.correctlyResolved <==> !r.conflictResult.hadConflicts || r.convergenceAchieved
      ensures r.conflictResult.details == ResolutionDetails(crdtType, operations.operations)
    {
      var conflict := VerifyConflictResolution();
      var divergent := DivergentNodes(convergence);
      r := CrdtSummary(testId, crdtType, |convergence.current|, |operations.operations|, IsConverged(convergence),
                       ConvergenceTimeMs(convergence), divergent, conflict);
    }

    /** `reset`: no operations, a fresh convergence state and a new test id. */
    method Reset(newTestId: string, now: nat)
      requires Valid()
      modifies this, operations
      ensures Valid()
      ensures operations.operations == [] && convergence == NewConvergenceState(now) && testId == newTestId
    {
      operations.Clear();
      convergence := NewConvergenceState(now);
      testId := newTestId;
    }
  }

  // ---------------------------------------------------------------------------
  // LiveConvergenceVerifier
  // ---------------------------------------------------------------------------

  datatype CrdtStats = CrdtStats(entries: nat, merges: nat, vectorClockLen: nat, lastSyncAgeSecs: nat)

  /**
   * The text `compute_crdt_state_hash` feeds to SHA-256. The model compares
   * these texts instead of their digests, which agrees with the source
   * whenever SHA-256 has no collision on them.
   */
  function CrdtStateText(stats: CrdtStats): (r: string)
    ensures |r| > 8 && r[..8] == "entries:"
  {
    "entries:" + NatToString(stats.entries) + "|merges:" + NatToString(stats.merges)
    + "|vclock_len:" + NatToString(stats.vectorClockLen) + "|last_sync:" + NatToString(stats.lastSyncAgeSecs)
  }

  datatype LiveCrdtState = LiveCrdtState(nodeId: string, stats: CrdtStats, stateHash: string, capturedAt: nat)

  datatype CrdtStateSummary = CrdtStateSummary(hash: string, entries: nat, merges: nat, vectorClockLen: nat, isFresh: bool)

  datatype LiveConvergenceResult = LiveConvergenceResult(
    converged: bool,
    commonHash: Option<string>,
    nodeCount: nat,
    divergentNodes: set<string>,
    nodeSummaries: map<string, CrdtStateSummary>,
    verifiedAt: nat)

  /** The hash each node reported. */
  function Hashes(states: map<string, LiveCrdtState>): map<string, string>
  {
    map id | id in states :: states[id].stateHash
  }

  lemma HashesNonEmpty(states: map<string, LiveCrdtState>)
    ensures |Hashes(states)| == |states|
    ensures |states| > 0 ==> |Hashes(states).Values| > 0
  {
    assert Hashes(states).Keys == states.Keys;
    if |states| > 0 {
      var id :| id in states;
      assert Hashes(states)[id] in Hashes(states).Values;
    }
  }

  /**
   * What a verdict says about the captured states: converged exactly when
   * at most one distinct hash was captured, with that hash as the common
   * one; otherwise a most frequent hash and the nodes that do not have it.
   */
  ghost predicate Describes(states: map<string, LiveCrdtState>, r: LiveConvergenceResult)
  {
    var hashes := Hashes(states);
    r.nodeCount == |states| &&
    r.nodeSummaries.Keys == states.Keys &&
    (r.converged <==> |hashes.Values| <= 1) &&
    (r.converged ==> r.divergentNodes == {} && (r.commonHash.Some? <==> |states| > 0) &&
                     (r.commonHash.Some? ==> r.commonHash.value in hashes.Values)) &&
    (!r.converged ==> r.commonHash.Some? && IsMostCommon(hashes, r.commonHash.value) &&
                      r.divergentNodes == Outliers(hashes, r.commonHash.value) && r.divergentNodes != {})
  }

  class LiveConvergenceVerifier {
    var capturedStates: map<string, LiveCrdtState>
    const maxStateAgeMs: nat
    var convergenceResult: Option<LiveConvergenceResult>

    /** A cached verdict always describes the states captured since it was computed. */
    ghost predicate Valid()
      reads this
    {
      convergenceResult.Some? ==> Describes(capturedStates, convergenceResult.value)
    }

    /** `with_max_age`. */
    constructor (maxStateAgeMs: nat)
      ensures Valid()
      ensures capturedStates == map[] && convergenceResult == None && this.maxStateAgeMs == maxStateAgeMs
    {
      this.maxStateAgeMs := maxStateAgeMs;
      capturedStates := map[];
      convergenceResult := None;
    }

    /** `capture_state`: store the node's state and drop the cached verdict. */
    method CaptureState(nodeId: string, stats: CrdtStats, now: nat)
      modifies this`capturedStates, this`convergenceResult
      ensures Valid()
      ensures capturedStates == old(capturedStates)[nodeId := LiveCrdtState(nodeId, stats, CrdtStateText(stats), now)]
      ensures convergenceResult == None
    {
      capturedStates := capturedStates[nodeId := LiveCrdtState(nodeId, stats, CrdtStateText(stats), now)];
      convergenceResult := None;
    }

    /**
     * `verify`: the cached verdict if there is one; otherwise a new verdict
     * over the captured states, which is cached.
     */
    method Verify(now: nat) returns (r: LiveConvergenceResult)
      requires Valid()
      modifies this`convergenceResult
      ensures Valid()
      ensures Describes(capturedStates, r)
      ensures old(convergenceResult).Some? ==> r == old(convergenceResult).value && convergenceResult == old(convergenceResult)
      ensures old(convergenceResult).None? ==> convergenceResult == Some(r) && r.verifiedAt == now
      ensures old(convergenceResult).None? ==> forall id :: id in capturedStates ==>
        id in r.nodeSummaries && (r.nodeSummaries[id].isFresh <==> now < capturedStates[id].capturedAt + maxStateAgeMs)
    {
      if convergenceResult.Some? {
        return convergenceResult.value;
      }
      var summaries := map id | id in capturedStates ::
        CrdtStateSummary(capturedStates[id].stateHash, capturedStates[id].stats.entries, capturedStates[id].stats.merges,
                         capturedStates[id].stats.vectorClockLen, now < capturedStates[id].capturedAt + maxStateAgeMs);
      var hashes := Hashes(capturedStates);
      var converged, common, divergent;
      if |hashes.Values| == 1 {
        var h :| h in hashes.Values;
        var id :| id in hashes && hashes[id] == h;
        assert id in capturedStates;
        converged, common, divergent := true, Some(h), {};
      } else if |hashes.Values| == 0 {
        HashesNonEmpty(capturedStates);
        converged, common, divergent := true, None, {};
      } else {
        assert |hashes| > 0;
        var majority := MostCommon(hashes);
        OutliersEmptyIffAgree(hashes, majority);
        AllAgreeDistinct(hashes);
        converged, common, divergent := false, Some(majority), Outliers(hashes, majority);
      }
      assert |hashes| == |capturedStates| by { assert hashes.Keys == capturedStates.Keys; }
      r := LiveConvergenceResult(converged, common, |capturedStates|, divergent, summaries, now);
      convergenceResult := Some(r);
    }

    /** `check_convergence`. */
    method CheckConvergence(now: nat) returns (converged: bool)
      requires Valid()
      modifies this`convergenceResult
      ensures Valid()
      ensures converged <==> |Hashes(capturedStates).Values| <= 1
    {
      var r := Verify(now);
      converged := r.converged;
    }

    /** `reset`. */
    method Reset()
      modifies this`capturedStates, this`convergenceResult
      ensures Valid()
      ensures capturedStates == map[] && convergenceResult == None
    {
      capturedStates := map[];
      convergenceResult := None;
    }
  }
}

=== FILE: dashboard_types.dfy ===
/**
 * The per-direction connection summary the web dashboard shows: six
 * outcome strings, one per (method, IP version) slot, rendered as a compact
 * line such as `D4✓D6·N4×N6·R4·R6·`.
 */
module DashboardTypes {
  const CHECK := "\U{2713}"
  const CROSS := "\U{00D7}"
  const DOT := "\U{00B7}"

  /** `outcome_symbol`. */
  function OutcomeSymbol(outcome: string): (r: string)
    ensures |r| == 1
    ensures r == CHECK <==> outcome == "success"
    ensures r == CROSS <==> outcome == "failed"
    ensures r == DOT <==> outcome != "success" && outcome != "failed"
  {
    if outcome == "success" then CHECK
    else if outcome == "failed" then CROSS
    else DOT
  }

  datatype DirectionalStatsApi = DirectionalStatsApi(
    attempts: nat, successes: nat, failures: nat,
    directIpv4: string, directIpv6: string, natIpv4: string, natIpv6: string,
    relayIpv4: string, relayIpv6: string)
  {
    /** The six outcome strings in slot order. */
    function Outcomes(): (o: seq<string>)
      ensures |o| == |SLOT_LABELS|
    {
      [directIpv4, directIpv6, natIpv4, natIpv6, relayIpv4, relayIpv6]
    }

    /** `summary`: each slot's label followed by its symbol. */
    function Summary(): (r: string)
      ensures |r| == 3 * |SLOT_LABELS|
      ensures forall k :: 0 <= k < |SLOT_LABELS| ==>
        r[3 * k..3 * k + 2] == SLOT_LABELS[k] && r[3 * k + 2..3 * k + 3] == OutcomeSymbol(Outcomes()[k])
    {
      var cells := seq(|SLOT_LABELS|, k requires 0 <= k < |SLOT_LABELS| => SLOT_LABELS[k] + OutcomeSymbol(Outcomes()[k]));
      CellsAt(cells);
      forall k | 0 <= k < |SLOT_LABELS|
        ensures Cells(cells)[3 * k..3 * k + 2] == SLOT_LABELS[k]
        ensures Cells(cells)[3 * k + 2..3 * k + 3] == OutcomeSymbol(Outcomes()[k])
      {
        assert Cells(cells)[3 * k..3 * k + 2] == cells[k][..2];
        assert Cells(cells)[3 * k + 2..3 * k + 3] == cells[k][2..];
      }
      Cells(cells)
    }
  }

  /** Slot labels: direct, NAT-traversed and relayed, each over IPv4 then IPv6. */
  const SLOT_LABELS: seq<string> := ["D4", "D6", "N4", "N6", "R4", "R6"]

  /** `DirectionalStatsApi::from_method_outcome`. */
  function FromMethodOutcome(attempts: nat, successes: nat, failures: nat,
                             directIpv4: string, directIpv6: string, natIpv4: string, natIpv6: string,
                             relayIpv4: string, relayIpv6: string): (d: DirectionalStatsApi)
    ensures d.attempts == attempts && d.successes == successes && d.failures == failures
    ensures d.Outcomes() == [directIpv4, directIpv6, natIpv4, natIpv6, relayIpv4, relayIpv6]
  {
    DirectionalStatsApi(attempts, successes, failures, directIpv4, directIpv6, natIpv4, natIpv6, relayIpv4, relayIpv6)
  }

  /** The concatenation of `cells`. */
  function Cells(cells: seq<string>): string
    decreases |cells|
  {
    if |cells| == 0 then "" else Cells(cells[..|cells| - 1]) + cells[|cells| - 1]
  }

  /** Cells of three characters each sit at multiples of three. */
  lemma {:induction false} CellsAt(cells: seq<string>)
    requires forall k :: 0 <= k < |cells| ==> |cells[k]| == 3
    ensures |Cells(cells)| == 3 * |cells|
    ensures forall k :: 0 <= k < |cells| ==> Cells(cells)[3 * k..3 * k + 3] == cells[k]
    decreases |cells|
  {
    if |cells| > 0 {
      var init := cells[..|cells| - 1];
      CellsAt(init);
      forall k | 0 <= k < |cells| ensures Cells(cells)[3 * k..3 * k + 3] == cells[k] {
        if k < |init| {
          assert Cells(cells)[3 * k..3 * k + 3] == Cells(init)[3 * k..3 * k + 3];
        } else {
          assert Cells(cells)[3 * k..3 * k + 3] == cells[|cells| - 1];
        }
      }
    }
  }

  /**
   * Two summaries are equal exactly when every slot's outcome maps to the same
   * symbol: the summary shows the outcomes and nothing else.
   */
  lemma SummaryShowsOnlySymbols(a: DirectionalStatsApi, b: DirectionalStatsApi)
    ensures a.Summary() == b.Summary() <==>
      forall k :: 0 <= k < |SLOT_LABELS| ==> OutcomeSymbol(a.Outcomes()[k]) == OutcomeSymbol(b.Outcomes()[k])
  {
    if forall k :: 0 <= k < |SLOT_LABELS| ==> OutcomeSymbol(a.Outcomes()[k]) == OutcomeSymbol(b.Outcomes()[k]) {
      var ca := seq(|SLOT_LABELS|, k requires 0 <= k < |SLOT_LABELS| => SLOT_LABELS[k] + OutcomeSymbol(a.Outcomes()[k]));
      var cb := seq(|SLOT_LABELS|, k requires 0 <= k < |SLOT_LABELS| => SLOT_LABELS[k] + OutcomeSymbol(b.Outcomes()[k]));
      assert ca == cb;
      assert a.Summary() == Cells(ca);
      assert b.Summary() == Cells(cb);
    }
  }

  /** Slot `k` of a summary: its label, then its symbol. */
  lemma SummarySlot(d: DirectionalStatsApi, k: nat)
    requires k < |SLOT_LABELS|
    ensures d.Summary()[3 * k..3 * k + 3] == SLOT_LABELS[k] + OutcomeSymbol(d.Outcomes()[k])
  {
    var s := d.Summary();
    assert s[3 * k..3 * k + 3] == s[3 * k..3 * k + 2] + s[3 * k + 2..3 * k + 3];
  }

  /** A success in the first slot and nothing else shows as `D4✓D6·N4·N6·R4·R6·`. */
  lemma SummaryExample()
    ensures FromMethodOutcome(1, 1, 0, "success", "unknown", "unknown", "unknown", "unknown", "unknown").Summary() ==
            "D4" + CHECK + "D6" + DOT + "N4" + DOT + "N6" + DOT + "R4" + DOT + "R6" + DOT
  {
    var d := FromMethodOutcome(1, 1, 0, "success", "unknown", "unknown", "unknown", "unknown", "unknown");
    assert "unknown" != "success" && "unknown" != "failed";
    var c1 := ["D4" + CHECK];
    var c2 := c1 + ["D6" + DOT];
    var c3 := c2 + ["N4" + DOT];
    var c4 := c3 + ["N6" + DOT];
    var c5 := c4 + ["R4" + DOT];
    var c6 := c5 + ["R6" + DOT];
    assert d.Summary() == Cells(c6) by {
      assert c6 == seq(|SLOT_LABELS|, k requires 0 <= k < |SLOT_LABELS| => SLOT_LABELS[k] + OutcomeSymbol(d.Outcomes()[k]));
    }
    assert Cells(c1) == "D4" + CHECK by { assert c1[..0] == []; }
    assert Cells(c2) == Cells(c1) + "D6" + DOT by { assert c2[..1] == c1; }
    assert Cells(c3) == Cells(c2) + "N4" + DOT by { assert c3[..2] == c2; }
    assert Cells(c4) == Cells(c3) + "N6" + DOT by { assert c4[..3] == c3; }
    assert Cells(c5) == Cells(c4) + "R4" + DOT by { assert c5[..4] == c4; }
    assert Cells(c6) == Cells(c5) + "R6" + DOT by { assert c6[..5] == c5; }
  }
}

=== FILE: data_bridge.dfy ===
/**
 * The display-side records of the terminal UI and the bridge functions that
 * build them from raw network-layer figures (`DhtBridge`, `TrustBridge`,
 * `AdaptiveBridge`, `PlacementBridge`, `HealthBridge`, `McpBridge`).
 *
 * Floating-point fields are `real`; `Instant::now()` is the parameter `now`.
 * The `&mut` updates (`update_operations`, `update_latency`,
 * `update_local_score`) act on a record the caller owns by value, so each is
 * a function from the old record to the new one.
 */
module DataBridge {
  import opened Wrappers
  import opened MapSums
  import TuiTypes

  // ---------------------------------------------------------------------------
  // Counting helper
  // ---------------------------------------------------------------------------

  /** `iter().filter(p).count()`. */
  function CountIf<T>(s: seq<T>, p: T -> bool): (n: nat)
    ensures n <= |s|
  {
    if |s| == 0 then 0 else CountIf(s[..|s| - 1], p) + (if p(s[|s| - 1]) then 1 else 0)
  }

  /** The count is zero exactly when no element qualifies, and full exactly when all do. */
  lemma {:induction false} CountIfExtremes<T>(s: seq<T>, p: T -> bool)
    ensures CountIf(s, p) == 0 <==> forall i :: 0 <= i < |s| ==> !p(s[i])
    ensures CountIf(s, p) == |s| <==> forall i :: 0 <= i < |s| ==> p(s[i])
    decreases |s|
  {
    if |s| > 0 {
      var init := s[..|s| - 1];
      CountIfExtremes(init, p);
      assert forall i :: 0 <= i < |init| ==> init[i] == s[i];
    }
  }

  // ---------------------------------------------------------------------------
  // DHT
  // ---------------------------------------------------------------------------

  datatype DhtOperationStats = DhtOperationStats(
    gets: nat, getSuccesses: nat, puts: nat, putSuccesses: nat,
    deletes: nat, deleteSuccesses: nat, routingQueries: nat, routingSuccesses: nat)

  const NO_OPERATIONS := DhtOperationStats(0, 0, 0, 0, 0, 0, 0, 0)

  /** `DhtStats`; the latency record is the connection one, without its average. */
  datatype DhtStats = DhtStats(
    kBuckets: seq<nat>,
    totalRoutingPeers: nat,
    operations: DhtOperationStats,
    latency: TuiTypes.LatencyStats,
    storedRecords: nat,
    recordsByType: map<string, nat>,
    replicationFactor: nat,
    lastRefresh: Option<nat>,
    distanceSamples: seq<nat>)

  /** `DhtBridge::from_routing_table`. */
  function FromRoutingTable(kBuckets: seq<nat>, operations: DhtOperationStats, latency: TuiTypes.LatencyStats,
                            storedRecords: nat, replicationFactor: nat, now: nat): (r: DhtStats)
    ensures r.kBuckets == kBuckets && r.operations == operations && r.latency == latency
    ensures r.storedRecords == storedRecords && r.replicationFactor == replicationFactor
    ensures r.recordsByType == map[] && r.distanceSamples == [] && r.lastRefresh == Some(now)
    ensures r.totalRoutingPeers == SeqSum(kBuckets)
  {
    DhtStats(kBuckets, SeqSum(kBuckets), operations, latency, storedRecords, map[], replicationFactor, Some(now), [])
  }

  /**
   * The routing-peer total bounds every bucket, and is zero exactly when every
   * bucket is empty.
   */
  lemma RoutingPeersTotal(kBuckets: seq<nat>, operations: DhtOperationStats, latency: TuiTypes.LatencyStats,
                          storedRecords: nat, replicationFactor: nat, now: nat)
    ensures var r := FromRoutingTable(kBuckets, operations, latency, storedRecords, replicationFactor, now);
      (forall i :: 0 <= i < |kBuckets| ==> kBuckets[i] <= r.totalRoutingPeers) &&
      (r.totalRoutingPeers == 0 <==> forall i :: 0 <= i < |kBuckets| ==> kBuckets[i] == 0)
  {
    forall i | 0 <= i < |kBuckets| ensures kBuckets[i] <= SeqSum(kBuckets) {
      SeqSumBound(kBuckets, i);
    }
    SeqSumZero(kBuckets);
  }

  /** Appending buckets adds their peers to the total. */
  lemma RoutingPeersAppend(a: seq<nat>, b: seq<nat>, operations: DhtOperationStats, latency: TuiTypes.LatencyStats,
                           storedRecords: nat, replicationFactor: nat, now: nat)
    ensures FromRoutingTable(a + b, operations, latency, storedRecords, replicationFactor, now).totalRoutingPeers ==
            FromRoutingTable(a, operations, latency, storedRecords, replicationFactor, now).totalRoutingPeers +
            FromRoutingTable(b, operations, latency, storedRecords, replicationFactor, now).totalRoutingPeers
  {
    SeqSumAppend(a, b);
  }

  /** Five buckets holding 5, 10 and 15 peers make 30 routing peers. */
  lemma RoutingTableExample()
    ensures FromRoutingTable([5, 10, 15, 0, 0], NO_OPERATIONS, TuiTypes.DefaultLatency, 1000, 3, 0).totalRoutingPeers == 30
  {
    var s: seq<nat> := [5, 10, 15, 0, 0];
    assert s[..4][..3] == [5, 10, 15] && s[..4][..3][..2] == [5, 10];
    assert SeqSum([5, 10]) == 15 by {
      assert [5, 10][..1] == [5] && [5][..0] == [];
    }
    assert SeqSum(s[..4][..3]) == 30;
    assert SeqSum(s[..4]) == 30;
  }

  /** `DhtBridge::update_operations`: the six operation counters are replaced. */
  function UpdateOperations(stats: DhtStats, gets: nat, puts: nat, deletes: nat,
                            getSuccesses: nat, putSuccesses: nat, deleteSuccesses: nat): (r: DhtStats)
    ensures r.operations.gets == gets && r.operations.puts == puts && r.operations.deletes == deletes
    ensures r.operations.getSuccesses == getSuccesses && r.operations.putSuccesses == putSuccesses
    ensures r.operations.deleteSuccesses == deleteSuccesses
    ensures r.operations.routingQueries == stats.operations.routingQueries
    ensures r.operations.routingSuccesses == stats.operations.routingSuccesses
    ensures r.(operations := stats.operations) == stats
  {
    stats.(operations := stats.operations.(gets := gets, puts := puts, deletes := deletes,
      getSuccesses := getSuccesses, putSuccesses := putSuccesses, deleteSuccesses := deleteSuccesses))
  }

  /** `DhtBridge::update_latency`: the three percentiles are replaced. */
  function UpdateLatency(stats: DhtStats, p50: nat, p95: nat, p99: nat): (r: DhtStats)
    ensures r.latency.p50Ms == p50 && r.latency.p95Ms == p95 && r.latency.p99Ms == p99
    ensures r.latency.(p50Ms := stats.latency.p50Ms, p95Ms := stats.latency.p95Ms, p99Ms := stats.latency.p99Ms) ==
            stats.latency
    ensures r.(latency := stats.latency) == stats
  {
    stats.(latency := stats.latency.(p50Ms := p50, p95Ms := p95, p99Ms := p99))
  }

  // ---------------------------------------------------------------------------
  // EigenTrust
  // ---------------------------------------------------------------------------

  /** One `(peer_id, score, pre_trusted, suspicious, transactions)` input tuple. */
  datatype PeerScore = PeerScore(peerId: string, score: real, preTrusted: bool, suspicious: bool, transactions: nat)

  datatype TrustEntry = TrustEntry(
    shortId: string, peerId: string, score: real, preTrusted: bool, suspicious: bool, transactions: nat)

  datatype EigenTrustStats = EigenTrustStats(
    localTrustScore: real,
    peerTrustScores: seq<TrustEntry>,
    convergenceIterations: nat,
    converged: bool,
    preTrustedCount: nat,
    suspiciousCount: nat,
    trustThreshold: real,
    trustHistory: seq<real>,
    lastUpdate: Option<nat>)

  /** Trust history is capped at this many entries. */
  const TRUST_HISTORY: nat := 60

  predicate IsPreTrusted(p: PeerScore) { p.preTrusted }
  predicate IsSuspicious(p: PeerScore) { p.suspicious }

  function ToTrustEntry(p: PeerScore): (e: TrustEntry)
    ensures e.peerId == p.peerId && e.shortId == TuiTypes.ShortId(p.peerId)
    ensures e.score == p.score && e.preTrusted == p.preTrusted && e.suspicious == p.suspicious
    ensures e.transactions == p.transactions
  {
    TrustEntry(TuiTypes.ShortId(p.peerId), p.peerId, p.score, p.preTrusted, p.suspicious, p.transactions)
  }

  /** `TrustBridge::from_trust_data`. */
  function FromTrustData(localScore: real, peerScores: seq<PeerScore>, convergenceIterations: nat,
                         converged: bool, trustThreshold: real, now: nat): (r: EigenTrustStats)
    ensures |r.peerTrustScores| == |peerScores|
    ensures forall i :: 0 <= i < |peerScores| ==> r.peerTrustScores[i] == ToTrustEntry(peerScores[i])
    ensures r.preTrustedCount == CountIf(peerScores, IsPreTrusted) <= |peerScores|
    ensures r.suspiciousCount == CountIf(peerScores, IsSuspicious) <= |peerScores|
    ensures r.localTrustScore == localScore && r.convergenceIterations == convergenceIterations
    ensures r.converged == converged && r.trustThreshold == trustThreshold
    ensures r.trustHistory == [] && r.lastUpdate == Some(now)
  {
    EigenTrustStats(
      localScore,
      seq(|peerScores|, i requires 0 <= i < |peerScores| => ToTrustEntry(peerScores[i])),
      convergenceIterations, converged,
      CountIf(peerScores, IsPreTrusted), CountIf(peerScores, IsSuspicious),
      trustThreshold, [], Some(now))
  }

  /**
   * The two counts are the flags of the input: zero exactly when no peer has
   * the flag, every peer exactly when all have it.
   */
  lemma TrustCountsMatchFlags(localScore: real, peerScores: seq<PeerScore>, convergenceIterations: nat,
                              converged: bool, trustThreshold: real, now: nat)
    ensures var r := FromTrustData(localScore, peerScores, convergenceIterations, converged, trustThreshold, now);
      (r.preTrustedCount == 0 <==> forall i :: 0 <= i < |peerScores| ==> !peerScores[i].preTrusted) &&
      (r.preTrustedCount == |peerScores| <==> forall i :: 0 <= i < |peerScores| ==> peerScores[i].preTrusted) &&
      (r.suspiciousCount == 0 <==> forall i :: 0 <= i < |peerScores| ==> !peerScores[i].suspicious) &&
      (r.suspiciousCount == |peerScores| <==> forall i :: 0 <= i < |peerScores| ==> peerScores[i].suspicious)
  {
    CountIfExtremes(peerScores, IsPreTrusted);
    CountIfExtremes(peerScores, IsSuspicious);
  }

  /** A 13-character peer id is shown by its first eight characters. */
  lemma TrustShortIdExample()
    ensures FromTrustData(0.85, [PeerScore("peer123456789", 0.9, false, false, 100)], 5, true, 0.3, 0)
              .peerTrustScores[0].shortId == "peer1234"
  {
    assert "peer123456789"[..8] == "peer1234";
  }

  /** The last `n` elements of `s`, or all of them when there are fewer. */
  function LastN<T>(s: seq<T>, n: nat): (r: seq<T>)
    ensures |r| <= n && |r| <= |s|
    ensures |s| <= n ==> r == s
    ensures |s| > n ==> r == s[|s| - n..]
  {
    if |s| <= n then s else s[|s| - n..]
  }

  /** `TrustBridge::update_local_score`. */
  function UpdateLocalScore(stats: EigenTrustStats, score: real, now: nat): (r: EigenTrustStats)
    ensures r.localTrustScore == score && r.lastUpdate == Some(now)
    ensures 0 < |r.trustHistory| <= |stats.trustHistory| + 1 && r.trustHistory[|r.trustHistory| - 1] == score
    ensures r.trustHistory == (stats.trustHistory + [score])[|stats.trustHistory| + 1 - |r.trustHistory|..]
    ensures |stats.trustHistory| <= TRUST_HISTORY ==> r.trustHistory == LastN(stats.trustHistory + [score], TRUST_HISTORY)
    ensures r.(localTrustScore := stats.localTrustScore, trustHistory := stats.trustHistory,
               lastUpdate := stats.lastUpdate) == stats
  {
    var pushed := stats.trustHistory + [score];
    var history := if |pushed| > TRUST_HISTORY then pushed[1..] else pushed;
    stats.(localTrustScore := score, trustHistory := history, lastUpdate := Some(now))
  }

  /** Applies `update_local_score` once per score, in order. */
  function UpdateScores(stats: EigenTrustStats, scores: seq<real>, now: nat): EigenTrustStats
    decreases |scores|
  {
    if |scores| == 0 then stats
    else UpdateLocalScore(UpdateScores(stats, scores[..|scores| - 1], now), scores[|scores| - 1], now)
  }

  lemma LastNPush<T>(s: seq<T>, x: T, n: nat)
    requires n > 0
    ensures LastN(LastN(s, n) + [x], n) == LastN(s + [x], n)
  {
  }

  /**
   * Starting from a history within the cap, any run of updates leaves exactly
   * the last sixty values of the old history followed by the new scores.
   */
  lemma {:induction false} HistoryKeepsLastSixty(stats: EigenTrustStats, scores: seq<real>, now: nat)
    requires |stats.trustHistory| <= TRUST_HISTORY
    ensures UpdateScores(stats, scores, now).trustHistory == LastN(stats.trustHistory + scores, TRUST_HISTORY)
    decreases |scores|
  {
    if |scores| == 0 {
      assert stats.trustHistory + scores == stats.trustHistory;
    } else {
      var init := scores[..|scores| - 1];
      var x := scores[|scores| - 1];
      HistoryKeepsLastSixty(stats, init, now);
      var before := UpdateScores(stats, init, now);
      LastNPush(stats.trustHistory + init, x, TRUST_HISTORY);
      assert stats.trustHistory + init + [x] == stats.trustHistory + scores;
      assert before.trustHistory == LastN(stats.trustHistory + init, TRUST_HISTORY);
    }
  }

  // ---------------------------------------------------------------------------
  // Adaptive networking
  // ---------------------------------------------------------------------------

  /** One `(name, successes, failures, prob, pulls)` input tuple, and the display record. */
  datatype ArmStats = ArmStats(name: string, successes: nat, failures: nat, estimatedProb: real, pulls: nat)

  datatype ThompsonSamplingStats = ThompsonSamplingStats(
    arms: seq<ArmStats>, totalPulls: nat, bestArm: Option<nat>, explorationRatio: real)

  datatype QLearningStats = QLearningStats(
    stateCount: nat, actionCount: nat, cacheHitRate: real, cacheMissRate: real,
    learningRate: real, discountFactor: real, epsilon: real, episodes: nat, avgReward: real)

  datatype ChurnRiskLevel = Low | Medium | High | Critical

  /** One `(short_id, risk, time_to_churn)` input tuple; the duration is in milliseconds. */
  datatype AtRisk = AtRisk(shortId: string, risk: real, timeToChurnMs: Option<nat>)

  datatype ChurnRiskEntry = ChurnRiskEntry(shortId: string, risk: real, timeToChurnMs: Option<nat>, level: ChurnRiskLevel)

  datatype ChurnPredictionStats = ChurnPredictionStats(
    atRiskPeers: seq<ChurnRiskEntry>, accuracy: real, predictions: nat, correct: nat,
    falsePositives: nat, falseNegatives: nat)

  datatype StrategyPerformance = StrategyPerformance(
    thompsonScore: real, qlearningScore: real, randomScore: real, activeStrategy: string)

  datatype AdaptiveStats = AdaptiveStats(
    thompsonSampling: ThompsonSamplingStats, qLearning: QLearningStats,
    churnPrediction: ChurnPredictionStats, strategyPerformance: StrategyPerformance)

  function PullsOf(arms: seq<ArmStats>): seq<nat>
  {
    seq(|arms|, i requires 0 <= i < |arms| => arms[i].pulls)
  }

  /** `AdaptiveBridge::from_learning_data`. */
  function FromLearningData(arms: seq<ArmStats>, bestArm: Option<nat>, explorationRatio: real,
                            qLearning: QLearningStats, churn: ChurnPredictionStats,
                            strategyScores: (real, real, real), activeStrategy: string): (r: AdaptiveStats)
    ensures r.thompsonSampling.arms == arms && r.thompsonSampling.bestArm == bestArm
    ensures r.thompsonSampling.explorationRatio == explorationRatio
    ensures r.thompsonSampling.totalPulls == SeqSum(PullsOf(arms))
    ensures r.qLearning == qLearning && r.churnPrediction == churn
    ensures r.strategyPerformance ==
            StrategyPerformance(strategyScores.0, strategyScores.1, strategyScores.2, activeStrategy)
  {
    AdaptiveStats(
      ThompsonSamplingStats(arms, SeqSum(PullsOf(arms)), bestArm, explorationRatio),
      qLearning, churn,
      StrategyPerformance(strategyScores.0, strategyScores.1, strategyScores.2, activeStrategy))
  }

  /** No arm has been pulled more often than all arms together; none at all exactly when every arm is unpulled. */
  lemma TotalPullsBoundsEachArm(arms: seq<ArmStats>, bestArm: Option<nat>, explorationRatio: real,
                                qLearning: QLearningStats, churn: ChurnPredictionStats,
                                strategyScores: (real, real, real), activeStrategy: string)
    ensures var t := FromLearningData(arms, bestArm, explorationRatio, qLearning, churn, strategyScores,
                                      activeStrategy).thompsonSampling;
      (forall i :: 0 <= i < |arms| ==> arms[i].pulls <= t.totalPulls) &&
      (t.totalPulls == 0 <==> forall i :: 0 <= i < |arms| ==> arms[i].pulls == 0)
  {
    var p := PullsOf(arms);
    forall i | 0 <= i < |arms| ensures arms[i].pulls <= SeqSum(p) {
      SeqSumBound(p, i);
    }
    SeqSumZero(p);
  }

  /** `AdaptiveBridge::create_qlearning_stats`. */
  function CreateQLearningStats(stateCount: nat, actionCount: nat, cacheHitRate: real, learningRate: real,
                                discountFactor: real, epsilon: real, episodes: nat, avgReward: real): (r: QLearningStats)
    ensures r.cacheHitRate == cacheHitRate && r.cacheHitRate + r.cacheMissRate == 100.0
    ensures 0.0 <= cacheHitRate <= 100.0 ==> 0.0 <= r.cacheMissRate <= 100.0
    ensures r.stateCount == stateCount && r.actionCount == actionCount && r.learningRate == learningRate
    ensures r.discountFactor == discountFactor && r.epsilon == epsilon && r.episodes == episodes
    ensures r.avgReward == avgReward
  {
    QLearningStats(stateCount, actionCount, cacheHitRate, 100.0 - cacheHitRate,
                   learningRate, discountFactor, epsilon, episodes, avgReward)
  }

  function LevelRank(l: ChurnRiskLevel): nat
  {
    match l
    case Low => 0
    case Medium => 1
    case High => 2
    case Critical => 3
  }

  /** The churn risk level of a risk estimate. */
  function RiskLevel(risk: real): (l: ChurnRiskLevel)
    ensures l == ChurnRiskLevel.Critical <==> risk >= 0.8
    ensures l == High <==> 0.6 <= risk < 0.8
    ensures l == Medium <==> 0.4 <= risk < 0.6
    ensures l == Low <==> risk < 0.4
  {
    if risk >= 0.8 then ChurnRiskLevel.Critical
    else if risk >= 0.6 then High
    else if risk >= 0.4 then Medium
    else Low
  }

  /** A higher risk never gets a lower level. */
  lemma RiskLevelMonotone(a: real, b: real)
    requires a <= b
    ensures LevelRank(RiskLevel(a)) <= LevelRank(RiskLevel(b))
  {
  }

  /** `AdaptiveBridge::create_churn_stats`. */
  function CreateChurnStats(atRisk: seq<AtRisk>, accuracy: real, predictions: nat, correct: nat,
                            falsePositives: nat, falseNegatives: nat): (r: ChurnPredictionStats)
    ensures |r.atRiskPeers| == |atRisk|
    ensures forall i :: 0 <= i < |atRisk| ==>
      r.atRiskPeers[i].shortId == atRisk[i].shortId && r.atRiskPeers[i].risk == atRisk[i].risk &&
      r.atRiskPeers[i].timeToChurnMs == atRisk[i].timeToChurnMs && r.atRiskPeers[i].level == RiskLevel(atRisk[i].risk)
    ensures r.accuracy == accuracy && r.predictions == predictions && r.correct == correct
    ensures r.falsePositives == falsePositives && r.falseNegatives == falseNegatives
  {
    ChurnPredictionStats(
      seq(|atRisk|, i requires 0 <= i < |atRisk| =>
        ChurnRiskEntry(atRisk[i].shortId, atRisk[i].risk, atRisk[i].timeToChurnMs, RiskLevel(atRisk[i].risk))),
      accuracy, predictions, correct, falsePositives, falseNegatives)
  }

  /** A risk of 0.9 is critical and one of 0.5 is medium. */
  lemma ChurnLevelsExample()
    ensures var r := CreateChurnStats([AtRisk("peer1", 0.9, None), AtRisk("peer2", 0.5, None)], 80.0, 100, 80, 10, 10);
      r.atRiskPeers[0].level == ChurnRiskLevel.Critical && r.atRiskPeers[1].level == Medium
  {
  }

  // ---------------------------------------------------------------------------
  // Placement
  // ---------------------------------------------------------------------------

  datatype RegionStats = RegionStats(
    code: string, name: string, flag: string, nodeCount: nat,
    dataPercentage: real, percentage: real, avgLatencyMs: real, healthy: bool)

  datatype PlacementStats = PlacementStats(
    geographicDiversity: real, rackDiversity: real, networkDiversity: real, overallDiversity: real,
    regions: seq<RegionStats>,
    placementSuccessRate: real,
    totalPlacements: nat, successfulPlacements: nat, failedPlacements: nat, placementRetries: nat,
    replicationTargets: seq<string>,
    targetReplicas: nat, minRegions: nat, avgReplicaCount: real, underReplicatedCount: nat)

  /** The success rate as a percentage, or 100 when nothing has been placed. */
  function SuccessPercent(success: nat, total: nat): (r: real)
    ensures total == 0 ==> r == 100.0
    ensures total > 0 ==> r * (total as real) == (success as real) * 100.0
    ensures success <= total ==> 0.0 <= r <= 100.0
  {
    if total > 0 then
      var q := (success as real) / (total as real);
      assert success <= total ==> q <= 1.0;
      q * 100.0
    else 100.0
  }

  /** `PlacementBridge::from_placement_data`. */
  function FromPlacementData(diversity: (real, real, real, real), regions: seq<RegionStats>,
                             placements: (nat, nat, nat, nat), replication: (nat, nat, real, nat)): (r: PlacementStats)
    ensures r.regions == regions
    ensures placements.0 == 0 ==> r.placementSuccessRate == 100.0
    ensures placements.0 > 0 ==> r.placementSuccessRate * (placements.0 as real) == (placements.1 as real) * 100.0
    ensures placements.1 <= placements.0 ==> 0.0 <= r.placementSuccessRate <= 100.0
    ensures r.totalPlacements == placements.0 && r.successfulPlacements == placements.1
    ensures r.failedPlacements == placements.2 && r.placementRetries == placements.3
    ensures r.geographicDiversity == diversity.0 && r.rackDiversity == diversity.1
    ensures r.networkDiversity == diversity.2 && r.overallDiversity == diversity.3
    ensures r.replicationTargets == [] && r.targetReplicas == replication.0 && r.minRegions == replication.1
    ensures r.avgReplicaCount == replication.2 && r.underReplicatedCount == replication.3
  {
    PlacementStats(diversity.0, diversity.1, diversity.2, diversity.3, regions,
      SuccessPercent(placements.1, placements.0),
      placements.0, placements.1, placements.2, placements.3,
      [], replication.0, replication.1, replication.2, replication.3)
  }

  /** 95 successes out of 100 placements is a 95 per cent success rate. */
  lemma PlacementRateExample()
    ensures FromPlacementData((0.9, 0.85, 0.8, 0.85), [], (100, 95, 5, 3), (3, 2, 2.8, 2)).placementSuccessRate == 95.0
  {
  }

  // ---------------------------------------------------------------------------
  // Health
  // ---------------------------------------------------------------------------

  datatype HealthStatus = Unknown | Healthy | Degraded | Unhealthy | Critical

  /** The three-valued status of the network core. */
  datatype CoreHealthStatus = CoreHealthy | CoreDegraded | CoreUnhealthy

  datatype ComponentHealth = ComponentHealth(
    name: string, status: HealthStatus, healthy: bool, uptimeSecs: nat,
    lastError: Option<string>, message: Option<string>, lastCheck: Option<nat>)

  datatype AlertSeverity = Info | Warning | AlertCritical

  datatype HealthAlert = HealthAlert(
    severity: AlertSeverity, message: string, component: string,
    timestamp: nat, timestampSecsAgo: nat, acknowledged: bool)

  datatype AnomalyEntry = AnomalyEntry(
    anomalyType: string, description: string, score: real, deviation: real,
    timestamp: nat, peerId: Option<string>)

  datatype ResourceUsage = ResourceUsage(
    cpuPercent: real, memoryPercent: real, memoryUsedBytes: nat, memoryTotalBytes: nat,
    diskPercent: real, diskUsedBytes: nat, diskTotalBytes: nat,
    networkBytesSec: nat, networkUtilizationPercent: real,
    networkTxBytesSec: nat, networkRxBytesSec: nat, openFds: nat, activeConnections: nat)

  datatype HealthStats = HealthStats(
    status: HealthStatus, overallScore: real, uptimeSecs: nat, lastCheckSecsAgo: nat,
    components: seq<ComponentHealth>, alerts: seq<HealthAlert>, resources: ResourceUsage,
    anomalies: seq<AnomalyEntry>, lastCheck: Option<nat>)

  /** `HealthBridge::from_health_data`. */
  function FromHealthData(status: HealthStatus, score: real, uptime: nat, lastCheckAgo: nat,
                          components: seq<ComponentHealth>, alerts: seq<HealthAlert>,
                          resources: ResourceUsage, anomalies: seq<AnomalyEntry>, now: nat): (r: HealthStats)
    ensures r.status == status && r.overallScore == score && r.uptimeSecs == uptime
    ensures r.lastCheckSecsAgo == lastCheckAgo && r.components == components && r.alerts == alerts
    ensures r.resources == resources && r.anomalies == anomalies && r.lastCheck == Some(now)
  {
    HealthStats(status, score, uptime, lastCheckAgo, components, alerts, resources, anomalies, Some(now))
  }

  /** `HealthBridge::create_component`. */
  function CreateComponent(name: string, healthy: bool, uptimeSecs: nat, lastError: Option<string>, now: nat)
    : (c: ComponentHealth)
    ensures c.status == Healthy <==> healthy
    ensures c.status == Unhealthy <==> !healthy
    ensures c.healthy == healthy && c.name == name && c.uptimeSecs == uptimeSecs
    ensures c.lastError == lastError && c.message == None && c.lastCheck == Some(now)
  {
    ComponentHealth(name, if healthy then Healthy else Unhealthy, healthy, uptimeSecs, lastError, None, Some(now))
  }

  /** `HealthBridge::create_alert`: a new alert is never acknowledged. */
  function CreateAlert(severity: AlertSeverity, message: string, component: string, secsAgo: nat, now: nat)
    : (a: HealthAlert)
    ensures !a.acknowledged && a.severity == severity && a.message == message
    ensures a.component == component && a.timestamp == now && a.timestampSecsAgo == secsAgo
  {
    HealthAlert(severity, message, component, now, secsAgo, false)
  }

  /** `HealthBridge::create_anomaly`. */
  function CreateAnomaly(anomalyType: string, description: string, score: real, deviation: real,
                         peerId: Option<string>, now: nat): (a: AnomalyEntry)
    ensures a.anomalyType == anomalyType && a.description == description && a.score == score
    ensures a.deviation == deviation && a.peerId == peerId && a.timestamp == now
  {
    AnomalyEntry(anomalyType, description, score, deviation, now, peerId)
  }

  /** Bytes per second of a fully used 1 Gbit/s link. */
  const LINK_BYTES_PER_SEC: nat := 125_000_000

  /** Network utilisation in per cent of a 1 Gbit/s link, capped at 100. */
  function NetUtilisation(bytesPerSec: nat): (u: real)
    ensures 0.0 <= u <= 100.0
    ensures u == 100.0 <==> bytesPerSec >= LINK_BYTES_PER_SEC
    ensures u < 100.0 ==> u * (LINK_BYTES_PER_SEC as real) == (bytesPerSec as real) * 100.0
  {
    var raw := (bytesPerSec as real) / (LINK_BYTES_PER_SEC as real) * 100.0;
    if raw < 100.0 then raw else 100.0
  }

  /** `HealthBridge::create_resources`. */
  function CreateResources(cpu: real, memPercent: real, memUsed: nat, memTotal: nat, diskPercent: real,
                           diskUsed: nat, diskTotal: nat, netTx: nat, netRx: nat): (r: ResourceUsage)
    ensures r.networkBytesSec == netTx + netRx && r.networkTxBytesSec == netTx && r.networkRxBytesSec == netRx
    ensures 0.0 <= r.networkUtilizationPercent <= 100.0
    ensures r.networkUtilizationPercent == 100.0 <==> netTx + netRx >= LINK_BYTES_PER_SEC
    ensures r.cpuPercent == cpu && r.memoryPercent == memPercent && r.memoryUsedBytes == memUsed
    ensures r.memoryTotalBytes == memTotal && r.diskPercent == diskPercent && r.diskUsedBytes == diskUsed
    ensures r.diskTotalBytes == diskTotal && r.openFds == 0 && r.activeConnections == 0
  {
    var total := netTx + netRx;
    ResourceUsage(cpu, memPercent, memUsed, memTotal, diskPercent, diskUsed, diskTotal,
                  total, NetUtilisation(total), netTx, netRx, 0, 0)
  }

  /** More traffic never shows as less utilisation. */
  lemma NetUtilisationMonotone(a: nat, b: nat)
    requires a <= b
    ensures NetUtilisation(a) <= NetUtilisation(b)
  {
    assert (a as real) / (LINK_BYTES_PER_SEC as real) <= (b as real) / (LINK_BYTES_PER_SEC as real);
  }

  /** `HealthBridge::convert_status`. */
  function ConvertStatus(s: CoreHealthStatus): (r: HealthStatus)
    ensures r == Healthy <==> s == CoreHealthy
    ensures r == Degraded <==> s == CoreDegraded
    ensures r == Unhealthy <==> s == CoreUnhealthy
    ensures r != Unknown && r != HealthStatus.Critical
  {
    match s
    case CoreHealthy => Healthy
    case CoreDegraded => Degraded
    case CoreUnhealthy => Unhealthy
  }

  /** Distinct core statuses stay distinct. */
  lemma ConvertStatusInjective(a: CoreHealthStatus, b: CoreHealthStatus)
    requires ConvertStatus(a) == ConvertStatus(b)
    ensures a == b
  {
  }

  // ---------------------------------------------------------------------------
  // MCP
  // ---------------------------------------------------------------------------

  datatype McpConnectionStatus = McpDisconnected | McpConnecting | McpConnected | McpError

  /** The fields of `McpState` that `initial_state` sets; tools and history are named only. */
  datatype McpState = McpState(
    connection: McpConnectionStatus, serverInfo: Option<string>, tools: seq<string>,
    selectedTool: Option<nat>, parameterInputs: map<string, string>, history: seq<string>,
    lastError: Option<string>, endpoint: Option<string>)

  /** `McpBridge::initial_state`. */
  function InitialState(endpoint: Option<string>): (s: McpState)
    ensures s.connection == McpDisconnected && s.endpoint == endpoint
    ensures s.tools == [] && s.selectedTool == None && s.history == [] && s.parameterInputs == map[]
    ensures s.serverInfo == None && s.lastError == None
  {
    McpState(McpDisconnected, None, [], None, map[], [], None, endpoint)
  }
}

=== FILE: debug_automation.dfy ===
/**
 * The automated debugger of the test harness: it collects log lines from the
 * nodes, matches them against known error patterns, orders them on a
 * timeline, correlates anomalies that happen close together in time, picks a
 * most likely root cause and suggests fixes.
 *
 * Wall-clock readings are parameters, and timestamps are milliseconds since
 * the Unix epoch.
 */
module DebugAutomation {
  import opened Wrappers
  import opened Text
  import opened MapSums
  import opened Sorting
  import CrdtVerification

  // ---------------------------------------------------------------------------
  // Severity
  // ---------------------------------------------------------------------------

  /** Declared from least to most severe; Rust derives the order from that. */
  datatype Severity = Info | Warning | Error | Critical

  /** Position in the declaration order, which is what the derived `Ord` compares. */
  function Rank(s: Severity): (r: nat)
    ensures r <= 3
  {
    match s
    case Info => 0
    case Warning => 1
    case Error => 2
    case Critical => 3
  }

  /** `a >= b` under the derived ordering. */
  predicate AtLeast(a: Severity, b: Severity)
  {
    Rank(a) >= Rank(b)
  }

  /** The derived order is total and antisymmetric, with Info < Warning < Error < Critical. */
  lemma SeverityTotalOrder(a: Severity, b: Severity)
    ensures AtLeast(a, b) || AtLeast(b, a)
    ensures AtLeast(a, b) && AtLeast(b, a) ==> a == b
    ensures !AtLeast(Info, Warning) && !AtLeast(Warning, Error) && !AtLeast(Error, Critical)
  {
  }

  /** The `Display` text of a severity. */
  function SeverityLabel(s: Severity): string
  {
    match s
    case Info => "INFO"
    case Warning => "WARN"
    case Error => "ERROR"
    case Critical => "CRITICAL"
  }

  /** The numeric severity of a reported test anomaly: 2 for Info up to 5 for Critical. */
  function TestSeverity(s: Severity): (r: nat)
    ensures r == Rank(s) + 2
  {
    match s
    case Critical => 5
    case Error => 4
    case Warning => 3
    case Info => 2
  }

  /** The priority of a suggested fix: 25 for Info up to 100 for Critical. */
  function FixPriority(s: Severity): (r: nat)
    ensures r == 25 * (Rank(s) + 1)
  {
    match s
    case Critical => 100
    case Error => 75
    case Warning => 50
    case Info => 25
  }

  /** The severity part of the root-cause confidence: 0.4 for Info up to 1.0 for Critical. */
  function SeverityScore(s: Severity): (r: real)
    ensures r == (Rank(s) as real + 2.0) / 5.0
  {
    match s
    case Critical => 1.0
    case Error => 0.8
    case Warning => 0.6
    case Info => 0.4
  }

  /** Both numeric views of a severity follow its order. */
  lemma SeverityNumbersMonotone(a: Severity, b: Severity)
    ensures AtLeast(a, b) <==> TestSeverity(a) >= TestSeverity(b)
    ensures AtLeast(a, b) <==> FixPriority(a) >= FixPriority(b)
  {
  }

  // ---------------------------------------------------------------------------
  // Error patterns and configuration
  // ---------------------------------------------------------------------------

  datatype ErrorPattern = ErrorPattern(
    name: string,
    pattern: string,
    severity: Severity,
    suggestedCause: string,
    suggestedFix: string)

  /** The ten patterns the debugger knows out of the box. */
  const DEFAULT_ERROR_PATTERNS: seq<ErrorPattern> := [
    ErrorPattern("zero_active_peers",
      "active peers|0 active|active_view_size: 0|active view: 0", Error,
      "HyParView not bootstrapping - no initial peers or join failed",
      "Check registry connectivity, verify peer list is non-empty"),
    ErrorPattern("address_accumulation",
      "too many addresses|address overflow|addresses accumulated", Warning,
      "Address accumulation - peers not pruning stale addresses",
      "Check address TTL settings, verify cleanup task is running"),
    ErrorPattern("connection_timeout",
      "connection timeout|timed out|ConnectTimeout|connect failed", Warning,
      "Connection timeouts - network issues or firewall blocking",
      "Check firewall rules, verify QUIC ports are open (UDP)"),
    ErrorPattern("state_divergence",
      "divergent state|state mismatch|convergence failed|not converged", Critical,
      "CRDT state divergence - nodes not converging",
      "Check vector clock sync, verify gossip message delivery"),
    ErrorPattern("gossip_drop",
      "message dropped|gossip failed|broadcast error|delivery failed", Warning,
      "Gossip messages being dropped",
      "Check message queue sizes, verify network bandwidth"),
    ErrorPattern("memory_pressure",
      "out of memory|OOM|memory exhausted|allocation failed", Critical,
      "Memory exhaustion - likely a leak or unbounded growth",
      "Check for unbounded collections, profile memory usage"),
    ErrorPattern("certificate_error",
      "certificate invalid|cert error|TLS failed|handshake failed", Error,
      "Certificate/TLS issues - likely expired or misconfigured",
      "Check certificate dates, verify crypto configuration"),
    ErrorPattern("panic",
      "panic|PANIC|panicked|unwrap failed", Critical,
      "Code panic - unexpected error condition",
      "Check stack trace for source location"),
    ErrorPattern("swim_false_positive",
      "false positive|incorrectly marked dead|alive but dead", Warning,
      "SWIM false positive - live node marked as dead",
      "Check SWIM timeout settings, reduce suspicion threshold"),
    ErrorPattern("nat_traversal_failed",
      "NAT traversal failed|hole punch failed|relay required", Warning,
      "NAT traversal failing - fallback to relay needed",
      "Check relay availability, verify STUN server connectivity")
  ]

  datatype DebuggerConfig = DebuggerConfig(
    maxLogLines: nat,
    correlationWindowMs: nat,
    errorPatterns: seq<ErrorPattern>,
    minSeverity: Severity)

  const DEFAULT_DEBUGGER_CONFIG: DebuggerConfig :=
    DebuggerConfig(10000, 5000, DEFAULT_ERROR_PATTERNS, Warning)

  // ---------------------------------------------------------------------------
  // Pattern matching
  // ---------------------------------------------------------------------------

  /**
   * Case-insensitive substring matching. A pattern holding '|' is a list of
   * alternatives, each trimmed before the search; any other pattern must
   * occur as a whole.
   */
  predicate MatchesPattern(message: string, pattern: string)
  {
    var m := Lower(message);
    var p := Lower(pattern);
    if '|' in p then AnyAlternative(m, Split(p, '|')) else Contains(m, p)
  }

  /** Some trimmed alternative occurs in `m`. */
  predicate AnyAlternative(m: string, alternatives: seq<string>)
  {
    exists part | part in alternatives :: Contains(m, Trim(part))
  }

  /** A pattern holds '|' exactly when its lower-cased form does. */
  lemma BarLower(pattern: string)
    ensures '|' in Lower(pattern) <==> '|' in pattern
  {
    var p := Lower(pattern);
    forall i | 0 <= i < |pattern| ensures p[i] == '|' <==> pattern[i] == '|' {
      LowerCharFixed(pattern[i], '|');
    }
  }

  /** Matching ignores case on both sides. */
  lemma MatchesPatternIgnoresCase(message: string, pattern: string)
    ensures MatchesPattern(message, pattern) == MatchesPattern(Lower(message), Lower(pattern))
  {
    LowerLower(message);
    LowerLower(pattern);
  }

  /**
   * With '|' in the pattern, a message matches exactly when some trimmed
   * alternative of the pattern occurs in it, ignoring case.
   */
  lemma MatchesSomeAlternative(message: string, pattern: string)
    requires '|' in pattern
    ensures MatchesPattern(message, pattern) <==>
      exists part | part in Split(pattern, '|') :: Contains(Lower(message), Lower(Trim(part)))
  {
    if MatchesPattern(message, pattern) {
      var part := MatchingAlternative(message, pattern);
    }
    forall part | part in Split(pattern, '|') && Contains(Lower(message), Lower(Trim(part)))
      ensures MatchesPattern(message, pattern)
    {
      AlternativeMatches(message, pattern, part);
    }
  }

  /** A match of a pattern with alternatives is the match of one of them. */
  lemma MatchingAlternative(message: string, pattern: string) returns (part: string)
    requires '|' in pattern && MatchesPattern(message, pattern)
    ensures part in Split(pattern, '|') && Contains(Lower(message), Lower(Trim(part)))
  {
    var k := MatchingLoweredAlternative(message, pattern);
    var parts := Split(pattern, '|');
    SplitLower(pattern, '|');
    TrimLower(parts[k]);
    part := parts[k];
  }

  /** A match of a pattern with alternatives is the match of one of its lower-cased alternatives. */
  lemma MatchingLoweredAlternative(message: string, pattern: string) returns (k: nat)
    requires '|' in pattern && MatchesPattern(message, pattern)
    ensures k < |Split(Lower(pattern), '|')| && Contains(Lower(message), Trim(Split(Lower(pattern), '|')[k]))
  {
    var m, p := Lower(message), Lower(pattern);
    var lowered := Split(p, '|');
    BarLower(pattern);
    assert '|' in p;
    assert AnyAlternative(m, lowered);
    var lowPart :| lowPart in lowered && Contains(m, Trim(lowPart));
    k := PositionOf(lowered, lowPart);
  }

  /** Where `x` sits in `s`. */
  lemma PositionOf<T>(s: seq<T>, x: T) returns (k: nat)
    requires x in s
    ensures k < |s| && s[k] == x
  {
    k :| 0 <= k < |s| && s[k] == x;
  }

  /** One alternative of the pattern occurring in the message is enough. */
  lemma AlternativeMatches(message: string, pattern: string, part: string)
    requires '|' in pattern && part in Split(pattern, '|')
    requires Contains(Lower(message), Lower(Trim(part)))
    ensures MatchesPattern(message, pattern)
  {
    BarLower(pattern);
    SplitLower(pattern, '|');
    var lowered := Split(Lower(pattern), '|');
    var parts := Split(pattern, '|');
    var k :| 0 <= k < |parts| && parts[k] == part;
    TrimLower(part);
    assert lowered[k] == Lower(part);
    assert Trim(lowered[k]) == Lower(Trim(part));
    assert lowered[k] in lowered;
    assert AnyAlternative(Lower(message), lowered);
  }

  /** Without '|', a message matches exactly when the whole pattern occurs in it, ignoring case. */
  lemma MatchesWholePattern(message: string, pattern: string)
    requires '|' !in pattern
    ensures MatchesPattern(message, pattern) <==> Contains(Lower(message), Lower(pattern))
  {
    BarLower(pattern);
  }

  // ---------------------------------------------------------------------------
  // Log entries
  // ---------------------------------------------------------------------------

  /** A log line from one node; the timestamp is in milliseconds since the Unix epoch. */
  datatype LogEntry = LogEntry(nodeId: string, timestampMs: nat, level: string, message: string)

  /** The line mentions a level, in upper or lower case. */
  predicate Mentions(line: string, upper: string, lower: string)
  {
    Contains(line, upper) || Contains(line, lower)
  }

  /**
   * The level read off a log line: the first of ERROR, WARN, INFO, DEBUG and
   * TRACE it mentions, and INFO when it mentions none.
   */
  function LevelOf(line: string): (level: string)
    ensures level in ["ERROR", "WARN", "INFO", "DEBUG", "TRACE"]
    ensures level == "ERROR" <==> Mentions(line, "ERROR", "error")
    ensures level == "WARN" <==> !Mentions(line, "ERROR", "error") && Mentions(line, "WARN", "warn")
    ensures level == "DEBUG" <==>
      !Mentions(line, "ERROR", "error") && !Mentions(line, "WARN", "warn") &&
      !Mentions(line, "INFO", "info") && Mentions(line, "DEBUG", "debug")
    ensures level == "TRACE" <==>
      !Mentions(line, "ERROR", "error") && !Mentions(line, "WARN", "warn") &&
      !Mentions(line, "INFO", "info") && !Mentions(line, "DEBUG", "debug") &&
      Mentions(line, "TRACE", "trace")
  {
    if Mentions(line, "ERROR", "error") then "ERROR"
    else if Mentions(line, "WARN", "warn") then "WARN"
    else if Mentions(line, "INFO", "info") then "INFO"
    else if Mentions(line, "DEBUG", "debug") then "DEBUG"
    else if Mentions(line, "TRACE", "trace") then "TRACE"
    else "INFO"
  }

  /**
   * Parse one raw log line of `nodeId`, read at time `now`: nothing for a
   * blank line, otherwise the trimmed line with the level it mentions.
   */
  function ParseLogLine(nodeId: string, line: string, now: nat): (r: Option<LogEntry>)
    ensures r.None? <==> AllSpace(line)
    ensures r.Some? ==> r.value.nodeId == nodeId && r.value.timestampMs == now
    ensures r.Some? ==> r.value.message == Trim(line) && r.value.message != []
    ensures r.Some? ==> r.value.level == LevelOf(r.value.message)
  {
    TrimEmpty(line);
    var trimmed := Trim(line);
    if trimmed == [] then None
    else Some(LogEntry(nodeId, now, LevelOf(trimmed), trimmed))
  }

  /** How many of `incoming` entries fit after `current` entries under the `max` cap. */
  function Room(current: nat, incoming: nat, max: nat): (n: nat)
    ensures n <= incoming
    ensures current <= max ==> current + n <= max
    ensures current < max && incoming > 0 ==> n > 0
  {
    if current >= max then 0
    else if incoming <= max - current then incoming
    else max - current
  }

  // ---------------------------------------------------------------------------
  // Timeline
  // ---------------------------------------------------------------------------

  /** The kinds of timeline event; `ErrorEvent` and `WarningEvent` are the source's `Error` and `Warning`. */
  datatype EventType =
    NodeStart | NodeStop | ConnectionEstablished | ConnectionLost |
    ErrorEvent | WarningEvent | StateChange | TestResult

  datatype TimelineEvent = TimelineEvent(
    nodeId: string,
    timestampMs: nat,
    eventType: EventType,
    description: string,
    logEntries: seq<LogEntry>)

  /** The sort key of a timeline event. */
  function EventTime(e: TimelineEvent): int
  {
    e.timestampMs
  }

  /** The positions recorded for `node`, empty when it has none. */
  function Positions(index: map<string, seq<nat>>, node: string): seq<nat>
  {
    if node in index then index[node] else []
  }

  /** The node index built by pushing each event's position under its node, front to back. */
  function NodeIndex(events: seq<TimelineEvent>): map<string, seq<nat>>
    decreases |events|
  {
    if |events| == 0 then map[]
    else
      var index := NodeIndex(events[..|events| - 1]);
      var node := events[|events| - 1].nodeId;
      index[node := Positions(index, node) + [|events| - 1]]
  }

  /** Every recorded position is that of an event of its node, and no node has an empty list. */
  ghost predicate IndexSound(index: map<string, seq<nat>>, events: seq<TimelineEvent>)
  {
    (forall node | node in index :: index[node] != []) &&
    (forall node, k | node in index && 0 <= k < |index[node]| ::
       index[node][k] < |events| && events[index[node][k]].nodeId == node)
  }

  /** Every node's positions are listed in increasing order. */
  ghost predicate IndexAscending(index: map<string, seq<nat>>)
  {
    forall node, k, l | node in index && 0 <= k < l < |index[node]| :: index[node][k] < index[node][l]
  }

  /** Every event's position is listed under its node. */
  ghost predicate IndexComplete(index: map<string, seq<nat>>, events: seq<TimelineEvent>)
  {
    forall i | 0 <= i < |events| :: events[i].nodeId in index && i in index[events[i].nodeId]
  }

  /** The node index lists, for each node, exactly the positions of its events, in order. */
  lemma {:induction false} NodeIndexExact(events: seq<TimelineEvent>)
    ensures IndexSound(NodeIndex(events), events)
    ensures IndexAscending(NodeIndex(events))
    ensures IndexComplete(NodeIndex(events), events)
    decreases |events|
  {
    if |events| > 0 {
      var init := events[..|events| - 1];
      NodeIndexExact(init);
      var prev := NodeIndex(init);
      var node := events[|events| - 1].nodeId;
      var index := NodeIndex(events);
      assert index == prev[node := Positions(prev, node) + [|events| - 1]];
      forall n, k | n in index && 0 <= k < |index[n]|
        ensures index[n][k] < |events| && events[index[n][k]].nodeId == n
      {
        if n == node && k == |index[n]| - 1 {
        } else {
          assert index[n][k] == prev[n][k];
          assert events[prev[n][k]] == init[prev[n][k]];
        }
      }
      forall n, k, l | n in index && 0 <= k < l < |index[n]|
        ensures index[n][k] < index[n][l]
      {
        if n == node && l == |index[n]| - 1 {
          assert index[n][k] == prev[n][k];
        }
      }
      forall i | 0 <= i < |events|
        ensures events[i].nodeId in index && i in index[events[i].nodeId]
      {
        if i < |init| {
          assert events[i] == init[i];
          var n := init[i].nodeId;
          var k :| 0 <= k < |prev[n]| && prev[n][k] == i;
          assert index[n][k] == i;
        } else {
          assert index[node][|index[node]| - 1] == i;
        }
      }
    }
  }

  /** Indexing one more event adds its position under its node. */
  lemma NodeIndexStep(events: seq<TimelineEvent>, i: nat)
    requires i < |events|
    ensures NodeIndex(events[..i + 1]) ==
      NodeIndex(events[..i])[events[i].nodeId := Positions(NodeIndex(events[..i]), events[i].nodeId) + [i]]
  {
    assert events[..i + 1][..i] == events[..i];
  }

  /** The events of `node`, in timeline order. */
  function OfNode(events: seq<TimelineEvent>, node: string): (r: seq<TimelineEvent>)
    ensures forall e | e in r :: e in events && e.nodeId == node
    ensures forall e | e in events && e.nodeId == node :: e in r
    decreases |events|
  {
    if |events| == 0 then []
    else
      var init := events[..|events| - 1];
      var last := events[|events| - 1];
      assert events == init + [last];
      OfNode(init, node) + (if last.nodeId == node then [last] else [])
  }

  /** The events at the given positions. */
  function At(events: seq<TimelineEvent>, positions: seq<nat>): seq<TimelineEvent>
    requires forall k | 0 <= k < |positions| :: positions[k] < |events|
  {
    seq(|positions|, k requires 0 <= k < |positions| => events[positions[k]])
  }

  /** Looking up a node's positions gives exactly that node's events, in order. */
  lemma {:induction false} NodeIndexLookup(events: seq<TimelineEvent>, node: string)
    ensures IndexSound(NodeIndex(events), events)
    ensures At(events, Positions(NodeIndex(events), node)) == OfNode(events, node)
    decreases |events|
  {
    NodeIndexExact(events);
    if |events| > 0 {
      var init := events[..|events| - 1];
      var last := events[|events| - 1];
      NodeIndexLookup(init, node);
      var before := Positions(NodeIndex(init), node);
      AtPrefix(events, before);
      if last.nodeId == node {
        assert Positions(NodeIndex(events), node) == before + [|events| - 1];
        AtSnoc(events, before, |events| - 1);
      } else {
        assert Positions(NodeIndex(events), node) == before;
      }
    }
  }

  /** Positions before the last event pick the same events from the timeline without it. */
  lemma AtPrefix(events: seq<TimelineEvent>, positions: seq<nat>)
    requires |events| > 0 && forall k | 0 <= k < |positions| :: positions[k] < |events| - 1
    ensures At(events, positions) == At(events[..|events| - 1], positions)
  {
  }

  /** One more position picks one more event. */
  lemma AtSnoc(events: seq<TimelineEvent>, positions: seq<nat>, p: nat)
    requires p < |events| && forall k | 0 <= k < |positions| :: positions[k] < |events|
    ensures At(events, positions + [p]) == At(events, positions) + [events[p]]
  {
  }

  /** The events whose timestamp lies in `[start, end]`, in timeline order. */
  function InWindow(events: seq<TimelineEvent>, start: nat, end: nat): (r: seq<TimelineEvent>)
    ensures |r| <= |events|
    ensures forall e | e in r :: e in events && start <= e.timestampMs <= end
    ensures forall e | e in events && start <= e.timestampMs <= end :: e in r
    decreases |events|
  {
    if |events| == 0 then []
    else
      var init := events[..|events| - 1];
      var last := events[|events| - 1];
      assert events == init + [last];
      InWindow(init, start, end) + (if start <= last.timestampMs <= end then [last] else [])
  }

  /** The events of a run, with an index from node to the positions of its events. */
  class Timeline {
    var events: seq<TimelineEvent>
    var byNode: map<string, seq<nat>>

    /** The index is the one `NodeIndex` builds from the events. */
    ghost predicate Valid()
      reads this
    {
      byNode == NodeIndex(events)
    }

    constructor()
      ensures events == [] && byNode == map[]
      ensures Valid()
    {
      events, byNode := [], map[];
    }

    /** Append an event and record its position under its node. */
    method AddEvent(event: TimelineEvent)
      requires Valid()
      modifies this
      ensures Valid()
      ensures events == old(events) + [event]
      ensures byNode == old(byNode)[event.nodeId := Positions(old(byNode), event.nodeId) + [|old(events)|]]
    {
      var idx := |events|;
      assert (events + [event])[..idx] == events;
      events := events + [event];
      byNode := byNode[event.nodeId := Positions(byNode, event.nodeId) + [idx]];
    }

    /** The events of `node`, in timeline order. */
    function EventsForNode(node: string): (r: seq<TimelineEvent>)
      requires Valid()
      reads this
      ensures r == OfNode(events, node)
    {
      NodeIndexLookup(events, node);
      At(events, Positions(byNode, node))
    }

    /** The events in the closed window `[start, end]`. */
    function EventsInWindow(start: nat, end: nat): (r: seq<TimelineEvent>)
      reads this
      ensures forall e | e in r :: e in events && start <= e.timestampMs <= end
      ensures forall e | e in events && start <= e.timestampMs <= end :: e in r
    {
      InWindow(events, start, end)
    }

    /** Order the events by timestamp, then rebuild the node index for the new positions. */
    method SortByTime()
      modifies this
      ensures Valid()
      ensures events == SortByKey(old(events), EventTime)
      ensures SortedBy(events, EventTime) && multiset(events) == multiset(old(events))
      ensures IndexSound(byNode, events) && IndexAscending(byNode) && IndexComplete(byNode, events)
    {
      var sorted := SortByKey(events, EventTime);
      var index := BuildNodeIndex(sorted);
      NodeIndexExact(sorted);
      events, byNode := sorted, index;
    }
  }

  /** Index the events by node, one position at a time. */
  method BuildNodeIndex(events: seq<TimelineEvent>) returns (index: map<string, seq<nat>>)
    ensures index == NodeIndex(events)
  {
    index := map[];
    for i := 0 to |events|
      invariant index == NodeIndex(events[..i])
    {
      NodeIndexStep(events, i);
      index := index[events[i].nodeId := Positions(index, events[i].nodeId) + [i]];
    }
    assert events[..|events|] == events;
  }

  // ---------------------------------------------------------------------------
  // The debugger
  // ---------------------------------------------------------------------------

  /**
   * How a log line was classified for the timeline, as written: the test for
   * "connected" comes before the test for "disconnected".
   */
  function ClassifyAsWritten(log: LogEntry): (t: EventType)
    ensures t == ErrorEvent <==> Contains(Upper(log.level), "ERROR")
    ensures t == WarningEvent <==> !Contains(Upper(log.level), "ERROR") && Contains(Upper(log.level), "WARN")
    ensures t == ConnectionLost ==> !Contains(Lower(log.message), "connected")
  {
    var level := Upper(log.level);
    var message := Lower(log.message);
    if Contains(level, "ERROR") then ErrorEvent
    else if Contains(level, "WARN") then WarningEvent
    else if Contains(message, "connected") then ConnectionEstablished
    else if Contains(message, "disconnected") || Contains(message, "connection lost") then ConnectionLost
    else if Contains(message, "starting") || Contains(message, "initialized") then NodeStart
    else if Contains(message, "stopping") || Contains(message, "shutdown") then NodeStop
    else StateChange
  }

  /** "connected" occurs inside "disconnected", three characters in. */
  lemma DisconnectedHasConnected(s: string)
    requires Contains(s, "disconnected")
    ensures Contains(s, "connected")
  {
    var i :| 0 <= i <= |s| - 12 && OccursAt(s, "disconnected", i);
    assert s[i + 3..i + 12] == s[i..i + 12][3..];
    assert OccursAt(s, "connected", i + 3);
  }

  /**
   * As written, a message that says "disconnected" is never a lost
   * connection: the earlier "connected" test always catches it.
   */
  lemma AsWrittenDisconnectIsNeverLost(log: LogEntry)
    requires Contains(Lower(log.message), "disconnected")
    ensures ClassifyAsWritten(log) != ConnectionLost
  {
    DisconnectedHasConnected(Lower(log.message));
  }

  /** The classification with the disconnection tests ahead of the connection test. */
  function Classify(log: LogEntry): (t: EventType)
    ensures !Contains(Lower(log.message), "disconnected") && !Contains(Lower(log.message), "connection lost") ==>
      t == ClassifyAsWritten(log)
  {
    var level := Upper(log.level);
    var message := Lower(log.message);
    if Contains(level, "ERROR") then ErrorEvent
    else if Contains(level, "WARN") then WarningEvent
    else if Contains(message, "disconnected") || Contains(message, "connection lost") then ConnectionLost
    else if Contains(message, "connected") then ConnectionEstablished
    else if Contains(message, "starting") || Contains(message, "initialized") then NodeStart
    else if Contains(message, "stopping") || Contains(message, "shutdown") then NodeStop
    else StateChange
  }

  /** A non-error, non-warning line that says "disconnected" is a lost connection. */
  lemma DisconnectIsLost(log: LogEntry)
    requires !Contains(Upper(log.level), "ERROR") && !Contains(Upper(log.level), "WARN")
    requires Contains(Lower(log.message), "disconnected")
    ensures Classify(log) == ConnectionLost
  {
  }

  /** The timeline event for one log line, classified as the program does. */
  function EventOf(log: LogEntry): (e: TimelineEvent)
    ensures e.nodeId == log.nodeId && e.timestampMs == log.timestampMs && e.description == log.message
    ensures e.eventType == ClassifyAsWritten(log) && e.logEntries == [log]
  {
    TimelineEvent(log.nodeId, log.timestampMs, ClassifyAsWritten(log), log.message, [log])
  }

  /** An INFO line saying "peer disconnected" enters the timeline as a connection established. */
  lemma TimelineDisconnectExample(node: string, time: nat)
    ensures EventOf(LogEntry(node, time, "INFO", "peer disconnected")).eventType == ConnectionEstablished
    ensures Classify(LogEntry(node, time, "INFO", "peer disconnected")) == ConnectionLost
  {
    var log := LogEntry(node, time, "INFO", "peer disconnected");
    assert OccursAt(Lower(log.message), "disconnected", 5);
    DisconnectedHasConnected(Lower(log.message));
    var level := Upper(log.level);
    assert level == "INFO";
    assert !Contains(level, "WARN") by {
      assert level[0..4][0] == 'I';
    }
  }

  /** One timeline event per log line, in log order. */
  function EventsOf(logs: seq<LogEntry>): (r: seq<TimelineEvent>)
    ensures |r| == |logs|
    ensures forall i :: 0 <= i < |logs| ==> r[i] == EventOf(logs[i])
  {
    seq(|logs|, i requires 0 <= i < |logs| => EventOf(logs[i]))
  }

  // ---------------------------------------------------------------------------
  // Anomalies
  // ---------------------------------------------------------------------------

  datatype Anomaly = Anomaly(
    severity: Severity,
    patternName: string,
    nodeId: string,
    timestampMs: nat,
    message: string,
    suggestedCause: string,
    suggestedFix: string,
    related: seq<nat>)

  /** The test-report form of an anomaly. */
  datatype TestAnomaly = TestAnomaly(
    anomalyType: string,
    description: string,
    severity: nat,
    nodesInvolved: seq<string>,
    detectedAtMs: nat)

  /** Convert an anomaly for the proof report: "[SEV] node: message", severity 2 to 5. */
  function ToTestAnomaly(a: Anomaly): (t: TestAnomaly)
    ensures t.severity == TestSeverity(a.severity) && 2 <= t.severity <= 5
    ensures t.nodesInvolved == [a.nodeId] && t.anomalyType == a.patternName
  {
    TestAnomaly(a.patternName, "[" + SeverityLabel(a.severity) + "] " + a.nodeId + ": " + a.message,
                TestSeverity(a.severity), [a.nodeId], a.timestampMs)
  }

  /** A log line is reported under a pattern when it matches and the pattern is severe enough. */
  predicate Reportable(log: LogEntry, p: ErrorPattern, minSeverity: Severity)
  {
    MatchesPattern(log.message, p.pattern) && AtLeast(p.severity, minSeverity)
  }

  /** The anomaly a log line raises under a pattern, not yet correlated. */
  function AnomalyOf(log: LogEntry, p: ErrorPattern): Anomaly
  {
    Anomaly(p.severity, p.name, log.nodeId, log.timestampMs, log.message,
            p.suggestedCause, p.suggestedFix, [])
  }

  /** The anomalies one log line raises, in pattern order. */
  function RowOf(log: LogEntry, patterns: seq<ErrorPattern>, minSeverity: Severity): seq<Anomaly>
    decreases |patterns|
  {
    if |patterns| == 0 then []
    else
      var p := patterns[|patterns| - 1];
      RowOf(log, patterns[..|patterns| - 1], minSeverity) +
      (if Reportable(log, p, minSeverity) then [AnomalyOf(log, p)] else [])
  }

  /** The anomalies of all log lines, log by log and pattern by pattern. */
  function Detected(logs: seq<LogEntry>, patterns: seq<ErrorPattern>, minSeverity: Severity): seq<Anomaly>
    decreases |logs|
  {
    if |logs| == 0 then []
    else Detected(logs[..|logs| - 1], patterns, minSeverity) + RowOf(logs[|logs| - 1], patterns, minSeverity)
  }

  /** Some pattern makes `log` raise `a`. */
  predicate RaisedBy(log: LogEntry, patterns: seq<ErrorPattern>, minSeverity: Severity, a: Anomaly)
  {
    exists j | 0 <= j < |patterns| :: Reportable(log, patterns[j], minSeverity) && a == AnomalyOf(log, patterns[j])
  }

  /** A row holds exactly the anomalies its log line raises under some pattern. */
  lemma {:induction false} RowOfMembers(log: LogEntry, patterns: seq<ErrorPattern>, minSeverity: Severity, a: Anomaly)
    ensures a in RowOf(log, patterns, minSeverity) <==> RaisedBy(log, patterns, minSeverity, a)
    decreases |patterns|
  {
    if |patterns| > 0 {
      var init := patterns[..|patterns| - 1];
      RowOfMembers(log, init, minSeverity, a);
      assert RowOf(log, patterns, minSeverity) == RowOf(log, init, minSeverity) +
        (if Reportable(log, patterns[|patterns| - 1], minSeverity) then [AnomalyOf(log, patterns[|patterns| - 1])] else []);
      LastSplit(patterns);
      SomeOfSnoc(init, patterns[|patterns| - 1], p => Reportable(log, p, minSeverity) && a == AnomalyOf(log, p));
    }
  }

  /**
   * Every detected anomaly is the one some log line raises under some pattern
   * it matches at or above the minimum severity, and every such pair is detected.
   */
  lemma DetectedMembers(logs: seq<LogEntry>, patterns: seq<ErrorPattern>, minSeverity: Severity, a: Anomaly)
    ensures a in Detected(logs, patterns, minSeverity) <==>
      exists i | 0 <= i < |logs| :: RaisedBy(logs[i], patterns, minSeverity, a)
  {
    DetectedRows(logs, patterns, minSeverity, a);
    forall i | 0 <= i < |logs|
      ensures a in RowOf(logs[i], patterns, minSeverity) <==> RaisedBy(logs[i], patterns, minSeverity, a)
    {
      RowOfMembers(logs[i], patterns, minSeverity, a);
    }
  }

  /** An anomaly is detected exactly when it is in the row of some log line. */
  lemma {:induction false} DetectedRows(logs: seq<LogEntry>, patterns: seq<ErrorPattern>, minSeverity: Severity, a: Anomaly)
    ensures a in Detected(logs, patterns, minSeverity) <==>
      exists i | 0 <= i < |logs| :: a in RowOf(logs[i], patterns, minSeverity)
    decreases |logs|
  {
    if |logs| > 0 {
      var init := logs[..|logs| - 1];
      var last := logs[|logs| - 1];
      DetectedRows(init, patterns, minSeverity, a);
      LastSplit(logs);
      SomeOfSnoc(init, last, x => a in RowOf(x, patterns, minSeverity));
    }
  }

  /** A non-empty sequence is its front followed by its last element. */
  lemma LastSplit<T>(xs: seq<T>)
    requires |xs| > 0
    ensures xs == xs[..|xs| - 1] + [xs[|xs| - 1]]
  {
  }

  /** Some element of `init + [last]` has `P` exactly when some element of `init` or `last` does. */
  lemma SomeOfSnoc<T>(init: seq<T>, last: T, P: T -> bool)
    ensures (exists i | 0 <= i < |init| + 1 :: P((init + [last])[i])) <==>
      (exists i | 0 <= i < |init| :: P(init[i])) || P(last)
  {
    var xs := init + [last];
    if exists i | 0 <= i < |init| :: P(init[i]) {
      var i :| 0 <= i < |init| && P(init[i]);
      assert P(xs[i]);
    }
    if P(last) {
      assert P(xs[|init|]);
    }
  }

  // ---------------------------------------------------------------------------
  // Correlation
  // ---------------------------------------------------------------------------

  /** The distance between two timestamps (`u64::abs_diff`). */
  function AbsDiff(a: nat, b: nat): nat
  {
    if a >= b then a - b else b - a
  }

  /** Anomalies `x` and `y` lie within `window` milliseconds of each other. */
  predicate Close(s: seq<Anomaly>, window: nat, x: nat, y: nat)
    requires x < |s| && y < |s|
  {
    AbsDiff(s[x].timestampMs, s[y].timestampMs) <= window
  }

  /**
   * The correlation loop has compared the pair with smaller index `a` and
   * larger index `b` once it has finished row `a` (a < i), or is at row `i`
   * and past column `b` (a == i and b < j).
   */
  predicate Compared(x: nat, y: nat, i: nat, j: nat)
  {
    var a := if x < y then x else y;
    var b := if x < y then y else x;
    a < i || (a == i && b < j)
  }

  /** The anomalies below `hi` already linked to `k` at loop position (i, j), in increasing order. */
  function Partners(s: seq<Anomaly>, window: nat, k: nat, i: nat, j: nat, hi: nat): seq<nat>
    requires k < |s| && hi <= |s|
    decreases hi
  {
    if hi == 0 then []
    else
      var x := hi - 1;
      Partners(s, window, k, i, j, x) +
      (if x != k && Close(s, window, x, k) && Compared(x, k, i, j) then [x] else [])
  }

  /** The anomalies below `hi` within the window of `k`, other than `k` itself, in increasing order. */
  function CloseTo(s: seq<Anomaly>, window: nat, k: nat, hi: nat): (r: seq<nat>)
    requires k < |s| && hi <= |s|
    ensures forall x: nat :: x in r <==> x < hi && x != k && Close(s, window, x, k)
    decreases hi
  {
    if hi == 0 then []
    else
      var x := hi - 1;
      CloseTo(s, window, k, x) + (if x != k && Close(s, window, x, k) then [x] else [])
  }

  /** What `related` of anomaly `k` gains from correlation: every other anomaly within the window. */
  function Related(s: seq<Anomaly>, window: nat, k: nat): seq<nat>
    requires k < |s|
  {
    CloseTo(s, window, k, |s|)
  }

  /** Correlation is symmetric and never relates an anomaly to itself. */
  lemma RelatedSymmetric(s: seq<Anomaly>, window: nat, x: nat, y: nat)
    requires x < |s| && y < |s|
    ensures x in Related(s, window, y) <==> y in Related(s, window, x)
    ensures x !in Related(s, window, x)
  {
  }

  /** Comparing pair (i, j) links j to i and i to j, at the end of their lists, and nothing else. */
  lemma {:induction false} PartnersStep(s: seq<Anomaly>, window: nat, k: nat, i: nat, j: nat, hi: nat)
    requires i < j < |s| && k < |s| && hi <= |s|
    ensures Partners(s, window, k, i, j + 1, hi) ==
      Partners(s, window, k, i, j, hi) +
      (if k == i && j < hi && Close(s, window, j, i) then [j]
       else if k == j && i < hi && Close(s, window, i, j) then [i]
       else [])
    decreases hi
  {
    if hi > 0 {
      PartnersStep(s, window, k, i, j, hi - 1);
    }
  }

  /** Finishing row i is the same as starting row i + 1. */
  lemma {:induction false} PartnersRowDone(s: seq<Anomaly>, window: nat, k: nat, i: nat, hi: nat)
    requires i < |s| && k < |s| && hi <= |s|
    ensures Partners(s, window, k, i, |s|, hi) == Partners(s, window, k, i + 1, i + 2, hi)
    decreases hi
  {
    if hi > 0 {
      PartnersRowDone(s, window, k, i, hi - 1);
    }
  }

  /** Once every row is done, each anomaly is linked to everything in its window. */
  lemma {:induction false} PartnersAllDone(s: seq<Anomaly>, window: nat, k: nat, hi: nat)
    requires k < |s| && hi <= |s|
    ensures Partners(s, window, k, |s|, |s| + 1, hi) == CloseTo(s, window, k, hi)
    decreases hi
  {
    if hi > 0 {
      var x := hi - 1;
      PartnersAllDone(s, window, k, x);
      assert Compared(x, k, |s|, |s| + 1);
      var last := if x != k && Close(s, window, x, k) then [x] else [];
      assert Partners(s, window, k, |s|, |s| + 1, hi) == Partners(s, window, k, |s|, |s| + 1, x) + last;
      assert CloseTo(s, window, k, hi) == CloseTo(s, window, k, x) + last;
    }
  }

  /** Nothing is linked before the loop starts. */
  lemma {:induction false} PartnersNone(s: seq<Anomaly>, window: nat, k: nat, hi: nat)
    requires k < |s| && hi <= |s|
    ensures Partners(s, window, k, 0, 1, hi) == []
    decreases hi
  {
    if hi > 0 {
      PartnersNone(s, window, k, hi - 1);
    }
  }

  /** The anomalies with `related` extended by correlation. */
  function Correlated(s: seq<Anomaly>, window: nat): (r: seq<Anomaly>)
    ensures |r| == |s|
  {
    seq(|s|, k requires 0 <= k < |s| => s[k].(related := s[k].related + Related(s, window, k)))
  }

  /** The anomalies as the correlation loop leaves them at position (i, j). */
  function Linked(s: seq<Anomaly>, window: nat, i: nat, j: nat): (r: seq<Anomaly>)
    ensures |r| == |s|
    ensures forall k | 0 <= k < |s| :: r[k].timestampMs == s[k].timestampMs
  {
    seq(|s|, k requires 0 <= k < |s| => s[k].(related := s[k].related + Partners(s, window, k, i, j, |s|)))
  }

  lemma LinkStart(s: seq<Anomaly>, window: nat)
    ensures Linked(s, window, 0, 1) == s
  {
    forall k | 0 <= k < |s| ensures Linked(s, window, 0, 1)[k] == s[k] {
      PartnersNone(s, window, k, |s|);
    }
  }

  /** Comparing pair (i, j) of nearby anomalies appends each index to the other's list. */
  lemma LinkStep(s: seq<Anomaly>, window: nat, i: nat, j: nat)
    requires i < j < |s|
    ensures var l := Linked(s, window, i, j);
      Linked(s, window, i, j + 1) ==
        if Close(s, window, i, j) then
          l[i := l[i].(related := l[i].related + [j])][j := l[j].(related := l[j].related + [i])]
        else l
  {
    var l := Linked(s, window, i, j);
    var next := Linked(s, window, i, j + 1);
    var expected :=
      if Close(s, window, i, j) then
        l[i := l[i].(related := l[i].related + [j])][j := l[j].(related := l[j].related + [i])]
      else l;
    forall k | 0 <= k < |s|
      ensures next[k] == expected[k]
    {
      PartnersStep(s, window, k, i, j, |s|);
      assert Close(s, window, j, i) == Close(s, window, i, j);
    }
  }

  lemma LinkRow(s: seq<Anomaly>, window: nat, i: nat)
    requires i < |s|
    ensures Linked(s, window, i, |s|) == Linked(s, window, i + 1, i + 2)
  {
    forall k | 0 <= k < |s|
      ensures Partners(s, window, k, i, |s|, |s|) == Partners(s, window, k, i + 1, i + 2, |s|)
    {
      PartnersRowDone(s, window, k, i, |s|);
    }
  }

  lemma LinkEnd(s: seq<Anomaly>, window: nat)
    ensures Linked(s, window, |s|, |s| + 1) == Correlated(s, window)
  {
    forall k | 0 <= k < |s|
      ensures Partners(s, window, k, |s|, |s| + 1, |s|) == Related(s, window, k)
    {
      PartnersAllDone(s, window, k, |s|);
    }
  }

  /**
   * Link every pair of anomalies within `window` milliseconds of each other,
   * each recording the other's index.
   */
  method CorrelateAnomalies(a: array<Anomaly>, window: nat)
    modifies a
    ensures a[..] == Correlated(old(a[..]), window)
  {
    ghost var orig := a[..];
    var n := a.Length;
    LinkStart(orig, window);
    for i := 0 to n
      invariant a[..] == Linked(orig, window, i, i + 1)
    {
      var ti := a[i].timestampMs;
      for j := i + 1 to n
        invariant a[..] == Linked(orig, window, i, j)
      {
        var tj := a[j].timestampMs;
        LinkStep(orig, window, i, j);
        if AbsDiff(ti, tj) <= window {
          a[i] := a[i].(related := a[i].related + [j]);
          a[j] := a[j].(related := a[j].related + [i]);
        }
      }
      LinkRow(orig, window, i);
    }
    LinkEnd(orig, window);
  }

  // ---------------------------------------------------------------------------
  // Root cause
  // ---------------------------------------------------------------------------

  datatype RootCause = RootCause(
    primaryCause: string,
    confidence: real,
    evidence: seq<string>,
    alternatives: map<string, real>)

  /** The pattern name of each anomaly, by position. */
  function PatternNames(s: seq<Anomaly>): (m: map<nat, string>)
    ensures forall k: nat :: k in m <==> k < |s|
  {
    map k: nat | k < |s| :: s[k].patternName
  }

  /** How many anomalies carry pattern `p`. */
  function PatternCount(s: seq<Anomaly>, p: string): nat
  {
    CrdtVerification.HashCount(PatternNames(s), p)
  }

  /** There is one name per anomaly. */
  lemma {:induction false} PatternNamesSize(s: seq<Anomaly>)
    ensures |PatternNames(s)| == |s|
    decreases |s|
  {
    if |s| > 0 {
      var init := s[..|s| - 1];
      PatternNamesSize(init);
      assert PatternNames(s) == PatternNames(init)[|s| - 1 := s[|s| - 1].patternName];
    }
  }

  /** A pattern that occurs is counted at least once and at most once per anomaly. */
  lemma PatternCountBounds(s: seq<Anomaly>, p: string)
    requires p in PatternNames(s).Values
    ensures 1 <= PatternCount(s, p) <= |s|
  {
    CrdtVerification.HashCountBounds(PatternNames(s), p);
    PatternNamesSize(s);
  }

  /** The position of the first anomaly with pattern `p`. */
  function FirstWith(s: seq<Anomaly>, p: string): (r: nat)
    requires exists k | 0 <= k < |s| :: s[k].patternName == p
    ensures r < |s| && s[r].patternName == p
    ensures forall k | 0 <= k < r :: s[k].patternName != p
    decreases |s|
  {
    if s[0].patternName == p then 0
    else
      var k :| 0 <= k < |s| && s[k].patternName == p;
      assert s[1..][k - 1].patternName == p;
      1 + FirstWith(s[1..], p)
  }

  /** The evidence line for an anomaly: "[node] message". */
  function EvidenceLine(a: Anomaly): string
  {
    "[" + a.nodeId + "] " + a.message
  }

  /** Adding an anomaly at the end counts it under its own pattern only. */
  lemma PatternCountSnoc(s: seq<Anomaly>, p: string)
    requires |s| > 0
    ensures PatternCount(s, p) == PatternCount(s[..|s| - 1], p) + (if s[|s| - 1].patternName == p then 1 else 0)
  {
    var init := s[..|s| - 1];
    var last: nat := |s| - 1;
    assert PatternNames(s) == PatternNames(init)[last := s[last].patternName];
    CrdtVerification.HashCountAdd(PatternNames(init), last, s[last].patternName, p);
  }

  /** The evidence lines of the anomalies with pattern `p`, in order. */
  function EvidenceFor(s: seq<Anomaly>, p: string): (r: seq<string>)
    ensures |r| <= |s|
    ensures forall e | e in r :: exists k | 0 <= k < |s| :: s[k].patternName == p && e == EvidenceLine(s[k])
    decreases |s|
  {
    if |s| == 0 then []
    else
      var init := s[..|s| - 1];
      var last := s[|s| - 1];
      var rest := EvidenceFor(init, p);
      assert forall k | 0 <= k < |init| :: init[k] == s[k];
      rest + (if last.patternName == p then [EvidenceLine(last)] else [])
  }

  /** Every anomaly with pattern `p` contributes its line, and the evidence has one line per such anomaly. */
  lemma {:induction false} EvidenceForComplete(s: seq<Anomaly>, p: string)
    ensures |EvidenceFor(s, p)| == PatternCount(s, p)
    ensures forall k | 0 <= k < |s| && s[k].patternName == p :: EvidenceLine(s[k]) in EvidenceFor(s, p)
    decreases |s|
  {
    if |s| == 0 {
      assert PatternNames(s) == map[];
    } else {
      var init, last := s[..|s| - 1], s[|s| - 1];
      EvidenceForComplete(init, p);
      PatternCountSnoc(s, p);
      var tail := if last.patternName == p then [EvidenceLine(last)] else [];
      assert EvidenceFor(s, p) == EvidenceFor(init, p) + tail;
      forall k | 0 <= k < |s| && s[k].patternName == p
        ensures EvidenceLine(s[k]) in EvidenceFor(s, p)
      {
        if k < |init| {
          assert init[k] == s[k];
        }
      }
    }
  }

  /** The evidence of two runs of anomalies is the first run's followed by the second's. */
  lemma {:induction false} EvidenceForAppend(s: seq<Anomaly>, t: seq<Anomaly>, p: string)
    ensures EvidenceFor(s + t, p) == EvidenceFor(s, p) + EvidenceFor(t, p)
    decreases |t|
  {
    if |t| == 0 {
      assert s + t == s;
    } else {
      var tInit, last := t[..|t| - 1], t[|t| - 1];
      EvidenceForAppend(s, tInit, p);
      assert (s + t)[..|s + t| - 1] == s + tInit;
      assert (s + t)[|s + t| - 1] == last;
      var tail := if last.patternName == p then [EvidenceLine(last)] else [];
      assert EvidenceFor(s + t, p) == EvidenceFor(s + tInit, p) + tail;
      assert EvidenceFor(t, p) == EvidenceFor(tInit, p) + tail;
    }
  }

  /** The other patterns, each with the share of anomalies it accounts for. */
  function Alternatives(s: seq<Anomaly>, p: string): (r: map<string, real>)
    requires |s| > 0
    ensures r.Keys == PatternNames(s).Values - {p}
  {
    var names := PatternNames(s);
    map q | q in names.Values && q != p :: PatternCount(s, q) as real / |s| as real
  }

  /** The share `count / total` of a non-empty part of a non-empty whole. */
  function Share(count: nat, total: nat): (r: real)
    requires 1 <= count <= total
    ensures 0.0 < r <= 1.0
  {
    count as real / total as real
  }

  /**
   * The root cause reported when `p` is the primary pattern: the cause of the
   * first anomaly with that pattern, at most five lines of evidence, the other
   * patterns as alternatives, and a confidence averaging the pattern's share
   * of the anomalies with the score of that first anomaly's severity.
   */
  function RootCauseFor(s: seq<Anomaly>, p: string): (r: RootCause)
    requires p in PatternNames(s).Values
    ensures r.primaryCause == s[FirstWith(s, p)].suggestedCause
    ensures r.evidence <= EvidenceFor(s, p)
    ensures |r.evidence| == if PatternCount(s, p) <= 5 then PatternCount(s, p) else 5
    ensures r.alternatives.Keys == PatternNames(s).Values - {p}
    ensures 0.2 < r.confidence <= 1.0
  {
    var k :| k in PatternNames(s) && PatternNames(s)[k] == p;
    assert s[k].patternName == p;
    PatternCountBounds(s, p);
    var primary := s[FirstWith(s, p)];
    var frequency := Share(PatternCount(s, p), |s|);
    var evidence := EvidenceFor(s, p);
    EvidenceForComplete(s, p);
    RootCause(primary.suggestedCause,
              (frequency + SeverityScore(primary.severity)) / 2.0,
              if |evidence| <= 5 then evidence else evidence[..5],
              Alternatives(s, p))
  }

  // ---------------------------------------------------------------------------
  // Suggested fixes
  // ---------------------------------------------------------------------------

  datatype SuggestedFix = SuggestedFix(description: string, priority: nat, component: string)

  /** The fix an anomaly suggests, prioritised by its severity. */
  function FixFor(a: Anomaly): SuggestedFix
  {
    SuggestedFix(a.suggestedFix, FixPriority(a.severity), a.patternName)
  }

  /** The distinct fix texts the anomalies suggest. */
  function FixTexts(s: seq<Anomaly>): set<string>
  {
    set k | 0 <= k < |s| :: s[k].suggestedFix
  }

  /** The fix of each anomaly whose fix text has not been seen earlier, in order. */
  function Deduplicated(s: seq<Anomaly>): seq<SuggestedFix>
    decreases |s|
  {
    if |s| == 0 then []
    else
      var init := s[..|s| - 1];
      var last := s[|s| - 1];
      Deduplicated(init) + (if last.suggestedFix in FixTexts(init) then [] else [FixFor(last)])
  }

  /** Sort key for non-increasing priority. */
  function NegPriority(f: SuggestedFix): int
  {
    -(f.priority as int)
  }

  /** The fix texts of a list of suggestions. */
  function Descriptions(fixes: seq<SuggestedFix>): set<string>
  {
    set f | f in fixes :: f.description
  }

  lemma FixTextsStep(s: seq<Anomaly>)
    requires |s| > 0
    ensures FixTexts(s) == FixTexts(s[..|s| - 1]) + {s[|s| - 1].suggestedFix}
  {
    var init := s[..|s| - 1];
    forall t | t in FixTexts(s) ensures t in FixTexts(init) + {s[|s| - 1].suggestedFix} {
      var k :| 0 <= k < |s| && s[k].suggestedFix == t;
      if k < |init| { assert init[k] == s[k]; }
    }
    forall t | t in FixTexts(init) ensures t in FixTexts(s) {
      var k :| 0 <= k < |init| && init[k].suggestedFix == t;
      assert s[k] == init[k];
    }
  }

  /** De-duplication keeps one fix per distinct fix text. */
  lemma {:induction false} DeduplicatedCovers(s: seq<Anomaly>)
    ensures |Deduplicated(s)| == |FixTexts(s)|
    ensures Descriptions(Deduplicated(s)) == FixTexts(s)
    decreases |s|
  {
    if |s| > 0 {
      var init := s[..|s| - 1];
      var last := s[|s| - 1];
      DeduplicatedCovers(init);
      FixTextsStep(s);
      var d := Deduplicated(init);
      if last.suggestedFix !in FixTexts(init) {
        assert Deduplicated(s) == d + [FixFor(last)];
        assert Descriptions(d + [FixFor(last)]) == Descriptions(d) + {last.suggestedFix};
      }
    }
  }

  /** No two kept fixes share a fix text. */
  lemma {:induction false} DeduplicatedDistinct(s: seq<Anomaly>)
    ensures forall x, y | 0 <= x < y < |Deduplicated(s)| ::
      Deduplicated(s)[x].description != Deduplicated(s)[y].description
    decreases |s|
  {
    if |s| > 0 {
      var init := s[..|s| - 1];
      var last := s[|s| - 1];
      DeduplicatedDistinct(init);
      DeduplicatedCovers(init);
      var d := Deduplicated(init);
      if last.suggestedFix !in FixTexts(init) {
        var r := d + [FixFor(last)];
        assert Deduplicated(s) == r;
        forall x | 0 <= x < |d| ensures r[x].description != last.suggestedFix {
          assert d[x] in d;
          assert d[x].description in Descriptions(d);
        }
      }
    }
  }

  /** Each kept fix is the fix of the first anomaly suggesting that text. */
  lemma {:induction false} DeduplicatedFirst(s: seq<Anomaly>)
    ensures forall x | 0 <= x < |Deduplicated(s)| :: exists k | 0 <= k < |s| ::
      Deduplicated(s)[x] == FixFor(s[k]) && s[k].suggestedFix !in FixTexts(s[..k])
    decreases |s|
  {
    if |s| > 0 {
      var init := s[..|s| - 1];
      var last := s[|s| - 1];
      DeduplicatedFirst(init);
      var d := Deduplicated(init);
      var r := Deduplicated(s);
      assert s[..|s| - 1] == init;
      assert r == d + (if last.suggestedFix in FixTexts(init) then [] else [FixFor(last)]);
      forall x | 0 <= x < |r|
        ensures exists k | 0 <= k < |s| :: r[x] == FixFor(s[k]) && s[k].suggestedFix !in FixTexts(s[..k])
      {
        if x < |d| {
          var k :| 0 <= k < |init| && d[x] == FixFor(init[k]) && init[k].suggestedFix !in FixTexts(init[..k]);
          assert s[k] == init[k] && s[..k] == init[..k];
          assert r[x] == FixFor(s[k]) && s[k].suggestedFix !in FixTexts(s[..k]);
        } else {
          var k := |s| - 1;
          assert r[x] == FixFor(s[k]) && s[k].suggestedFix !in FixTexts(s[..k]);
        }
      }
      assert forall x | 0 <= x < |r| :: exists k | 0 <= k < |s| :: r[x] == FixFor(s[k]) && s[k].suggestedFix !in FixTexts(s[..k]);
    } else {
      assert Deduplicated(s) == [];
    }
  }

  // ---------------------------------------------------------------------------
  // Investigation statistics
  // ---------------------------------------------------------------------------

  datatype DebugStats = DebugStats(
    logLinesAnalyzed: nat,
    nodesExamined: nat,
    timeSpanMs: nat,
    anomaliesBySeverity: map<Severity, nat>)

  datatype DebugReport = DebugReport(
    startedAtMs: nat,
    completedAtMs: nat,
    timeline: Timeline,
    anomalies: seq<Anomaly>,
    rootCause: Option<RootCause>,
    suggestedFixes: seq<SuggestedFix>,
    stats: DebugStats)

  /** The nodes that contributed log lines. */
  function NodesOf(logs: seq<LogEntry>): set<string>
  {
    set l | l in logs :: l.nodeId
  }

  function EarliestMs(logs: seq<LogEntry>): (r: nat)
    requires |logs| > 0
    ensures forall l | l in logs :: r <= l.timestampMs
    ensures exists l | l in logs :: r == l.timestampMs
    decreases |logs|
  {
    if |logs| == 1 then logs[0].timestampMs
    else
      var rest := EarliestMs(logs[1..]);
      assert forall l | l in logs[1..] :: l in logs;
      assert forall l | l in logs :: l == logs[0] || l in logs[1..];
      if logs[0].timestampMs <= rest then logs[0].timestampMs else rest
  }

  function LatestMs(logs: seq<LogEntry>): (r: nat)
    requires |logs| > 0
    ensures forall l | l in logs :: l.timestampMs <= r
    ensures exists l | l in logs :: r == l.timestampMs
    decreases |logs|
  {
    if |logs| == 1 then logs[0].timestampMs
    else
      var rest := LatestMs(logs[1..]);
      assert forall l | l in logs[1..] :: l in logs;
      assert forall l | l in logs :: l == logs[0] || l in logs[1..];
      if logs[0].timestampMs >= rest then logs[0].timestampMs else rest
  }

  /** From the earliest to the latest log line; zero when there are none. */
  function TimeSpanMs(logs: seq<LogEntry>): (r: nat)
    ensures forall l, m | l in logs && m in logs :: l.timestampMs - m.timestampMs <= r
    ensures |logs| > 0 ==> exists l, m | l in logs && m in logs :: r == l.timestampMs - m.timestampMs
  {
    if |logs| == 0 then 0 else LatestMs(logs) - EarliestMs(logs)
  }

  /** The value for `sev`, zero when absent. */
  function CountOf(m: map<Severity, nat>, sev: Severity): nat
  {
    if sev in m then m[sev] else 0
  }

  /** The per-severity counts, built anomaly by anomaly. */
  function Tally(s: seq<Anomaly>): map<Severity, nat>
    decreases |s|
  {
    if |s| == 0 then map[]
    else
      var m := Tally(s[..|s| - 1]);
      var sev := s[|s| - 1].severity;
      m[sev := CountOf(m, sev) + 1]
  }

  /** How many anomalies have severity `sev`. */
  function SeverityCount(s: seq<Anomaly>, sev: Severity): nat
    decreases |s|
  {
    if |s| == 0 then 0
    else SeverityCount(s[..|s| - 1], sev) + (if s[|s| - 1].severity == sev then 1 else 0)
  }

  function Id(n: nat): nat { n }

  lemma TallyStep(s: seq<Anomaly>)
    requires |s| > 0
    ensures var m := Tally(s[..|s| - 1]);
      Tally(s) == m[s[|s| - 1].severity := CountOf(m, s[|s| - 1].severity) + 1]
  {
  }

  /** The tally holds each severity with its number of anomalies, and no others. */
  lemma {:induction false} TallyCount(s: seq<Anomaly>, sev: Severity)
    ensures sev in Tally(s) ==> Tally(s)[sev] > 0
    ensures CountOf(Tally(s), sev) == SeverityCount(s, sev)
    decreases |s|
  {
    if |s| > 0 {
      TallyCount(s[..|s| - 1], sev);
      TallyStep(s);
    }
  }

  /** The counts of the tally add up to the number of anomalies. */
  lemma {:induction false} TallySum(s: seq<Anomaly>)
    ensures SumOf(Tally(s), Id) == |s|
    decreases |s|
  {
    if |s| == 0 {
      SumOfZero(Tally(s), Id);
    } else {
      var init := s[..|s| - 1];
      var sev := s[|s| - 1].severity;
      TallySum(init);
      TallyStep(s);
      var m := Tally(init);
      SumOfUpdate<Severity, nat>(m, Id, sev, CountOf(m, sev) + 1);
    }
  }

  class AutomatedDebugger {
    const config: DebuggerConfig
    var logs: seq<LogEntry>

    /** The log list never grows past the configured cap. */
    ghost predicate Valid()
      reads this
    {
      |logs| <= config.maxLogLines
    }

    constructor(config: DebuggerConfig)
      ensures this.config == config && logs == []
      ensures Valid()
    {
      this.config := config;
      logs := [];
    }

    /** Keep incoming entries, in order, while there is room under the cap; drop the rest. */
    method AddLogs(incoming: seq<LogEntry>)
      requires Valid()
      modifies this
      ensures Valid()
      ensures logs == old(logs) + incoming[..Room(|old(logs)|, |incoming|, config.maxLogLines)]
    {
      for i := 0 to |incoming|
        invariant Valid()
        invariant logs == old(logs) + incoming[..Room(|old(logs)|, i, config.maxLogLines)]
      {
        if |logs| < config.maxLogLines {
          logs := logs + [incoming[i]];
        }
      }
    }

    /** A timeline of one event per log line, ordered by timestamp. */
    method BuildTimeline() returns (timeline: Timeline)
      ensures fresh(timeline) && timeline.Valid()
      ensures timeline.events == SortByKey(EventsOf(logs), EventTime)
    {
      timeline := new Timeline();
      for i := 0 to |logs|
        invariant fresh(timeline) && timeline.Valid()
        invariant timeline.events == EventsOf(logs[..i])
      {
        timeline.AddEvent(EventOf(logs[i]));
      }
      assert logs[..|logs|] == logs;
      timeline.SortByTime();
    }

    /** Every (log line, pattern) match at or above the minimum severity, correlated in time. */
    method DetectAnomalies() returns (anomalies: seq<Anomaly>)
      ensures anomalies == Correlated(Detected(logs, config.errorPatterns, config.minSeverity), config.correlationWindowMs)
    {
      var patterns := config.errorPatterns;
      var minSeverity := config.minSeverity;
      var found: seq<Anomaly> := [];
      for i := 0 to |logs|
        invariant found == Detected(logs[..i], patterns, minSeverity)
      {
        for j := 0 to |patterns|
          invariant found == Detected(logs[..i], patterns, minSeverity) + RowOf(logs[i], patterns[..j], minSeverity)
        {
          assert patterns[..j + 1][..j] == patterns[..j];
          ghost var next := if Reportable(logs[i], patterns[j], minSeverity) then [AnomalyOf(logs[i], patterns[j])] else [];
          assert RowOf(logs[i], patterns[..j + 1], minSeverity) == RowOf(logs[i], patterns[..j], minSeverity) + next;
          if Reportable(logs[i], patterns[j], minSeverity) {
            found := found + [AnomalyOf(logs[i], patterns[j])];
          }
        }
        assert patterns[..|patterns|] == patterns;
        assert logs[..i + 1][..i] == logs[..i];
        assert Detected(logs[..i + 1], patterns, minSeverity) == Detected(logs[..i], patterns, minSeverity) + RowOf(logs[i], patterns, minSeverity);
      }
      assert logs[..|logs|] == logs;
      var cells := new Anomaly[|found|](k requires 0 <= k < |found| => found[k]);
      assert cells[..] == found;
      CorrelateAnomalies(cells, config.correlationWindowMs);
      anomalies := cells[..];
    }

    /** No root cause without anomalies; otherwise the one of a most frequent pattern. */
    method IdentifyRootCause(anomalies: seq<Anomaly>) returns (r: Option<RootCause>)
      ensures r.None? <==> |anomalies| == 0
      ensures r.Some? ==> exists p ::
        CrdtVerification.IsMostCommon(PatternNames(anomalies), p) && r.value == RootCauseFor(anomalies, p)
    {
      if |anomalies| == 0 {
        return None;
      }
      var names := PatternNames(anomalies);
      assert 0 in names;
      var primary := CrdtVerification.MostCommon(names);
      r := Some(RootCauseFor(anomalies, primary));
    }

    /** One fix per distinct fix text, by non-increasing priority. */
    method GenerateSuggestions(anomalies: seq<Anomaly>) returns (fixes: seq<SuggestedFix>)
      ensures fixes == SortByKey(Deduplicated(anomalies), NegPriority)
      ensures forall x, y | 0 <= x < y < |fixes| :: fixes[x].priority >= fixes[y].priority
      ensures |fixes| == |FixTexts(anomalies)| && Descriptions(fixes) == FixTexts(anomalies)
    {
      var suggestions: seq<SuggestedFix> := [];
      var seen: set<string> := {};
      for i := 0 to |anomalies|
        invariant suggestions == Deduplicated(anomalies[..i])
        invariant seen == FixTexts(anomalies[..i])
      {
        var a := anomalies[i];
        assert anomalies[..i + 1][..i] == anomalies[..i];
        FixTextsStep(anomalies[..i + 1]);
        if a.suggestedFix !in seen {
          seen := seen + {a.suggestedFix};
          suggestions := suggestions + [FixFor(a)];
        }
      }
      assert anomalies[..|anomalies|] == anomalies;
      fixes := SortByKey(suggestions, NegPriority);
      DeduplicatedCovers(anomalies);
      assert forall f :: f in fixes <==> f in suggestions by {
        assert forall f :: f in fixes <==> f in multiset(fixes);
        assert forall f :: f in suggestions <==> f in multiset(suggestions);
      }
      assert Descriptions(fixes) == Descriptions(suggestions);
    }

    /** The per-severity counts of the anomalies. */
    method CountBySeverity(anomalies: seq<Anomaly>) returns (counts: map<Severity, nat>)
      ensures counts == Tally(anomalies)
      ensures forall sev :: CountOf(counts, sev) == SeverityCount(anomalies, sev)
      ensures SumOf(counts, Id) == |anomalies|
    {
      counts := map[];
      for i := 0 to |anomalies|
        invariant counts == Tally(anomalies[..i])
      {
        assert anomalies[..i + 1][..i] == anomalies[..i];
        var sev := anomalies[i].severity;
        counts := counts[sev := CountOf(counts, sev) + 1];
      }
      assert anomalies[..|anomalies|] == anomalies;
      forall sev ensures CountOf(counts, sev) == SeverityCount(anomalies, sev) {
        TallyCount(anomalies, sev);
      }
      TallySum(anomalies);
    }

    /**
     * The full investigation: timeline, anomalies, root cause, fixes and
     * statistics. `startedAtMs` and `completedAtMs` are the clock readings
     * taken before and after.
     */
    method Investigate(startedAtMs: nat, completedAtMs: nat) returns (report: DebugReport)
      ensures fresh(report.timeline) && report.timeline.Valid()
      ensures report.timeline.events == SortByKey(EventsOf(logs), EventTime)
      ensures report.anomalies ==
        Correlated(Detected(logs, config.errorPatterns, config.minSeverity), config.correlationWindowMs)
      ensures report.rootCause.None? <==> report.anomalies == []
      ensures report.rootCause.Some? ==> exists p ::
        CrdtVerification.IsMostCommon(PatternNames(report.anomalies), p) &&
        report.rootCause.value == RootCauseFor(report.anomalies, p)
      ensures report.suggestedFixes == SortByKey(Deduplicated(report.anomalies), NegPriority)
      ensures report.stats.logLinesAnalyzed == |logs|
      ensures report.stats.nodesExamined == |NodesOf(logs)|
      ensures report.stats.timeSpanMs == TimeSpanMs(logs)
      ensures report.stats.anomaliesBySeverity == Tally(report.anomalies)
      ensures report.startedAtMs == startedAtMs && report.completedAtMs == completedAtMs
    {
      var timeline := BuildTimeline();
      var anomalies := DetectAnomalies();
      var rootCause := IdentifyRootCause(anomalies);
      var fixes := GenerateSuggestions(anomalies);
      var counts := CountBySeverity(anomalies);
      var stats := DebugStats(|logs|, |NodesOf(logs)|, TimeSpanMs(logs), counts);
      report := DebugReport(startedAtMs, completedAtMs, timeline, anomalies, rootCause, fixes, stats);
    }

    /** Forget every collected log line. */
    method Clear()
      modifies this
      ensures logs == [] && Valid()
    {
      logs := [];
    }
  }
}

=== FILE: duration.dfy ===
/**
 * The duration strings the legacy command line accepts for its `--duration`
 * and `--interval` options: an unsigned number followed by a time unit, such
 * as `1h` or `30secs`, read as a whole number of seconds.
 *
 * Character classes are ASCII: `str::trim` and `char::is_alphabetic` are
 * modelled by `Text.Trim` and `Text.IsAlpha`.
 */
module DurationParser {
  import opened Wrappers
  import opened Text

  /** The units the parser knows, with the seconds each stands for. */
  function UnitSeconds(unit: string): (r: Option<nat>)
    ensures r.Some? ==> Letters(unit) && r.value >= 1
  {
    if unit == "s" || unit == "sec" || unit == "secs" then Some(1)
    else if unit == "m" || unit == "min" || unit == "mins" then Some(60)
    else if unit == "h" || unit == "hr" || unit == "hrs" then Some(3600)
    else if unit == "d" || unit == "day" || unit == "days" then Some(86400)
    else None
  }

  /** A non-empty run of letters. */
  predicate Letters(s: string)
  {
    |s| > 0 && forall i :: 0 <= i < |s| ==> IsAlpha(s[i])
  }

  const UNITS: set<string> := {"s", "sec", "secs", "m", "min", "mins", "h", "hr", "hrs", "d", "day", "days"}

  /**
   * Exactly twelve unit spellings are accepted: seconds, minutes, hours and
   * days, each in a one-letter, a short and a plural form.
   */
  lemma UnitsAccepted(unit: string)
    ensures UnitSeconds(unit).Some? <==> unit in UNITS
    ensures UnitSeconds(unit).Some? ==> UnitSeconds(unit).value in {1, 60, 3600, 86400}
    ensures unit in {"s", "sec", "secs"} <==> UnitSeconds(unit) == Some(1)
    ensures unit in {"m", "min", "mins"} <==> UnitSeconds(unit) == Some(60)
    ensures unit in {"h", "hr", "hrs"} <==> UnitSeconds(unit) == Some(3600)
    ensures unit in {"d", "day", "days"} <==> UnitSeconds(unit) == Some(86400)
  {
  }

  /** Unchecked `u64` arithmetic in a release build: the result modulo 2^64. */
  function WrapU64(x: nat): (r: nat)
    ensures r <= U64_MAX
    ensures x <= U64_MAX ==> r == x
    ensures x > U64_MAX ==> r != x
  {
    x % 0x1_0000_0000_0000_0000
  }

  /** The whole number of seconds in `count` units of `unitSeconds` seconds each. */
  function Seconds(count: nat, unitSeconds: nat): (r: nat)
    ensures unitSeconds >= 1 ==> count <= r
  {
    count * unitSeconds
  }

  /** The position of the first alphabetic character (`str::find(char::is_alphabetic)`). */
  function FirstAlpha(s: string): (r: Option<nat>)
    ensures r.None? <==> forall i :: 0 <= i < |s| ==> !IsAlpha(s[i])
    ensures r.Some? ==> r.value < |s| && IsAlpha(s[r.value]) && forall i :: 0 <= i < r.value ==> !IsAlpha(s[i])
    decreases |s|
  {
    if |s| == 0 then None
    else if IsAlpha(s[0]) then Some(0)
    else match FirstAlpha(s[1..])
      case None => None
      case Some(i) => Some(i + 1)
  }

  /** `s` read as the number text `num` followed by the unit text `unit`. */
  predicate SplitsAs(s: string, num: string, unit: string)
  {
    s == num + unit && FirstAlpha(s) == Some(|num|)
  }

  /** Why a duration string is refused. */
  datatype DurationError =
    | InvalidFormat(text: string)
    | InvalidNumber(num: string)
    | UnknownUnit(unit: string)
    | OutOfRange(text: string)

  /** The error text the command line reports. */
  function Message(e: DurationError): (m: string)
    ensures e.InvalidFormat? ==> m == "Invalid duration format: " + e.text
    ensures e.InvalidNumber? ==> m == "Invalid number: " + e.num
    ensures e.UnknownUnit? ==> m == "Unknown time unit: " + e.unit
  {
    match e
    case InvalidFormat(text) => "Invalid duration format: " + text
    case InvalidNumber(num) => "Invalid number: " + num
    case UnknownUnit(unit) => "Unknown time unit: " + unit
    case OutOfRange(text) => "Duration out of range: " + text
  }

  /** The number and the unit read from a duration string, before they are multiplied. */
  datatype Reading = Refused(error: DurationError) | Read(count: nat, unitSeconds: nat)

  /**
   * Trim, split at the first letter, parse the number as a `u64` and look
   * the rest up as a unit.
   */
  function ReadDuration(s: string): (r: Reading)
    ensures FirstAlpha(Trim(s)).None? <==> r == Refused(InvalidFormat(Trim(s)))
    ensures r.Read? ==> r.count <= U64_MAX && r.unitSeconds >= 1
  {
    var t := Trim(s);
    match FirstAlpha(t)
    case None => Refused(InvalidFormat(t))
    case Some(i) =>
      match ParseBounded(t[..i], U64_MAX)
      case None => Refused(InvalidNumber(t[..i]))
      case Some(n) =>
        match UnitSeconds(t[i..])
        case None => Refused(UnknownUnit(t[i..]))
        case Some(scale) => Read(n, scale)
  }

  /** `t` splits into `num` and `unit`, which parse as `count` units of `unitSeconds` seconds. */
  predicate ReadsAs(t: string, num: string, unit: string, count: nat, unitSeconds: nat)
  {
    SplitsAs(t, num, unit) && ParseBounded(num, U64_MAX) == Some(count) && UnitSeconds(unit) == Some(unitSeconds)
  }

  /** A reading comes from a split into a `u64` number text and a known unit. */
  lemma ReadDurationSound(s: string)
    requires ReadDuration(s).Read?
    ensures exists num, unit :: ReadsAs(Trim(s), num, unit, ReadDuration(s).count, ReadDuration(s).unitSeconds)
  {
    var t := Trim(s);
    var i := FirstAlpha(t).value;
    assert ReadsAs(t, t[..i], t[i..], ReadDuration(s).count, ReadDuration(s).unitSeconds);
  }

  /** Any split of the trimmed string into a `u64` number text and a known unit is the reading. */
  lemma ReadDurationComplete(s: string, num: string, unit: string, count: nat, unitSeconds: nat)
    requires ReadsAs(Trim(s), num, unit, count, unitSeconds)
    ensures ReadDuration(s) == Read(count, unitSeconds)
  {
    var t := Trim(s);
    assert t == num + unit && FirstAlpha(t) == Some(|num|);
    assert t[..|num|] == num && t[|num|..] == unit;
  }

  /**
   * `parse_duration` with the multiplication checked: a count of seconds
   * that does not fit a `u64` is refused instead of wrapping.
   */
  function ParseDuration(s: string): (r: Result<nat, DurationError>)
    ensures r.Ok? <==> ReadDuration(s).Read? && Seconds(ReadDuration(s).count, ReadDuration(s).unitSeconds) <= U64_MAX
    ensures r.Ok? ==> r.value == Seconds(ReadDuration(s).count, ReadDuration(s).unitSeconds)
    ensures ReadDuration(s).Refused? ==> r == Err(ReadDuration(s).error)
  {
    match ReadDuration(s)
    case Refused(e) => Err(e)
    case Read(n, scale) =>
      if Seconds(n, scale) <= U64_MAX then Ok(Seconds(n, scale)) else Err(OutOfRange(Trim(s)))
  }

  /**
   * `parse_duration` as written: the product of the number and the unit is
   * an unchecked `u64` multiplication, taken here with its release-build
   * wrap-around (a debug build panics instead).
   */
  function ParseDurationAsWritten(s: string): (r: Result<nat, DurationError>)
    ensures r.Ok? <==> ReadDuration(s).Read?
    ensures r.Ok? ==> r.value == WrapU64(Seconds(ReadDuration(s).count, ReadDuration(s).unitSeconds))
  {
    match ReadDuration(s)
    case Refused(e) => Err(e)
    case Read(n, scale) => Ok(WrapU64(Seconds(n, scale)))
  }

  /** Whenever the product fits, the written parser agrees with the corrected one. */
  lemma AsWrittenAgreesWithoutOverflow(s: string)
    requires ParseDuration(s) != Err(OutOfRange(Trim(s)))
    ensures ParseDurationAsWritten(s) == ParseDuration(s)
  {
  }

  /** Text with no letter that starts with neither whitespace nor nothing. */
  predicate NumberText(num: string)
  {
    |num| > 0 && !IsSpace(num[0]) && forall i :: 0 <= i < |num| ==> !IsAlpha(num[i])
  }

  /** Number text followed by letters is already trimmed and splits where the letters start. */
  lemma CanonicalSplit(num: string, unit: string)
    requires NumberText(num) && Letters(unit)
    ensures var s := num + unit;
      Trim(s) == s && FirstAlpha(s) == Some(|num|) && s[..|num|] == num && s[|num|..] == unit
  {
    var s := num + unit;
    assert !IsSpace(s[0]) && !IsSpace(s[|s| - 1]) && IsAlpha(s[|num|]);
    assert TrimStart(s) == s;
    assert TrimEnd(s) == s;
    forall i | 0 <= i < |num| ensures !IsAlpha(s[i]) {
      assert s[i] == num[i];
    }
  }

  /** Digits are number text. */
  lemma DigitsAreNumberText(digits: string)
    requires |digits| > 0 && AllDigits(digits)
    ensures NumberText(digits)
  {
    assert IsDigit(digits[0]);
    forall i | 0 <= i < |digits| ensures !IsAlpha(digits[i]) {
      assert IsDigit(digits[i]);
    }
  }

  /** Number text within `u64` followed by a unit reads as that number of those units. */
  lemma ReadCanonical(num: string, n: nat, unit: string, unitSeconds: nat)
    requires NumberText(num) && ParseBounded(num, U64_MAX) == Some(n)
    requires UnitSeconds(unit) == Some(unitSeconds)
    ensures ReadDuration(num + unit) == Read(n, unitSeconds)
  {
    CanonicalSplit(num, unit);
    ReadDurationComplete(num + unit, num, unit, n, unitSeconds);
  }

  /** A rendered number followed by a unit parses back to that many units, when it fits. */
  lemma DurationRoundTrip(n: nat, unit: string)
    requires UnitSeconds(unit).Some? && Seconds(n, UnitSeconds(unit).value) <= U64_MAX
    ensures ParseDuration(NatToString(n) + unit) == Ok(Seconds(n, UnitSeconds(unit).value))
  {
    ParseNatToString(n);
    DigitsAreNumberText(NatToString(n));
    ReadCanonical(NatToString(n), n, unit, UnitSeconds(unit).value);
  }

  /** With a unit count that does not fit, the written parser wraps to a different duration. */
  lemma OverflowWraps(n: nat, unit: string)
    requires UnitSeconds(unit).Some? && n <= U64_MAX && Seconds(n, UnitSeconds(unit).value) > U64_MAX
    ensures ParseDurationAsWritten(NatToString(n) + unit) == Ok(WrapU64(Seconds(n, UnitSeconds(unit).value)))
    ensures ParseDurationAsWritten(NatToString(n) + unit).value != Seconds(n, UnitSeconds(unit).value)
    ensures ParseDuration(NatToString(n) + unit).Err?
  {
    ParseNatToString(n);
    DigitsAreNumberText(NatToString(n));
    ReadCanonical(NatToString(n), n, unit, UnitSeconds(unit).value);
  }

  /**
   * `307445734561825861m`, one more minute than fits in a `u64` of seconds:
   * by `OverflowWraps` the written parser accepts it as 44 seconds.
   */
  lemma MinutesOverflowExample()
    ensures UnitSeconds("m") == Some(60)
    ensures Seconds(307445734561825861, 60) > U64_MAX
    ensures WrapU64(Seconds(307445734561825861, 60)) == 44
  {
  }

  /** The default duration of the legacy command line: one hour. */
  lemma DefaultDuration()
    ensures ParseDuration("1h") == Ok(3600)
  {
    TrimNoop("1h");
    assert FirstAlpha("1h") == Some(1) by {
      assert "1h"[1..] == "h";
    }
    assert ParseNat("1") == Some(1) by {
      assert "1"[..0] == "";
    }
    assert "1h"[..1] == "1" && "1h"[1..] == "h";
    ReadDurationComplete("1h", "1", "h", 1, 3600);
  }

  /** The default interval of the legacy command line: five seconds. */
  lemma DefaultInterval()
    ensures ParseDuration("5s") == Ok(5)
  {
    TrimNoop("5s");
    assert FirstAlpha("5s") == Some(1) by {
      assert "5s"[1..] == "s";
    }
    assert ParseNat("5") == Some(5) by {
      assert "5"[..0] == "";
    }
    assert "5s"[..1] == "5" && "5s"[1..] == "s";
    ReadDurationComplete("5s", "5", "s", 5, 1);
  }

  /** A number text that does not parse as a `u64` is refused as a number. */
  lemma NumberRefused(num: string, unit: string)
    requires NumberText(num) && Letters(unit) && ParseBounded(num, U64_MAX).None?
    ensures ParseDuration(num + unit) == Err(InvalidNumber(num))
  {
    CanonicalSplit(num, unit);
  }

  /** Letters that are not one of the known units are refused as a unit. */
  lemma UnitRefused(num: string, unit: string)
    requires NumberText(num) && Letters(unit) && ParseBounded(num, U64_MAX).Some? && unit !in UNITS
    ensures ParseDuration(num + unit) == Err(UnknownUnit(unit))
  {
    CanonicalSplit(num, unit);
    UnitsAccepted(unit);
  }

  /** A number with no unit is refused for its format. */
  lemma DigitsOnlyRefused(digits: string)
    requires |digits| > 0 && AllDigits(digits)
    ensures ParseDuration(digits) == Err(InvalidFormat(digits))
  {
    DigitsAreNumberText(digits);
    assert TrimStart(digits) == digits;
    assert TrimEnd(digits) == digits by {
      assert IsDigit(digits[|digits| - 1]);
    }
  }

  /** A fraction is refused as a number: the number must be a whole `u64`. */
  lemma FractionRefused(whole: string, fraction: string, unit: string)
    requires |whole| > 0 && AllDigits(whole) && AllDigits(fraction) && Letters(unit)
    ensures ParseDuration(whole + "." + fraction + unit) == Err(InvalidNumber(whole + "." + fraction))
  {
    var num := whole + "." + fraction;
    assert num[|whole|] == '.' && num[0] == whole[0];
    assert IsDigit(whole[0]);
    forall i | 0 <= i < |num| ensures !IsAlpha(num[i]) {
      if i < |whole| {
        assert IsDigit(whole[i]);
      } else if i > |whole| {
        assert num[i] == fraction[i - |whole| - 1];
        assert IsDigit(fraction[i - |whole| - 1]);
      }
    }
    assert ParseNat(num).None? by {
      assert !IsDigit(num[|whole|]);
    }
    NumberRefused(num, unit);
  }
}

=== FILE: gossip_verification.dfy ===
/**
 * Gossip protocol verification: per-node gossip statistics and protocol
 * measurements are collected in maps, then HyParView, SWIM and Plumtree
 * figures are derived from their totals over all nodes.
 *
 * Counters are unbounded naturals; ratios are `real`. The node maps are
 * `HashMap`s iterated in no particular order, so every total is stated as
 * an order-free `SumOf`.
 */
module GossipVerification {
  import opened Wrappers
  import opened MapSums
  import opened CrdtVerification

  // ---------------------------------------------------------------------------
  // Statistics reported by a node
  // ---------------------------------------------------------------------------

  datatype HyParViewStats = HyParViewStats(activeViewSize: nat, passiveViewSize: nat, shuffles: nat, joins: nat)

  datatype SwimStats = SwimStats(aliveCount: nat, suspectCount: nat, deadCount: nat, pingsSent: nat, acksReceived: nat)

  datatype PlumtreeStats = PlumtreeStats(
    eagerPeers: nat, lazyPeers: nat, messagesSent: nat, messagesReceived: nat,
    duplicates: nat, grafts: nat, prunes: nat)

  datatype ConnectionBreakdown = ConnectionBreakdown(directIpv4: nat, directIpv6: nat, holePunched: nat, relayed: nat)

  datatype CoordinatorStats = CoordinatorStats(
    isCoordinator: bool, activeCoordinators: nat, coordinationSuccess: nat, coordinationFailed: nat)

  datatype GroupStats = GroupStats(groupsCount: nat, totalMembers: nat)

  datatype RendezvousStats = RendezvousStats(registrations: nat, discoveries: nat, activeProviders: nat)

  /** The gossip statistics one node reports. */
  datatype GossipStats = GossipStats(
    hyparview: HyParViewStats,
    swim: SwimStats,
    plumtree: PlumtreeStats,
    connectionTypes: ConnectionBreakdown,
    crdt: CrdtStats,
    coordinator: CoordinatorStats,
    groups: GroupStats,
    rendezvous: RendezvousStats)

  // The per-node quantities that are totalled over all nodes.
  function ActiveView(s: GossipStats): nat { s.hyparview.activeViewSize }
  function PassiveView(s: GossipStats): nat { s.hyparview.passiveViewSize }
  function Shuffles(s: GossipStats): nat { s.hyparview.shuffles }
  function PingsSent(s: GossipStats): nat { s.swim.pingsSent }
  function AcksReceived(s: GossipStats): nat { s.swim.acksReceived }
  function Alive(s: GossipStats): nat { s.swim.aliveCount }
  function Suspect(s: GossipStats): nat { s.swim.suspectCount }
  function Dead(s: GossipStats): nat { s.swim.deadCount }
  function MessagesSent(s: GossipStats): nat { s.plumtree.messagesSent }
  function MessagesReceived(s: GossipStats): nat { s.plumtree.messagesReceived }
  function Duplicates(s: GossipStats): nat { s.plumtree.duplicates }
  function Grafts(s: GossipStats): nat { s.plumtree.grafts }
  function Prunes(s: GossipStats): nat { s.plumtree.prunes }
  function EagerPeers(s: GossipStats): nat { s.plumtree.eagerPeers }
  function LazyPeers(s: GossipStats): nat { s.plumtree.lazyPeers }

  // ---------------------------------------------------------------------------
  // Protocol measurements, accumulated per node
  // ---------------------------------------------------------------------------

  datatype SwimMeasurements = SwimMeasurements(pingReqSent: nat, pingReqSuccess: nat, detectionLatenciesMs: seq<nat>)

  datatype PlumtreeMeasurements = PlumtreeMeasurements(ihaveSent: nat, graftReceived: nat, messagesNeedingRecovery: nat)

  datatype HyParViewMeasurements = HyParViewMeasurements(shufflesInitiated: nat, shufflesCompleted: nat, viewUpdatesFromShuffles: nat)

  function PingReqSent(m: SwimMeasurements): nat { m.pingReqSent }
  function PingReqSuccess(m: SwimMeasurements): nat { m.pingReqSuccess }
  function LatencyCount(m: SwimMeasurements): nat { |m.detectionLatenciesMs| }
  function LatencyTotal(m: SwimMeasurements): nat { SeqSum(m.detectionLatenciesMs) }
  function IhaveSent(m: PlumtreeMeasurements): nat { m.ihaveSent }
  function GraftReceived(m: PlumtreeMeasurements): nat { m.graftReceived }
  function NeedingRecovery(m: PlumtreeMeasurements): nat { m.messagesNeedingRecovery }
  function ShufflesInitiated(m: HyParViewMeasurements): nat { m.shufflesInitiated }
  function ShufflesCompleted(m: HyParViewMeasurements): nat { m.shufflesCompleted }
  function ViewUpdates(m: HyParViewMeasurements): nat { m.viewUpdatesFromShuffles }
  function TimesCount(v: seq<nat>): nat { |v| }
  function Millis(t: nat): nat { t }
  function TimesTotal(v: seq<nat>): nat { SeqSum(v) }

  /** `record_swim_measurement` on the map: add to the node's totals (from zero for a new node). */
  function AddSwim(m: map<string, SwimMeasurements>, nodeId: string, sent: nat, success: nat, latency: Option<nat>)
    : (r: map<string, SwimMeasurements>)
  {
    var before := if nodeId in m then m[nodeId] else SwimMeasurements(0, 0, []);
    m[nodeId := SwimMeasurements(before.pingReqSent + sent, before.pingReqSuccess + success,
                                 before.detectionLatenciesMs + (if latency.Some? then [latency.value] else []))]
  }

  /** `record_plumtree_measurement` on the map. */
  function AddPlumtree(m: map<string, PlumtreeMeasurements>, nodeId: string, ihave: nat, graft: nat, recovery: nat)
    : (r: map<string, PlumtreeMeasurements>)
  {
    var before := if nodeId in m then m[nodeId] else PlumtreeMeasurements(0, 0, 0);
    m[nodeId := PlumtreeMeasurements(before.ihaveSent + ihave, before.graftReceived + graft,
                                     before.messagesNeedingRecovery + recovery)]
  }

  /** `record_hyparview_measurement` on the map. */
  function AddHyParView(m: map<string, HyParViewMeasurements>, nodeId: string, initiated: nat, completed: nat, updates: nat)
    : (r: map<string, HyParViewMeasurements>)
  {
    var before := if nodeId in m then m[nodeId] else HyParViewMeasurements(0, 0, 0);
    m[nodeId := HyParViewMeasurements(before.shufflesInitiated + initiated, before.shufflesCompleted + completed,
                                      before.viewUpdatesFromShuffles + updates)]
  }

  /** A SWIM measurement raises the all-node probe totals by exactly what it reports. */
  lemma AddSwimRaisesProbes(m: map<string, SwimMeasurements>, nodeId: string, sent: nat, success: nat, latency: Option<nat>)
    ensures var r := AddSwim(m, nodeId, sent, success, latency);
      SumOf(r, PingReqSent) == SumOf(m, PingReqSent) + sent &&
      SumOf(r, PingReqSuccess) == SumOf(m, PingReqSuccess) + success
  {
    var before := if nodeId in m then m[nodeId] else SwimMeasurements(0, 0, []);
    var after := SwimMeasurements(before.pingReqSent + sent, before.pingReqSuccess + success,
                                  before.detectionLatenciesMs + (if latency.Some? then [latency.value] else []));
    assert AddSwim(m, nodeId, sent, success, latency) == m[nodeId := after];
    SumOfUpdate(m, PingReqSent, nodeId, after);
    SumOfUpdate(m, PingReqSuccess, nodeId, after);
  }

  /** The latencies a node holds after a SWIM measurement: one more exactly when the measurement carries one. */
  lemma AddSwimLatencies(m: map<string, SwimMeasurements>, nodeId: string, sent: nat, success: nat, latency: Option<nat>)
    ensures var before := if nodeId in m then m[nodeId] else SwimMeasurements(0, 0, []);
      var after := AddSwim(m, nodeId, sent, success, latency)[nodeId];
      LatencyCount(after) == LatencyCount(before) + (if latency.Some? then 1 else 0) &&
      LatencyTotal(after) == LatencyTotal(before) + (if latency.Some? then latency.value else 0)
  {
    var before := if nodeId in m then m[nodeId] else SwimMeasurements(0, 0, []);
    var added := if latency.Some? then [latency.value] else [];
    SeqSumAppend(before.detectionLatenciesMs, added);
    if latency.Some? {
      assert [latency.value][..0] == [];
    }
  }

  /** A SWIM measurement adds its detection latency, if any, to the all-node latencies. */
  lemma AddSwimRaisesLatencies(m: map<string, SwimMeasurements>, nodeId: string, sent: nat, success: nat, latency: Option<nat>)
    ensures var r := AddSwim(m, nodeId, sent, success, latency);
      SumOf(r, LatencyCount) == SumOf(m, LatencyCount) + (if latency.Some? then 1 else 0) &&
      SumOf(r, LatencyTotal) == SumOf(m, LatencyTotal) + (if latency.Some? then latency.value else 0)
  {
    var r := AddSwim(m, nodeId, sent, success, latency);
    AddSwimLatencies(m, nodeId, sent, success, latency);
    assert r == m[nodeId := r[nodeId]];
    SumOfUpdate(m, LatencyCount, nodeId, r[nodeId]);
    SumOfUpdate(m, LatencyTotal, nodeId, r[nodeId]);
  }

  /** A Plumtree measurement raises the all-node totals by exactly what it reports. */
  lemma AddPlumtreeRaisesTotals(m: map<string, PlumtreeMeasurements>, nodeId: string, ihave: nat, graft: nat, recovery: nat)
    ensures var r := AddPlumtree(m, nodeId, ihave, graft, recovery);
      SumOf(r, IhaveSent) == SumOf(m, IhaveSent) + ihave &&
      SumOf(r, GraftReceived) == SumOf(m, GraftReceived) + graft &&
      SumOf(r, NeedingRecovery) == SumOf(m, NeedingRecovery) + recovery
  {
    var before := if nodeId in m then m[nodeId] else PlumtreeMeasurements(0, 0, 0);
    var after := PlumtreeMeasurements(before.ihaveSent + ihave, before.graftReceived + graft,
                                      before.messagesNeedingRecovery + recovery);
    assert AddPlumtree(m, nodeId, ihave, graft, recovery) == m[nodeId := after];
    SumOfUpdate(m, IhaveSent, nodeId, after);
    SumOfUpdate(m, GraftReceived, nodeId, after);
    SumOfUpdate(m, NeedingRecovery, nodeId, after);
  }

  /** A HyParView measurement raises the all-node totals by exactly what it reports. */
  lemma AddHyParViewRaisesTotals(m: map<string, HyParViewMeasurements>, nodeId: string, initiated: nat, completed: nat, updates: nat)
    ensures var r := AddHyParView(m, nodeId, initiated, completed, updates);
      SumOf(r, ShufflesInitiated) == SumOf(m, ShufflesInitiated) + initiated &&
      SumOf(r, ShufflesCompleted) == SumOf(m, ShufflesCompleted) + completed &&
      SumOf(r, ViewUpdates) == SumOf(m, ViewUpdates) + updates
  {
    var before := if nodeId in m then m[nodeId] else HyParViewMeasurements(0, 0, 0);
    var after := HyParViewMeasurements(before.shufflesInitiated + initiated, before.shufflesCompleted + completed,
                                       before.viewUpdatesFromShuffles + updates);
    assert AddHyParView(m, nodeId, initiated, completed, updates) == m[nodeId := after];
    SumOfUpdate(m, ShufflesInitiated, nodeId, after);
    SumOfUpdate(m, ShufflesCompleted, nodeId, after);
    SumOfUpdate(m, ViewUpdates, nodeId, after);
  }

  // ---------------------------------------------------------------------------
  // Proofs
  // ---------------------------------------------------------------------------

  datatype GossipVerifierConfig = GossipVerifierConfig(
    expectedActiveView: nat, expectedPassiveView: nat, minShuffleRate: real, minPingRate: real,
    maxFalsePositiveRate: real, minDeliveryRate: real, maxFailureDetectionMs: nat)

  const DEFAULT_GOSSIP_CONFIG := GossipVerifierConfig(4, 16, 0.8, 0.9, 0.05, 0.95, 5000)

  datatype HyParViewProof = HyParViewProof(
    activeViewSize: nat,
    passiveViewSize: nat,
    expectedActiveSize: nat,
    expectedPassiveSize: nat,
    shuffleSuccessRate: real,
    viewConvergenceTimeMs: nat,
    bidirectionalConnections: set<(string, string)>)

  datatype SwimProof = SwimProof(
    probesSent: nat,
    probesReceived: nat,
    pingSuccessRate: real,
    falsePositiveRate: real,
    failureDetectionLatencyMs: nat,
    pingReqSuccessRate: real)

  datatype PlumtreeProof = PlumtreeProof(
    messagesBroadcast: nat,
    messagesDelivered: nat,
    eagerPushDeliveryRate: real,
    lazyPushRecoveryRate: real,
    ihaveGraftSuccessRate: real,
    messageDeliveryLatencyMs: nat,
    treeStructureValid: bool)

  /** The integer mean of `count` samples totalling `total`, 0 without samples. */
  function Mean(total: nat, count: nat): nat
  {
    if count == 0 then 0 else total / count
  }

  /** `a / b` as a ratio, 0 when there is nothing to divide by. */
  function Ratio(a: nat, b: nat): (r: real)
    ensures b == 0 ==> r == 0.0
    ensures r >= 0.0
    ensures b > 0 && a <= b ==> r <= 1.0
    ensures b > 0 && a >= b ==> r >= 1.0
    ensures b > 0 ==> r * (b as real) == a as real
  {
    if b == 0 then 0.0 else (a as real) / (b as real)
  }

  function MinOne(r: real): real
  {
    if r < 1.0 then r else 1.0
  }

  /** The SWIM counters totalled over all nodes. */
  datatype SwimTotals = SwimTotals(pingsSent: nat, acksReceived: nat, alive: nat, suspect: nat, dead: nat)

  ghost function SwimTotalsOf(stats: map<string, GossipStats>): SwimTotals
  {
    SwimTotals(SumOf(stats, PingsSent), SumOf(stats, AcksReceived), SumOf(stats, Alive), SumOf(stats, Suspect), SumOf(stats, Dead))
  }

  /**
   * The SWIM figures: probe totals and the ping success rate (0 without
   * pings); the share of suspect members among all members seen; the
   * indirect probe success rate, falling back to the direct rate when no
   * indirect probe was measured.
   */
  function SwimFigures(t: SwimTotals, pingReqSent: nat, pingReqSuccess: nat, latencyMs: nat): (p: SwimProof)
    ensures p.probesSent == t.pingsSent && p.probesReceived == t.acksReceived
    ensures p.failureDetectionLatencyMs == latencyMs
    ensures t.pingsSent == 0 ==> p.pingSuccessRate == 0.0
    ensures t.pingsSent > 0 ==> p.pingSuccessRate * (t.pingsSent as real) == t.acksReceived as real
    ensures 0.0 <= p.falsePositiveRate <= 1.0
    ensures t.suspect == 0 ==> p.falsePositiveRate == 0.0
    ensures t.alive + t.dead == 0 && t.suspect > 0 ==> p.falsePositiveRate == 1.0
    ensures pingReqSent == 0 ==> p.pingReqSuccessRate == p.pingSuccessRate
    ensures pingReqSent > 0 ==> p.pingReqSuccessRate * (pingReqSent as real) == pingReqSuccess as real
  {
    var pingRate := Ratio(t.acksReceived, t.pingsSent);
    SwimProof(t.pingsSent, t.acksReceived, pingRate, Ratio(t.suspect, t.alive + t.suspect + t.dead), latencyMs,
              if pingReqSent > 0 then Ratio(pingReqSuccess, pingReqSent) else pingRate)
  }

  /** The Plumtree counters totalled over all nodes. */
  datatype PlumtreeTotals = PlumtreeTotals(
    sent: nat, received: nat, duplicates: nat, grafts: nat, prunes: nat, eagerPeers: nat, lazyPeers: nat)

  ghost function PlumtreeTotalsOf(stats: map<string, GossipStats>): PlumtreeTotals
  {
    PlumtreeTotals(SumOf(stats, MessagesSent), SumOf(stats, MessagesReceived), SumOf(stats, Duplicates),
                   SumOf(stats, Grafts), SumOf(stats, Prunes), SumOf(stats, EagerPeers), SumOf(stats, LazyPeers))
  }

  /**
   * The Plumtree figures: eager delivery and lazy recovery rates capped at
   * 1; the IHAVE/GRAFT rate from the measurements, or else grafts against
   * grafts plus prunes, or 0 without any activity; and the tree check:
   * duplicates under half of what was received, or else some eager or lazy
   * peer, or else nothing sent.
   */
  function PlumtreeFigures(t: PlumtreeTotals, ihaveSent: nat, graftReceived: nat, latencyMs: nat): (p: PlumtreeProof)
    ensures p.messagesBroadcast == t.sent && p.messagesDelivered == t.received
    ensures p.messageDeliveryLatencyMs == latencyMs
    ensures 0.0 <= p.eagerPushDeliveryRate <= 1.0 && 0.0 <= p.lazyPushRecoveryRate <= 1.0
    ensures t.eagerPeers == 0 || t.sent == 0 ==> p.eagerPushDeliveryRate == 0.0
    ensures t.eagerPeers > 0 && 0 < t.sent <= t.received ==> p.eagerPushDeliveryRate == 1.0
    ensures t.lazyPeers == 0 ==> p.lazyPushRecoveryRate == 0.0
    ensures ihaveSent > 0 ==> p.ihaveGraftSuccessRate * (ihaveSent as real) == graftReceived as real
    ensures ihaveSent == 0 ==> 0.0 <= p.ihaveGraftSuccessRate <= 1.0
    ensures ihaveSent == 0 && t.grafts == 0 ==> p.ihaveGraftSuccessRate == 0.0
    ensures t.received > 0 ==> (p.treeStructureValid <==> 2 * t.duplicates < t.received)
    ensures t.received == 0 && (t.eagerPeers > 0 || t.lazyPeers > 0) ==> p.treeStructureValid
    ensures t.received == 0 && t.eagerPeers == 0 && t.lazyPeers == 0 ==> (p.treeStructureValid <==> t.sent == 0)
  {
    var eagerRate := if t.eagerPeers > 0 && t.sent > 0 then MinOne(Ratio(t.received, t.sent)) else 0.0;
    var lazyRate := if t.lazyPeers > 0 then MinOne(Ratio(t.grafts, if t.duplicates > 0 then t.duplicates else 1)) else 0.0;
    var ihaveRate := if ihaveSent > 0 then Ratio(graftReceived, ihaveSent) else Ratio(t.grafts, t.grafts + t.prunes);
    var treeValid := if t.received > 0 then Ratio(t.duplicates, t.received) < 0.5
                     else if t.eagerPeers > 0 || t.lazyPeers > 0 then true
                     else t.sent == 0;
    HalfRatioFacts(t.duplicates, t.received);
    PlumtreeProof(t.sent, t.received, eagerRate, lazyRate, ihaveRate, latencyMs, treeValid)
  }

  /** Both nodes are recorded, distinct, and report a non-empty active view. */
  ghost predicate BothActive(stats: map<string, GossipStats>, a: string, b: string)
  {
    a in stats && b in stats && a != b && ActiveView(stats[a]) > 0 && ActiveView(stats[b]) > 0
  }

  /** The largest value, 0 for an empty map. */
  method MaxValue(m: map<string, nat>) returns (r: nat)
    ensures |m| == 0 ==> r == 0
    ensures |m| > 0 ==> r in m.Values
    ensures forall k :: k in m ==> m[k] <= r
  {
    r := 0;
    var rest := m.Keys;
    while rest != {}
      invariant rest <= m.Keys
      invariant forall k :: k in m.Keys - rest ==> m[k] <= r
      invariant m.Keys - rest != {} ==> r in m.Values
      invariant m.Keys - rest == {} ==> r == 0
      decreases |rest|
    {
      var k :| k in rest;
      if m[k] >= r || m.Keys - rest == {} {
        r := m[k];
      }
      rest := rest - {k};
    }
    if |m| > 0 {
      assert m.Keys - rest != {} by {
        var k :| k in m;
        assert k in m.Keys - rest;
      }
    }
  }

  class GossipVerifier {
    const config: GossipVerifierConfig
    var nodeStats: map<string, GossipStats>
    var viewConvergence: map<string, nat>
    var failureDetection: map<string, nat>
    var messageDelivery: map<string, seq<nat>>
    var swimMeasurements: map<string, SwimMeasurements>
    var plumtreeMeasurements: map<string, PlumtreeMeasurements>
    var hyparviewMeasurements: map<string, HyParViewMeasurements>

    /** Everything collected is empty. */
    ghost predicate Empty()
      reads this
    {
      nodeStats == map[] && viewConvergence == map[] && failureDetection == map[] && messageDelivery == map[] &&
      swimMeasurements == map[] && plumtreeMeasurements == map[] && hyparviewMeasurements == map[]
    }

    /** `with_config`. */
    constructor (config: GossipVerifierConfig)
      ensures this.config == config && Empty()
    {
      this.config := config;
      nodeStats, viewConvergence, failureDetection, messageDelivery := map[], map[], map[], map[];
      swimMeasurements, plumtreeMeasurements, hyparviewMeasurements := map[], map[], map[];
    }

    /** `record_node_stats`: the latest stats replace the node's earlier ones. */
    method RecordNodeStats(nodeId: string, stats: GossipStats)
      modifies this`nodeStats
      ensures nodeStats == old(nodeStats)[nodeId := stats]
    {
      nodeStats := nodeStats[nodeId := stats];
    }

    method RecordViewConvergence(nodeId: string, timeMs: nat)
      modifies this`viewConvergence
      ensures viewConvergence == old(viewConvergence)[nodeId := timeMs]
    {
      viewConvergence := viewConvergence[nodeId := timeMs];
    }

    method RecordFailureDetection(nodeId: string, timeMs: nat)
      modifies this`failureDetection
      ensures failureDetection == old(failureDetection)[nodeId := timeMs]
    {
      failureDetection := failureDetection[nodeId := timeMs];
    }

    /** `record_message_delivery`: append to the message's delivery times. */
    method RecordMessageDelivery(messageId: string, deliveryTimeMs: nat)
      modifies this`messageDelivery
      ensures messageDelivery == old(messageDelivery)[messageId :=
        (if messageId in old(messageDelivery) then old(messageDelivery)[messageId] else []) + [deliveryTimeMs]]
    {
      var times := if messageId in messageDelivery then messageDelivery[messageId] else [];
      messageDelivery := messageDelivery[messageId := times + [deliveryTimeMs]];
    }

    /** `record_swim_measurement`: add to the node's running SWIM totals. */
    method RecordSwimMeasurement(nodeId: string, pingReqSent: nat, pingReqSuccess: nat, detectionLatencyMs: Option<nat>)
      modifies this`swimMeasurements
      ensures swimMeasurements == AddSwim(old(swimMeasurements), nodeId, pingReqSent, pingReqSuccess, detectionLatencyMs)
    {
      swimMeasurements := AddSwim(swimMeasurements, nodeId, pingReqSent, pingReqSuccess, detectionLatencyMs);
    }

    /** `record_plumtree_measurement`: add to the node's running Plumtree totals. */
    method RecordPlumtreeMeasurement(nodeId: string, ihaveSent: nat, graftReceived: nat, messagesNeedingRecovery: nat)
      modifies this`plumtreeMeasurements
      ensures plumtreeMeasurements == AddPlumtree(old(plumtreeMeasurements), nodeId, ihaveSent, graftReceived, messagesNeedingRecovery)
    {
      plumtreeMeasurements := AddPlumtree(plumtreeMeasurements, nodeId, ihaveSent, graftReceived, messagesNeedingRecovery);
    }

    /** `record_hyparview_measurement`: add to the node's running HyParView totals. */
    method RecordHyParViewMeasurement(nodeId: string, shufflesInitiated: nat, shufflesCompleted: nat, viewUpdates: nat)
      modifies this`hyparviewMeasurements
      ensures hyparviewMeasurements == AddHyParView(old(hyparviewMeasurements), nodeId, shufflesInitiated, shufflesCompleted, viewUpdates)
    {
      hyparviewMeasurements := AddHyParView(hyparviewMeasurements, nodeId, shufflesInitiated, shufflesCompleted, viewUpdates);
    }

    /**
     * `get_aggregated_swim_measurements`: the totals over all nodes; the
     * latencies of all nodes are gathered into one list.
     */
    method AggregatedSwim() returns (agg: SwimMeasurements)
      ensures agg.pingReqSent == SumOf(swimMeasurements, PingReqSent)
      ensures agg.pingReqSuccess == SumOf(swimMeasurements, PingReqSuccess)
      ensures |agg.detectionLatenciesMs| == SumOf(swimMeasurements, LatencyCount)
      ensures SeqSum(agg.detectionLatenciesMs) == SumOf(swimMeasurements, LatencyTotal)
    {
      var m := swimMeasurements;
      var sent, success, latencies := 0, 0, [];
      var rest := m;
      while |rest| > 0
        invariant sent + SumOf(rest, PingReqSent) == SumOf(m, PingReqSent)
        invariant success + SumOf(rest, PingReqSuccess) == SumOf(m, PingReqSuccess)
        invariant |latencies| + SumOf(rest, LatencyCount) == SumOf(m, LatencyCount)
        invariant SeqSum(latencies) + SumOf(rest, LatencyTotal) == SumOf(m, LatencyTotal)
        decreases |rest|
      {
        var k :| k in rest;
        SumOfRemove(rest, PingReqSent, k);
        SumOfRemove(rest, PingReqSuccess, k);
        SumOfRemove(rest, LatencyCount, k);
        SumOfRemove(rest, LatencyTotal, k);
        RemoveSize(rest, k);
        SeqSumAppend(latencies, rest[k].detectionLatenciesMs);
        sent, success := sent + rest[k].pingReqSent, success + rest[k].pingReqSuccess;
        latencies := latencies + rest[k].detectionLatenciesMs;
        rest := rest - {k};
      }
      agg := SwimMeasurements(sent, success, latencies);
    }

    /** `get_aggregated_plumtree_measurements`. */
    method AggregatedPlumtree() returns (agg: PlumtreeMeasurements)
      ensures agg.ihaveSent == SumOf(plumtreeMeasurements, IhaveSent)
      ensures agg.graftReceived == SumOf(plumtreeMeasurements, GraftReceived)
      ensures agg.messagesNeedingRecovery == SumOf(plumtreeMeasurements, NeedingRecovery)
    {
      var ihave := SumValues(plumtreeMeasurements, IhaveSent);
      var graft := SumValues(plumtreeMeasurements, GraftReceived);
      var recovery := SumValues(plumtreeMeasurements, NeedingRecovery);
      agg := PlumtreeMeasurements(ihave, graft, recovery);
    }

    /** `get_aggregated_hyparview_measurements`. */
    method AggregatedHyParView() returns (agg: HyParViewMeasurements)
      ensures agg.shufflesInitiated == SumOf(hyparviewMeasurements, ShufflesInitiated)
      ensures agg.shufflesCompleted == SumOf(hyparviewMeasurements, ShufflesCompleted)
      ensures agg.viewUpdatesFromShuffles == SumOf(hyparviewMeasurements, ViewUpdates)
    {
      var initiated := SumValues(hyparviewMeasurements, ShufflesInitiated);
      var completed := SumValues(hyparviewMeasurements, ShufflesCompleted);
      var updates := SumValues(hyparviewMeasurements, ViewUpdates);
      agg := HyParViewMeasurements(initiated, completed, updates);
    }

    /** The ordered pairs of distinct nodes that both report a non-empty active view. */
    method BidirectionalConnections() returns (pairs: set<(string, string)>)
      ensures forall a, b :: (a, b) in pairs <==> BothActive(nodeStats, a, b)
    {
      var stats := nodeStats;
      pairs := {};
      var outer := stats.Keys;
      while outer != {}
        invariant outer <= stats.Keys
        invariant forall a, b :: (a, b) in pairs <==> a !in outer && BothActive(stats, a, b)
        decreases |outer|
      {
        var a :| a in outer;
        if ActiveView(stats[a]) > 0 {
          var inner := stats.Keys;
          var row: set<(string, string)> := {};
          while inner != {}
            invariant inner <= stats.Keys
            invariant forall x, b :: (x, b) in row <==> x == a && b !in inner && BothActive(stats, a, b)
            decreases |inner|
          {
            var b :| b in inner;
            if b != a && ActiveView(stats[b]) > 0 {
              row := row + {(a, b)};
            }
            inner := inner - {b};
          }
          pairs := pairs + row;
        }
        outer := outer - {a};
      }
    }

    /**
     * `verify_hyparview`: integer average view sizes over the recorded
     * nodes; the pairs of active nodes; the shuffle success rate from the
     * measurements, or else estimated from how many nodes have an active
     * view; the slowest view convergence.
     */
    method VerifyHyParView() returns (proof: HyParViewProof)
      ensures proof.expectedActiveSize == config.expectedActiveView
      ensures proof.expectedPassiveSize == config.expectedPassiveView
      ensures proof.activeViewSize == Mean(SumOf(nodeStats, ActiveView), |nodeStats|)
      ensures proof.passiveViewSize == Mean(SumOf(nodeStats, PassiveView), |nodeStats|)
      ensures forall a, b :: (a, b) in proof.bidirectionalConnections <==> BothActive(nodeStats, a, b)
      ensures SumOf(hyparviewMeasurements, ShufflesInitiated) > 0 ==>
        proof.shuffleSuccessRate == Ratio(SumOf(hyparviewMeasurements, ShufflesCompleted), SumOf(hyparviewMeasurements, ShufflesInitiated))
      ensures SumOf(hyparviewMeasurements, ShufflesInitiated) == 0 && |nodeStats| > 1 && SumOf(nodeStats, Shuffles) > 0 ==>
        proof.shuffleSuccessRate == Ratio(|set k | k in nodeStats && ActiveView(nodeStats[k]) > 0|, |nodeStats|) &&
        proof.shuffleSuccessRate <= 1.0
      ensures SumOf(hyparviewMeasurements, ShufflesInitiated) == 0 && (|nodeStats| <= 1 || SumOf(nodeStats, Shuffles) == 0) ==>
        proof.shuffleSuccessRate == 0.0
      ensures forall k :: k in viewConvergence ==> viewConvergence[k] <= proof.viewConvergenceTimeMs
      ensures |viewConvergence| > 0 ==> proof.viewConvergenceTimeMs in viewConvergence.Values
      ensures |viewConvergence| == 0 ==> proof.viewConvergenceTimeMs == 0
    {
      var totalActive := SumValues(nodeStats, ActiveView);
      var totalPassive := SumValues(nodeStats, PassiveView);
      var totalShuffles := SumValues(nodeStats, Shuffles);
      var nodeCount := |nodeStats|;
      var pairs := BidirectionalConnections();
      var active, passive := Mean(totalActive, nodeCount), Mean(totalPassive, nodeCount);
      var measured := AggregatedHyParView();
      var rate := 0.0;
      if measured.shufflesInitiated > 0 {
        rate := Ratio(measured.shufflesCompleted, measured.shufflesInitiated);
      } else if nodeCount > 1 && totalShuffles > 0 {
        var withViews := set k | k in nodeStats && ActiveView(nodeStats[k]) > 0;
        assert withViews <= nodeStats.Keys;
        SubsetCard(withViews, nodeStats.Keys);
        rate := Ratio(|withViews|, nodeCount);
      }
      var convergence := MaxValue(viewConvergence);
      proof := HyParViewProof(active, passive, config.expectedActiveView, config.expectedPassiveView,
                              rate, convergence, pairs);
    }

    /**
     * `verify_swim`: the SWIM figures over the all-node totals; measured
     * detection latencies take precedence over the timing data.
     */
    method VerifySwim() returns (proof: SwimProof)
      ensures proof == SwimFigures(SwimTotalsOf(nodeStats), SumOf(swimMeasurements, PingReqSent),
                                   SumOf(swimMeasurements, PingReqSuccess),
                                   if SumOf(swimMeasurements, LatencyCount) > 0
                                   then Mean(SumOf(swimMeasurements, LatencyTotal), SumOf(swimMeasurements, LatencyCount))
                                   else Mean(SumOf(failureDetection, Millis), |failureDetection|))
    {
      var pings := SumValues(nodeStats, PingsSent);
      var acks := SumValues(nodeStats, AcksReceived);
      var alive := SumValues(nodeStats, Alive);
      var suspect := SumValues(nodeStats, Suspect);
      var dead := SumValues(nodeStats, Dead);
      var total := SumValues(failureDetection, Millis);
      var latency := Mean(total, |failureDetection|);
      var measured := AggregatedSwim();
      if |measured.detectionLatenciesMs| > 0 {
        latency := Mean(SeqSum(measured.detectionLatenciesMs), |measured.detectionLatenciesMs|);
      }
      proof := SwimFigures(SwimTotals(pings, acks, alive, suspect, dead), measured.pingReqSent, measured.pingReqSuccess, latency);
    }

    /** `verify_plumtree`: the Plumtree figures over the all-node totals. */
    method VerifyPlumtree() returns (proof: PlumtreeProof)
      ensures proof == PlumtreeFigures(PlumtreeTotalsOf(nodeStats), SumOf(plumtreeMeasurements, IhaveSent),
                                       SumOf(plumtreeMeasurements, GraftReceived),
                                       Mean(SumOf(messageDelivery, TimesTotal), SumOf(messageDelivery, TimesCount)))
    {
      var sent := SumValues(nodeStats, MessagesSent);
      var received := SumValues(nodeStats, MessagesReceived);
      var duplicates := SumValues(nodeStats, Duplicates);
      var grafts := SumValues(nodeStats, Grafts);
      var prunes := SumValues(nodeStats, Prunes);
      var eager := SumValues(nodeStats, EagerPeers);
      var lazy := SumValues(nodeStats, LazyPeers);
      var measured := AggregatedPlumtree();
      var count := SumValues(messageDelivery, TimesCount);
      var total := SumValues(messageDelivery, TimesTotal);
      proof := PlumtreeFigures(PlumtreeTotals(sent, received, duplicates, grafts, prunes, eager, lazy),
                               measured.ihaveSent, measured.graftReceived, Mean(total, count));
    }

    /** `clear`: drop every statistic, timing and measurement. */
    method Clear()
      modifies this
      ensures Empty()
    {
      nodeStats, viewConvergence, failureDetection, messageDelivery := map[], map[], map[], map[];
      swimMeasurements, plumtreeMeasurements, hyparviewMeasurements := map[], map[], map[];
    }
  }

  /** The duplicate-rate test `dup / received < 0.5` is `2 * dup < received`. */
  lemma HalfRatioFacts(dup: nat, received: nat)
    ensures received > 0 ==> (Ratio(dup, received) < 0.5 <==> 2 * dup < received)
  {
    if received == 0 { return; }
    var d, n := dup as real, received as real;
    var q := d / n;
    assert Ratio(dup, received) == q;
    assert q * n == d;
    ScaleLess(q, 0.5, n);
    assert q < 0.5 <==> d < 0.5 * n;
    assert d < 0.5 * n <==> 2 * dup < received;
  }

  /** Multiplying by a positive number keeps a strict order. */
  lemma ScaleLess(x: real, y: real, n: real)
    requires n > 0.0
    ensures x < y <==> x * n < y * n
  {
  }

}

=== FILE: issue_reporter.dfy ===
/**
 * Issue reports for defects found in the external libraries under test: a
 * builder whose setters return an updated copy, the markdown body it
 * assembles from the expected/actual behaviour, numbered reproduction steps
 * and notes, the library-to-repository table and the full GitHub issue text.
 */
module IssueReporter {
  import opened Wrappers
  import opened Text

  /** Which GitHub repository receives issues for which library. */
  const LIBRARY_REPOS: seq<(string, string)> := [
    ("saorsa-gossip", "dirvine/saorsa-gossip"),
    ("ant-quic", "dirvine/ant-quic")
  ]

  // ---------------------------------------------------------------------------
  // Environment
  // ---------------------------------------------------------------------------

  datatype EnvironmentInfo = EnvironmentInfo(
    os: string,
    osVersion: string,
    rustVersion: string,
    libraryVersion: string,
    commitHash: Option<string>,
    additional: map<string, string>)
  {
    /** `with_library_version`: records the version and nothing else. */
    function WithLibraryVersion(version: string): (e: EnvironmentInfo)
      ensures e.libraryVersion == version
      ensures e.(libraryVersion := libraryVersion) == this
    {
      this.(libraryVersion := version)
    }

    /** `with_commit_hash`: records the commit and nothing else. */
    function WithCommitHash(hash: string): (e: EnvironmentInfo)
      ensures e.commitHash == Some(hash)
      ensures e.(commitHash := commitHash) == this
    {
      this.(commitHash := Some(hash))
    }

    /** `add_context`: stores `value` under `key`, replacing an earlier value, and keeps every other entry. */
    function AddContext(key: string, value: string): (e: EnvironmentInfo)
      ensures e.additional.Keys == additional.Keys + {key}
      ensures e.additional[key] == value
      ensures forall k :: k in additional && k != key ==> e.additional[k] == additional[k]
      ensures e.(additional := additional) == this
    {
      this.(additional := additional[key := value])
    }
  }

  /**
   * `EnvironmentInfo::capture`. The operating system name and the OS and
   * Rust versions are read from the machine, so they are parameters here.
   */
  function Capture(os: string, osVersion: string, rustVersion: string): (e: EnvironmentInfo)
    ensures e.os == os && e.osVersion == osVersion && e.rustVersion == rustVersion
    ensures e.libraryVersion == "" && e.commitHash == None && e.additional == map[]
  {
    EnvironmentInfo(os, osVersion, rustVersion, "", None, map[])
  }

  /** The commit shown in an issue: the recorded hash, or "unknown". */
  function CommitText(env: EnvironmentInfo): (r: string)
    ensures env.commitHash.None? ==> r == "unknown"
    ensures env.commitHash.Some? ==> r == env.commitHash.value
  {
    env.commitHash.UnwrapOr("unknown")
  }

  // ---------------------------------------------------------------------------
  // Repository lookup
  // ---------------------------------------------------------------------------

  /** Entry `i` is the first one of `table` keyed by `key`. */
  predicate FirstEntry(table: seq<(string, string)>, key: string, i: int)
  {
    0 <= i < |table| && table[i].0 == key && forall j :: 0 <= j < i ==> table[j].0 != key
  }

  /** The value of the first entry keyed by `key` (`iter().find(..).map(..)`). */
  function Lookup(table: seq<(string, string)>, key: string): (r: Option<string>)
    ensures r.None? <==> forall i :: 0 <= i < |table| ==> table[i].0 != key
    ensures r.Some? ==> exists i :: FirstEntry(table, key, i) && table[i].1 == r.value
    decreases |table|
  {
    if |table| == 0 then None
    else if table[0].0 == key then
      assert FirstEntry(table, key, 0);
      Some(table[0].1)
    else
      var r := Lookup(table[1..], key);
      if r.Some? then
        var i :| FirstEntry(table[1..], key, i) && table[1..][i].1 == r.value;
        assert FirstEntry(table, key, i + 1);
        r
      else
        assert forall i :: 1 <= i < |table| ==> table[i].0 == table[1..][i - 1].0;
        r
  }

  /** Looking a library up in the repository table. */
  lemma LookupRepos(library: string)
    ensures var r := Lookup(LIBRARY_REPOS, library);
      && (library == "saorsa-gossip" <==> r == Some("dirvine/saorsa-gossip"))
      && (library == "ant-quic" <==> r == Some("dirvine/ant-quic"))
      && (library != "saorsa-gossip" && library != "ant-quic" <==> r == None)
  {
    var r := Lookup(LIBRARY_REPOS, library);
    if r.Some? {
      var i :| FirstEntry(LIBRARY_REPOS, library, i) && LIBRARY_REPOS[i].1 == r.value;
      assert i == 0 || i == 1;
    } else {
      assert LIBRARY_REPOS[0].0 != library && LIBRARY_REPOS[1].0 != library;
    }
  }

  // ---------------------------------------------------------------------------
  // Reports
  // ---------------------------------------------------------------------------

  /** A report ready to be filed. `timestampMs` stands for the build-time wall clock. */
  datatype IssueReport = IssueReport(
    library: string,
    title: string,
    body: string,
    labels: seq<string>,
    testName: string,
    timestampMs: nat,
    environment: EnvironmentInfo)
  {
    /** `github_repo`: the two known libraries have a repository, every other library none. */
    function GithubRepo(): (r: Option<string>)
      ensures library == "saorsa-gossip" <==> r == Some("dirvine/saorsa-gossip")
      ensures library == "ant-quic" <==> r == Some("dirvine/ant-quic")
      ensures library != "saorsa-gossip" && library != "ant-quic" <==> r == None
    {
      LookupRepos(library);
      Lookup(LIBRARY_REPOS, library)
    }

    /**
     * `to_github_markdown`. The timestamp is rendered by a date library, so
     * its text is a parameter.
     */
    function ToGithubMarkdown(timestamp: string): (r: string)
      ensures MarkdownHead(library, environment.libraryVersion) <= r
    {
      MarkdownHead(library, environment.libraryVersion) + TestBlock(testName, timestamp, environment)
      + CommitLine(environment)
      + MarkdownTail(body, labels)
    }
  }

  /** The first lines of an issue: its title line and the library with its version. */
  function MarkdownHead(library: string, version: string): string
  {
    "## Bug Report\n\n**Library**: " + library + " v" + version + "\n"
  }

  /** The discovering test, the timestamp and the environment up to the Rust version. */
  function TestBlock(testName: string, timestamp: string, env: EnvironmentInfo): string
  {
    "**Test**: " + testName + "\n"
    + "**Timestamp**: " + timestamp + "\n\n"
    + "### Environment\n"
    + "- OS: " + env.os + " " + env.osVersion + "\n"
    + "- Rust: " + env.rustVersion + "\n"
  }

  function CommitLine(env: EnvironmentInfo): string
  {
    "- Commit: " + CommitText(env) + "\n"
  }

  function DescriptionBlock(body: string): string
  {
    "\n### Description\n" + body + "\n\n"
  }

  /** The labels section: the labels in order, separated by ", ". */
  function LabelsBlock(labels: seq<string>): string
  {
    "### Labels\n" + Join(labels, ", ") + "\n"
  }

  /** Everything after the commit line: the description, the labels and the footer. */
  function MarkdownTail(body: string, labels: seq<string>): string
  {
    DescriptionBlock(body) + LabelsBlock(labels) + MARKDOWN_FOOTER
  }

  const MARKDOWN_FOOTER := "\n---\n*Generated by saorsa-quic-test verification harness*\n"

  /** The issue names the commit it was found at, or says it is unknown. */
  lemma MarkdownShowsCommit(report: IssueReport, timestamp: string)
    ensures Contains(report.ToGithubMarkdown(timestamp), CommitLine(report.environment))
    ensures report.environment.commitHash.None? ==> CommitLine(report.environment) == "- Commit: unknown\n"
  {
    var env := report.environment;
    var a := MarkdownHead(report.library, env.libraryVersion) + TestBlock(report.testName, timestamp, env);
    ContainsMiddle(a, CommitLine(env), MarkdownTail(report.body, report.labels));
  }

  /** The issue lists its labels in order, separated by ", ". */
  lemma MarkdownShowsLabels(report: IssueReport, timestamp: string)
    ensures Contains(report.ToGithubMarkdown(timestamp), LabelsBlock(report.labels))
  {
    var env := report.environment;
    var a := MarkdownHead(report.library, env.libraryVersion) + TestBlock(report.testName, timestamp, env)
      + CommitLine(env);
    var tail := MarkdownTail(report.body, report.labels);
    ContainsMiddle(a, tail, "");
    assert a + tail + "" == report.ToGithubMarkdown(timestamp);
    ContainsMiddle(DescriptionBlock(report.body), LabelsBlock(report.labels), MARKDOWN_FOOTER);
    ContainsTrans(report.ToGithubMarkdown(timestamp), tail, LabelsBlock(report.labels));
  }

  // ---------------------------------------------------------------------------
  // Builder
  // ---------------------------------------------------------------------------

  datatype IssueReportBuilder = IssueReportBuilder(
    library: string,
    title: string,
    body: string,
    labels: seq<string>,
    testName: string,
    expected: Option<string>,
    actual: Option<string>,
    steps: seq<string>,
    notes: Option<string>)
  {
    /** `title`: sets the title and nothing else; a later call replaces an earlier one. */
    function Title(t: string): (b: IssueReportBuilder)
      ensures b.title == t && b.(title := title) == this
    {
      this.(title := t)
    }

    /** `test_name`: sets the discovering test and nothing else. */
    function TestName(name: string): (b: IssueReportBuilder)
      ensures b.testName == name && b.(testName := testName) == this
    {
      this.(testName := name)
    }

    /** `expected`: sets the expected behaviour and nothing else. */
    function Expected(text: string): (b: IssueReportBuilder)
      ensures b.expected == Some(text) && b.(expected := expected) == this
    {
      this.(expected := Some(text))
    }

    /** `actual`: sets the actual behaviour and nothing else. */
    function Actual(text: string): (b: IssueReportBuilder)
      ensures b.actual == Some(text) && b.(actual := actual) == this
    {
      this.(actual := Some(text))
    }

    /** `body`: sets the raw body, which takes precedence over the formatted sections. */
    function Body(text: string): (b: IssueReportBuilder)
      ensures b.body == text && b.(body := body) == this
    {
      this.(body := text)
    }

    /** `label`: appends one label, even one already present. */
    function Label(l: string): (b: IssueReportBuilder)
      ensures b.labels == labels + [l] && |b.labels| == |labels| + 1
      ensures b.(labels := labels) == this
    {
      this.(labels := labels + [l])
    }

    /** `labels`: appends every given label in order. */
    function Labels(ls: seq<string>): (b: IssueReportBuilder)
      ensures |b.labels| == |labels| + |ls|
      ensures b.labels[..|labels|] == labels && b.labels[|labels|..] == ls
      ensures b.(labels := labels) == this
    {
      this.(labels := labels + ls)
    }

    /** `step`: appends one reproduction step. */
    function Step(s: string): (b: IssueReportBuilder)
      ensures b.steps == steps + [s] && b.(steps := steps) == this
    {
      this.(steps := steps + [s])
    }

    /** `notes`: sets the additional notes and nothing else. */
    function Notes(text: string): (b: IssueReportBuilder)
      ensures b.notes == Some(text) && b.(notes := notes) == this
    {
      this.(notes := Some(text))
    }

    /** How many of the four body sections have been given. */
    function SectionCount(): nat
    {
      (if expected.Some? then 1 else 0) + (if actual.Some? then 1 else 0)
      + (if steps != [] then 1 else 0) + (if notes.Some? then 1 else 0)
    }

    /** The body sections, one per part that was set, in the fixed order Expected, Actual, Steps, Notes. */
    function Sections(): (parts: seq<string>)
      ensures |parts| == SectionCount()
    {
      (if expected.Some? then [Section("Expected behavior", expected.value)] else [])
      + (if actual.Some? then [Section("Actual behavior", actual.value)] else [])
      + (if steps != [] then [Section("Steps to reproduce", NumberedSteps(steps))] else [])
      + (if notes.Some? then [Section("Additional notes", notes.value)] else [])
    }

    /** `format_body`: collects the sections one after another and joins them with a blank line. */
    method FormatBody() returns (text: string)
      ensures text == Join(Sections(), "\n\n")
      ensures SectionCount() == 0 ==> text == ""
    {
      var parts: seq<string> := [];
      if expected.Some? {
        parts := parts + [Section("Expected behavior", expected.value)];
      }
      if actual.Some? {
        parts := parts + [Section("Actual behavior", actual.value)];
      }
      if steps != [] {
        parts := parts + [Section("Steps to reproduce", NumberedSteps(steps))];
      }
      if notes.Some? {
        parts := parts + [Section("Additional notes", notes.value)];
      }
      assert parts == Sections();
      text := Join(parts, "\n\n");
    }

    /**
     * `build`. A non-empty raw body is used verbatim; otherwise the body is
     * formatted from the sections. The wall clock and the machine's OS and
     * Rust versions are parameters.
     */
    method Build(timestampMs: nat, os: string, osVersion: string, rustVersion: string)
      returns (report: IssueReport)
      ensures body != "" ==> report.body == body
      ensures body == "" ==> report.body == Join(Sections(), "\n\n")
      ensures report.library == library && report.title == title && report.labels == labels
      ensures report.testName == testName && report.timestampMs == timestampMs
      ensures report.environment == Capture(os, osVersion, rustVersion)
    {
      var text := body;
      if body == "" {
        text := FormatBody();
      }
      report := IssueReport(library, title, text, labels, testName, timestampMs,
        Capture(os, osVersion, rustVersion));
    }
  }

  /** `IssueReportBuilder::new` (and `IssueReport::builder`): only the library is set. */
  function NewBuilder(library: string): (b: IssueReportBuilder)
    ensures b.library == library && b.title == "" && b.body == "" && b.testName == ""
    ensures b.labels == [] && b.steps == [] && b.SectionCount() == 0
  {
    IssueReportBuilder(library, "", "", [], "", None, None, [], None)
  }

  /** A section: its bold header line, then its text. */
  function Section(header: string, text: string): string
  {
    "**" + header + ":**\n" + text
  }

  /** Step `i` (from 0) rendered with its number, counting from 1. */
  function StepLine(steps: seq<string>, i: nat): string
    requires i < |steps|
  {
    NatToString(i + 1) + ". " + steps[i]
  }

  /** The reproduction steps, numbered from 1 in the order they were added, one per line. */
  function NumberedSteps(steps: seq<string>): string
  {
    Join(seq(|steps|, i requires 0 <= i < |steps| => StepLine(steps, i)), "\n")
  }

  // ---------------------------------------------------------------------------
  // Properties
  // ---------------------------------------------------------------------------

  /** Whatever order the setters ran in, a present section sits after exactly the present sections ranked before it. */
  lemma SectionsInOrder(b: IssueReportBuilder)
    ensures b.expected.Some? ==> b.Sections()[0] == Section("Expected behavior", b.expected.value)
    ensures b.actual.Some? ==>
      b.Sections()[if b.expected.Some? then 1 else 0] == Section("Actual behavior", b.actual.value)
    ensures b.notes.Some? ==>
      b.Sections()[|b.Sections()| - 1] == Section("Additional notes", b.notes.value)
  {
  }

  /** Reading the numbered steps line by line gives back each step with its number, in order. */
  lemma StepsNumberedFromOne(steps: seq<string>)
    requires |steps| >= 1
    requires forall i :: 0 <= i < |steps| ==> '\n' !in steps[i]
    ensures |Split(NumberedSteps(steps), '\n')| == |steps|
    ensures forall i :: 0 <= i < |steps| ==> Split(NumberedSteps(steps), '\n')[i] == StepLine(steps, i)
  {
    var lines := seq(|steps|, i requires 0 <= i < |steps| => StepLine(steps, i));
    forall i | 0 <= i < |lines|
      ensures '\n' !in lines[i]
    {
      var digits := NatToString(i + 1);
      assert AllDigits(digits);
      assert lines[i] == digits + ". " + steps[i];
      assert forall k :: 0 <= k < |digits| ==> digits[k] != '\n';
    }
    SplitJoin(lines, '\n');
  }

  /** Applying `label` once per label. */
  function LabelEach(b: IssueReportBuilder, ls: seq<string>): IssueReportBuilder
    decreases |ls|
  {
    if ls == [] then b else LabelEach(b.Label(ls[0]), ls[1..])
  }

  /** `labels(ls)` is the same as calling `label` for each element of `ls` in turn. */
  lemma {:induction false} LabelsIsRepeatedLabel(b: IssueReportBuilder, ls: seq<string>)
    ensures b.Labels(ls) == LabelEach(b, ls)
    decreases |ls|
  {
    if ls != [] {
      LabelsIsRepeatedLabel(b.Label(ls[0]), ls[1..]);
      assert b.labels + [ls[0]] + ls[1..] == b.labels + ls;
    }
  }
}

=== FILE: lib_verification.dfy ===
/**
 * The library verification harness's bookkeeping: one result per test of
 * an external library, the per-library tally those results are added to,
 * and the harness presets.
 */
module LibVerification {
  import opened Wrappers
  import opened IssueReporter

  datatype TestStatus = Passed | Failed | Warning | Skipped

  /** One verification test's outcome. `issueToReport` is what a failure would file upstream. */
  datatype TestResult = TestResult(
    name: string,
    status: TestStatus,
    message: Option<string>,
    durationMs: nat,
    issueToReport: Option<IssueReport>)
  {
    /** `with_duration`: records the duration and changes nothing else. */
    function WithDuration(ms: nat): (r: TestResult)
      ensures r.durationMs == ms
      ensures r.(durationMs := durationMs) == this
    {
      this.(durationMs := ms)
    }
  }

  /** A result carries an issue only when it failed. */
  predicate IssueOnlyOnFailure(r: TestResult)
  {
    r.issueToReport.Some? ==> r.status == Failed
  }

  /** `TestResult::pass`: passed, with no message and no issue. */
  function Pass(name: string): (r: TestResult)
    ensures r.name == name && r.status == Passed && r.message == None
    ensures r.durationMs == 0 && r.issueToReport == None
  {
    TestResult(name, Passed, None, 0, None)
  }

  /** `TestResult::pass_with_message`: passed, with a message and no issue. */
  function PassWithMessage(name: string, message: string): (r: TestResult)
    ensures r.name == name && r.status == Passed && r.message == Some(message)
    ensures r.durationMs == 0 && r.issueToReport == None
  {
    TestResult(name, Passed, Some(message), 0, None)
  }

  /** `TestResult::fail`: the only constructor that attaches an issue. */
  function Fail(name: string, message: string, issue: IssueReport): (r: TestResult)
    ensures r.name == name && r.status == Failed && r.message == Some(message)
    ensures r.durationMs == 0 && r.issueToReport == Some(issue)
  {
    TestResult(name, Failed, Some(message), 0, Some(issue))
  }

  /** `TestResult::warn`: a warning with its message and no issue. */
  function Warn(name: string, message: string): (r: TestResult)
    ensures r.name == name && r.status == Warning && r.message == Some(message)
    ensures r.durationMs == 0 && r.issueToReport == None
  {
    TestResult(name, Warning, Some(message), 0, None)
  }

  /** `TestResult::skip`: skipped, with the reason as its message and no issue. */
  function Skip(name: string, reason: string): (r: TestResult)
    ensures r.name == name && r.status == Skipped && r.message == Some(reason)
    ensures r.durationMs == 0 && r.issueToReport == None
  {
    TestResult(name, Skipped, Some(reason), 0, None)
  }

  /** Every result the constructors build, with any duration, carries an issue only when it failed. */
  lemma ConstructorsKeepIssuesToFailures(name: string, message: string, issue: IssueReport, ms: nat)
    ensures IssueOnlyOnFailure(Pass(name).WithDuration(ms))
    ensures IssueOnlyOnFailure(PassWithMessage(name, message).WithDuration(ms))
    ensures IssueOnlyOnFailure(Warn(name, message).WithDuration(ms))
    ensures IssueOnlyOnFailure(Skip(name, message).WithDuration(ms))
    ensures Fail(name, message, issue).WithDuration(ms).issueToReport == Some(issue)
  {
  }

  // ---------------------------------------------------------------------------
  // Tallies
  // ---------------------------------------------------------------------------

  /** The counters of a library's verification result. */
  datatype Tally = Tally(run: nat, passed: nat, failed: nat, warned: nat, skipped: nat)

  const NO_TESTS := Tally(0, 0, 0, 0, 0)

  /** Every test run is counted under exactly one status. */
  predicate Balanced(t: Tally)
  {
    t.run == t.passed + t.failed + t.warned + t.skipped
  }

  /** `all_passed`: no failure, and at least one test ran. */
  predicate AllPassed(t: Tally)
  {
    t.failed == 0 && t.run > 0
  }

  /** The counters after one more result with the given status. */
  function Count(t: Tally, status: TestStatus): (r: Tally)
    ensures r.run == t.run + 1
    ensures r.passed + r.failed + r.warned + r.skipped == t.passed + t.failed + t.warned + t.skipped + 1
    ensures (r.passed > t.passed) == (status == Passed) && (r.failed > t.failed) == (status == Failed)
    ensures (r.warned > t.warned) == (status == Warning) && (r.skipped > t.skipped) == (status == Skipped)
  {
    match status
    case Passed => t.(run := t.run + 1, passed := t.passed + 1)
    case Failed => t.(run := t.run + 1, failed := t.failed + 1)
    case Warning => t.(run := t.run + 1, warned := t.warned + 1)
    case Skipped => t.(run := t.run + 1, skipped := t.skipped + 1)
  }

  /** The counters of a fresh result after adding results with these statuses in order. */
  function TallyOf(statuses: seq<TestStatus>): Tally
    decreases |statuses|
  {
    if statuses == [] then NO_TESTS
    else Count(TallyOf(statuses[..|statuses| - 1]), statuses[|statuses| - 1])
  }

  /** How many of the statuses are `status`. */
  function Occurrences(statuses: seq<TestStatus>, status: TestStatus): nat
    decreases |statuses|
  {
    if statuses == [] then 0
    else
      var last := if statuses[|statuses| - 1] == status then 1 else 0;
      Occurrences(statuses[..|statuses| - 1], status) + last
  }

  /** After any sequence of results, each counter counts its status and the total counts them all. */
  lemma {:induction false} TallyOfCounts(statuses: seq<TestStatus>)
    ensures var t := TallyOf(statuses);
      && t.run == |statuses| && Balanced(t)
      && t.passed == Occurrences(statuses, Passed) && t.failed == Occurrences(statuses, Failed)
      && t.warned == Occurrences(statuses, Warning) && t.skipped == Occurrences(statuses, Skipped)
    decreases |statuses|
  {
    if statuses != [] {
      TallyOfCounts(statuses[..|statuses| - 1]);
    }
  }

  lemma {:induction false} OccurrencesZero(statuses: seq<TestStatus>, status: TestStatus)
    ensures Occurrences(statuses, status) == 0 <==> status !in statuses
    decreases |statuses|
  {
    if statuses != [] {
      var init := statuses[..|statuses| - 1];
      OccurrencesZero(init, status);
      assert statuses == init + [statuses[|statuses| - 1]];
    }
  }

  /** `all_passed` holds after a sequence of results exactly when there was one and none failed. */
  lemma AllPassedMeaning(statuses: seq<TestStatus>)
    ensures AllPassed(TallyOf(statuses)) <==> statuses != [] && Failed !in statuses
  {
    TallyOfCounts(statuses);
    OccurrencesZero(statuses, Failed);
  }

  /** What `add_result` queues for one result: its issue, if it failed and carries one. */
  function Queued(r: TestResult): (q: seq<IssueReport>)
    ensures |q| <= 1
    ensures q != [] <==> r.status == Failed && r.issueToReport.Some?
    ensures q != [] ==> q == [r.issueToReport.value]
  {
    if r.status == Failed && r.issueToReport.Some? then [r.issueToReport.value] else []
  }

  /** The issues queued by adding these results in order. */
  function QueuedAll(results: seq<TestResult>): seq<IssueReport>
    decreases |results|
  {
    if results == [] then [] else QueuedAll(results[..|results| - 1]) + Queued(results[|results| - 1])
  }

  function StatusesOf(results: seq<TestResult>): (s: seq<TestStatus>)
    ensures |s| == |results| && forall i :: 0 <= i < |results| ==> s[i] == results[i].status
  {
    seq(|results|, i requires 0 <= i < |results| => results[i].status)
  }

  /** No more issues are queued than tests failed. */
  lemma {:induction false} QueuedAtMostFailed(results: seq<TestResult>)
    ensures |QueuedAll(results)| <= TallyOf(StatusesOf(results)).failed
    decreases |results|
  {
    if results != [] {
      var init := results[..|results| - 1];
      QueuedAtMostFailed(init);
      assert StatusesOf(results)[..|results| - 1] == StatusesOf(init);
    }
  }

  // ---------------------------------------------------------------------------
  // A library's result
  // ---------------------------------------------------------------------------

  class LibraryVerificationResult {
    const library: string
    const version: string
    var testsRun: nat
    var testsPassed: nat
    var testsFailed: nat
    var testsWarned: nat
    var testsSkipped: nat
    var issuesToReport: seq<IssueReport>
    /** The wall clock when the result was created. */
    var verifiedAtMs: nat
    var durationMs: nat

    /** The counters as one value. */
    function Counts(): Tally
      reads this
    {
      Tally(testsRun, testsPassed, testsFailed, testsWarned, testsSkipped)
    }

    ghost predicate Valid()
      reads this
    {
      Balanced(Counts())
    }

    /** `LibraryVerificationResult::new`, at wall-clock time `now`. */
    constructor(library: string, version: string, now: nat)
      ensures this.library == library && this.version == version
      ensures Counts() == NO_TESTS && issuesToReport == []
      ensures verifiedAtMs == now && durationMs == 0
      ensures Valid()
    {
      this.library := library;
      this.version := version;
      testsRun, testsPassed, testsFailed, testsWarned, testsSkipped := 0, 0, 0, 0, 0;
      issuesToReport := [];
      verifiedAtMs := now;
      durationMs := 0;
    }

    /** `pass_rate`: the percentage of tests that passed, 0 when none ran. */
    function PassRate(): (r: real)
      reads this
      ensures testsRun == 0 ==> r == 0.0
      ensures testsRun > 0 ==> r * testsRun as real == testsPassed as real * 100.0
      ensures Valid() ==> 0.0 <= r <= 100.0
    {
      if testsRun == 0 then 0.0 else Percent(testsPassed, testsRun)
    }

    /**
     * `add_result`: counts the result under its status and queues its issue
     * when it failed and carries one.
     */
    method AddResult(result: TestResult)
      modifies this
      ensures Counts() == Count(old(Counts()), result.status)
      ensures issuesToReport == old(issuesToReport) + Queued(result)
      ensures verifiedAtMs == old(verifiedAtMs) && durationMs == old(durationMs)
      ensures old(Valid()) ==> Valid()
    {
      testsRun := testsRun + 1;
      match result.status {
        case Passed => testsPassed := testsPassed + 1;
        case Failed =>
          testsFailed := testsFailed + 1;
          if result.issueToReport.Some? {
            issuesToReport := issuesToReport + [result.issueToReport.value];
          }
        case Warning => testsWarned := testsWarned + 1;
        case Skipped => testsSkipped := testsSkipped + 1;
      }
    }
  }

  /** `part / whole * 100` for a non-empty whole. */
  function Percent(part: nat, whole: nat): (r: real)
    requires whole > 0
    ensures r * whole as real == part as real * 100.0
    ensures part <= whole ==> 0.0 <= r <= 100.0
  {
    var q := part as real / whole as real;
    assert q * whole as real == part as real;
    assert part <= whole ==> q <= 1.0;
    q * 100.0
  }

  /** Adding results one by one to a fresh result gives the tally and the issue queue of the whole sequence. */
  lemma AddedInOrder(results: seq<TestResult>, r: TestResult)
    ensures TallyOf(StatusesOf(results + [r])) == Count(TallyOf(StatusesOf(results)), r.status)
    ensures QueuedAll(results + [r]) == QueuedAll(results) + Queued(r)
  {
    assert (results + [r])[..|results|] == results;
    assert StatusesOf(results + [r])[..|results|] == StatusesOf(results);
  }

  // ---------------------------------------------------------------------------
  // Presets
  // ---------------------------------------------------------------------------

  datatype VerificationConfig = VerificationConfig(
    testSaorsaGossip: bool,
    testAntQuic: bool,
    autoCreateIssues: bool,
    testTimeoutMs: nat,
    clusterSize: nat,
    includeStressTests: bool)

  const DEFAULT_VERIFICATION_CONFIG := VerificationConfig(true, true, false, 30_000, 5, false)

  /** The CI preset: faster and less thorough. */
  const CI_VERIFICATION_CONFIG := VerificationConfig(true, true, false, 10_000, 3, false)

  /** The production preset: thorough, and files issues on its own. */
  const PRODUCTION_VERIFICATION_CONFIG := VerificationConfig(true, true, true, 60_000, 10, true)

  /** The presets test both libraries; CI is shorter and smaller than the default, production longer and larger. */
  lemma PresetsCompared()
    ensures CI_VERIFICATION_CONFIG.clusterSize == 3 && !CI_VERIFICATION_CONFIG.includeStressTests
    ensures PRODUCTION_VERIFICATION_CONFIG.autoCreateIssues && PRODUCTION_VERIFICATION_CONFIG.includeStressTests
    ensures CI_VERIFICATION_CONFIG.testTimeoutMs < DEFAULT_VERIFICATION_CONFIG.testTimeoutMs
      < PRODUCTION_VERIFICATION_CONFIG.testTimeoutMs
    ensures CI_VERIFICATION_CONFIG.clusterSize < DEFAULT_VERIFICATION_CONFIG.clusterSize
      < PRODUCTION_VERIFICATION_CONFIG.clusterSize
  {
  }
}

=== FILE: logging.dfy ===
/**
 * The log aggregator's text formats: turning a Prometheus exposition page
 * into one log entry per sample line, and writing entries out as CSV.
 *
 * The clock reading shared by all entries of one page, the `f64` parser and
 * the RFC 3339 rendering of a timestamp are parameters.
 */
module Logging {
  import opened Wrappers
  import opened Text

  /** A JSON field value: the parser only produces strings and numbers. */
  datatype FieldValue = Str(s: string) | Number(n: real)

  /** What `str::parse::<f64>` accepted: a finite number, or NaN or an infinity. */
  datatype F64 = Finite(x: real) | NonFinite

  type Fields = map<string, FieldValue>

  /** `LogEntry`. */
  datatype LogEntry = LogEntry(
    timestamp: nat,
    level: string,
    message: string,
    nodeId: Option<string>,
    component: Option<string>,
    fields: Fields)

  const METRIC_KEY := "metric"
  const VALUE_KEY := "value"
  const LABEL_PREFIX := "label_"
  const MESSAGE_PREFIX := "Metric: "

  // ---------------------------------------------------------------------------
  // Lines and characters
  // ---------------------------------------------------------------------------

  /** Drop one trailing carriage return. */
  function StripCr(s: string): (r: string)
    ensures r <= s && |s| - 1 <= |r|
  {
    if |s| > 0 && s[|s| - 1] == '\r' then s[..|s| - 1] else s
  }

  /**
   * `str::lines`: the pieces between line feeds, a `\r` before a line feed
   * dropped, and no empty last piece after a final line feed.
   */
  function Lines(text: string): (lines: seq<string>)
    ensures forall i :: 0 <= i < |lines| ==> '\n' !in lines[i]
    ensures text == "" ==> lines == []
  {
    var pieces := Split(text, '\n');
    var last := pieces[|pieces| - 1];
    var init := seq(|pieces| - 1, i requires 0 <= i < |pieces| - 1 => StripCr(pieces[i]));
    assert forall i :: 0 <= i < |init| ==> init[i] <= pieces[i];
    if last == "" then init else init + [last]
  }

  /** `str::trim_start_matches(c)`. */
  function TrimStartMatches(s: string, c: char): (r: string)
    ensures |r| <= |s| && r == s[|s| - |r|..]
    ensures r == [] || r[0] != c
    ensures forall i :: 0 <= i < |s| - |r| ==> s[i] == c
    decreases |s|
  {
    if |s| > 0 && s[0] == c then TrimStartMatches(s[1..], c) else s
  }

  /** `str::trim_end_matches(c)`. */
  function TrimEndMatches(s: string, c: char): (r: string)
    ensures |r| <= |s| && r == s[..|r|]
    ensures r == [] || r[|r| - 1] != c
    ensures forall i :: |r| <= i < |s| ==> s[i] == c
    decreases |s|
  {
    if |s| > 0 && s[|s| - 1] == c then TrimEndMatches(s[..|s| - 1], c) else s
  }

  /** `str::trim_matches(c)`: drop every leading and trailing `c`. */
  function TrimMatches(s: string, c: char): (r: string)
    ensures |r| <= |s|
    ensures r == [] || (r[0] != c && r[|r| - 1] != c)
    ensures (s == [] || (s[0] != c && s[|s| - 1] != c)) ==> r == s
  {
    var front := TrimStartMatches(s, c);
    assert |front| > 0 ==> front[0] == s[|s| - |front|];
    TrimEndMatches(front, c)
  }

  /** A quoted label value loses exactly its quotes. */
  lemma TrimQuoted(v: string)
    requires v == [] || (v[0] != '"' && v[|v| - 1] != '"')
    ensures TrimMatches("\"" + v + "\"", '"') == v
  {
    var s := "\"" + v + "\"";
    assert s[1..] == v + "\"";
    if v == [] {
      assert TrimStartMatches(s[1..], '"') == "";
    } else {
      assert TrimStartMatches(s[1..], '"') == v + "\"";
      assert (v + "\"")[..|v|] == v;
    }
  }

  // ---------------------------------------------------------------------------
  // One sample line
  // ---------------------------------------------------------------------------

  /** A comment line: its first character is `#`. */
  predicate IsComment(line: string)
  {
    |line| > 0 && line[0] == '#'
  }

  /** A line that yields an entry: no comment, not blank, and holding a space. */
  predicate IsSample(line: string)
  {
    !IsComment(line) && !AllSpace(line) && ' ' in line
  }

  /** The field name of a label: `label_` and the trimmed key. */
  function LabelKey(key: string): (k: string)
    ensures LABEL_PREFIX <= k && k[|LABEL_PREFIX|..] == Trim(key)
  {
    LABEL_PREFIX + Trim(key)
  }

  /** Insert the field of one `key=value` pair; a pair without `=` adds nothing. */
  function LabelStep(fields: Fields, pair: string): Fields
  {
    match SplitOnce(pair, '=')
    case None => fields
    case Some((key, val)) => fields[LabelKey(key) := Str(TrimMatches(val, '"'))]
  }

  /** Insert the fields of `pairs` in order. */
  function LabelsInto(fields: Fields, pairs: seq<string>): Fields
    decreases |pairs|
  {
    if |pairs| == 0 then fields
    else LabelStep(LabelsInto(fields, pairs[..|pairs| - 1]), pairs[|pairs| - 1])
  }

  /** `strip_suffix('}')` then `split(',')`: the label pairs, when the braces close. */
  function LabelPairs(labelsText: string): (pairs: Option<seq<string>>)
    ensures pairs.Some? <==> |labelsText| > 0 && labelsText[|labelsText| - 1] == '}'
  {
    if |labelsText| > 0 && labelsText[|labelsText| - 1] == '}' then
      Some(Split(labelsText[..|labelsText| - 1], ','))
    else None
  }

  /** The fields the metric token contributes: its name and its labels. */
  function NameFields(token: string): Fields
  {
    match SplitOnce(token, '{')
    case None => map[METRIC_KEY := Str(token)]
    case Some((name, labelsText)) =>
      var base := map[METRIC_KEY := Str(name)];
      match LabelPairs(labelsText)
      case None => base
      case Some(pairs) => LabelsInto(base, pairs)
  }

  /** `serde_json::Number::from_f64(x)`, or 0 for NaN and the infinities. */
  function NumberOf(x: F64): real
  {
    if x.Finite? then x.x else 0.0
  }

  /** Insert the `value` field when the trimmed value text parses. */
  function ValueInto(fields: Fields, value: string, parseF64: string -> Option<F64>): Fields
  {
    match parseF64(Trim(value))
    case None => fields
    case Some(x) => fields[VALUE_KEY := Number(NumberOf(x))]
  }

  /** The entry of one line of the page, if it is a sample line. */
  function EntryOf(line: string, now: nat, parseF64: string -> Option<F64>): (r: Option<LogEntry>)
    ensures r.Some? <==> IsSample(line)
    ensures r.Some? ==> (r.value.timestamp == now && r.value.level == "INFO"
      && r.value.nodeId.None? && r.value.component == Some("metrics"))
    ensures r.Some? ==> (MESSAGE_PREFIX <= r.value.message
      && ' ' !in r.value.message[|MESSAGE_PREFIX|..]
      && r.value.message[|MESSAGE_PREFIX|..] + " " <= line)
  {
    TrimEmpty(line);
    if IsComment(line) || Trim(line) == "" then None
    else match SplitOnce(line, ' ')
      case None => None
      case Some((token, value)) =>
        assert line[..|token| + 1] == token + " ";
        Some(LogEntry(now, "INFO", MESSAGE_PREFIX + token, None, Some("metrics"),
                      ValueInto(NameFields(token), value, parseF64)))
  }

  // ---------------------------------------------------------------------------
  // Fields of an entry
  // ---------------------------------------------------------------------------

  /** The fixed field names are distinct and none has the label prefix. */
  lemma ReservedKeys()
    ensures !(LABEL_PREFIX <= METRIC_KEY) && !(LABEL_PREFIX <= VALUE_KEY) && METRIC_KEY != VALUE_KEY
  {
    assert METRIC_KEY[0] != LABEL_PREFIX[0] && VALUE_KEY[0] != LABEL_PREFIX[0] && METRIC_KEY[0] != VALUE_KEY[0];
  }

  /** Label insertion adds only keys with the label prefix. */
  lemma {:induction false} LabelsIntoKeys(fields: Fields, pairs: seq<string>)
    ensures forall k :: k in LabelsInto(fields, pairs) ==> k in fields || LABEL_PREFIX <= k
    decreases |pairs|
  {
    if |pairs| > 0 {
      LabelsIntoKeys(fields, pairs[..|pairs| - 1]);
    }
  }

  /** Label insertion leaves a key without the label prefix as it was. */
  lemma {:induction false} LabelsIntoKeeps(fields: Fields, pairs: seq<string>, k: string)
    requires !(LABEL_PREFIX <= k)
    ensures k in LabelsInto(fields, pairs) <==> k in fields
    ensures k in fields ==> LabelsInto(fields, pairs)[k] == fields[k]
    decreases |pairs|
  {
    if |pairs| > 0 {
      LabelsIntoKeeps(fields, pairs[..|pairs| - 1], k);
    }
  }

  /** The label key of `pair`, when it has an `=`. */
  predicate HasLabel(pair: string, key: string)
  {
    SplitOnce(pair, '=').Some? && LabelKey(SplitOnce(pair, '=').value.0) == key
  }

  /**
   * The last pair naming a label decides its value: the value text with its
   * surrounding quotes trimmed.
   */
  lemma {:induction false} LabelLastWins(fields: Fields, pairs: seq<string>, i: nat, key: string)
    requires i < |pairs| && HasLabel(pairs[i], key)
    requires forall j :: i < j < |pairs| ==> !HasLabel(pairs[j], key)
    ensures key in LabelsInto(fields, pairs)
    ensures LabelsInto(fields, pairs)[key] == Str(TrimMatches(SplitOnce(pairs[i], '=').value.1, '"'))
    decreases |pairs|
  {
    if i < |pairs| - 1 {
      var init := pairs[..|pairs| - 1];
      assert init[i] == pairs[i];
      forall j | i < j < |init| ensures !HasLabel(init[j], key) {
        assert init[j] == pairs[j];
      }
      LabelLastWins(fields, init, i, key);
      LabelStepOther(LabelsInto(fields, init), pairs[|pairs| - 1], key);
    }
  }

  /** A pair that does not name `key` leaves its field as it was. */
  lemma LabelStepOther(fields: Fields, pair: string, key: string)
    requires !HasLabel(pair, key)
    ensures key in LabelStep(fields, pair) <==> key in fields
    ensures key in fields ==> LabelStep(fields, pair)[key] == fields[key]
  {
    match SplitOnce(pair, '=')
    case None =>
    case Some((k, val)) => UpdateOther(fields, LabelKey(k), Str(TrimMatches(val, '"')), key);
  }

  /** Updating one key of a map leaves every other key as it was. */
  lemma UpdateOther<K, V>(m: map<K, V>, k: K, v: V, key: K)
    requires k != key
    ensures key in m[k := v] <==> key in m
    ensures key in m ==> m[k := v][key] == m[key]
  {
  }

  /** A label field not already present comes from some pair naming it. */
  lemma {:induction false} LabelOrigin(fields: Fields, pairs: seq<string>, key: string)
    requires key in LabelsInto(fields, pairs) && key !in fields
    ensures exists i :: 0 <= i < |pairs| && HasLabel(pairs[i], key)
    decreases |pairs|
  {
    var init := pairs[..|pairs| - 1];
    if HasLabel(pairs[|pairs| - 1], key) {
    } else {
      LabelOrigin(fields, init, key);
      var i :| 0 <= i < |init| && HasLabel(init[i], key);
      assert pairs[i] == init[i];
    }
  }

  /**
   * The `metric` field is the token up to its first `{`, or all of it: the
   * longest prefix free of `{`.
   */
  lemma MetricIsName(token: string)
    ensures METRIC_KEY in NameFields(token) && NameFields(token)[METRIC_KEY].Str?
    ensures var name := NameFields(token)[METRIC_KEY].s;
      name <= token && '{' !in name && (|name| < |token| ==> token[|name|] == '{')
  {
    match SplitOnce(token, '{')
    case None =>
    case Some((name, labelsText)) =>
      var base := map[METRIC_KEY := Str(name)];
      if LabelPairs(labelsText).Some? {
        ReservedKeys();
        LabelsIntoKeeps(base, LabelPairs(labelsText).value, METRIC_KEY);
      }
      assert token[..|name| + 1] == name + "{";
  }

  /**
   * Label fields exist only when the token has a `{` and the text after it
   * ends in `}`.
   */
  lemma LabelsNeedBraces(token: string)
    requires SplitOnce(token, '{').None? || LabelPairs(SplitOnce(token, '{').value.1).None?
    ensures forall k :: k in NameFields(token) ==> k == METRIC_KEY
  {
  }

  /**
   * When the braces close, every pair with an `=` gives a field named after
   * its trimmed key, and every label field comes from such a pair.
   */
  lemma LabelsFromPairs(token: string, name: string, labelsText: string, key: string)
    requires SplitOnce(token, '{') == Some((name, labelsText)) && LabelPairs(labelsText).Some?
    ensures var pairs := LabelPairs(labelsText).value;
      key != METRIC_KEY ==>
      (key in NameFields(token) <==> exists i :: 0 <= i < |pairs| && HasLabel(pairs[i], key))
  {
    var pairs := LabelPairs(labelsText).value;
    var base := map[METRIC_KEY := Str(name)];
    if key != METRIC_KEY {
      if key in NameFields(token) {
        LabelOrigin(base, pairs, key);
      }
      if i :| 0 <= i < |pairs| && HasLabel(pairs[i], key) {
        var last := LastLabel(pairs, i, key);
        LabelLastWins(base, pairs, last, key);
      }
    }
  }

  /** The last index at or after `i` whose pair names `key`. */
  lemma {:induction false} LastLabel(pairs: seq<string>, i: nat, key: string) returns (last: nat)
    requires i < |pairs| && HasLabel(pairs[i], key)
    ensures i <= last < |pairs| && HasLabel(pairs[last], key)
    ensures forall j :: last < j < |pairs| ==> !HasLabel(pairs[j], key)
    decreases |pairs| - i
  {
    if j :| i < j < |pairs| && HasLabel(pairs[j], key) {
      last := LastLabel(pairs, j, key);
    } else {
      last := i;
    }
  }

  /**
   * The fields of a sample line: `metric` always, `value` exactly when the
   * value text parses (0 for NaN and the infinities), and otherwise only
   * label fields.
   */
  lemma EntryFields(line: string, token: string, value: string, now: nat, parseF64: string -> Option<F64>)
    requires IsSample(line) && SplitOnce(line, ' ') == Some((token, value))
    ensures var fields := EntryOf(line, now, parseF64).value.fields;
      && METRIC_KEY in fields
      && (VALUE_KEY in fields <==> parseF64(Trim(value)).Some?)
      && (VALUE_KEY in fields ==> fields[VALUE_KEY] == Number(NumberOf(parseF64(Trim(value)).value)))
      && (forall k :: k in fields ==> k == METRIC_KEY || k == VALUE_KEY || LABEL_PREFIX <= k)
  {
    TrimEmpty(line);
    var named := NameFields(token);
    assert EntryOf(line, now, parseF64).value.fields == ValueInto(named, value, parseF64);
    NameFieldsKeys(token);
    ReservedKeys();
    ValueIntoKeys(named, value, parseF64);
  }

  /** The value step adds the `value` field when the text parses, and nothing else. */
  lemma ValueIntoKeys(fields: Fields, value: string, parseF64: string -> Option<F64>)
    requires VALUE_KEY !in fields
    ensures var r := ValueInto(fields, value, parseF64);
      && (VALUE_KEY in r <==> parseF64(Trim(value)).Some?)
      && (VALUE_KEY in r ==> r[VALUE_KEY] == Number(NumberOf(parseF64(Trim(value)).value)))
      && (forall k :: k != VALUE_KEY ==> (k in r <==> k in fields))
  {
  }

  /** The token's fields: `metric`, then label fields only. */
  lemma NameFieldsKeys(token: string)
    ensures METRIC_KEY in NameFields(token)
    ensures forall k :: k in NameFields(token) ==> k == METRIC_KEY || LABEL_PREFIX <= k
  {
    match SplitOnce(token, '{')
    case None =>
    case Some((name, labelsText)) =>
      var base := map[METRIC_KEY := Str(name)];
      if LabelPairs(labelsText).Some? {
        LabelsIntoKeys(base, LabelPairs(labelsText).value);
        ReservedKeys();
        LabelsIntoKeeps(base, LabelPairs(labelsText).value, METRIC_KEY);
      }
  }

  // ---------------------------------------------------------------------------
  // A page
  // ---------------------------------------------------------------------------

  /** The entries of `lines`, one per sample line, in order. */
  function Entries(lines: seq<string>, now: nat, parseF64: string -> Option<F64>): seq<LogEntry>
    decreases |lines|
  {
    if |lines| == 0 then []
    else
      var init := Entries(lines[..|lines| - 1], now, parseF64);
      match EntryOf(lines[|lines| - 1], now, parseF64)
      case None => init
      case Some(e) => init + [e]
  }

  /** What `parse_prometheus_metrics` returns for `text` read at `now`. */
  function PrometheusEntries(text: string, now: nat, parseF64: string -> Option<F64>): seq<LogEntry>
  {
    Entries(Lines(text), now, parseF64)
  }

  /** The number of sample lines. */
  function CountSamples(lines: seq<string>): nat
    decreases |lines|
  {
    if |lines| == 0 then 0
    else CountSamples(lines[..|lines| - 1]) + if IsSample(lines[|lines| - 1]) then 1 else 0
  }

  /** One entry per sample line: comments, blank lines and lines without a space give none. */
  lemma {:induction false} EntriesCount(lines: seq<string>, now: nat, parseF64: string -> Option<F64>)
    ensures |Entries(lines, now, parseF64)| == CountSamples(lines)
    decreases |lines|
  {
    if |lines| > 0 {
      EntriesCount(lines[..|lines| - 1], now, parseF64);
    }
  }

  /** All entries of a page share one timestamp, the level, the component and no node id. */
  lemma {:induction false} EntriesShareHeader(lines: seq<string>, now: nat, parseF64: string -> Option<F64>)
    ensures forall e :: e in Entries(lines, now, parseF64) ==>
      e.timestamp == now && e.level == "INFO" && e.nodeId.None? && e.component == Some("metrics")
    decreases |lines|
  {
    if |lines| > 0 {
      EntriesShareHeader(lines[..|lines| - 1], now, parseF64);
    }
  }

  /** The entries of two runs of lines are the entries of each, in order. */
  lemma {:induction false} EntriesAppend(a: seq<string>, b: seq<string>, now: nat, parseF64: string -> Option<F64>)
    ensures Entries(a + b, now, parseF64) == Entries(a, now, parseF64) + Entries(b, now, parseF64)
    decreases |b|
  {
    if |b| == 0 {
      assert a + b == a;
    } else {
      var init := b[..|b| - 1];
      assert (a + b)[..|a + b| - 1] == a + init;
      assert (a + b)[|a + b| - 1] == b[|b| - 1];
      EntriesAppend(a, init, now, parseF64);
    }
  }

  /**
   * `LogAggregator::parse_prometheus_metrics`: one entry per sample line,
   * the fields map filled from the token's name and labels and the value.
   */
  method ParsePrometheusMetrics(text: string, now: nat, parseF64: string -> Option<F64>)
    returns (entries: seq<LogEntry>)
    ensures entries == PrometheusEntries(text, now, parseF64)
  {
    var lines := Lines(text);
    entries := [];
    var i := 0;
    while i < |lines|
      invariant i <= |lines|
      invariant entries == Entries(lines[..i], now, parseF64)
    {
      var line := lines[i];
      EntriesSnoc(lines, i, now, parseF64);
      if !IsComment(line) && Trim(line) != "" {
        var split := SplitOnce(line, ' ');
        if split.Some? {
          var token := split.value.0;
          var fields := MetricFields(token);
          var parsed := parseF64(Trim(split.value.1));
          if parsed.Some? {
            fields := fields[VALUE_KEY := Number(NumberOf(parsed.value))];
          }
          entries := entries + [LogEntry(now, "INFO", MESSAGE_PREFIX + token, None, Some("metrics"), fields)];
        }
      }
      i := i + 1;
    }
    assert lines[..i] == lines;
  }

  lemma EntriesSnoc(lines: seq<string>, i: nat, now: nat, parseF64: string -> Option<F64>)
    requires i < |lines|
    ensures Entries(lines[..i + 1], now, parseF64) ==
      Entries(lines[..i], now, parseF64) + match EntryOf(lines[i], now, parseF64) case None => [] case Some(e) => [e]
  {
    assert lines[..i + 1][..i] == lines[..i];
  }

  /** The name and label part of the line loop: the fields map before the value. */
  method MetricFields(token: string) returns (fields: Fields)
    ensures fields == NameFields(token)
  {
    var brace := SplitOnce(token, '{');
    if brace.Some? {
      var name := brace.value.0;
      var labelsText := brace.value.1;
      fields := map[METRIC_KEY := Str(name)];
      if |labelsText| > 0 && labelsText[|labelsText| - 1] == '}' {
        fields := InsertLabels(fields, Split(labelsText[..|labelsText| - 1], ','));
      }
    } else {
      fields := map[METRIC_KEY := Str(token)];
    }
  }

  /** The label loop: insert a field for every pair that has an `=`. */
  method InsertLabels(base: Fields, pairs: seq<string>) returns (fields: Fields)
    ensures fields == LabelsInto(base, pairs)
  {
    fields := base;
    var j := 0;
    while j < |pairs|
      invariant j <= |pairs|
      invariant fields == LabelsInto(base, pairs[..j])
    {
      LabelsIntoSnoc(base, pairs, j);
      var kv := SplitOnce(pairs[j], '=');
      if kv.Some? {
        fields := fields[LabelKey(kv.value.0) := Str(TrimMatches(kv.value.1, '"'))];
      }
      j := j + 1;
    }
    assert pairs[..j] == pairs;
  }

  lemma LabelsIntoSnoc(base: Fields, pairs: seq<string>, j: nat)
    requires j < |pairs|
    ensures LabelsInto(base, pairs[..j + 1]) == LabelStep(LabelsInto(base, pairs[..j]), pairs[j])
  {
    assert pairs[..j + 1][..j] == pairs[..j];
  }

  // ---------------------------------------------------------------------------
  // CSV export
  // ---------------------------------------------------------------------------

  const CSV_HEADER := "timestamp,level,node_id,component,message"

  /** `str::replace('"', "\"\"")`: double every quote. */
  function Escape(m: string): (r: string)
    ensures |r| >= |m|
    ensures '"' !in m ==> r == m
    decreases |m|
  {
    if |m| == 0 then ""
    else (if m[0] == '"' then "\"\"" else [m[0]]) + Escape(m[1..])
  }

  /**
   * A reader of a quoted CSV field, started after the opening quote: a
   * doubled quote stands for one quote and a single quote closes the field.
   * The result is the field's text and what follows the closing quote.
   */
  function ReadQuoted(s: string): Option<(string, string)>
    decreases |s|
  {
    if |s| == 0 then None
    else if s[0] == '"' then
      if |s| > 1 && s[1] == '"' then
        match ReadQuoted(s[2..])
        case None => None
        case Some((text, rest)) => Some(("\"" + text, rest))
      else Some(("", s[1..]))
    else
      match ReadQuoted(s[1..])
      case None => None
      case Some((text, rest)) => Some(([s[0]] + text, rest))
  }

  /** An escaped message and its closing quote read back as the message. */
  lemma {:induction false} EscapeRoundTrip(m: string, rest: string)
    requires rest == [] || rest[0] != '"'
    ensures ReadQuoted(Escape(m) + "\"" + rest) == Some((m, rest))
    decreases |m|
  {
    if |m| == 0 {
      var s := "\"" + rest;
      assert Escape(m) + "\"" + rest == s;
      assert s[1..] == rest;
    } else {
      EscapeRoundTrip(m[1..], rest);
      var tail := Escape(m[1..]) + "\"" + rest;
      var head := if m[0] == '"' then "\"\"" else [m[0]];
      assert Escape(m) == head + Escape(m[1..]);
      assert Escape(m) + "\"" + rest == head + tail;
      assert [m[0]] + m[1..] == m;
      if m[0] == '"' {
        ReadDoubledQuote(tail, m[1..], rest);
      } else {
        ReadPlainChar(m[0], tail, m[1..], rest);
      }
    }
  }

  /** A doubled quote reads as one quote of the field. */
  lemma ReadDoubledQuote(tail: string, text: string, rest: string)
    requires ReadQuoted(tail) == Some((text, rest))
    ensures ReadQuoted("\"\"" + tail) == Some(("\"" + text, rest))
  {
    assert ("\"\"" + tail)[2..] == tail;
  }

  /** Any other character reads as itself. */
  lemma ReadPlainChar(c: char, tail: string, text: string, rest: string)
    requires c != '"' && ReadQuoted(tail) == Some((text, rest))
    ensures ReadQuoted([c] + tail) == Some(([c] + text, rest))
  {
    assert ([c] + tail)[1..] == tail;
  }

  /** The first four columns of a row: timestamp, level, node id and component. */
  function RowHead(e: LogEntry, render: nat -> string): string
  {
    render(e.timestamp) + "," + e.level + "," + e.nodeId.UnwrapOr("") + "," + e.component.UnwrapOr("")
  }

  /** One line of the export: the four columns, then the message quoted. */
  function CsvRow(e: LogEntry, render: nat -> string): string
  {
    RowHead(e, render) + ",\"" + Escape(e.message) + "\"\n"
  }

  /** The rows of `entries`, in order. */
  function CsvRows(entries: seq<LogEntry>, render: nat -> string): string
    decreases |entries|
  {
    if |entries| == 0 then ""
    else CsvRows(entries[..|entries| - 1], render) + CsvRow(entries[|entries| - 1], render)
  }

  /** The exported file: the header line, then one row per entry. */
  function CsvText(entries: seq<LogEntry>, render: nat -> string): string
  {
    CSV_HEADER + "\n" + CsvRows(entries, render)
  }

  /**
   * The message column of a row reads back as the entry's message, whatever
   * quotes it holds, and the line feed follows the closing quote.
   */
  lemma RowMessage(e: LogEntry, render: nat -> string)
    ensures var head := RowHead(e, render);
      var row := CsvRow(e, render);
      row[..|head| + 2] == head + ",\"" && ReadQuoted(row[|head| + 2..]) == Some((e.message, "\n"))
  {
    var head := RowHead(e, render);
    var row := CsvRow(e, render);
    assert row[|head| + 2..] == Escape(e.message) + "\"" + "\n";
    EscapeRoundTrip(e.message, "\n");
  }

  /**
   * When no column holds a comma, the head of a row splits back into the
   * timestamp, the level and the node id and component or empty text.
   */
  lemma RowColumns(e: LogEntry, render: nat -> string)
    requires ',' !in render(e.timestamp) && ',' !in e.level
    requires ',' !in e.nodeId.UnwrapOr("") && ',' !in e.component.UnwrapOr("")
    ensures Split(RowHead(e, render), ',') ==
      [render(e.timestamp), e.level, e.nodeId.UnwrapOr(""), e.component.UnwrapOr("")]
  {
    var cols := [render(e.timestamp), e.level, e.nodeId.UnwrapOr(""), e.component.UnwrapOr("")];
    assert Join(cols[3..], ",") == cols[3];
    assert cols[2..][1..] == cols[3..];
    assert Join(cols[2..], ",") == cols[2] + "," + cols[3];
    assert cols[1..][1..] == cols[2..];
    assert Join(cols[1..], ",") == cols[1] + "," + Join(cols[2..], ",");
    assert Join(cols, ",") == RowHead(e, render);
    SplitJoin(cols, ',');
  }

  /** `LogAggregator::export_csv`: the file's text, header first, one row per entry. */
  method ExportCsv(entries: seq<LogEntry>, render: nat -> string) returns (contents: string)
    ensures contents == CsvText(entries, render)
  {
    contents := CSV_HEADER + "\n";
    var i := 0;
    while i < |entries|
      invariant i <= |entries|
      invariant contents == CSV_HEADER + "\n" + CsvRows(entries[..i], render)
    {
      var e := entries[i];
      assert entries[..i + 1][..i] == entries[..i];
      assert CsvRows(entries[..i + 1], render) == CsvRows(entries[..i], render) + CsvRow(e, render);
      var row := RowHead(e, render) + ",\"" + Escape(e.message) + "\"\n";
      assert row == CsvRow(e, render);
      contents := contents + row;
      i := i + 1;
    }
    assert entries[..i] == entries;
  }
}

=== FILE: mapsum.dfy ===
/**
 * Sums over the values of a map. The modelled code totals per-node counters
 * by iterating a `HashMap`, whose order is unspecified; the sum below does
 * not depend on any order, and `SumOfRemove` is what lets a loop that visits
 * the keys one at a time be proved equal to it.
 */
module MapSums {
  /** The sum of `f` over every value stored in `m`. */
  ghost function SumOf<K, V>(m: map<K, V>, f: V -> nat): nat
    decreases |m|
  {
    if |m| == 0 then 0
    else
      var k := Pick(m.Keys);
      f(m[k]) + SumOf(m - {k}, f)
  }

  /** Some element of a non-empty set. */
  ghost function Pick<K>(s: set<K>): (k: K)
    requires s != {}
    ensures k in s
  {
    var k :| k in s; k
  }

  lemma RemoveSize<K, V>(m: map<K, V>, k: K)
    requires k in m
    ensures |m - {k}| == |m| - 1
  {
    assert (m - {k}).Keys == m.Keys - {k};
  }

  /** Any stored value can be taken out of the sum first. */
  lemma {:induction false} SumOfRemove<K, V>(m: map<K, V>, f: V -> nat, k: K)
    requires k in m
    ensures SumOf(m, f) == f(m[k]) + SumOf(m - {k}, f)
    decreases |m|
  {
    RemoveSize(m, k);
    var j := Pick(m.Keys);
    assert SumOf(m, f) == f(m[j]) + SumOf(m - {j}, f);
    if j != k {
      var mj, mk := m - {j}, m - {k};
      RemoveSize(m, j);
      RemoveSize(m, k);
      assert k in mj && mj[k] == m[k];
      assert j in mk && mk[j] == m[j];
      SumOfRemove(mj, f, k);
      SumOfRemove(mk, f, j);
      RemoveBoth(m, j, k);
    }
  }

  /** Removing two keys gives the same map in either order. */
  lemma RemoveBoth<K, V>(m: map<K, V>, j: K, k: K)
    ensures (m - {j}) - {k} == (m - {k}) - {j}
  {
    assert (m - {j}) - {k} == m - {j, k};
    assert (m - {k}) - {j} == m - {j, k};
  }

  /** Storing `v` under `k` changes the sum by exactly what `k` held. */
  lemma SumOfUpdate<K, V>(m: map<K, V>, f: V -> nat, k: K, v: V)
    ensures k in m ==> SumOf(m[k := v], f) + f(m[k]) == SumOf(m, f) + f(v)
    ensures k !in m ==> SumOf(m[k := v], f) == SumOf(m, f) + f(v)
  {
    if k in m {
      var rest := m - {k};
      assert m == rest[k := m[k]];
      assert m[k := v] == rest[k := v];
      SumOfInsert(rest, f, k, m[k]);
      SumOfInsert(rest, f, k, v);
    } else {
      SumOfInsert(m, f, k, v);
    }
  }

  /** Storing a value under a new key adds it to the sum. */
  lemma SumOfInsert<K, V>(m: map<K, V>, f: V -> nat, k: K, v: V)
    requires k !in m
    ensures SumOf(m[k := v], f) == SumOf(m, f) + f(v)
  {
    var updated := m[k := v];
    SumOfRemove(updated, f, k);
    assert updated - {k} == m;
  }

  /** A sum of values that are all zero is zero. */
  lemma {:induction false} SumOfZero<K, V>(m: map<K, V>, f: V -> nat)
    requires forall k :: k in m ==> f(m[k]) == 0
    ensures SumOf(m, f) == 0
    decreases |m|
  {
    if |m| > 0 {
      var k := Pick(m.Keys);
      RemoveSize(m, k);
      SumOfZero(m - {k}, f);
    }
  }

  /** Every stored value is at most the sum. */
  lemma SumOfBound<K, V>(m: map<K, V>, f: V -> nat, k: K)
    requires k in m
    ensures f(m[k]) <= SumOf(m, f)
  {
    SumOfRemove(m, f, k);
  }

  /** The sum is positive exactly when some stored value contributes to it. */
  lemma SumOfPositive<K, V>(m: map<K, V>, f: V -> nat)
    ensures SumOf(m, f) > 0 <==> exists k :: k in m && f(m[k]) > 0
  {
    if k :| k in m && f(m[k]) > 0 {
      SumOfBound(m, f, k);
    } else {
      SumOfZero(m, f);
    }
  }

  /** A subset is no larger than its superset. */
  lemma SubsetCard<T>(a: set<T>, b: set<T>)
    requires a <= b
    ensures |a| <= |b|
  {
    assert b == a + (b - a);
  }

  /** Totals `f` over the values of `m`, visiting the keys in no particular order. */
  method SumValues<K(==), V>(m: map<K, V>, f: V -> nat) returns (total: nat)
    ensures total == SumOf(m, f)
  {
    total := 0;
    var rest := m;
    while |rest| > 0
      invariant total + SumOf(rest, f) == SumOf(m, f)
      decreases |rest|
    {
      var k :| k in rest;
      SumOfRemove(rest, f, k);
      RemoveSize(rest, k);
      total := total + f(rest[k]);
      rest := rest - {k};
    }
  }

  /** The sum of a sequence of naturals. */
  function SeqSum(s: seq<nat>): nat
  {
    if |s| == 0 then 0 else SeqSum(s[..|s| - 1]) + s[|s| - 1]
  }

  /** Every element is at most the sum. */
  lemma {:induction false} SeqSumBound(s: seq<nat>, i: nat)
    requires i < |s|
    ensures s[i] <= SeqSum(s)
    decreases |s|
  {
    if i < |s| - 1 {
      SeqSumBound(s[..|s| - 1], i);
    }
  }

  /** The sum is zero exactly when every element is. */
  lemma {:induction false} SeqSumZero(s: seq<nat>)
    ensures SeqSum(s) == 0 <==> forall i :: 0 <= i < |s| ==> s[i] == 0
    decreases |s|
  {
    if |s| > 0 {
      SeqSumZero(s[..|s| - 1]);
      assert forall i :: 0 <= i < |s| - 1 ==> s[..|s| - 1][i] == s[i];
    }
  }

  lemma {:induction false} SeqSumAppend(a: seq<nat>, b: seq<nat>)
    ensures SeqSum(a + b) == SeqSum(a) + SeqSum(b)
    decreases |b|
  {
    if |b| == 0 {
      assert a + b == a;
    } else {
      SeqSumAppend(a, b[..|b| - 1]);
      assert (a + b)[..|a + b| - 1] == a + b[..|b| - 1];
    }
  }
}

=== FILE: mcp_client.dfy ===
/**
 * The static side of the MCP client: the seven tool categories, the rule
 * cascade that files a tool name under a category, the per-category tool
 * tables and the public-key parser's hex path and error text.
 */
module McpClient {
  import opened Wrappers
  import opened Text

  type Byte = b: nat | b < 256

  /** Tool categories, in display order. */
  datatype McpToolCategory = Auth | Entities | Messages | Files | Kanban | Network | Social
  {
    /** `display_name`: the category's name as shown in the UI. */
    function DisplayName(): (r: string)
      ensures |r| >= 4
    {
      match this
      case Auth => "Auth"
      case Entities => "Entities"
      case Messages => "Messages"
      case Files => "Files"
      case Kanban => "Kanban"
      case Network => "Network"
      case Social => "Social"
    }

    /** `tool_count`: how many tools the category offers. */
    function ToolCount(): (r: nat)
      ensures r > 0
    {
      match this
      case Auth => 8
      case Entities => 16
      case Messages => 14
      case Files => 6
      case Kanban => 23
      case Network => 26
      case Social => 10
    }
  }

  /** `McpToolCategory::all`. */
  const ALL_CATEGORIES: seq<McpToolCategory> := [Auth, Entities, Messages, Files, Kanban, Network, Social]

  /** `all()` lists each of the seven categories exactly once. */
  lemma AllCategoriesOnce()
    ensures |ALL_CATEGORIES| == 7
    ensures forall c: McpToolCategory :: c in ALL_CATEGORIES
    ensures forall i, j :: 0 <= i < j < |ALL_CATEGORIES| ==> ALL_CATEGORIES[i] != ALL_CATEGORIES[j]
  {
    forall c: McpToolCategory
      ensures c in ALL_CATEGORIES
    {
      var i := match c
        case Auth => 0 case Entities => 1 case Messages => 2 case Files => 3
        case Kanban => 4 case Network => 5 case Social => 6;
      assert ALL_CATEGORIES[i] == c;
    }
  }

  /** Different categories are shown under different names. */
  lemma DisplayNamesDistinct(c: McpToolCategory, d: McpToolCategory)
    ensures c.DisplayName() == d.DisplayName() ==> c == d
  {
  }

  // ---------------------------------------------------------------------------
  // Categorising a tool name
  // ---------------------------------------------------------------------------

  predicate StartsWith(s: string, prefix: string) { prefix <= s }

  predicate AuthRule(n: string)
  {
    StartsWith(n, "authenticate") || StartsWith(n, "create_vault") || StartsWith(n, "list_vault")
    || StartsWith(n, "delete_vault") || StartsWith(n, "import_vault") || StartsWith(n, "export_vault")
    || n == "health_check" || n == "core_status" || n == "get_session" || n == "logout"
  }

  predicate EntitiesRule(n: string)
  {
    Contains(n, "entity") || Contains(n, "member") || n == "join_entity"
  }

  predicate MessagesRule(n: string)
  {
    Contains(n, "message") || Contains(n, "thread") || Contains(n, "reaction") || n == "get_unread_count"
  }

  predicate FilesRule(n: string)
  {
    Contains(n, "file") || n == "get_disk_stats" || Contains(n, "upload")
  }

  predicate KanbanRule(n: string)
  {
    Contains(n, "kanban") || Contains(n, "card") || Contains(n, "column") || Contains(n, "board")
    || Contains(n, "step") || Contains(n, "tag")
  }

  predicate NetworkRule(n: string)
  {
    StartsWith(n, "network_") || StartsWith(n, "dht_") || Contains(n, "metrics") || Contains(n, "trust")
    || Contains(n, "placement") || Contains(n, "presence")
  }

  predicate SocialRule(n: string)
  {
    Contains(n, "poll") || Contains(n, "story") || Contains(n, "call") || Contains(n, "location")
    || Contains(n, "screen") || Contains(n, "presentation") || Contains(n, "website")
    || Contains(n, "workspace")
  }

  /** None of the rules tried before Network matches. */
  predicate NoEarlierRule(n: string)
  {
    !AuthRule(n) && !EntitiesRule(n) && !MessagesRule(n) && !FilesRule(n) && !KanbanRule(n)
  }

  /**
   * `from_tool_name`: the first rule that matches, tried in the order Auth,
   * Entities, Messages, Files, Kanban, Network, Social; a name no rule
   * matches is filed under Network.
   */
  function FromToolName(n: string): (r: McpToolCategory)
    ensures r == Auth <==> AuthRule(n)
    ensures r == Entities <==> !AuthRule(n) && EntitiesRule(n)
    ensures r == Messages <==> !AuthRule(n) && !EntitiesRule(n) && MessagesRule(n)
    ensures r == Files <==> !AuthRule(n) && !EntitiesRule(n) && !MessagesRule(n) && FilesRule(n)
    ensures r == Kanban <==> !AuthRule(n) && !EntitiesRule(n) && !MessagesRule(n) && !FilesRule(n) && KanbanRule(n)
    ensures r == Social <==> NoEarlierRule(n) && !NetworkRule(n) && SocialRule(n)
    ensures r == Network <==> NoEarlierRule(n) && (NetworkRule(n) || !SocialRule(n))
  {
    if AuthRule(n) then Auth
    else if EntitiesRule(n) then Entities
    else if MessagesRule(n) then Messages
    else if FilesRule(n) then Files
    else if KanbanRule(n) then Kanban
    else if NetworkRule(n) then Network
    else if SocialRule(n) then Social
    else Network
  }

  /** A block that holds a character `s` lacks does not occur in `s`. */
  lemma MissingChar(s: string, sub: string, k: nat)
    requires k < |sub| && sub[k] !in s
    ensures !Contains(s, sub)
  {
  }

  /** A name that differs from `p` at position `k` neither starts with `p` nor equals it. */
  lemma DiffersAt(s: string, p: string, k: nat)
    requires k < |s| && k < |p| && s[k] != p[k]
    ensures !StartsWith(s, p) && s != p
  {
  }

  /** A block found at a known position occurs. */
  lemma FoundAt(s: string, sub: string, i: nat)
    requires i + |sub| <= |s| && forall k :: 0 <= k < |sub| ==> s[i + k] == sub[k]
    ensures Contains(s, sub)
  {
    assert s[i..i + |sub|] == sub;
    assert OccursAt(s, sub, i);
  }

  /** The Auth example of the source's unit test. */
  lemma AuthenticateIsAuth()
    ensures FromToolName("authenticate") == Auth
  {
  }

  /** The Entities example of the source's unit test. */
  lemma CreateEntityIsEntities()
    ensures FromToolName("create_entity") == Entities
  {
    var n := "create_entity";
    assert !AuthRule(n) by {
      DiffersAt(n, "authenticate", 0);
      DiffersAt(n, "create_vault", 7);
      DiffersAt(n, "list_vault", 0);
      DiffersAt(n, "delete_vault", 0);
      DiffersAt(n, "import_vault", 0);
      DiffersAt(n, "export_vault", 0);
      DiffersAt(n, "health_check", 0);
      DiffersAt(n, "core_status", 1);
      DiffersAt(n, "get_session", 0);
      DiffersAt(n, "logout", 0);
    }
    FoundAt(n, "entity", 7);
  }

  /** The Messages example of the source's unit test. */
  lemma SendMessageIsMessages()
    ensures FromToolName("send_message") == Messages
  {
    var n := "send_message";
    assert !AuthRule(n) by {
      DiffersAt(n, "authenticate", 0);
      DiffersAt(n, "create_vault", 0);
      DiffersAt(n, "list_vault", 0);
      DiffersAt(n, "delete_vault", 0);
      DiffersAt(n, "import_vault", 0);
      DiffersAt(n, "export_vault", 0);
      DiffersAt(n, "health_check", 0);
      DiffersAt(n, "core_status", 0);
      DiffersAt(n, "get_session", 0);
      DiffersAt(n, "logout", 0);
    }
    assert !EntitiesRule(n) by {
      DiffersAt(n, "join_entity", 0);
      MissingChar(n, "entity", 2);
      MissingChar(n, "member", 3);
    }
    FoundAt(n, "message", 5);
  }

  // ---------------------------------------------------------------------------
  // Tool tables
  // ---------------------------------------------------------------------------

  /** A tool offered to the UI. `parameters` stands for an optional JSON schema. */
  datatype ToolInfo = ToolInfo(name: string, description: string, category: McpToolCategory, parameters: Option<string>)

  const AUTH_TOOLS: seq<(string, string)> := [
    ("authenticate", "Authenticate with vault password"),
    ("create_vault", "Create a new identity vault"),
    ("authenticate_token", "Authenticate with delegate token"),
    ("health_check", "Check MCP server health"),
    ("core_status", "Get core system status"),
    ("list_vaults", "List available vaults"),
    ("delete_vault", "Delete a vault"),
    ("import_vault", "Import a vault from backup")
  ]

  const ENTITIES_TOOLS: seq<(string, string)> := [
    ("create_entity", "Create org/project/group/channel"),
    ("update_entity", "Update entity details"),
    ("delete_entity", "Delete an entity"),
    ("get_entity", "Get entity details"),
    ("list_entities", "List all entities"),
    ("add_member", "Add member to entity"),
    ("remove_member", "Remove member from entity"),
    ("list_members", "List entity members"),
    ("join_entity", "Join an entity"),
    ("create_invite", "Create entity invite"),
    ("accept_invite", "Accept an invite"),
    ("list_pending_invites", "List pending invites"),
    ("get_profile", "Get user profile"),
    ("update_profile", "Update user profile"),
    ("create_delegate_token", "Create delegate token"),
    ("export_vault", "Export vault backup")
  ]

  const MESSAGES_TOOLS: seq<(string, string)> := [
    ("send_message", "Send a message"),
    ("delete_message", "Delete a message"),
    ("edit_message", "Edit a message"),
    ("get_messages", "Get messages for entity"),
    ("create_thread", "Create a message thread"),
    ("get_thread_messages", "Get thread messages"),
    ("add_reaction", "Add reaction to message"),
    ("remove_reaction", "Remove reaction"),
    ("get_reactions", "Get message reactions"),
    ("create_custom_reaction", "Create custom reaction"),
    ("get_available_reactions", "List available reactions"),
    ("get_unread_count", "Get unread message count"),
    ("create_contact", "Create a contact"),
    ("list_contacts", "List all contacts")
  ]

  const FILES_TOOLS: seq<(string, string)> := [
    ("write_file", "Write file to virtual disk"),
    ("read_file", "Read file from virtual disk"),
    ("list_files", "List files in directory"),
    ("delete_file", "Delete a file"),
    ("get_disk_stats", "Get disk usage stats"),
    ("upload_with_metadata", "Upload with metadata")
  ]

  const KANBAN_TOOLS: seq<(string, string)> := [
    ("create_kanban_board", "Create kanban board"),
    ("update_kanban_board", "Update board details"),
    ("delete_kanban_board", "Delete a board"),
    ("list_kanban_boards", "List all boards"),
    ("get_kanban_board", "Get board details"),
    ("create_kanban_card", "Create a card"),
    ("update_kanban_card", "Update card details"),
    ("delete_kanban_card", "Delete a card"),
    ("list_kanban_cards", "List cards on board"),
    ("move_kanban_card", "Move card between columns"),
    ("get_kanban_card", "Get card details"),
    ("create_kanban_column", "Create a column"),
    ("list_kanban_columns", "List board columns"),
    ("get_kanban_column", "Get column details"),
    ("update_kanban_column", "Update column"),
    ("delete_kanban_column", "Delete a column"),
    ("move_kanban_column", "Reorder columns"),
    ("change_card_state", "Change card state"),
    ("assign_user", "Assign user to card"),
    ("unassign_user", "Unassign user from card"),
    ("create_kanban_tag", "Create a tag"),
    ("list_kanban_tags", "List board tags"),
    ("tag_card", "Add tag to card")
  ]

  const NETWORK_TOOLS: seq<(string, string)> := [
    ("network_start", "Start P2P networking"),
    ("network_stop", "Stop networking"),
    ("network_status", "Get network status"),
    ("network_connect", "Connect to peer"),
    ("network_disconnect", "Disconnect from peer"),
    ("network_peers", "List connected peers"),
    ("network_request_external_address", "Request external address"),
    ("get_connection_words", "Get your connection words"),
    ("connect_by_words", "Connect using 4-word address"),
    ("announce_presence", "Announce presence to network"),
    ("query_presence", "Query peer presence by pubkey"),
    ("get_our_presence", "Get our presence record"),
    ("get_cached_presence", "Get cached peer presence"),
    ("dht_start", "Start DHT"),
    ("dht_stop", "Stop DHT"),
    ("dht_status", "Get DHT status"),
    ("dht_store", "Store value in DHT"),
    ("dht_retrieve", "Retrieve from DHT"),
    ("dht_exists", "Check if key exists"),
    ("dht_closest_peers", "Get closest peers to key"),
    ("dht_health_metrics", "Get DHT health"),
    ("dht_network_stats", "Get DHT network stats"),
    ("security_metrics", "Get security metrics"),
    ("trust_metrics", "Get trust metrics"),
    ("placement_metrics", "Get placement metrics"),
    ("metrics_summary", "Get metrics summary")
  ]

  const SOCIAL_TOOLS: seq<(string, string)> := [
    ("create_poll", "Create a poll"),
    ("vote_in_poll", "Vote in a poll"),
    ("create_story", "Create a story"),
    ("get_media_metadata", "Get media metadata"),
    ("share_location", "Share location"),
    ("share_screen", "Share screen"),
    ("start_presentation", "Start presentation"),
    ("start_voice_call", "Start voice call"),
    ("join_call", "Join a call"),
    ("end_call", "End a call")
  ]

  /** The names and descriptions of the tools in a category, in listing order. */
  function Table(c: McpToolCategory): seq<(string, string)>
  {
    match c
    case Auth => AUTH_TOOLS
    case Entities => ENTITIES_TOOLS
    case Messages => MESSAGES_TOOLS
    case Files => FILES_TOOLS
    case Kanban => KANBAN_TOOLS
    case Network => NETWORK_TOOLS
    case Social => SOCIAL_TOOLS
  }

  /** `get_tools_for_category`: the category's tools, each tagged with it and without a schema. */
  function ToolsFor(c: McpToolCategory): (tools: seq<ToolInfo>)
    ensures |tools| == |Table(c)|
    ensures forall i :: 0 <= i < |tools| ==> tools[i].category == c && tools[i].parameters == None
    ensures forall i :: 0 <= i < |tools| ==> tools[i].name == Table(c)[i].0
  {
    var t := Table(c);
    seq(|t|, i requires 0 <= i < |t| => ToolInfo(t[i].0, t[i].1, c, None))
  }

  /** Each table has as many tools as `tool_count` announces. */
  lemma TableCounts(c: McpToolCategory)
    ensures |Table(c)| == c.ToolCount()
  {
  }

  /** The names a category lists. */
  function NamesOf(c: McpToolCategory): set<string>
  {
    set i | 0 <= i < |Table(c)| :: Table(c)[i].0
  }

  /** The tools of the given categories, one category after another. */
  function ToolsOf(cs: seq<McpToolCategory>): seq<ToolInfo>
    decreases |cs|
  {
    if cs == [] then [] else ToolsOf(cs[..|cs| - 1]) + ToolsFor(cs[|cs| - 1])
  }

  /** The sum of the categories' tool counts. */
  function CountOf(cs: seq<McpToolCategory>): nat
    decreases |cs|
  {
    if cs == [] then 0 else CountOf(cs[..|cs| - 1]) + cs[|cs| - 1].ToolCount()
  }

  lemma {:induction false} ToolsOfLength(cs: seq<McpToolCategory>)
    ensures |ToolsOf(cs)| == CountOf(cs)
    decreases |cs|
  {
    if cs != [] {
      ToolsOfLength(cs[..|cs| - 1]);
      TableCounts(cs[|cs| - 1]);
    }
  }

  /** Every tool in the concatenation is tagged with one of the categories asked for. */
  lemma {:induction false} ToolsOfTagged(cs: seq<McpToolCategory>)
    ensures forall i :: 0 <= i < |ToolsOf(cs)| ==> ToolsOf(cs)[i].category in cs
    decreases |cs|
  {
    if cs != [] {
      var init := cs[..|cs| - 1];
      ToolsOfTagged(init);
      var tools := ToolsOf(cs);
      forall i | 0 <= i < |tools|
        ensures tools[i].category in cs
      {
        if i < |ToolsOf(init)| {
          assert tools[i] == ToolsOf(init)[i];
          assert tools[i].category in init;
        } else {
          assert tools[i] == ToolsFor(cs[|cs| - 1])[i - |ToolsOf(init)|];
        }
      }
    }
  }

  /**
   * `get_all_tools`: the tool tables of all categories, concatenated in
   * display order.
   */
  method GetAllTools() returns (tools: seq<ToolInfo>)
    ensures tools == ToolsOf(ALL_CATEGORIES)
    ensures |tools| == CountOf(ALL_CATEGORIES) == 103
    ensures forall i :: 0 <= i < |tools| ==> tools[i].category in ALL_CATEGORIES
  {
    tools := [];
    for i := 0 to |ALL_CATEGORIES|
      invariant tools == ToolsOf(ALL_CATEGORIES[..i])
    {
      assert ALL_CATEGORIES[..i + 1][..i] == ALL_CATEGORIES[..i];
      tools := tools + ToolsFor(ALL_CATEGORIES[i]);
    }
    assert ALL_CATEGORIES[..|ALL_CATEGORIES|] == ALL_CATEGORIES;
    ToolsOfLength(ALL_CATEGORIES);
    ToolsOfTagged(ALL_CATEGORIES);
    CountOfAll();
  }

  /** The seven tables hold 103 tools in all. */
  lemma CountOfAll()
    ensures CountOf(ALL_CATEGORIES) == 103
  {
    var cs := ALL_CATEGORIES;
    assert CountOf(cs[..1]) == 8 by { assert cs[..1][..0] == []; }
    assert CountOf(cs[..2]) == 24 by { assert cs[..2][..1] == cs[..1]; }
    assert CountOf(cs[..3]) == 38 by { assert cs[..3][..2] == cs[..2]; }
    assert CountOf(cs[..4]) == 44 by { assert cs[..4][..3] == cs[..3]; }
    assert CountOf(cs[..5]) == 67 by { assert cs[..5][..4] == cs[..4]; }
    assert CountOf(cs[..6]) == 93 by { assert cs[..6][..5] == cs[..5]; }
    assert cs[..7] == cs;
    assert cs[..7][..6] == cs[..6];
  }

  // ---------------------------------------------------------------------------
  // The categoriser against the tables
  // ---------------------------------------------------------------------------

  /** The Entities table lists "get_profile"; the Files table does not. */
  lemma ProfileListedUnderEntities()
    ensures "get_profile" in NamesOf(Entities) && "get_profile" !in NamesOf(Files)
  {
    assert Table(Entities)[12].0 == "get_profile";
    assert forall i :: 0 <= i < |Table(Files)| ==> Table(Files)[i].0 != "get_profile";
  }

  lemma ProfileNotAuth()
    ensures !AuthRule("get_profile")
  {
    var n := "get_profile";
    DiffersAt(n, "authenticate", 0);
    DiffersAt(n, "create_vault", 0);
    DiffersAt(n, "list_vault", 0);
    DiffersAt(n, "delete_vault", 0);
    DiffersAt(n, "import_vault", 0);
    DiffersAt(n, "export_vault", 0);
    DiffersAt(n, "health_check", 0);
    DiffersAt(n, "core_status", 0);
    DiffersAt(n, "get_session", 4);
    DiffersAt(n, "logout", 0);
  }

  lemma ProfileNotEntities()
    ensures !EntitiesRule("get_profile")
  {
    var n := "get_profile";
    DiffersAt(n, "join_entity", 0);
    MissingChar(n, "entity", 1);
    MissingChar(n, "member", 0);
  }

  lemma ProfileNotMessages()
    ensures !MessagesRule("get_profile")
  {
    var n := "get_profile";
    DiffersAt(n, "get_unread_count", 4);
    MissingChar(n, "message", 0);
    MissingChar(n, "thread", 1);
    MissingChar(n, "reaction", 2);
  }

  /**
   * `from_tool_name` files some listed tools under a category whose table
   * does not list them: "profile" contains "file", so "get_profile" goes to
   * Files although only the Entities table lists it.
   */
  lemma ProfileFiledUnderFiles()
    ensures FromToolName("get_profile") == Files
  {
    ProfileNotAuth();
    ProfileNotEntities();
    ProfileNotMessages();
    FoundAt("get_profile", "file", 7);
  }

  /** The first of the given categories whose table lists `n`. */
  function ListingCategory(cs: seq<McpToolCategory>, n: string): (r: Option<McpToolCategory>)
    ensures r.Some? ==> r.value in cs && n in NamesOf(r.value)
    ensures r.None? ==> forall c :: c in cs ==> n !in NamesOf(c)
    decreases |cs|
  {
    if cs == [] then None
    else if n in NamesOf(cs[0]) then Some(cs[0])
    else ListingCategory(cs[1..], n)
  }

  /**
   * A categoriser that agrees with the tables: a listed tool goes to the
   * first category that lists it, and any other name falls back to the rule
   * cascade.
   */
  function CategoryOf(n: string): (r: McpToolCategory)
    ensures (exists c :: n in NamesOf(c)) ==> n in NamesOf(r)
    ensures (forall c :: n !in NamesOf(c)) ==> r == FromToolName(n)
  {
    AllCategoriesOnce();
    match ListingCategory(ALL_CATEGORIES, n)
    case Some(c) => c
    case None => FromToolName(n)
  }

  /** Every tool `get_all_tools` offers is filed under a category that lists it. */
  lemma ListedToolsAgree(i: nat)
    requires i < |ToolsOf(ALL_CATEGORIES)|
    ensures ToolsOf(ALL_CATEGORIES)[i].name in NamesOf(CategoryOf(ToolsOf(ALL_CATEGORIES)[i].name))
  {
    var t := ToolsOf(ALL_CATEGORIES)[i];
    ToolsOfTagged(ALL_CATEGORIES);
    ToolListed(ALL_CATEGORIES, i);
  }

  /** A tool of the concatenation is listed by the category it is tagged with. */
  lemma {:induction false} ToolListed(cs: seq<McpToolCategory>, i: nat)
    requires i < |ToolsOf(cs)|
    ensures ToolsOf(cs)[i].name in NamesOf(ToolsOf(cs)[i].category)
    decreases |cs|
  {
    var init := cs[..|cs| - 1];
    var last := cs[|cs| - 1];
    if i < |ToolsOf(init)| {
      ToolListed(init, i);
      assert ToolsOf(cs)[i] == ToolsOf(init)[i];
    } else {
      var k := i - |ToolsOf(init)|;
      assert ToolsOf(cs)[i] == ToolsFor(last)[k];
      assert Table(last)[k].0 in NamesOf(last);
    }
  }

  // ---------------------------------------------------------------------------
  // Public keys
  // ---------------------------------------------------------------------------

  predicate IsHexDigit(c: char)
  {
    '0' <= c <= '9' || 'a' <= c <= 'f' || 'A' <= c <= 'F'
  }

  function HexValue(c: char): (v: nat)
    requires IsHexDigit(c)
    ensures v < 16
  {
    if '0' <= c <= '9' then c as int - '0' as int
    else if 'a' <= c <= 'f' then c as int - 'a' as int + 10
    else c as int - 'A' as int + 10
  }

  /** The lower-case hex digit of a value below 16. */
  function HexDigit(v: nat): (c: char)
    requires v < 16
    ensures IsHexDigit(c) && HexValue(c) == v
  {
    if v < 10 then ('0' as int + v) as char else ('a' as int + v - 10) as char
  }

  predicate AllHex(s: string)
  {
    forall i :: 0 <= i < |s| ==> IsHexDigit(s[i])
  }

  /**
   * `hex::decode`: an even number of hex digits of either case, two per
   * byte, most significant first; anything else is rejected.
   */
  function HexDecode(s: string): (r: Option<seq<Byte>>)
    ensures r.Some? <==> |s| % 2 == 0 && AllHex(s)
    ensures r.Some? ==> |r.value| * 2 == |s|
    decreases |s|
  {
    if |s| == 0 then Some([])
    else if |s| == 1 || !IsHexDigit(s[0]) || !IsHexDigit(s[1]) then None
    else
      match HexDecode(s[2..])
      case None => None
      case Some(rest) =>
        assert forall i :: 2 <= i < |s| ==> s[i] == s[2..][i - 2];
        Some([HexValue(s[0]) * 16 + HexValue(s[1])] + rest)
  }

  /** Byte `i` of a decoding is the value of digits `2i` and `2i + 1`, the first the more significant. */
  lemma {:induction false} HexDecodeDigits(s: string, i: nat)
    requires HexDecode(s).Some? && i < |HexDecode(s).value|
    ensures HexDecode(s).value[i] == HexValue(s[2 * i]) * 16 + HexValue(s[2 * i + 1])
    decreases |s|
  {
    if i > 0 {
      var tail := s[2..];
      HexDecodeDigits(tail, i - 1);
      assert tail[2 * (i - 1)] == s[2 * i] && tail[2 * (i - 1) + 1] == s[2 * i + 1];
    }
  }

  /** Lower-case hex rendering, two digits per byte. */
  function HexEncode(bytes: seq<Byte>): (s: string)
    ensures |s| == 2 * |bytes| && AllHex(s)
    decreases |bytes|
  {
    if bytes == [] then "" else [HexDigit(bytes[0] / 16), HexDigit(bytes[0] % 16)] + HexEncode(bytes[1..])
  }

  /** Decoding the hex rendering of bytes gives the bytes back. */
  lemma {:induction false} HexRoundTrip(bytes: seq<Byte>)
    ensures HexDecode(HexEncode(bytes)) == Some(bytes)
    decreases |bytes|
  {
    if bytes != [] {
      var b, rest := bytes[0], bytes[1..];
      var s := HexEncode(bytes);
      HexRoundTrip(rest);
      assert s == [HexDigit(b / 16), HexDigit(b % 16)] + HexEncode(rest);
      assert s[2..] == HexEncode(rest);
      HexByte(b);
      assert HexDecode(s) == Some([HexValue(s[0]) * 16 + HexValue(s[1])] + rest);
      assert [b] + rest == bytes;
    }
  }

  /** The two digits of a byte give the byte back. */
  lemma HexByte(b: Byte)
    ensures HexValue(HexDigit(b / 16)) * 16 + HexValue(HexDigit(b % 16)) == b
  {
  }

  /** How an unparseable key is quoted in the error: at most 16 characters, then "..." if cut. */
  function Quoted(input: string): (q: string)
    ensures |q| <= 19
    ensures |input| <= 16 ==> q == input
    ensures |input| > 16 ==> |q| == 19 && q[..16] == input[..16] && q[16..] == "..."
  {
    if |input| > 16 then input[..16] + "..." else input
  }

  /**
   * `parse_pubkey`: hex first, then standard and URL-safe base64. The two
   * base64 decoders come from a library and are parameters here.
   */
  function ParsePubkey(input: string, base64Standard: string -> Option<seq<Byte>>,
                       base64UrlSafe: string -> Option<seq<Byte>>): (r: Result<seq<Byte>, string>)
    ensures HexDecode(input).Some? ==> r == Ok(HexDecode(input).value)
    ensures HexDecode(input).None? && base64Standard(input).Some? ==> r == Ok(base64Standard(input).value)
    ensures HexDecode(input).None? && base64Standard(input).None? && base64UrlSafe(input).Some? ==>
            r == Ok(base64UrlSafe(input).value)
    ensures r.Err? <==> HexDecode(input).None? && base64Standard(input).None? && base64UrlSafe(input).None?
    ensures r.Err? ==> r.error == "Invalid pubkey format: expected hex or base64, got '" + Quoted(input) + "'"
  {
    match HexDecode(input)
    case Some(bytes) => Ok(bytes)
    case None =>
      match base64Standard(input)
      case Some(bytes) => Ok(bytes)
      case None =>
        match base64UrlSafe(input)
        case Some(bytes) => Ok(bytes)
        case None => Err("Invalid pubkey format: expected hex or base64, got '" + Quoted(input) + "'")
  }

  /** A hex rendering always parses back to its bytes, whatever the base64 decoders would say. */
  lemma ParsePubkeyHex(bytes: seq<Byte>, base64Standard: string -> Option<seq<Byte>>,
                       base64UrlSafe: string -> Option<seq<Byte>>)
    ensures ParsePubkey(HexEncode(bytes), base64Standard, base64UrlSafe) == Ok(bytes)
  {
    HexRoundTrip(bytes);
  }
}

=== FILE: proof_orchestrator.dfy ===
/**
 * The proof orchestrator of the test harness. It keeps one state record per
 * registered node and collects, for each node, data-transfer verifications,
 * gossip statistics and CRDT state hashes. It runs the connectivity, gossip
 * and CRDT steps of a comprehensive test, and it calls the automated debugger
 * when the test fails.
 *
 * Wall-clock readings and fresh session identifiers are parameters. Step
 * durations are not recorded.
 */
module ProofOrchestration {
  import opened Wrappers
  import opened Text
  import opened MapSums
  import Gossip = GossipVerification
  import Crdt = CrdtVerification
  import Debug = DebugAutomation

  // ---------------------------------------------------------------------------
  // Data verification results
  // ---------------------------------------------------------------------------

  datatype IpVersion = V4 | V6

  /** Outbound: this node opened the connection; inbound: the peer did. */
  datatype ConnectionDirection = Outbound | Inbound

  /**
   * One data-transfer verification. The data proof is reduced to the two
   * facts `is_success` reads: whether it was verified, and whether data
   * flowed both ways. A socket address is kept as its text.
   */
  datatype DataVerificationResult = DataVerificationResult(
    proofVerified: bool,
    proofBidirectional: bool,
    remoteAddr: Option<string>,
    ipVersion: IpVersion,
    direction: ConnectionDirection,
    timestampMs: nat)

  predicate IsSuccess(r: DataVerificationResult)
  {
    r.proofVerified && r.proofBidirectional
  }

  function IpTag(v: IpVersion): string
  {
    match v
    case V4 => "v4"
    case V6 => "v6"
  }

  function DirectionTag(d: ConnectionDirection): string
  {
    match d
    case Outbound => "out"
    case Inbound => "in"
  }

  /** The key a node stores one connection's verification under: "peer:v4:out". */
  function VerificationKey(peerId: string, v: IpVersion, d: ConnectionDirection): (k: string)
    ensures |k| > |peerId| && k[..|peerId| + 1] == peerId + ":"
  {
    peerId + ":" + IpTag(v) + ":" + DirectionTag(d)
  }

  /**
   * Distinct connections get distinct keys, even when a peer id itself holds
   * ':' — the key is read back from its end. So a node's map holds at most
   * one result per (peer, IP version, direction).
   */
  lemma VerificationKeyInjective(p1: string, v1: IpVersion, d1: ConnectionDirection,
                                 p2: string, v2: IpVersion, d2: ConnectionDirection)
    ensures VerificationKey(p1, v1, d1) == VerificationKey(p2, v2, d2) <==> p1 == p2 && v1 == v2 && d1 == d2
  {
    var k1, k2 := VerificationKey(p1, v1, d1), VerificationKey(p2, v2, d2);
    if k1 == k2 {
      var t1, t2 := DirectionTag(d1), DirectionTag(d2);
      assert k1[|k1| - 1] == t1[|t1| - 1];
      assert k2[|k2| - 1] == t2[|t2| - 1];
      assert d1 == d2;
      var n := |t1| + 2;
      assert k1[|k1| - n] == IpTag(v1)[1];
      assert k2[|k2| - n] == IpTag(v2)[1];
      assert v1 == v2;
      assert |p1| == |p2|;
      assert p1 == k1[..|p1|];
      assert p2 == k2[..|p2|];
    }
  }

  // ---------------------------------------------------------------------------
  // Verification summaries
  // ---------------------------------------------------------------------------

  datatype VerificationSummary = VerificationSummary(
    totalTests: nat,
    verifiedCount: nat,
    failedCount: nat,
    ipv4Verified: nat,
    ipv6Verified: nat,
    outboundVerified: nat,
    inboundVerified: nat)

  const NO_VERIFICATIONS := VerificationSummary(0, 0, 0, 0, 0, 0, 0)

  predicate HasVerifiedConnections(s: VerificationSummary)
  {
    s.verifiedCount > 0
  }

  predicate HasDualStack(s: VerificationSummary)
  {
    s.ipv4Verified > 0 && s.ipv6Verified > 0
  }

  predicate HasBidirectional(s: VerificationSummary)
  {
    s.outboundVerified > 0 && s.inboundVerified > 0
  }

  /** The share of verified tests, in percent; 0 when nothing was tested. */
  function SuccessRate(s: VerificationSummary): (r: real)
    ensures s.totalTests == 0 ==> r == 0.0
    ensures s.totalTests > 0 ==> r * (s.totalTests as real) == 100.0 * (s.verifiedCount as real)
    ensures s.verifiedCount <= s.totalTests ==> 0.0 <= r <= 100.0
  {
    Gossip.Ratio(s.verifiedCount, s.totalTests) * 100.0
  }

  /** Every test is verified or failed, and every verified one has one IP version and one direction. */
  predicate Balanced(s: VerificationSummary)
  {
    s.totalTests == s.verifiedCount + s.failedCount &&
    s.ipv4Verified + s.ipv6Verified == s.verifiedCount &&
    s.outboundVerified + s.inboundVerified == s.verifiedCount
  }

  function Flag(b: bool): nat
  {
    if b then 1 else 0
  }

  function VerifiedOf(r: DataVerificationResult): nat { Flag(IsSuccess(r)) }
  function Ipv4Of(r: DataVerificationResult): nat { Flag(IsSuccess(r) && r.ipVersion == V4) }
  function Ipv6Of(r: DataVerificationResult): nat { Flag(IsSuccess(r) && r.ipVersion == V6) }
  function OutboundOf(r: DataVerificationResult): nat { Flag(IsSuccess(r) && r.direction == Outbound) }
  function InboundOf(r: DataVerificationResult): nat { Flag(IsSuccess(r) && r.direction == Inbound) }

  /** What one result adds to a summary: one test, verified or failed, and its version and direction if verified. */
  function Counted(r: DataVerificationResult): VerificationSummary
  {
    VerificationSummary(1, VerifiedOf(r), Flag(!IsSuccess(r)), Ipv4Of(r), Ipv6Of(r), OutboundOf(r), InboundOf(r))
  }

  /** Counter-by-counter sum of two summaries. */
  function Plus(a: VerificationSummary, b: VerificationSummary): VerificationSummary
  {
    VerificationSummary(
      a.totalTests + b.totalTests,
      a.verifiedCount + b.verifiedCount,
      a.failedCount + b.failedCount,
      a.ipv4Verified + b.ipv4Verified,
      a.ipv6Verified + b.ipv6Verified,
      a.outboundVerified + b.outboundVerified,
      a.inboundVerified + b.inboundVerified)
  }

  /** The summary of a node's results: each one counted once, in no particular order. */
  ghost function SummaryOf(m: map<string, DataVerificationResult>): VerificationSummary
    decreases |m|
  {
    if |m| == 0 then NO_VERIFICATIONS
    else
      var k := Pick(m.Keys);
      Plus(Counted(m[k]), SummaryOf(m - {k}))
  }

  /** Any one result can be counted first. */
  lemma {:induction false} SummaryOfRemove(m: map<string, DataVerificationResult>, k: string)
    requires k in m
    ensures SummaryOf(m) == Plus(Counted(m[k]), SummaryOf(m - {k}))
    decreases |m|
  {
    RemoveSize(m, k);
    var j := Pick(m.Keys);
    if j != k {
      var mj, mk := m - {j}, m - {k};
      RemoveSize(m, j);
      assert k in mj && mj[k] == m[k];
      assert j in mk && mk[j] == m[j];
      SummaryOfRemove(mj, k);
      SummaryOfRemove(mk, j);
      RemoveBoth(m, j, k);
      PlusSwap(Counted(m[j]), Counted(m[k]), SummaryOf(mj - {k}));
    }
  }

  /** Counting one more result keeps the running total on course. */
  lemma SummaryStep(summary: VerificationSummary, rest: map<string, DataVerificationResult>, k: string,
                    results: map<string, DataVerificationResult>)
    requires k in rest
    requires Plus(summary, SummaryOf(rest)) == SummaryOf(results)
    ensures Plus(Plus(summary, Counted(rest[k])), SummaryOf(rest - {k})) == SummaryOf(results)
  {
    SummaryOfRemove(rest, k);
    PlusAssoc(summary, Counted(rest[k]), SummaryOf(rest - {k}));
  }

  /** Counting one more result keeps the counters in agreement. */
  lemma CountedBalanced(summary: VerificationSummary, r: DataVerificationResult)
    requires Balanced(summary)
    ensures Balanced(Plus(summary, Counted(r)))
  {
  }

  lemma PlusAssoc(a: VerificationSummary, b: VerificationSummary, c: VerificationSummary)
    ensures Plus(Plus(a, b), c) == Plus(a, Plus(b, c))
  {
  }

  lemma PlusSwap(a: VerificationSummary, b: VerificationSummary, c: VerificationSummary)
    ensures Plus(a, Plus(b, c)) == Plus(b, Plus(a, c))
  {
  }

  /** One test per stored result, and the counters always agree. */
  lemma {:induction false} SummaryOfBalanced(m: map<string, DataVerificationResult>)
    ensures Balanced(SummaryOf(m))
    ensures SummaryOf(m).totalTests == |m|
    decreases |m|
  {
    if |m| > 0 {
      var k := Pick(m.Keys);
      RemoveSize(m, k);
      SummaryOfBalanced(m - {k});
    }
  }

  /**
   * A counter of the summary is the sum of what each result adds to it; `g`
   * reads the counter and `f` says what one result adds.
   */
  lemma {:induction false} SummaryOfCounter(m: map<string, DataVerificationResult>,
                                           g: VerificationSummary -> nat, f: DataVerificationResult -> nat)
    requires forall a, b :: g(Plus(a, b)) == g(a) + g(b)
    requires forall r :: g(Counted(r)) == f(r)
    requires g(NO_VERIFICATIONS) == 0
    ensures g(SummaryOf(m)) == SumOf(m, f)
    decreases |m|
  {
    if |m| > 0 {
      var k := Pick(m.Keys);
      RemoveSize(m, k);
      SummaryOfCounter(m - {k}, g, f);
    }
  }

  function VerifiedCount(s: VerificationSummary): nat { s.verifiedCount }
  function Ipv4Count(s: VerificationSummary): nat { s.ipv4Verified }
  function Ipv6Count(s: VerificationSummary): nat { s.ipv6Verified }
  function OutboundCount(s: VerificationSummary): nat { s.outboundVerified }
  function InboundCount(s: VerificationSummary): nat { s.inboundVerified }

  /** Some connection is verified exactly when a stored result is a success. */
  lemma HasVerifiedMeaning(m: map<string, DataVerificationResult>)
    ensures HasVerifiedConnections(SummaryOf(m)) <==> exists k :: k in m && IsSuccess(m[k])
  {
    SummaryOfCounter(m, VerifiedCount, VerifiedOf);
    SumOfPositive(m, VerifiedOf);
  }

  /** Dual stack exactly when one IPv4 and one IPv6 result are successes. */
  lemma HasDualStackMeaning(m: map<string, DataVerificationResult>)
    ensures HasDualStack(SummaryOf(m)) <==>
      (exists k :: k in m && IsSuccess(m[k]) && m[k].ipVersion == V4) &&
      (exists k :: k in m && IsSuccess(m[k]) && m[k].ipVersion == V6)
  {
    SummaryOfCounter(m, Ipv4Count, Ipv4Of);
    SummaryOfCounter(m, Ipv6Count, Ipv6Of);
    SumOfPositive(m, Ipv4Of);
    SumOfPositive(m, Ipv6Of);
  }

  /** Bidirectional exactly when one outbound and one inbound result are successes. */
  lemma HasBidirectionalMeaning(m: map<string, DataVerificationResult>)
    ensures HasBidirectional(SummaryOf(m)) <==>
      (exists k :: k in m && IsSuccess(m[k]) && m[k].direction == Outbound) &&
      (exists k :: k in m && IsSuccess(m[k]) && m[k].direction == Inbound)
  {
    SummaryOfCounter(m, OutboundCount, OutboundOf);
    SummaryOfCounter(m, InboundCount, InboundOf);
    SumOfPositive(m, OutboundOf);
    SumOfPositive(m, InboundOf);
  }

  // ---------------------------------------------------------------------------
  // Configuration, steps and reports
  // ---------------------------------------------------------------------------

  datatype OrchestratorConfig = OrchestratorConfig(
    observerId: string,
    maxProofAgeSecs: nat,
    debugOnFailure: bool,
    gossipConfig: Gossip.GossipVerifierConfig,
    crdtConfig: Crdt.CrdtVerifierConfig,
    debugConfig: Debug.DebuggerConfig,
    minNodes: nat,
    requireCrossValidation: bool)

  const DEFAULT_ORCHESTRATOR_CONFIG := OrchestratorConfig(
    "orchestrator", 30, true, Gossip.DEFAULT_GOSSIP_CONFIG, Crdt.DEFAULT_CRDT_CONFIG,
    Debug.DEFAULT_DEBUGGER_CONFIG, 2, true)

  datatype StepResult = StepResult(name: string, passed: bool, details: string, anomalies: seq<Debug.TestAnomaly>)

  function Pass(name: string, details: string): StepResult
  {
    StepResult(name, true, details, [])
  }

  function Fail(name: string, details: string, anomalies: seq<Debug.TestAnomaly>): StepResult
  {
    StepResult(name, false, details, anomalies)
  }

  /** `TestAnomaly::new`: no nodes named, stamped with the current time. */
  function NewAnomaly(anomalyType: string, description: string, severity: nat, now: nat): Debug.TestAnomaly
  {
    Debug.TestAnomaly(anomalyType, description, severity, [], now)
  }

  /** What the gossip verifier reports for its three protocols. */
  datatype GossipSummary = GossipSummary(
    hyparviewValid: bool,
    hyparviewDetails: string,
    swimValid: bool,
    swimDetails: string,
    plumtreeValid: bool,
    plumtreeDetails: string,
    nodesAnalyzed: nat)

  /** The expected and observed node sets, and each node's peers. */
  datatype ConnectivityProof = ConnectivityProof(
    observerId: string,
    expectedPeers: set<string>,
    observedPeers: set<string>,
    matrix: map<string, set<string>>)

  datatype OrchestratorReport = OrchestratorReport(
    sessionId: string,
    startedAtMs: nat,
    completedAtMs: nat,
    passed: bool,
    stepResults: seq<StepResult>,
    connectivityProof: Option<ConnectivityProof>,
    debugReport: Option<Debug.DebugReport>,
    allAnomalies: seq<Debug.TestAnomaly>,
    failureSummary: Option<string>)

  function OkFail(valid: bool): string
  {
    if valid then "OK" else "FAIL"
  }

  /**
   * The gossip step: one severity-4 anomaly per protocol that failed, and a
   * pass exactly when all three protocols are valid.
   */
  function VerifyGossip(s: GossipSummary, now: nat): (r: StepResult)
    ensures r.name == "gossip_protocols"
    ensures r.passed <==> s.hyparviewValid && s.swimValid && s.plumtreeValid
    ensures r.passed <==> r.anomalies == []
    ensures !r.passed ==> |r.anomalies| == Flag(!s.hyparviewValid) + Flag(!s.swimValid) + Flag(!s.plumtreeValid)
    ensures forall a :: a in r.anomalies ==> a.severity == 4
  {
    var h := if s.hyparviewValid then []
      else [NewAnomaly("hyparview_failure", "HyParView verification failed: " + s.hyparviewDetails, 4, now)];
    var w := if s.swimValid then []
      else [NewAnomaly("swim_failure", "SWIM verification failed: " + s.swimDetails, 4, now)];
    var p := if s.plumtreeValid then []
      else [NewAnomaly("plumtree_failure", "Plumtree verification failed: " + s.plumtreeDetails, 4, now)];
    var details := "HyParView:" + OkFail(s.hyparviewValid) + " SWIM:" + OkFail(s.swimValid) +
      " Plumtree:" + OkFail(s.plumtreeValid);
    if s.hyparviewValid && s.swimValid && s.plumtreeValid then Pass("gossip_protocols", details)
    else Fail("gossip_protocols", details, h + w + p)
  }

  function StateDivergence(node: string, now: nat): Debug.TestAnomaly
  {
    NewAnomaly("state_divergence", "Node " + node + " has divergent state", 5, now)
  }

  function DivergenceAnomalies(nodes: seq<string>, now: nat): (r: seq<Debug.TestAnomaly>)
    ensures |r| == |nodes|
    ensures forall i :: 0 <= i < |r| ==> r[i] == StateDivergence(nodes[i], now)
  {
    seq(|nodes|, i requires 0 <= i < |nodes| => StateDivergence(nodes[i], now))
  }

  /** The set's members in some order, each once. */
  method Enumerate(s: set<string>) returns (order: seq<string>)
    ensures |order| == |s|
    ensures forall x :: x in order <==> x in s
  {
    order := [];
    var rest := s;
    while rest != {}
      invariant rest <= s
      invariant |order| + |rest| == |s|
      invariant forall x :: x in order <==> x in s - rest
      decreases |rest|
    {
      var x :| x in rest;
      order := order + [x];
      rest := rest - {x};
    }
  }

  /** The names of the failed steps, in step order. */
  function FailedNames(steps: seq<StepResult>): (r: seq<string>)
    ensures |r| <= |steps|
    ensures r == [] <==> forall i :: 0 <= i < |steps| ==> steps[i].passed
    ensures forall n :: n in r ==> exists i :: 0 <= i < |steps| && !steps[i].passed && steps[i].name == n
  {
    if |steps| == 0 then []
    else
      var rest := FailedNames(steps[1..]);
      assert forall i :: 1 <= i < |steps| ==> steps[i] == steps[1..][i - 1];
      if steps[0].passed then rest else [steps[0].name] + rest
  }

  /** The failure summary line of a run. */
  function FailureSummary(steps: seq<StepResult>, anomalyCount: nat): string
  {
    "Test failed at steps: " + Join(FailedNames(steps), ", ") + ". Total anomalies: " + NatToString(anomalyCount)
  }

  /** A step reports anomalies exactly when it fails. */
  predicate Consistent(step: StepResult)
  {
    step.passed <==> step.anomalies == []
  }

  /**
   * The report of a three-step run: it passes exactly when every step passes,
   * carries every step's anomalies in step order, and has a failure summary
   * exactly when it fails.
   */
  function AssembleReport(sessionId: string, startedAtMs: nat, completedAtMs: nat, steps: seq<StepResult>,
                          proof: ConnectivityProof, debugReport: Option<Debug.DebugReport>): (report: OrchestratorReport)
    requires |steps| == 3 && forall i :: 0 <= i < 3 ==> Consistent(steps[i])
    ensures report.sessionId == sessionId
    ensures report.startedAtMs == startedAtMs && report.completedAtMs == completedAtMs
    ensures report.stepResults == steps
    ensures report.passed <==> forall i :: 0 <= i < 3 ==> steps[i].passed
    ensures report.allAnomalies == steps[0].anomalies + steps[1].anomalies + steps[2].anomalies
    ensures report.passed <==> report.allAnomalies == []
    ensures report.connectivityProof == Some(proof) && report.debugReport == debugReport
    ensures report.failureSummary.Some? <==> !report.passed
    ensures report.failureSummary.Some? ==>
      report.failureSummary.value == FailureSummary(steps, |report.allAnomalies|)
  {
    var anomalies := steps[0].anomalies + steps[1].anomalies + steps[2].anomalies;
    var passed := steps[0].passed && steps[1].passed && steps[2].passed;
    assert passed <==> anomalies == [] by {
      assert Consistent(steps[0]) && Consistent(steps[1]) && Consistent(steps[2]);
    }
    var failureSummary := if passed then None else Some(FailureSummary(steps, |anomalies|));
    OrchestratorReport(sessionId, startedAtMs, completedAtMs, passed, steps, Some(proof),
                       debugReport, anomalies, failureSummary)
  }

  // ---------------------------------------------------------------------------
  // Node state
  // ---------------------------------------------------------------------------

  datatype NodeState = NodeState(
    nodeId: string,
    connectedPeers: seq<string>,
    peerAddresses: map<string, string>,
    gossipStats: Option<Gossip.GossipStats>,
    stateHash: Option<Crdt.StateHash>,
    responsive: bool,
    lastUpdatedMs: nat,
    dataVerifications: map<string, DataVerificationResult>)

  /** The entry `register_node` stores: responsive, with nothing recorded yet. */
  function Registered(nodeId: string, now: nat): NodeState
  {
    NodeState(nodeId, [], map[], None, None, true, now, map[])
  }

  /** What one `record_*` call stores about a node. */
  datatype NodeUpdate =
    | Connections(peers: seq<string>)
    | GossipStatsOf(stats: Gossip.GossipStats)
    | StateHashOf(hash: Crdt.StateHash)
    | PeerAddress(peerId: string, addr: string)
    | DataVerification(peerId: string, result: DataVerificationResult)

  /**
   * The change a `record_*` call makes to a registered node's entry: it sets
   * its own field, stamps the update time and leaves every other field alone.
   */
  function Updated(s: NodeState, u: NodeUpdate, now: nat): (t: NodeState)
    ensures t.nodeId == s.nodeId && t.responsive == s.responsive && t.lastUpdatedMs == now
    ensures t.connectedPeers == (if u.Connections? then u.peers else s.connectedPeers)
    ensures t.gossipStats == (if u.GossipStatsOf? then Some(u.stats) else s.gossipStats)
    ensures t.stateHash == (if u.StateHashOf? then Some(u.hash) else s.stateHash)
    ensures t.peerAddresses.Keys == s.peerAddresses.Keys + (if u.PeerAddress? then {u.peerId} else {})
    ensures !u.PeerAddress? ==> t.peerAddresses == s.peerAddresses
    ensures !u.DataVerification? ==> t.dataVerifications == s.dataVerifications
    ensures u.DataVerification? ==>
      t.dataVerifications.Keys == s.dataVerifications.Keys + {VerificationKey(u.peerId, u.result.ipVersion, u.result.direction)}
  {
    match u
    case Connections(peers) => s.(connectedPeers := peers, lastUpdatedMs := now)
    case GossipStatsOf(stats) => s.(gossipStats := Some(stats), lastUpdatedMs := now)
    case StateHashOf(hash) => s.(stateHash := Some(hash), lastUpdatedMs := now)
    case PeerAddress(peerId, addr) => s.(peerAddresses := s.peerAddresses[peerId := addr], lastUpdatedMs := now)
    case DataVerification(peerId, result) =>
      var key := VerificationKey(peerId, result.ipVersion, result.direction);
      s.(dataVerifications := s.dataVerifications[key := result], lastUpdatedMs := now)
  }

  /**
   * A `record_*` call on the node map: nothing happens for a node that was
   * never registered, and no other node's entry changes.
   */
  function Record(states: map<string, NodeState>, nodeId: string, u: NodeUpdate, now: nat): (r: map<string, NodeState>)
    ensures r.Keys == states.Keys
    ensures nodeId !in states ==> r == states
    ensures nodeId in states ==> r[nodeId] == Updated(states[nodeId], u, now)
    ensures forall k :: k in states && k != nodeId ==> r[k] == states[k]
  {
    if nodeId in states then states[nodeId := Updated(states[nodeId], u, now)] else states
  }

  /**
   * Recording a verification stores it under its connection's key, replacing
   * any earlier result for the same connection, and leaves the result of
   * every other connection as it was.
   */
  lemma LatestVerificationKept(s: NodeState, peerId: string, result: DataVerificationResult, now: nat,
                               p: string, v: IpVersion, d: ConnectionDirection)
    ensures var after := Updated(s, DataVerification(peerId, result), now).dataVerifications;
            var key := VerificationKey(p, v, d);
            if p == peerId && v == result.ipVersion && d == result.direction then
              key in after && after[key] == result
            else
              (key in after <==> key in s.dataVerifications) &&
              (key in after ==> after[key] == s.dataVerifications[key])
  {
    VerificationKeyInjective(p, v, d, peerId, result.ipVersion, result.direction);
  }

  /** The summaries of all nodes' results added up, each node counted once, in no particular order. */
  ghost function AggregateOf(states: map<string, NodeState>): VerificationSummary
    decreases |states|
  {
    if |states| == 0 then NO_VERIFICATIONS
    else
      var k := Pick(states.Keys);
      Plus(SummaryOf(states[k].dataVerifications), AggregateOf(states - {k}))
  }

  /** Any one node can be added first. */
  lemma {:induction false} AggregateOfRemove(states: map<string, NodeState>, k: string)
    requires k in states
    ensures AggregateOf(states) == Plus(SummaryOf(states[k].dataVerifications), AggregateOf(states - {k}))
    decreases |states|
  {
    RemoveSize(states, k);
    var j := Pick(states.Keys);
    if j != k {
      var sj, sk := states - {j}, states - {k};
      RemoveSize(states, j);
      assert k in sj && sj[k] == states[k];
      assert j in sk && sk[j] == states[j];
      AggregateOfRemove(sj, k);
      AggregateOfRemove(sk, j);
      RemoveBoth(states, j, k);
      PlusSwap(SummaryOf(states[j].dataVerifications), SummaryOf(states[k].dataVerifications),
               AggregateOf(sj - {k}));
    }
  }

  /** A verification count of the aggregate is the sum of that count over the nodes' summaries. */
  lemma {:induction false} AggregateOfCounter(states: map<string, NodeState>, g: VerificationSummary -> nat,
                                             f: NodeState -> nat)
    requires forall a, b :: g(Plus(a, b)) == g(a) + g(b)
    requires forall s: NodeState :: g(SummaryOf(s.dataVerifications)) == f(s)
    requires g(NO_VERIFICATIONS) == 0
    ensures g(AggregateOf(states)) == SumOf(states, f)
    decreases |states|
  {
    if |states| > 0 {
      var k := Pick(states.Keys);
      RemoveSize(states, k);
      AggregateOfCounter(states - {k}, g, f);
    }
  }

  /** All nodes' counters still agree once added up. */
  lemma {:induction false} AggregateBalanced(states: map<string, NodeState>)
    ensures Balanced(AggregateOf(states))
    decreases |states|
  {
    if |states| > 0 {
      var k := Pick(states.Keys);
      RemoveSize(states, k);
      AggregateBalanced(states - {k});
      SummaryOfBalanced(states[k].dataVerifications);
    }
  }

  /** The summed number of tests recorded at a node. */
  function TestCount(s: NodeState): nat
  {
    |s.dataVerifications|
  }

  /** The aggregate counts one test per result stored at any node. */
  lemma {:induction false} AggregateTests(states: map<string, NodeState>)
    ensures AggregateOf(states).totalTests == SumOf(states, TestCount)
    decreases |states|
  {
    if |states| > 0 {
      var k := Pick(states.Keys);
      RemoveSize(states, k);
      SumOfRemove(states, TestCount, k);
      AggregateTests(states - {k});
      SummaryOfBalanced(states[k].dataVerifications);
    }
  }

  /** The number of peers a node reports connected. */
  function PeerCount(s: NodeState): nat
  {
    |s.connectedPeers|
  }

  // ---------------------------------------------------------------------------
  // The figures of the connectivity step
  // ---------------------------------------------------------------------------

  /** One node's entry in the connectivity details: its peers and its verified connections. */
  datatype NodeConnectivity = NodeConnectivity(nodeId: string, peerCount: nat, verified: nat)

  /** What the passing connectivity step reports, before its text is rendered. */
  datatype ConnectivityFigures = ConnectivityFigures(
    nodeCount: nat,
    expectedFullMesh: nat,
    totalConnections: nat,
    totalVerified: nat,
    totalVerifications: nat,
    perNode: seq<NodeConnectivity>)

  /**
   * The number of links in a full mesh of `nodeCount` nodes, counted one way
   * each: a new node links both ways with each node already there.
   */
  function ExpectedFullMesh(nodeCount: nat): nat
  {
    if nodeCount == 0 then 0 else ExpectedFullMesh(nodeCount - 1) + 2 * (nodeCount - 1)
  }

  /** The full mesh has `n * (n - 1)` links, none for a single node or none at all. */
  lemma {:induction false} FullMeshIsProduct(nodeCount: nat)
    ensures ExpectedFullMesh(nodeCount) == nodeCount * (nodeCount - 1)
    ensures nodeCount <= 1 <==> ExpectedFullMesh(nodeCount) == 0
  {
    if nodeCount > 0 {
      FullMeshIsProduct(nodeCount - 1);
    }
  }

  /**
   * `node_count * (node_count - 1)` in `usize` as a debug build runs it:
   * with no nodes the subtraction underflows and panics, which is `None`.
   */
  function ExpectedFullMeshAsWritten(nodeCount: nat): (r: Option<nat>)
    ensures r.None? <==> nodeCount == 0
  {
    if nodeCount == 0 then None else Some(nodeCount * (nodeCount - 1))
  }

  /** With at least one node the code computes the full mesh. */
  lemma FullMeshAsWrittenAgrees(nodeCount: nat)
    requires nodeCount > 0
    ensures ExpectedFullMeshAsWritten(nodeCount) == Some(ExpectedFullMesh(nodeCount))
  {
    FullMeshIsProduct(nodeCount);
  }

  /** With no nodes the code panics, where the full mesh is simply empty. */
  lemma FullMeshUnderflowExample()
    ensures ExpectedFullMeshAsWritten(0).None? && ExpectedFullMesh(0) == 0
  {
  }

  /** The connections as a percentage of the full mesh; 100 when the mesh is empty. */
  function MeshPercent(f: ConnectivityFigures): (r: real)
    ensures f.expectedFullMesh == 0 ==> r == 100.0
    ensures f.expectedFullMesh > 0 ==> r * f.expectedFullMesh as real == 100.0 * f.totalConnections as real
    ensures 0.0 <= r
  {
    if f.expectedFullMesh > 0 then f.totalConnections as real / f.expectedFullMesh as real * 100.0 else 100.0
  }

  /** The verified connections as a percentage of the tests; 100 when nothing was tested. */
  function VerificationRate(f: ConnectivityFigures): (r: real)
    ensures f.totalVerifications == 0 ==> r == 100.0
    ensures f.totalVerifications > 0 ==> r * f.totalVerifications as real == 100.0 * f.totalVerified as real
    ensures f.totalVerified <= f.totalVerifications ==> 0.0 <= r <= 100.0
  {
    if f.totalVerifications > 0 then f.totalVerified as real / f.totalVerifications as real * 100.0 else 100.0
  }

  /** A node's entry, `id:peers/verifiedv`. */
  function NodeEntryText(e: NodeConnectivity): string
  {
    e.nodeId + ":" + NatToString(e.peerCount) + "/" + NatToString(e.verified) + "v"
  }

  /**
   * The details of the passing step. `percentText` renders a percentage with
   * no decimals, as `{:.0}` does.
   */
  function ConnectivityDetails(f: ConnectivityFigures, percentText: real -> string): string
  {
    NatToString(f.nodeCount) + " nodes, " + NatToString(f.totalConnections) + " connections ("
    + percentText(MeshPercent(f)) + "% mesh), " + NatToString(f.totalVerified) + " verified ("
    + percentText(VerificationRate(f)) + "% rate), ["
    + Join(seq(|f.perNode|, i requires 0 <= i < |f.perNode| => NodeEntryText(f.perNode[i])), ", ") + "]"
  }

  /** A node's entry names a registered node with its peer count and its verified connections. */
  ghost predicate NodeEntryFor(states: map<string, NodeState>, e: NodeConnectivity)
  {
    e.nodeId in states &&
    e.peerCount == PeerCount(states[e.nodeId]) &&
    e.verified == SummaryOf(states[e.nodeId].dataVerifications).verifiedCount
  }

  /**
   * The figures of the registered nodes: their number, the full mesh, the
   * total connections, the verified connections and tests of all nodes'
   * summaries, and one entry per node, in no particular order.
   */
  ghost predicate FiguresFor(states: map<string, NodeState>, f: ConnectivityFigures)
  {
    f.nodeCount == |states| &&
    f.expectedFullMesh == ExpectedFullMesh(|states|) &&
    f.totalConnections == SumOf(states, PeerCount) &&
    f.totalVerified == AggregateOf(states).verifiedCount &&
    f.totalVerifications == AggregateOf(states).totalTests &&
    |f.perNode| == |states| &&
    (forall i :: 0 <= i < |f.perNode| ==> NodeEntryFor(states, f.perNode[i])) &&
    (forall i, j :: 0 <= i < j < |f.perNode| ==> f.perNode[i].nodeId != f.perNode[j].nodeId) &&
    (forall k :: k in states ==> exists i :: 0 <= i < |f.perNode| && f.perNode[i].nodeId == k)
  }

  /**
   * Part way through a visit of the nodes: `perNode` holds one entry for
   * each node no longer in `rest`, and no node twice.
   */
  ghost predicate Visited(states: map<string, NodeState>, rest: map<string, NodeState>, perNode: seq<NodeConnectivity>)
  {
    rest.Keys <= states.Keys &&
    |perNode| + |rest| == |states| &&
    (forall i :: 0 <= i < |perNode| ==> NodeEntryFor(states, perNode[i]) && perNode[i].nodeId !in rest) &&
    (forall i, j :: 0 <= i < j < |perNode| ==> perNode[i].nodeId != perNode[j].nodeId) &&
    (forall k :: k in states && k !in rest ==> exists i :: 0 <= i < |perNode| && perNode[i].nodeId == k)
  }

  /** Visiting one more node adds its entry. */
  lemma VisitStep(states: map<string, NodeState>, rest: map<string, NodeState>, perNode: seq<NodeConnectivity>,
                  k: string)
    requires Visited(states, rest, perNode) && k in rest
    requires |rest - {k}| == |rest| - 1
    ensures Visited(states, rest - {k}, perNode + [NodeConnectivity(k, PeerCount(states[k]),
                                                   SummaryOf(states[k].dataVerifications).verifiedCount)])
  {
    var after := perNode + [NodeConnectivity(k, PeerCount(states[k]),
                                             SummaryOf(states[k].dataVerifications).verifiedCount)];
    assert forall i :: 0 <= i < |perNode| ==> after[i] == perNode[i];
    forall j | j in states && j !in rest - {k}
      ensures exists i :: 0 <= i < |after| && after[i].nodeId == j
    {
      if j == k {
        assert after[|perNode|].nodeId == j;
      } else {
        var i :| 0 <= i < |perNode| && perNode[i].nodeId == j;
        assert after[i].nodeId == j;
      }
    }
  }

  /**
   * The tests counted are the results stored at all nodes, and no more of
   * them are verified than tested, so `VerificationRate` lies between 0
   * and 100.
   */
  lemma ConnectivityTotals(states: map<string, NodeState>, f: ConnectivityFigures)
    requires FiguresFor(states, f)
    ensures f.totalVerifications == SumOf(states, TestCount)
    ensures f.totalVerified <= f.totalVerifications
  {
    AggregateTests(states);
    AggregateBalanced(states);
  }

  /** The failed connectivity step: one severity-4 anomaly for too few nodes. */
  function InsufficientNodes(nodeCount: nat, minNodes: nat, now: nat): (r: StepResult)
    ensures r.name == "connectivity" && !r.passed && Consistent(r)
    ensures |r.anomalies| == 1 && r.anomalies[0].anomalyType == "insufficient_nodes" && r.anomalies[0].severity == 4
  {
    Fail("connectivity",
         "Insufficient nodes: " + NatToString(nodeCount) + " < " + NatToString(minNodes),
         [NewAnomaly("insufficient_nodes", "Need at least " + NatToString(minNodes) + " nodes", 4, now)])
  }

  /**
   * The connectivity step: too few registered nodes fail it with one
   * severity-4 anomaly; otherwise it passes with the figures of the nodes
   * rendered as details.
   */
  ghost predicate ConnectivityStep(states: map<string, NodeState>, minNodes: nat, now: nat,
                                   percentText: real -> string, r: StepResult)
  {
    if |states| < minNodes then
      r == InsufficientNodes(|states|, minNodes, now)
    else
      exists f :: FiguresFor(states, f) && r == Pass("connectivity", ConnectivityDetails(f, percentText))
  }

  /** One pass of the summary loop: count the result as a test, then as verified or failed. */
  method CountOne(before: VerificationSummary, result: DataVerificationResult) returns (summary: VerificationSummary)
    ensures summary == Plus(before, Counted(result))
  {
    summary := before.(totalTests := before.totalTests + 1);
    if IsSuccess(result) {
      summary := summary.(verifiedCount := summary.verifiedCount + 1);
      match result.ipVersion {
        case V4 => summary := summary.(ipv4Verified := summary.ipv4Verified + 1);
        case V6 => summary := summary.(ipv6Verified := summary.ipv6Verified + 1);
      }
      match result.direction {
        case Outbound => summary := summary.(outboundVerified := summary.outboundVerified + 1);
        case Inbound => summary := summary.(inboundVerified := summary.inboundVerified + 1);
      }
    } else {
      summary := summary.(failedCount := summary.failedCount + 1);
    }
  }

  // ---------------------------------------------------------------------------
  // The orchestrator
  // ---------------------------------------------------------------------------

  /** Count the results one at a time, in no particular order. */
  method Summarise(results: map<string, DataVerificationResult>) returns (summary: VerificationSummary)
    ensures summary == SummaryOf(results)
    ensures Balanced(summary)
    ensures summary.totalTests == |results|
  {
    summary := NO_VERIFICATIONS;
    var rest := results;
    PlusZero(SummaryOf(results));
    while rest != map[]
      invariant Plus(summary, SummaryOf(rest)) == SummaryOf(results)
      invariant Balanced(summary)
      invariant summary.totalTests + |rest| == |results|
      decreases |rest|
    {
      var k :| k in rest;
      SummaryLoopStep(summary, rest, k, results);
      summary := CountOne(summary, rest[k]);
      rest := rest - {k};
    }
    SummaryOfEmpty(rest);
    PlusZero(summary);
  }

  /** Nothing counted is the zero summary. */
  lemma SummaryOfEmpty(m: map<string, DataVerificationResult>)
    requires m == map[]
    ensures SummaryOf(m) == NO_VERIFICATIONS
  {
    assert |m| == 0;
  }

  /** The zero summary adds nothing. */
  lemma PlusZero(a: VerificationSummary)
    ensures Plus(NO_VERIFICATIONS, a) == a && Plus(a, NO_VERIFICATIONS) == a
  {
  }

  /** Counting one more result keeps the loop of `Summarise` on track. */
  lemma SummaryLoopStep(summary: VerificationSummary, rest: map<string, DataVerificationResult>, k: string,
                        results: map<string, DataVerificationResult>)
    requires k in rest
    requires Plus(summary, SummaryOf(rest)) == SummaryOf(results)
    requires Balanced(summary)
    requires summary.totalTests + |rest| == |results|
    ensures Plus(Plus(summary, Counted(rest[k])), SummaryOf(rest - {k})) == SummaryOf(results)
    ensures Balanced(Plus(summary, Counted(rest[k])))
    ensures Plus(summary, Counted(rest[k])).totalTests + |rest - {k}| == |results|
    ensures |rest - {k}| < |rest|
  {
    SummaryStep(summary, rest, k, results);
    CountedBalanced(summary, rest[k]);
    RemoveSize(rest, k);
  }

  class ProofOrchestrator {
    const config: OrchestratorConfig
    var gossip: Gossip.GossipVerifier
    var crdt: Crdt.CrdtVerifier
    var debugger: Debug.AutomatedDebugger
    var nodeStates: map<string, NodeState>
    var sessionId: string

    /** The verifiers are built from the orchestrator's configuration; the CRDT one checks a peer cache. */
    ghost predicate Valid()
      reads this, crdt, crdt.operations, debugger
    {
      crdt.Valid() && debugger.Valid() &&
      gossip.config == config.gossipConfig &&
      crdt.config == config.crdtConfig && crdt.crdtType == Crdt.PeerCache &&
      debugger.config == config.debugConfig
    }

    /** `with_config`: the session id and the CRDT test id are supplied by the caller. */
    constructor (config: OrchestratorConfig, sessionId: string, crdtTestId: string, now: nat)
      ensures Valid() && this.config == config && this.sessionId == sessionId
      ensures nodeStates == map[]
      ensures fresh(gossip) && fresh(crdt) && fresh(crdt.operations) && fresh(debugger)
      ensures gossip.Empty() && debugger.logs == [] && crdt.operations.operations == []
      ensures crdt.convergence == Crdt.NewConvergenceState(now)
    {
      this.config := config;
      this.sessionId := sessionId;
      nodeStates := map[];
      gossip := new Gossip.GossipVerifier(config.gossipConfig);
      crdt := new Crdt.CrdtVerifier(Crdt.PeerCache, config.crdtConfig, crdtTestId, now);
      debugger := new Debug.AutomatedDebugger(config.debugConfig);
    }

    /** Insert, or replace, a responsive entry with nothing recorded: the key set gains exactly `nodeId`. */
    method RegisterNode(nodeId: string, now: nat)
      modifies this`nodeStates
      ensures nodeStates == old(nodeStates)[nodeId := Registered(nodeId, now)]
      ensures nodeStates.Keys == old(nodeStates).Keys + {nodeId}
      ensures nodeStates[nodeId].responsive && nodeStates[nodeId].connectedPeers == []
      ensures nodeStates[nodeId].dataVerifications == map[]
    {
      nodeStates := nodeStates[nodeId := Registered(nodeId, now)];
    }

    method UpdateNodeState(nodeId: string, state: NodeState)
      modifies this`nodeStates
      ensures nodeStates == old(nodeStates)[nodeId := state]
    {
      nodeStates := nodeStates[nodeId := state];
    }

    method RecordConnections(nodeId: string, peers: seq<string>, now: nat)
      modifies this`nodeStates
      ensures nodeStates == Record(old(nodeStates), nodeId, Connections(peers), now)
    {
      nodeStates := Record(nodeStates, nodeId, Connections(peers), now);
    }

    /** The gossip verifier keeps the stats even for a node that is not registered. */
    method RecordGossipStats(nodeId: string, stats: Gossip.GossipStats, now: nat)
      modifies this`nodeStates, gossip`nodeStats
      ensures gossip.nodeStats == old(gossip.nodeStats)[nodeId := stats]
      ensures nodeStates == Record(old(nodeStates), nodeId, GossipStatsOf(stats), now)
    {
      gossip.RecordNodeStats(nodeId, stats);
      nodeStates := Record(nodeStates, nodeId, GossipStatsOf(stats), now);
    }

    /** The CRDT verifier keeps the hash even for a node that is not registered. */
    method RecordStateHash(nodeId: string, hash: Crdt.StateHash, now: nat)
      modifies this`nodeStates, crdt`convergence
      ensures crdt.convergence == old(crdt.convergence).(current := old(crdt.convergence).current[nodeId := hash])
      ensures nodeStates == Record(old(nodeStates), nodeId, StateHashOf(hash), now)
    {
      crdt.UpdateState(nodeId, hash);
      nodeStates := Record(nodeStates, nodeId, StateHashOf(hash), now);
    }

    method RecordPeerAddress(nodeId: string, peerId: string, addr: string, now: nat)
      modifies this`nodeStates
      ensures nodeStates == Record(old(nodeStates), nodeId, PeerAddress(peerId, addr), now)
    {
      nodeStates := Record(nodeStates, nodeId, PeerAddress(peerId, addr), now);
    }

    method RecordDataVerification(nodeId: string, peerId: string, result: DataVerificationResult, now: nat)
      modifies this`nodeStates
      ensures nodeStates == Record(old(nodeStates), nodeId, DataVerification(peerId, result), now)
    {
      nodeStates := Record(nodeStates, nodeId, DataVerification(peerId, result), now);
    }

    /** The node's results totalled in no particular order; all zeros for an unknown node. */
    method GetVerificationSummary(nodeId: string) returns (summary: VerificationSummary)
      ensures nodeId !in nodeStates ==> summary == NO_VERIFICATIONS
      ensures nodeId in nodeStates ==> summary == SummaryOf(nodeStates[nodeId].dataVerifications)
      ensures Balanced(summary)
      ensures nodeId in nodeStates ==> summary.totalTests == |nodeStates[nodeId].dataVerifications|
    {
      if nodeId !in nodeStates {
        return NO_VERIFICATIONS;
      }
      summary := Summarise(nodeStates[nodeId].dataVerifications);
    }

    /** The summaries of all nodes added up; the counters still agree. */
    method GetAggregatedVerificationSummary() returns (aggregate: VerificationSummary)
      ensures aggregate == AggregateOf(nodeStates)
      ensures Balanced(aggregate)
      ensures aggregate.totalTests == SumOf(nodeStates, TestCount)
    {
      aggregate := NO_VERIFICATIONS;
      var rest := nodeStates;
      PlusZero(AggregateOf(nodeStates));
      while rest != map[]
        invariant forall k :: k in rest ==> k in nodeStates && rest[k] == nodeStates[k]
        invariant Plus(aggregate, AggregateOf(rest)) == AggregateOf(nodeStates)
        invariant aggregate.totalTests + SumOf(rest, TestCount) == SumOf(nodeStates, TestCount)
        invariant Balanced(aggregate)
        decreases |rest|
      {
        var k :| k in rest;
        SumOfRemove(rest, TestCount, k);
        RemoveSize(rest, k);
        AggregateOfRemove(rest, k);
        PlusAssoc(aggregate, SummaryOf(rest[k].dataVerifications), AggregateOf(rest - {k}));
        var nodeSummary := GetVerificationSummary(k);
        aggregate := Plus(aggregate, nodeSummary);
        rest := rest - {k};
      }
      assert |rest| == 0;
      PlusZero(aggregate);
    }

    method AddLogs(logs: seq<Debug.LogEntry>)
      requires Valid()
      modifies debugger
      ensures Valid()
      ensures debugger.logs ==
        old(debugger.logs) + logs[..Debug.Room(|old(debugger.logs)|, |logs|, debugger.config.maxLogLines)]
    {
      debugger.AddLogs(logs);
    }

    /**
     * The figures of the registered nodes, visited once each in no particular
     * order: their connected peers and their verification summaries, added up.
     */
    method CollectConnectivity() returns (figures: ConnectivityFigures)
      ensures FiguresFor(nodeStates, figures)
    {
      var perNode: seq<NodeConnectivity> := [];
      var totalConnections, totalVerified, totalVerifications := 0, 0, 0;
      var rest := nodeStates;
      while rest != map[]
        invariant forall k :: k in rest ==> k in nodeStates && rest[k] == nodeStates[k]
        invariant totalConnections + SumOf(rest, PeerCount) == SumOf(nodeStates, PeerCount)
        invariant totalVerified + AggregateOf(rest).verifiedCount == AggregateOf(nodeStates).verifiedCount
        invariant totalVerifications + AggregateOf(rest).totalTests == AggregateOf(nodeStates).totalTests
        invariant Visited(nodeStates, rest, perNode)
        decreases |rest|
      {
        var k :| k in rest;
        SumOfRemove(rest, PeerCount, k);
        RemoveSize(rest, k);
        AggregateOfRemove(rest, k);
        VisitStep(nodeStates, rest, perNode, k);
        var peerCount := |rest[k].connectedPeers|;
        totalConnections := totalConnections + peerCount;
        var summary := GetVerificationSummary(k);
        totalVerifications := totalVerifications + summary.totalTests;
        totalVerified := totalVerified + summary.verifiedCount;
        perNode := perNode + [NodeConnectivity(k, peerCount, summary.verifiedCount)];
        rest := rest - {k};
      }
      figures := ConnectivityFigures(|nodeStates|, ExpectedFullMesh(|nodeStates|), totalConnections, totalVerified,
                                     totalVerifications, perNode);
    }

    /**
     * `verify_connectivity`: fails exactly when fewer than `minNodes` nodes
     * are registered; otherwise it always passes, whatever connections the
     * nodes report, and its details give each node's peers and verified
     * connections and their totals.
     */
    method VerifyConnectivity(now: nat, percentText: real -> string) returns (r: StepResult)
      ensures ConnectivityStep(nodeStates, config.minNodes, now, percentText, r)
      ensures r.name == "connectivity"
      ensures r.passed <==> |nodeStates| >= config.minNodes
      ensures Consistent(r)
    {
      var nodeCount := |nodeStates|;
      if nodeCount < config.minNodes {
        return InsufficientNodes(nodeCount, config.minNodes, now);
      }
      var figures := CollectConnectivity();
      r := Pass("connectivity", ConnectivityDetails(figures, percentText));
    }

    /** Every registered node is both expected and observed, with its own peers as its row. */
    function GenerateConnectivityProof(): (p: ConnectivityProof)
      reads this
      ensures p.observerId == config.observerId
      ensures p.expectedPeers == nodeStates.Keys && p.observedPeers == nodeStates.Keys
      ensures p.matrix.Keys == nodeStates.Keys
      ensures forall n, q :: n in p.matrix ==> (q in p.matrix[n] <==> q in nodeStates[n].connectedPeers)
    {
      ConnectivityProof(config.observerId, nodeStates.Keys, nodeStates.Keys,
        map n | n in nodeStates :: set q | q in nodeStates[n].connectedPeers)
    }

    /**
     * The CRDT step passes exactly when the nodes report at most one distinct
     * hash; otherwise it names each divergent node in one severity-5 anomaly.
     */
    method VerifyCrdt(now: nat) returns (r: StepResult)
      modifies crdt`convergence
      ensures r.name == "crdt_convergence"
      ensures r.passed <==> |old(crdt.convergence).current.Values| <= 1
      ensures r.passed <==> r.anomalies == []
      ensures r.passed ==> crdt.convergence == Crdt.MarkConverged(old(crdt.convergence), now)
      ensures !r.passed ==> crdt.convergence == old(crdt.convergence)
      ensures !r.passed ==> exists m, order ::
        Crdt.IsMostCommon(crdt.convergence.current, m) &&
        |order| == |Crdt.Outliers(crdt.convergence.current, m)| &&
        (forall x :: x in order <==> x in Crdt.Outliers(crdt.convergence.current, m)) &&
        r.anomalies == DivergenceAnomalies(order, now)
    {
      var converged := crdt.CheckConvergence(now);
      var summary := crdt.GetSummary();
      var details := "convergence:" + OkFail(converged) + " nodes:" + NatToString(summary.nodesParticipating) +
        " ops:" + NatToString(summary.operationsRecorded);
      if converged {
        r := Pass("crdt_convergence", details);
      } else {
        Crdt.IsConvergedDistinct(crdt.convergence);
        var divergent := Crdt.DivergentNodes(crdt.convergence);
        var order := Enumerate(divergent);
        r := Fail("crdt_convergence", details, DivergenceAnomalies(order, now));
      }
    }

    /**
     * The connectivity, gossip and CRDT steps, in that order, as they come out
     * of the registered nodes, the gossip summary and the CRDT convergence
     * state `convergence` the run started from; each reports anomalies
     * exactly when it fails.
     */
    ghost predicate StepsFor(gossipSummary: GossipSummary, now: nat, percentText: real -> string,
                             convergence: Crdt.ConvergenceState, steps: seq<StepResult>)
      reads this
    {
      |steps| == 3 &&
      ConnectivityStep(nodeStates, config.minNodes, now, percentText, steps[0]) &&
      steps[1] == VerifyGossip(gossipSummary, now) &&
      steps[2].name == "crdt_convergence" &&
      (steps[2].passed <==> |convergence.current.Values| <= 1) &&
      forall i :: 0 <= i < 3 ==> Consistent(steps[i])
    }

    /** The three verification steps, in order; each reports anomalies exactly when it fails. */
    method RunSteps(gossipSummary: GossipSummary, now: nat, percentText: real -> string) returns (steps: seq<StepResult>)
      modifies crdt`convergence
      ensures StepsFor(gossipSummary, now, percentText, old(crdt.convergence), steps)
    {
      var connectivity := VerifyConnectivity(now, percentText);
      var gossipStep := VerifyGossip(gossipSummary, now);
      var crdtStep := VerifyCrdt(now);
      steps := [connectivity, gossipStep, crdtStep];
    }

    /** A failed run is investigated when the configuration asks for it; the report holds the correlated anomalies of the logs. */
    method InvestigateFailure(passed: bool, startedAtMs: nat, completedAtMs: nat) returns (debugReport: Option<Debug.DebugReport>)
      ensures debugReport.Some? <==> !passed && config.debugOnFailure
      ensures debugReport.Some? ==>
        debugReport.value.anomalies ==
          Debug.Correlated(Debug.Detected(debugger.logs, debugger.config.errorPatterns, debugger.config.minSeverity),
                           debugger.config.correlationWindowMs)
    {
      debugReport := None;
      if !passed && config.debugOnFailure {
        var investigation := debugger.Investigate(startedAtMs, completedAtMs);
        debugReport := Some(investigation);
      }
    }

    /**
     * Connectivity, gossip and CRDT steps in that order, assembled into a
     * report by `AssembleReport` (so the run passes exactly when all three
     * pass and only a failed run carries a failure summary); only a failed
     * run with `debugOnFailure` set carries a debug report.
     */
    method RunComprehensiveTest(gossipSummary: GossipSummary, startedAtMs: nat, completedAtMs: nat,
                                percentText: real -> string)
      returns (report: OrchestratorReport)
      requires Valid()
      modifies crdt`convergence
      ensures Valid()
      ensures StepsFor(gossipSummary, startedAtMs, percentText, old(crdt.convergence), report.stepResults)
      ensures report == AssembleReport(sessionId, startedAtMs, completedAtMs, report.stepResults,
                                       GenerateConnectivityProof(), report.debugReport)
      ensures report.debugReport.Some? <==> !report.passed && config.debugOnFailure
      ensures report.debugReport.Some? ==>
        report.debugReport.value.anomalies ==
          Debug.Correlated(Debug.Detected(debugger.logs, debugger.config.errorPatterns, debugger.config.minSeverity),
                           debugger.config.correlationWindowMs)
    {
      var proof := GenerateConnectivityProof();
      var steps := RunSteps(gossipSummary, startedAtMs, percentText);
      var passed := steps[0].passed && steps[1].passed && steps[2].passed;
      var debugReport := InvestigateFailure(passed, startedAtMs, completedAtMs);
      report := AssembleReport(sessionId, startedAtMs, completedAtMs, steps, proof, debugReport);
    }

    /** Fresh verifiers and debugger, no nodes, and a new session id. */
    method Reset(newSessionId: string, crdtTestId: string, now: nat)
      modifies this
      ensures Valid() && nodeStates == map[] && sessionId == newSessionId
      ensures fresh(gossip) && fresh(crdt) && fresh(crdt.operations) && fresh(debugger)
      ensures gossip.Empty() && debugger.logs == [] && crdt.operations.operations == []
      ensures crdt.convergence == Crdt.NewConvergenceState(now)
    {
      gossip := new Gossip.GossipVerifier(config.gossipConfig);
      crdt := new Crdt.CrdtVerifier(Crdt.PeerCache, config.crdtConfig, crdtTestId, now);
      debugger := new Debug.AutomatedDebugger(config.debugConfig);
      nodeStates := map[];
      sessionId := newSessionId;
    }
  }
}

=== FILE: sorting.dfy ===
/**
 * A sort by an integer key, standing in for Rust's `sort_by_key` and for
 * `sort_by` with a key comparison: insertion sort, proved to return an
 * ordered permutation of its input.
 */
module Sorting {

  /** Keys never decrease along `s`. */
  predicate SortedBy<T>(s: seq<T>, key: T -> int)
  {
    forall i, j :: 0 <= i < j < |s| ==> key(s[i]) <= key(s[j])
  }

  /** Insert `x` after every leading element whose key is not larger than its own. */
  function Insert<T>(x: T, s: seq<T>, key: T -> int): (r: seq<T>)
    ensures |r| == |s| + 1
    ensures multiset(r) == multiset(s) + multiset{x}
    decreases |s|
  {
    if |s| == 0 then [x]
    else if key(x) < key(s[0]) then
      [x] + s
    else
      assert s == [s[0]] + s[1..];
      [s[0]] + Insert(x, s[1..], key)
  }

  /** Inserting into a sorted sequence keeps it sorted. */
  lemma {:induction false} InsertSorted<T>(x: T, s: seq<T>, key: T -> int)
    requires SortedBy(s, key)
    ensures SortedBy(Insert(x, s, key), key)
    decreases |s|
  {
    if |s| > 0 && key(x) >= key(s[0]) {
      var rest := Insert(x, s[1..], key);
      InsertSorted(x, s[1..], key);
      forall k | 0 <= k < |rest|
        ensures key(s[0]) <= key(rest[k])
      {
        assert rest[k] in multiset(s[1..]) + multiset{x};
        if rest[k] != x {
          assert rest[k] in s[1..];
          var m :| 0 <= m < |s[1..]| && s[1..][m] == rest[k];
          assert s[m + 1] == rest[k];
        }
      }
    }
  }

  /** Sort `s` by `key`, inserting its elements one at a time. */
  function SortByKey<T>(s: seq<T>, key: T -> int): (r: seq<T>)
    ensures |r| == |s|
    ensures multiset(r) == multiset(s)
    ensures SortedBy(r, key)
    decreases |s|
  {
    if |s| == 0 then []
    else
      var init := s[..|s| - 1];
      assert s == init + [s[|s| - 1]];
      var sorted := SortByKey(init, key);
      InsertSorted(s[|s| - 1], sorted, key);
      Insert(s[|s| - 1], sorted, key)
  }

  /** The elements of `s` whose key is `k`, in order. */
  function WithKey<T>(s: seq<T>, key: T -> int, k: int): (r: seq<T>)
    ensures |r| <= |s|
    decreases |s|
  {
    if |s| == 0 then []
    else (if key(s[0]) == k then [s[0]] else []) + WithKey(s[1..], key, k)
  }

  /** Selecting by key distributes over concatenation. */
  lemma {:induction false} WithKeyAppend<T>(a: seq<T>, b: seq<T>, key: T -> int, k: int)
    ensures WithKey(a + b, key, k) == WithKey(a, key, k) + WithKey(b, key, k)
    decreases |a|
  {
    if |a| > 0 {
      assert (a + b)[1..] == a[1..] + b;
      WithKeyAppend(a[1..], b, key, k);
    } else {
      assert a + b == b;
    }
  }

  /** No element with key `k` selects nothing. */
  lemma {:induction false} WithKeyNone<T>(s: seq<T>, key: T -> int, k: int)
    requires forall i :: 0 <= i < |s| ==> key(s[i]) != k
    ensures WithKey(s, key, k) == []
    decreases |s|
  {
    if |s| > 0 {
      WithKeyNone(s[1..], key, k);
    }
  }

  /** Inserting into a sorted sequence puts `x` after every element with its key. */
  lemma {:induction false} InsertStable<T>(x: T, s: seq<T>, key: T -> int, k: int)
    requires SortedBy(s, key)
    ensures WithKey(Insert(x, s, key), key, k) == WithKey(s, key, k) + (if key(x) == k then [x] else [])
    decreases |s|
  {
    var own := if key(x) == k then [x] else [];
    if |s| == 0 {
      assert Insert(x, s, key) == [x];
      assert WithKey([x], key, k) == own + WithKey([x][1..], key, k);
    } else if key(x) < key(s[0]) {
      var r := [x] + s;
      assert Insert(x, s, key) == r;
      assert r[1..] == s;
      assert WithKey(r, key, k) == own + WithKey(s, key, k);
      if key(x) == k {
        WithKeyNone(s, key, k);
      }
    } else {
      InsertAfterHead(x, s, key, k);
    }
  }

  /** Inserting behind the head: the head is selected first, then the insertion into the rest. */
  lemma {:induction false} InsertAfterHead<T>(x: T, s: seq<T>, key: T -> int, k: int)
    requires SortedBy(s, key) && |s| > 0 && key(x) >= key(s[0])
    ensures WithKey(Insert(x, s, key), key, k) == WithKey(s, key, k) + (if key(x) == k then [x] else [])
    decreases |s|, 0
  {
    var head := if key(s[0]) == k then [s[0]] else [];
    var rest := Insert(x, s[1..], key);
    var r := [s[0]] + rest;
    assert Insert(x, s, key) == r;
    assert r[1..] == rest;
    assert WithKey(r, key, k) == head + WithKey(rest, key, k);
    assert WithKey(s, key, k) == head + WithKey(s[1..], key, k);
    var own := if key(x) == k then [x] else [];
    SortedTail(s, key);
    InsertStable(x, s[1..], key, k);
    ConcatAssoc(head, WithKey(s[1..], key, k), own);
  }

  lemma ConcatAssoc<T>(a: seq<T>, b: seq<T>, c: seq<T>)
    ensures a + (b + c) == (a + b) + c
  {
  }

  /** The tail of a sorted sequence is sorted. */
  lemma SortedTail<T>(s: seq<T>, key: T -> int)
    requires SortedBy(s, key) && |s| > 0
    ensures SortedBy(s[1..], key)
  {
    forall i, j | 0 <= i < j < |s[1..]| ensures key(s[1..][i]) <= key(s[1..][j]) {
      assert s[1..][i] == s[i + 1] && s[1..][j] == s[j + 1];
    }
  }

  /**
   * The sort is stable: the elements sharing a key keep their relative
   * order, as with Rust's `sort_by_key` and `sort_by`.
   */
  lemma {:induction false} SortByKeyStable<T>(s: seq<T>, key: T -> int, k: int)
    ensures WithKey(SortByKey(s, key), key, k) == WithKey(s, key, k)
    decreases |s|
  {
    if |s| > 0 {
      var init, last := s[..|s| - 1], s[|s| - 1];
      assert s == init + [last];
      SortByKeyStable(init, key, k);
      InsertStable(last, SortByKey(init, key), key, k);
      WithKeyAppend(init, [last], key, k);
      assert WithKey([last], key, k) == (if key(last) == k then [last] else []) by {
        assert [last][1..] == [];
      }
    }
  }
}

=== FILE: stats_bridge.dfy ===
/**
 * `StatsBridge`: turns a snapshot of the DHT metrics into the display records
 * of the terminal UI. The snapshot holds only the counters and gauges these
 * conversions read; gauges are `real`, counters `nat`.
 */
module StatsBridge {
  import opened Wrappers
  import opened Text
  import TuiTypes
  import opened DataBridge

  datatype DhtHealthMetrics = DhtHealthMetrics(
    routingTableSize: nat, bucketsFilled: nat, operationsTotal: nat, operationsSuccessTotal: nat,
    bucketRefreshTotal: nat, successRate: real,
    lookupLatencyP50Ms: real, lookupLatencyP95Ms: real, lookupLatencyP99Ms: real,
    underReplicatedKeys: nat, replicationFactor: nat)

  datatype TrustMetrics = TrustMetrics(eigentrustAvg: real)

  datatype PlacementMetrics = PlacementMetrics(
    regionsCovered: nat, storageNodes: nat, geographicDiversity: real, loadBalanceScore: real,
    auditsTotal: nat, auditFailuresTotal: nat, totalRecords: nat, rebalanceOperationsTotal: nat)

  datatype SecurityMetrics = SecurityMetrics(sybilScore: real)

  datatype MetricsSnapshot = MetricsSnapshot(
    dhtHealth: DhtHealthMetrics, trust: TrustMetrics, placement: PlacementMetrics, security: SecurityMetrics)

  // ---------------------------------------------------------------------------
  // k-bucket estimate
  // ---------------------------------------------------------------------------

  /** A Kademlia routing table over 256-bit ids has this many buckets. */
  const BUCKET_COUNT: nat := 256

  /**
   * The estimated size of bucket `i`: the average per filled bucket, weighted
   * by `1 + (256 - i) / 256`, so closer buckets get more peers.
   */
  function BucketEstimate(routingSize: nat, bucketsFilled: nat, i: nat): nat
  {
    if bucketsFilled == 0 || i >= bucketsFilled || i >= BUCKET_COUNT then 0
    else (routingSize / bucketsFilled) * (2 * BUCKET_COUNT - i) / BUCKET_COUNT
  }

  lemma MulMonotone(a: nat, x: nat, y: nat)
    requires x <= y
    ensures a * x <= a * y
  {
  }

  /** `estimate_k_buckets`, as a value. */
  function KBucketEstimate(routingSize: nat, bucketsFilled: nat): (r: seq<nat>)
    ensures |r| == BUCKET_COUNT
    ensures bucketsFilled == 0 ==> forall i :: 0 <= i < |r| ==> r[i] == 0
    ensures forall i :: 0 <= i < |r| && i >= bucketsFilled ==> r[i] == 0
  {
    seq(BUCKET_COUNT, i requires 0 <= i => BucketEstimate(routingSize, bucketsFilled, i))
  }

  /**
   * Each filled bucket holds between one and two times the average per
   * filled bucket.
   */
  lemma FilledBucketsNearAverage(routingSize: nat, bucketsFilled: nat, i: nat)
    requires i < BUCKET_COUNT && i < bucketsFilled
    ensures var avg := routingSize / bucketsFilled;
      avg <= KBucketEstimate(routingSize, bucketsFilled)[i] <= 2 * avg
  {
    var avg := routingSize / bucketsFilled;
    MulMonotone(avg, BUCKET_COUNT, 2 * BUCKET_COUNT - i);
    MulMonotone(avg, 2 * BUCKET_COUNT - i, 2 * BUCKET_COUNT);
    assert avg * BUCKET_COUNT / BUCKET_COUNT == avg;
    assert avg * (2 * BUCKET_COUNT) / BUCKET_COUNT == 2 * avg;
  }

  /** Buckets further away never hold more peers than closer ones. */
  lemma KBucketsNonIncreasing(routingSize: nat, bucketsFilled: nat, i: nat, j: nat)
    requires i <= j < BUCKET_COUNT
    ensures KBucketEstimate(routingSize, bucketsFilled)[j] <= KBucketEstimate(routingSize, bucketsFilled)[i]
  {
    if j < bucketsFilled {
      MulMonotone(routingSize / bucketsFilled, 2 * BUCKET_COUNT - j, 2 * BUCKET_COUNT - i);
    }
  }

  /** `StatsBridge::estimate_k_buckets`: fills the first `min(filled, 256)` of 256 zeroed buckets. */
  method EstimateKBuckets(routingSize: nat, bucketsFilled: nat) returns (buckets: seq<nat>)
    ensures buckets == KBucketEstimate(routingSize, bucketsFilled)
  {
    if bucketsFilled == 0 {
      return seq(BUCKET_COUNT, _ => 0);
    }
    var avgPerBucket := routingSize / bucketsFilled;
    var a := new nat[BUCKET_COUNT](_ => 0);
    var fillCount := if bucketsFilled < BUCKET_COUNT then bucketsFilled else BUCKET_COUNT;
    for i := 0 to fillCount
      invariant forall k :: 0 <= k < i ==> a[k] == BucketEstimate(routingSize, bucketsFilled, k)
      invariant forall k :: i <= k < BUCKET_COUNT ==> a[k] == 0
    {
      var estimate := avgPerBucket * (2 * BUCKET_COUNT - i) / BUCKET_COUNT;
      assert estimate == BucketEstimate(routingSize, bucketsFilled, i);
      a[i] := estimate;
    }
    buckets := a[..];
    assert forall k :: 0 <= k < BUCKET_COUNT ==> buckets[k] == KBucketEstimate(routingSize, bucketsFilled)[k];
  }

  // ---------------------------------------------------------------------------
  // Scores and status
  // ---------------------------------------------------------------------------

  /** `bucket_to_score`: the number before the first `-` of a name such as `"0.1-0.2"`, else 0.5. */
  function BucketToScore(bucket: string, parseReal: string -> Option<real>): (r: real)
    ensures exists p :: BucketLead(bucket, p) && r == parseReal(p).UnwrapOr(0.5)
  {
    var p := Split(bucket, '-')[0];
    SplitFirst(bucket, '-');
    assert BucketLead(bucket, p);
    parseReal(p).UnwrapOr(0.5)
  }

  /** `p` is the part of `bucket` before its first `-`. */
  predicate BucketLead(bucket: string, p: string)
  {
    p <= bucket && '-' !in p && (|p| < |bucket| ==> bucket[|p|] == '-')
  }

  /** The part before the first `-` is unique. */
  lemma BucketLeadUnique(bucket: string, p: string, q: string)
    requires BucketLead(bucket, p) && BucketLead(bucket, q)
    ensures p == q
  {
  }

  /** Clamps a value into [0, 1]. */
  function Clamp01(x: real): (r: real)
    ensures 0.0 <= r <= 1.0
    ensures 0.0 <= x <= 1.0 ==> r == x
    ensures x < 0.0 ==> r == 0.0
    ensures x > 1.0 ==> r == 1.0
  {
    if x < 0.0 then 0.0 else if x > 1.0 then 1.0 else x
  }

  /** The weighted average before clamping: 30% DHT, 30% security, 20% trust, 20% placement. */
  function WeightedHealth(s: MetricsSnapshot): real
  {
    s.dhtHealth.successRate * 0.3 + (1.0 - s.security.sybilScore) * 0.3 +
    s.trust.eigentrustAvg * 0.2 + s.placement.geographicDiversity * 0.2
  }

  /** `calculate_health_score`. */
  function CalculateHealthScore(s: MetricsSnapshot): (r: real)
    ensures 0.0 <= r <= 1.0
  {
    Clamp01(WeightedHealth(s))
  }

  /** Four inputs that all lie in [0, 1] never need the clamp. */
  predicate GaugesInRange(s: MetricsSnapshot)
  {
    0.0 <= s.dhtHealth.successRate <= 1.0 && 0.0 <= s.security.sybilScore <= 1.0 &&
    0.0 <= s.trust.eigentrustAvg <= 1.0 && 0.0 <= s.placement.geographicDiversity <= 1.0
  }

  lemma HealthScoreIsWeightedAverage(s: MetricsSnapshot)
    requires GaugesInRange(s)
    ensures CalculateHealthScore(s) == WeightedHealth(s)
  {
  }

  /** A better DHT success rate never lowers the score. */
  lemma HealthScoreMonotoneInSuccess(s: MetricsSnapshot, rate: real)
    requires s.dhtHealth.successRate <= rate
    ensures CalculateHealthScore(s) <= CalculateHealthScore(s.(dhtHealth := s.dhtHealth.(successRate := rate)))
  {
  }

  /** A healthy-looking snapshot scores above 0.8. */
  lemma HealthyScoreExample()
    ensures CalculateHealthScore(MetricsSnapshot(
      DhtHealthMetrics(0, 0, 0, 0, 0, 0.95, 0.0, 0.0, 0.0, 0, 0),
      TrustMetrics(0.9),
      PlacementMetrics(0, 0, 0.85, 0.0, 0, 0, 0, 0),
      SecurityMetrics(0.05))) > 0.8
  {
  }

  function StatusRank(s: HealthStatus): nat
  {
    match s
    case Unknown => 0
    case Critical => 1
    case Unhealthy => 2
    case Degraded => 3
    case Healthy => 4
  }

  /** `score_to_status`. */
  function ScoreToStatus(score: real): (s: HealthStatus)
    ensures s == Healthy <==> score >= 0.9
    ensures s == Degraded <==> 0.7 <= score < 0.9
    ensures s == Unhealthy <==> 0.5 <= score < 0.7
    ensures s == HealthStatus.Critical <==> score < 0.5
  {
    if score >= 0.9 then Healthy
    else if score >= 0.7 then Degraded
    else if score >= 0.5 then Unhealthy
    else HealthStatus.Critical
  }

  /** A higher score never gets a worse status. */
  lemma ScoreToStatusMonotone(a: real, b: real)
    requires a <= b
    ensures StatusRank(ScoreToStatus(a)) <= StatusRank(ScoreToStatus(b))
  {
  }

  // ---------------------------------------------------------------------------
  // DHT stats
  // ---------------------------------------------------------------------------

  const U32_MAX: nat := 0xFFFF_FFFF

  /** Rust's saturating `f64 as u32` on a non-NaN value. */
  function AsU32(x: real): (r: nat)
    ensures r <= U32_MAX
    ensures x <= 0.0 ==> r == 0
    ensures 0.0 <= x < U32_MAX as real ==> r as real <= x < r as real + 1.0
    ensures x >= U32_MAX as real ==> r == U32_MAX
  {
    if x <= 0.0 then 0 else if x >= U32_MAX as real then U32_MAX else x.Floor
  }

  lemma AsU32Monotone(x: real, y: real)
    ensures x <= y ==> AsU32(x) <= AsU32(y)
  {
  }

  /** `StatsBridge::to_dht_stats`; the rolling average latency is not modelled. */
  function ToDhtStats(s: MetricsSnapshot, now: nat): (r: DhtStats)
    ensures r.kBuckets == KBucketEstimate(s.dhtHealth.routingTableSize, s.dhtHealth.bucketsFilled)
    ensures r.totalRoutingPeers == s.dhtHealth.routingTableSize
    ensures r.operations.gets == r.operations.puts
    ensures r.operations.gets + r.operations.puts <= s.dhtHealth.operationsTotal <
            r.operations.gets + r.operations.puts + 2
    ensures r.operations.getSuccesses == r.operations.putSuccesses
    ensures r.operations.getSuccesses + r.operations.putSuccesses <= s.dhtHealth.operationsSuccessTotal <
            r.operations.getSuccesses + r.operations.putSuccesses + 2
    ensures r.operations.deletes == 0 && r.operations.deleteSuccesses == 0
    ensures r.operations.routingQueries == r.operations.routingSuccesses == s.dhtHealth.bucketRefreshTotal
    ensures r.latency.samples == s.dhtHealth.operationsTotal && r.latency.history == []
    ensures r.latency.p50Ms == AsU32(s.dhtHealth.lookupLatencyP50Ms)
    ensures r.latency.p95Ms == AsU32(s.dhtHealth.lookupLatencyP95Ms)
    ensures r.latency.p99Ms == AsU32(s.dhtHealth.lookupLatencyP99Ms)
    ensures r.latency.minMs == r.latency.p50Ms && r.latency.maxMs == r.latency.p99Ms
    ensures s.dhtHealth.lookupLatencyP50Ms <= s.dhtHealth.lookupLatencyP99Ms ==> r.latency.minMs <= r.latency.maxMs
    ensures r.storedRecords == s.dhtHealth.underReplicatedKeys
    ensures r.replicationFactor == s.dhtHealth.replicationFactor && r.lastRefresh == Some(now)
  {
    var d := s.dhtHealth;
    var ops := DhtOperationStats(d.operationsTotal / 2, d.operationsSuccessTotal / 2,
                                 d.operationsTotal / 2, d.operationsSuccessTotal / 2,
                                 0, 0, d.bucketRefreshTotal, d.bucketRefreshTotal);
    var p50, p95, p99 := AsU32(d.lookupLatencyP50Ms), AsU32(d.lookupLatencyP95Ms), AsU32(d.lookupLatencyP99Ms);
    AsU32Monotone(d.lookupLatencyP50Ms, d.lookupLatencyP99Ms);
    var latency := TuiTypes.LatencyStats(p50, p99, p50, p95, p99, d.operationsTotal, []);
    DhtStats(KBucketEstimate(d.routingTableSize, d.bucketsFilled), d.routingTableSize, ops, latency,
             d.underReplicatedKeys, map[], d.replicationFactor, Some(now), [])
  }

  /** The estimated latency record is one the connection view accepts. */
  lemma ToDhtStatsLatencyValid(s: MetricsSnapshot, now: nat)
    requires s.dhtHealth.lookupLatencyP50Ms <= s.dhtHealth.lookupLatencyP99Ms
    ensures ToDhtStats(s, now).latency.Valid()
  {
  }

  /** 50 operations split into 25 gets and 25 puts; 100 routing peers are reported as such. */
  lemma ToDhtStatsExample()
    ensures var r := ToDhtStats(MetricsSnapshot(
      DhtHealthMetrics(100, 10, 50, 45, 0, 0.9, 50.0, 100.0, 150.0, 0, 0),
      TrustMetrics(0.0), PlacementMetrics(0, 0, 0.0, 0.0, 0, 0, 0, 0), SecurityMetrics(0.0)), 0);
      r.totalRoutingPeers == 100 && r.operations.gets + r.operations.puts == 50
  {
  }

  // ---------------------------------------------------------------------------
  // Placement stats
  // ---------------------------------------------------------------------------

  /** The globe emoji shown as every synthetic region's flag. */
  const GLOBE := "\U{1F310}"

  function RegionName(i: nat): string { "Region-" + NatToString(i + 1) }
  function RegionCode(i: nat): string { "R" + NatToString(i + 1) }

  /** The `i`-th synthetic region of `to_placement_stats`. */
  function SyntheticRegion(p: PlacementMetrics, i: nat): (r: RegionStats)
    requires p.regionsCovered > 0
    ensures r.code == RegionCode(i) && r.name == RegionName(i) && r.healthy
    ensures r.nodeCount * p.regionsCovered <= p.storageNodes
    ensures r.percentage * (p.regionsCovered as real) == 100.0 && r.dataPercentage == r.percentage
  {
    var share := 100.0 / (p.regionsCovered as real);
    RegionStats(RegionCode(i), RegionName(i), GLOBE, p.storageNodes / p.regionsCovered, share, share, 50.0, true)
  }

  /** One synthetic region per covered region, and none when no region is covered. */
  function SyntheticRegions(p: PlacementMetrics): (rs: seq<RegionStats>)
    ensures |rs| == p.regionsCovered
    ensures forall i :: 0 <= i < |rs| ==> rs[i] == SyntheticRegion(p, i)
  {
    if p.regionsCovered > 0 then seq(p.regionsCovered, i requires 0 <= i => SyntheticRegion(p, i))
    else []
  }

  /** No two synthetic regions share a code. */
  lemma RegionCodesDistinct(i: nat, j: nat)
    requires i != j
    ensures RegionCode(i) != RegionCode(j)
  {
    if RegionCode(i) == RegionCode(j) {
      assert RegionCode(i)[1..] == NatToString(i + 1);
      assert RegionCode(j)[1..] == NatToString(j + 1);
      ParseNatToString(i + 1);
      ParseNatToString(j + 1);
    }
  }

  /** `a - b` that stops at zero. */
  function SaturatingSub(a: nat, b: nat): (r: nat)
    ensures b <= a ==> r + b == a
    ensures b > a ==> r == 0
  {
    if b <= a then a - b else 0
  }

  /** The share of audits that passed, or 1 when nothing was audited. */
  function AuditPassRate(audits: nat, failures: nat): (r: real)
    ensures audits == 0 ==> r == 1.0
    ensures 0.0 <= r <= 1.0
    ensures audits > 0 && failures <= audits ==> r * (audits as real) == (audits - failures) as real
  {
    if audits > 0 then (SaturatingSub(audits, failures) as real) / (audits as real) else 1.0
  }

  /**
   * `to_placement_stats` with the two counter subtractions made saturating,
   * so that more audit failures than records or audits report zero
   * successes instead of underflowing.
   */
  function ToPlacementStats(s: MetricsSnapshot): (r: PlacementStats)
    ensures r.regions == SyntheticRegions(s.placement)
    ensures r.placementSuccessRate == AuditPassRate(s.placement.auditsTotal, s.placement.auditFailuresTotal)
    ensures 0.0 <= r.placementSuccessRate <= 1.0
    ensures s.placement.auditsTotal == 0 ==> r.placementSuccessRate == 1.0
    ensures r.successfulPlacements <= r.totalPlacements == s.placement.totalRecords
    ensures r.failedPlacements == s.placement.auditFailuresTotal
    ensures r.failedPlacements <= r.totalPlacements ==>
      r.successfulPlacements + r.failedPlacements == r.totalPlacements
    ensures r.overallDiversity * 2.0 == s.placement.geographicDiversity + s.placement.loadBalanceScore
    ensures r.geographicDiversity == s.placement.geographicDiversity && r.rackDiversity == 0.0
    ensures r.networkDiversity == s.placement.loadBalanceScore
    ensures r.placementRetries == s.placement.rebalanceOperationsTotal
    ensures r.targetReplicas == 8 && r.minRegions == 3 && r.avgReplicaCount == 8.0
    ensures r.underReplicatedCount == s.placement.auditFailuresTotal && r.replicationTargets == []
  {
    var p := s.placement;
    PlacementStats(p.geographicDiversity, 0.0, p.loadBalanceScore, (p.geographicDiversity + p.loadBalanceScore) / 2.0,
      SyntheticRegions(p),
      AuditPassRate(p.auditsTotal, p.auditFailuresTotal),
      p.totalRecords, SaturatingSub(p.totalRecords, p.auditFailuresTotal), p.auditFailuresTotal,
      p.rebalanceOperationsTotal, [], 8, 3, 8.0, p.auditFailuresTotal)
  }

  /**
   * `to_placement_stats` as written: both `u64` subtractions are unchecked,
   * so a debug build panics (here: `None`) when the audit failures exceed the
   * audits or the records.
   */
  function ToPlacementStatsAsWritten(s: MetricsSnapshot): (r: Option<PlacementStats>)
    ensures r.None? <==>
      s.placement.auditFailuresTotal > s.placement.totalRecords ||
      (s.placement.auditsTotal > 0 && s.placement.auditFailuresTotal > s.placement.auditsTotal)
  {
    var p := s.placement;
    if p.auditsTotal > 0 && p.auditFailuresTotal > p.auditsTotal then None
    else if p.auditFailuresTotal > p.totalRecords then None
    else Some(ToPlacementStats(s))
  }

  /** Where the code as written does not underflow, it agrees with the saturating version. */
  lemma AsWrittenAgreesWithoutUnderflow(s: MetricsSnapshot)
    requires s.placement.auditFailuresTotal <= s.placement.totalRecords
    requires s.placement.auditsTotal == 0 || s.placement.auditFailuresTotal <= s.placement.auditsTotal
    ensures ToPlacementStatsAsWritten(s) == Some(ToPlacementStats(s))
  {
  }

  /** One failed audit against an empty record count underflows as written. */
  lemma PlacementUnderflowExample()
    ensures var s := MetricsSnapshot(
      DhtHealthMetrics(0, 0, 0, 0, 0, 0.0, 0.0, 0.0, 0.0, 0, 0), TrustMetrics(0.0),
      PlacementMetrics(0, 0, 0.0, 0.0, 1, 1, 0, 0), SecurityMetrics(0.0));
      ToPlacementStatsAsWritten(s).None? && ToPlacementStats(s).successfulPlacements == 0
  {
  }
}

=== FILE: text.dfy ===
/**
 * Character and string helpers that stand in for the parts of Rust's `str`
 * API the modelled code relies on: ASCII case mapping, whitespace trimming,
 * splitting, joining, substring search, decimal rendering and unsigned
 * integer parsing.
 */
module Text {
  import opened Wrappers

  predicate IsUpper(c: char) { 'A' <= c <= 'Z' }
  predicate IsLower(c: char) { 'a' <= c <= 'z' }
  predicate IsAlpha(c: char) { IsUpper(c) || IsLower(c) }
  predicate IsDigit(c: char) { '0' <= c <= '9' }

  /** The ASCII whitespace characters that `str::trim` removes. */
  predicate IsSpace(c: char)
  {
    c == ' ' || c == '\t' || c == '\n' || c == '\r' || c == '\U{B}' || c == '\U{C}'
  }

  function LowerChar(c: char): (r: char)
    ensures !IsUpper(r)
    ensures IsAlpha(c) <==> IsAlpha(r)
  {
    if IsUpper(c) then (c as int + 32) as char else c
  }

  function UpperChar(c: char): (r: char)
    ensures !IsLower(r)
    ensures IsAlpha(c) <==> IsAlpha(r)
  {
    if IsLower(c) then (c as int - 32) as char else c
  }

  /** `to_ascii_lowercase`. */
  function Lower(s: string): (r: string)
    ensures |r| == |s|
    ensures forall i :: 0 <= i < |s| ==> r[i] == LowerChar(s[i])
  {
    seq(|s|, i requires 0 <= i < |s| => LowerChar(s[i]))
  }

  /** `to_ascii_uppercase`. */
  function Upper(s: string): (r: string)
    ensures |r| == |s|
    ensures forall i :: 0 <= i < |s| ==> r[i] == UpperChar(s[i])
  {
    seq(|s|, i requires 0 <= i < |s| => UpperChar(s[i]))
  }

  /** `sub` occurs in `s` as a contiguous block (`str::contains`). */
  predicate Contains(s: string, sub: string)
  {
    exists i | 0 <= i <= |s| - |sub| :: OccursAt(s, sub, i)
  }

  /** `sub` occurs in `s` starting at position `i`. */
  predicate OccursAt(s: string, sub: string, i: int)
  {
    0 <= i <= |s| - |sub| && s[i..i + |sub|] == sub
  }

  function TrimStart(s: string): (r: string)
    ensures |r| <= |s| && r == s[|s| - |r|..]
    ensures r == [] || !IsSpace(r[0])
    decreases |s|
  {
    if |s| > 0 && IsSpace(s[0]) then TrimStart(s[1..]) else s
  }

  function TrimEnd(s: string): (r: string)
    ensures |r| <= |s| && r == s[..|r|]
    ensures r == [] || !IsSpace(r[|r| - 1])
    decreases |s|
  {
    if |s| > 0 && IsSpace(s[|s| - 1]) then TrimEnd(s[..|s| - 1]) else s
  }

  /** `str::trim`: drop leading and trailing whitespace. */
  function Trim(s: string): (r: string)
    ensures |r| <= |s|
    ensures r == [] || (!IsSpace(r[0]) && !IsSpace(r[|r| - 1]))
  {
    TrimEnd(TrimStart(s))
  }

  /** A string with no whitespace at either end is its own trim. */
  lemma TrimNoop(s: string)
    requires s == [] || (!IsSpace(s[0]) && !IsSpace(s[|s| - 1]))
    ensures Trim(s) == s
  {
    assert TrimStart(s) == s;
    assert TrimEnd(s) == s;
  }

  /** Every character of `s` is whitespace. */
  predicate AllSpace(s: string)
  {
    forall i :: 0 <= i < |s| ==> IsSpace(s[i])
  }

  lemma {:induction false} TrimStartEmpty(s: string)
    ensures TrimStart(s) == [] <==> AllSpace(s)
    decreases |s|
  {
    if |s| > 0 && IsSpace(s[0]) {
      TrimStartEmpty(s[1..]);
      assert AllSpace(s) <==> AllSpace(s[1..]) by {
        if AllSpace(s[1..]) {
          forall i | 0 <= i < |s| ensures IsSpace(s[i]) {
            if i > 0 { assert s[i] == s[1..][i - 1]; }
          }
        }
      }
    }
  }

  /** Trimming yields the empty string exactly for blank input. */
  lemma TrimEmpty(s: string)
    ensures Trim(s) == [] <==> AllSpace(s)
  {
    TrimStartEmpty(s);
    var t := TrimStart(s);
    if t != [] {
      assert !IsSpace(t[0]);
      assert TrimEnd(t) != [] by { TrimEndKeepsFirst(t); }
    }
  }

  lemma {:induction false} TrimEndKeepsFirst(s: string)
    requires s != [] && !IsSpace(s[0])
    ensures TrimEnd(s) != []
    decreases |s|
  {
    if IsSpace(s[|s| - 1]) {
      TrimEndKeepsFirst(s[..|s| - 1]);
    }
  }

  /** The position of the first occurrence of `c`, if any (`str::find`). */
  function IndexOf(s: string, c: char): (r: Option<nat>)
    ensures r.None? <==> c !in s
    ensures r.Some? ==> r.value < |s| && s[r.value] == c && c !in s[..r.value]
    decreases |s|
  {
    if |s| == 0 then None
    else if s[0] == c then Some(0)
    else match IndexOf(s[1..], c)
      case None => None
      case Some(i) => Some(i + 1)
  }

  /** `str::split(sep)`: the pieces between occurrences of `sep`. */
  function Split(s: string, sep: char): (parts: seq<string>)
    ensures |parts| >= 1
    ensures forall i :: 0 <= i < |parts| ==> sep !in parts[i]
    decreases |s|
  {
    match IndexOf(s, sep)
    case None => [s]
    case Some(i) => [s[..i]] + Split(s[i + 1..], sep)
  }

  /** `[String]::join(sep)`. */
  function Join(parts: seq<string>, sep: string): string
    decreases |parts|
  {
    if |parts| == 0 then ""
    else if |parts| == 1 then parts[0]
    else parts[0] + sep + Join(parts[1..], sep)
  }

  /** Splitting and joining again with the same separator gives back the input. */
  lemma {:induction false} JoinSplit(s: string, sep: char)
    ensures Join(Split(s, sep), [sep]) == s
    decreases |s|
  {
    match IndexOf(s, sep)
    case None =>
    case Some(i) =>
      var rest := Split(s[i + 1..], sep);
      JoinSplit(s[i + 1..], sep);
      assert ([s[..i]] + rest)[1..] == rest;
      assert Join([s[..i]] + rest, [sep]) == s[..i] + [sep] + Join(rest, [sep]);
      assert s == s[..i] + [sep] + s[i + 1..];
  }

  /** The first `sep` in `a + [sep] + b` is the one right after `a` when `a` has none. */
  lemma {:induction false} IndexOfAfter(a: string, sep: char, b: string)
    requires sep !in a
    ensures IndexOf(a + [sep] + b, sep) == Some(|a|)
    decreases |a|
  {
    if |a| > 0 {
      IndexOfAfter(a[1..], sep, b);
      assert (a + [sep] + b)[1..] == a[1..] + [sep] + b;
    }
  }

  /** Joining pieces that do not contain the separator and splitting again gives them back. */
  lemma {:induction false} SplitJoin(parts: seq<string>, sep: char)
    requires |parts| >= 1
    requires forall i :: 0 <= i < |parts| ==> sep !in parts[i]
    ensures Split(Join(parts, [sep]), sep) == parts
    decreases |parts|
  {
    if |parts| > 1 {
      var tail := parts[1..];
      var rest := Join(tail, [sep]);
      var s := parts[0] + [sep] + rest;
      assert Join(parts, [sep]) == s;
      IndexOfAfter(parts[0], sep, rest);
      assert Split(s, sep) == [s[..|parts[0]|]] + Split(s[|parts[0]| + 1..], sep);
      assert s[|parts[0]| + 1..] == rest;
      assert s[..|parts[0]|] == parts[0];
      assert forall i :: 0 <= i < |tail| ==> sep !in tail[i] by {
        forall i | 0 <= i < |tail| ensures sep !in tail[i] {
          assert tail[i] == parts[i + 1];
        }
      }
      SplitJoin(tail, sep);
      assert parts == [parts[0]] + tail;
    }
  }

  /** A block inside a block of `s` occurs in `s`. */
  lemma ContainsTrans(s: string, x: string, y: string)
    requires Contains(s, x) && Contains(x, y)
    ensures Contains(s, y)
  {
    var i :| 0 <= i <= |s| - |x| && OccursAt(s, x, i);
    var j :| 0 <= j <= |x| - |y| && OccursAt(x, y, j);
    forall k | 0 <= k < |y|
      ensures s[i + j + k] == y[k]
    {
      assert s[i + j + k] == s[i..i + |x|][j + k] == x[j + k] == x[j..j + |y|][k];
    }
    assert s[i + j..i + j + |y|] == y;
    assert OccursAt(s, y, i + j);
  }

  /** A block placed between two others occurs in the concatenation. */
  lemma ContainsMiddle(a: string, x: string, b: string)
    ensures Contains(a + x + b, x)
  {
    assert OccursAt(a + x + b, x, |a|) by {
      assert (a + x + b)[|a|..|a| + |x|] == x;
    }
  }

  /** The first piece of a split is the longest prefix free of the separator. */
  lemma SplitFirst(s: string, sep: char)
    ensures var p := Split(s, sep)[0];
      p <= s && sep !in p && (|p| < |s| ==> s[|p|] == sep)
  {
    match IndexOf(s, sep)
    case None =>
    case Some(i) =>
      assert Split(s, sep)[0] == s[..i];
  }

  /** `str::split_once(sep)`: the text before and after the first `sep`. */
  function SplitOnce(s: string, sep: char): (r: Option<(string, string)>)
    ensures r.None? <==> sep !in s
    ensures r.Some? ==> sep !in r.value.0 && s == r.value.0 + [sep] + r.value.1
  {
    match IndexOf(s, sep)
    case None => None
    case Some(i) =>
      assert s == s[..i] + [sep] + s[i + 1..];
      Some((s[..i], s[i + 1..]))
  }

  /** The first `n` characters of `s` (all of it when shorter). */
  function Take(s: string, n: nat): (r: string)
    ensures r <= s
    ensures |r| == if |s| <= n then |s| else n
  {
    if |s| <= n then s else s[..n]
  }

  function DigitChar(d: nat): (c: char)
    requires d < 10
    ensures IsDigit(c)
  {
    ('0' as int + d) as char
  }

  function DigitValue(c: char): nat
    requires IsDigit(c)
  {
    c as int - '0' as int
  }

  predicate AllDigits(s: string)
  {
    forall i :: 0 <= i < |s| ==> IsDigit(s[i])
  }

  /** The value of a string of decimal digits, most significant first. */
  function DigitsValue(s: string): nat
    requires AllDigits(s)
    decreases |s|
  {
    if |s| == 0 then 0 else DigitsValue(s[..|s| - 1]) * 10 + DigitValue(s[|s| - 1])
  }

  /** Decimal rendering of a natural number (`format!("{}", n)`). */
  function NatToString(n: nat): (r: string)
    ensures |r| >= 1 && AllDigits(r)
    decreases n
  {
    if n < 10 then [DigitChar(n)] else NatToString(n / 10) + [DigitChar(n % 10)]
  }

  lemma {:induction false} NatToStringValue(n: nat)
    ensures DigitsValue(NatToString(n)) == n
    decreases n
  {
    if n >= 10 {
      NatToStringValue(n / 10);
      var s := NatToString(n);
      assert s[..|s| - 1] == NatToString(n / 10);
    }
  }

  /**
   * Rust's `str::parse` for an unsigned integer type, without the width
   * limit: an optional leading '+' followed by one or more ASCII digits.
   */
  function ParseNat(s: string): (r: Option<nat>)
    ensures r.Some? ==> s != [] && s != "+"
    ensures |s| > 0 && AllDigits(s) ==> r == Some(DigitsValue(s))
  {
    var digits := if |s| > 0 && s[0] == '+' then s[1..] else s;
    if |digits| > 0 && AllDigits(digits) then Some(DigitsValue(digits)) else None
  }

  /** Parsing a rendered number gives the number back. */
  lemma ParseNatToString(n: nat)
    ensures ParseNat(NatToString(n)) == Some(n)
  {
    NatToStringValue(n);
  }

  /** Rust's `str::parse` for an unsigned type whose largest value is `max`. */
  function ParseBounded(s: string, max: nat): (r: Option<nat>)
    ensures r.Some? ==> r.value <= max && ParseNat(s) == r
    ensures r.None? ==> ParseNat(s).None? || ParseNat(s).value > max
  {
    match ParseNat(s)
    case Some(v) => if v <= max then Some(v) else None
    case None => None
  }

  // ---------------------------------------------------------------------------
  // Case folding against searching, splitting and trimming
  // ---------------------------------------------------------------------------

  /** Lower-casing twice is lower-casing once. */
  lemma LowerLower(s: string)
    ensures Lower(Lower(s)) == Lower(s)
  {
    forall i | 0 <= i < |s| ensures Lower(Lower(s))[i] == Lower(s)[i] {
      assert !IsUpper(LowerChar(s[i]));
    }
  }

  /** Lower-casing commutes with taking slices. */
  lemma LowerSlice(s: string, i: nat, j: nat)
    requires i <= j <= |s|
    ensures Lower(s)[i..j] == Lower(s[i..j])
  {
  }

  /** Lower-casing leaves a character that is not an upper-case letter alone,
      and never turns another character into it. */
  lemma LowerCharFixed(c: char, d: char)
    requires !IsUpper(d) && !IsLower(d)
    ensures LowerChar(c) == d <==> c == d
  {
  }

  lemma {:induction false} IndexOfLower(s: string, c: char)
    requires !IsUpper(c) && !IsLower(c)
    ensures IndexOf(Lower(s), c) == IndexOf(s, c)
    decreases |s|
  {
    if |s| > 0 {
      LowerCharFixed(s[0], c);
      LowerSlice(s, 1, |s|);
      IndexOfLower(s[1..], c);
    }
  }

  /**
   * Splitting the lower-cased text on a character that is not a letter gives
   * the lower-cased pieces of the original.
   */
  lemma {:induction false} SplitLower(s: string, sep: char)
    requires !IsUpper(sep) && !IsLower(sep)
    ensures |Split(Lower(s), sep)| == |Split(s, sep)|
    ensures forall k :: 0 <= k < |Split(s, sep)| ==> Split(Lower(s), sep)[k] == Lower(Split(s, sep)[k])
    decreases |s|
  {
    var l := Lower(s);
    IndexOfLower(s, sep);
    match IndexOf(s, sep)
    case None =>
      assert Split(l, sep) == [l];
    case Some(i) =>
      LowerSlice(s, 0, i);
      LowerSlice(s, i + 1, |s|);
      assert l[..i] == Lower(s[..i]) && l[i + 1..] == Lower(s[i + 1..]);
      SplitLower(s[i + 1..], sep);
      var ls, ss := Split(l[i + 1..], sep), Split(s[i + 1..], sep);
      assert Split(l, sep) == [l[..i]] + ls;
      assert Split(s, sep) == [s[..i]] + ss;
      forall k | 0 <= k < |Split(s, sep)|
        ensures Split(l, sep)[k] == Lower(Split(s, sep)[k])
      {
        if k > 0 {
          assert Split(l, sep)[k] == ls[k - 1] && Split(s, sep)[k] == ss[k - 1];
        }
      }
  }

  lemma SpaceLower(c: char)
    ensures IsSpace(LowerChar(c)) <==> IsSpace(c)
  {
  }

  lemma {:induction false} TrimStartLower(s: string)
    ensures TrimStart(Lower(s)) == Lower(TrimStart(s))
    decreases |s|
  {
    if |s| > 0 {
      var l := Lower(s);
      SpaceLower(s[0]);
      if IsSpace(s[0]) {
        LowerSlice(s, 1, |s|);
        assert s[1..|s|] == s[1..] && l[1..|s|] == l[1..];
        TrimStartLower(s[1..]);
        calc {
          TrimStart(l);
          TrimStart(l[1..]);
          TrimStart(Lower(s[1..]));
          Lower(TrimStart(s[1..]));
        }
      } else {
        assert TrimStart(l) == l;
      }
    }
  }

  lemma {:induction false} TrimEndLower(s: string)
    ensures TrimEnd(Lower(s)) == Lower(TrimEnd(s))
    decreases |s|
  {
    if |s| > 0 {
      var l := Lower(s);
      SpaceLower(s[|s| - 1]);
      if IsSpace(s[|s| - 1]) {
        LowerSlice(s, 0, |s| - 1);
        assert s[0..|s| - 1] == s[..|s| - 1] && l[0..|s| - 1] == l[..|s| - 1];
        TrimEndLower(s[..|s| - 1]);
        calc {
          TrimEnd(l);
          TrimEnd(l[..|s| - 1]);
          TrimEnd(Lower(s[..|s| - 1]));
          Lower(TrimEnd(s[..|s| - 1]));
        }
      } else {
        assert TrimEnd(l) == l;
      }
    }
  }

  /** Trimming and lower-casing can be done in either order. */
  lemma TrimLower(s: string)
    ensures Trim(Lower(s)) == Lower(Trim(s))
  {
    TrimStartLower(s);
    TrimEndLower(TrimStart(s));
  }

  const U16_MAX: nat := 0xFFFF
  const U64_MAX: nat := 0xFFFF_FFFF_FFFF_FFFF
}

=== FILE: tui_app.dfy ===
/**
 * The terminal UI's application state, `App`, and the key map `from_key`.
 *
 * `App` is an object whose fields its methods update in place; it is a class
 * here, each method naming in `modifies` exactly the fields it writes. The
 * per-screen statistics records (DHT, EigenTrust, adaptive, placement,
 * health, MCP tools), the cache and NAT analytics, the gossip test results
 * and the proof status are not carried (see README).
 */
module TuiApp {
  import opened Wrappers
  import opened Text
  import opened TuiTypes
  import MapSums

  datatype AppState = Running | Quitting

  datatype Tab = Overview | GossipHealth | ConnectivityMatrix | ProtocolLog | Dht | EigenTrust | Adaptive | Placement | Health | Mcp

  /** Position of a tab in the tab bar. */
  function TabIndex(t: Tab): (i: nat)
    ensures i < 10
  {
    match t
    case Overview => 0
    case GossipHealth => 1
    case ConnectivityMatrix => 2
    case ProtocolLog => 3
    case Dht => 4
    case EigenTrust => 5
    case Adaptive => 6
    case Placement => 7
    case Health => 8
    case Mcp => 9
  }

  /** The tab to the right, wrapping from Mcp to Overview. */
  function TabAfter(t: Tab): (r: Tab)
    ensures TabIndex(r) == (TabIndex(t) + 1) % 10
  {
    match t
    case Overview => GossipHealth
    case GossipHealth => ConnectivityMatrix
    case ConnectivityMatrix => ProtocolLog
    case ProtocolLog => Dht
    case Dht => EigenTrust
    case EigenTrust => Adaptive
    case Adaptive => Placement
    case Placement => Health
    case Health => Mcp
    case Mcp => Overview
  }

  /** The tab to the left, wrapping from Overview to Mcp. */
  function TabBefore(t: Tab): (r: Tab)
    ensures TabIndex(r) == (TabIndex(t) + 9) % 10
  {
    match t
    case Overview => Mcp
    case GossipHealth => Overview
    case ConnectivityMatrix => GossipHealth
    case ProtocolLog => ConnectivityMatrix
    case Dht => ProtocolLog
    case EigenTrust => Dht
    case Adaptive => EigenTrust
    case Placement => Adaptive
    case Health => Placement
    case Mcp => Health
  }

  function TabsAfter(t: Tab, n: nat): Tab
    decreases n
  {
    if n == 0 then t else TabsAfter(TabAfter(t), n - 1)
  }

  lemma {:induction false} TabsAfterIndex(t: Tab, n: nat)
    ensures TabIndex(TabsAfter(t, n)) == (TabIndex(t) + n) % 10
    decreases n
  {
    if n > 0 {
      TabsAfterIndex(TabAfter(t), n - 1);
    }
  }

  lemma TabIndexInjective(a: Tab, b: Tab)
    requires TabIndex(a) == TabIndex(b)
    ensures a == b
  {
  }

  /** Next and previous tab undo each other, and ten steps visit every tab once. */
  lemma TabCycle(t: Tab)
    ensures TabBefore(TabAfter(t)) == t && TabAfter(TabBefore(t)) == t
    ensures TabsAfter(t, 10) == t
    ensures forall n: nat :: 0 < n < 10 ==> TabsAfter(t, n) != t
  {
    TabsAfterIndex(t, 10);
    TabIndexInjective(TabsAfter(t, 10), t);
    forall n: nat | 0 < n < 10 ensures TabsAfter(t, n) != t {
      TabsAfterIndex(t, n);
    }
  }

  /** The fields of `LocalNodeInfo` the model carries. */
  datatype LocalNodeInfo = LocalNodeInfo(
    peerId: string,
    shortId: string,
    natType: NatType,
    connectionWords: Option<string>,
    registered: bool,
    lastHeartbeat: Option<nat>)

  const DefaultLocalNode := LocalNodeInfo("", "", NatUnknown, None, false, None)

  /** `NetworkStatistics`. */
  datatype NetworkStatistics = NetworkStatistics(
    connectionAttempts: nat,
    connectionSuccesses: nat,
    connectionFailures: nat,
    directConnections: nat,
    holePunchedConnections: nat,
    relayedConnections: nat,
    inboundConnections: nat,
    outboundConnections: nat,
    ipv4Connections: nat,
    ipv6Connections: nat,
    packetsSent: nat,
    packetsReceived: nat,
    bytesSent: nat,
    bytesReceived: nat,
    startedAt: Option<nat>,
    gossipPeersDiscovered: nat,
    gossipRelaysDiscovered: nat,
    swimAlive: nat,
    swimSuspect: nat,
    swimDead: nat,
    hyparviewActive: nat,
    hyparviewPassive: nat,
    uniquePeersAttempted: set<string>,
    uniquePeersConnected: set<string>)

  /** The counter a successful connection adds to, by method. */
  function CountSuccess(s: NetworkStatistics, m: ConnectionMethod): (r: NetworkStatistics)
    ensures r.directConnections == s.directConnections + (if m == Direct then 1 else 0)
    ensures r.holePunchedConnections == s.holePunchedConnections + (if m == HolePunched then 1 else 0)
    ensures r.relayedConnections == s.relayedConnections + (if m == Relayed then 1 else 0)
    ensures r.directConnections + r.holePunchedConnections + r.relayedConnections
         == s.directConnections + s.holePunchedConnections + s.relayedConnections + 1
    ensures r.(directConnections := s.directConnections, holePunchedConnections := s.holePunchedConnections,
               relayedConnections := s.relayedConnections) == s
  {
    match m
    case Direct => s.(directConnections := s.directConnections + 1)
    case HolePunched => s.(holePunchedConnections := s.holePunchedConnections + 1)
    case Relayed => s.(relayedConnections := s.relayedConnections + 1)
  }

  /** Size of the simulated test packet, in bytes. */
  const TEST_PACKET_BYTES: nat := 5120

  /** Most protocol frames kept for the protocol log. */
  const MAX_PROTOCOL_FRAMES: nat := 200

  /** Number of history entries above which old disconnected entries are pruned. */
  const MAX_HISTORY_ENTRIES: nat := 1000

  /** The last `n` elements of `s` (all of it when shorter). */
  function KeepLast<T>(s: seq<T>, n: nat): (r: seq<T>)
    ensures |r| == if |s| <= n then |s| else n
    ensures r == s[|s| - |r|..]
  {
    if |s| > n then s[|s| - n..] else s
  }

  /**
   * Every key in `chosen` was seen no later than every other key of `h`:
   * `chosen` is a set of oldest entries, ties broken in any order.
   */
  ghost predicate OldestFirst(h: map<string, ConnectionHistoryEntry>, chosen: set<string>)
  {
    chosen <= h.Keys &&
    forall a, b :: a in chosen && b in h && b !in chosen ==> h[a].lastSeen <= h[b].lastSeen
  }

  /** The keys among `chosen` whose entry is not Connected. */
  function Removable(h: map<string, ConnectionHistoryEntry>, chosen: set<string>): set<string>
    requires chosen <= h.Keys
  {
    set k | k in chosen && !h[k].status.Connected?
  }

  /**
   * `after` is what `prune_history_if_needed` leaves of `before`: nothing
   * changes at 1000 entries or fewer; otherwise, of the len - 1000 entries
   * seen longest ago, those that are not Connected are removed.
   */
  ghost predicate PrunedFrom(before: map<string, ConnectionHistoryEntry>, after: map<string, ConnectionHistoryEntry>)
  {
    if |before| <= MAX_HISTORY_ENTRIES then after == before
    else exists oldest: set<string> ::
      OldestFirst(before, oldest) && |oldest| == |before| - MAX_HISTORY_ENTRIES &&
      after == before - Removable(before, oldest)
  }

  lemma MapMinusSize<K, V>(m: map<K, V>, r: set<K>)
    requires r <= m.Keys
    ensures |m - r| == |m| - |r|
  {
    assert (m - r).Keys == m.Keys - r;
    assert m.Keys * r == r;
  }

  /**
   * Pruning only removes entries, never a Connected one, and removes at most
   * len - 1000 of them.
   */
  lemma PrunedFromProperties(before: map<string, ConnectionHistoryEntry>, after: map<string, ConnectionHistoryEntry>)
    requires PrunedFrom(before, after)
    ensures after.Keys <= before.Keys
    ensures forall k :: k in after ==> after[k] == before[k]
    ensures forall k :: k in before && before[k].status.Connected? ==> k in after
    ensures |before| <= MAX_HISTORY_ENTRIES ==> after == before
    ensures |before| > MAX_HISTORY_ENTRIES ==> |after| >= MAX_HISTORY_ENTRIES
  {
    if |before| > MAX_HISTORY_ENTRIES {
      var oldest: set<string> :| OldestFirst(before, oldest) && |oldest| == |before| - MAX_HISTORY_ENTRIES &&
        after == before - Removable(before, oldest);
      var r := Removable(before, oldest);
      assert r <= oldest;
      MapSums.SubsetCard(r, oldest);
      MapMinusSize(before, r);
    }
  }

  /** The key of an entry seen longest ago among `candidates`. */
  method OldestKey(h: map<string, ConnectionHistoryEntry>, candidates: set<string>) returns (k: string)
    requires candidates != {} && candidates <= h.Keys
    ensures k in candidates
    ensures forall j :: j in candidates ==> h[k].lastSeen <= h[j].lastSeen
  {
    k :| k in candidates;
    var rest := candidates - {k};
    while rest != {}
      invariant rest <= candidates && k in candidates && k !in rest
      invariant forall j :: j in candidates && j !in rest ==> h[k].lastSeen <= h[j].lastSeen
      decreases |rest|
    {
      var j :| j in rest;
      if h[j].lastSeen < h[k].lastSeen {
        k := j;
      }
      rest := rest - {j};
    }
  }

  /** Every live peer is stored under its full id. */
  predicate PeersKeyed(peers: map<string, ConnectedPeer>)
  {
    forall id :: id in peers ==> peers[id].fullId == id
  }

  /** Every history entry is stored under its full id. */
  predicate HistoryValid(h: map<string, ConnectionHistoryEntry>)
  {
    forall id :: id in h ==> h[id].fullId == id
  }

  lemma PeersKeyedUpdate(peers: map<string, ConnectedPeer>, id: string, p: ConnectedPeer)
    requires PeersKeyed(peers) && p.fullId == id
    ensures PeersKeyed(peers[id := p])
  {
  }

  lemma HistoryValidUpdate(h: map<string, ConnectionHistoryEntry>, id: string, e: ConnectionHistoryEntry)
    requires HistoryValid(h) && e.fullId == id
    ensures HistoryValid(h[id := e])
  {
  }

  lemma HistoryValidRemove(h: map<string, ConnectionHistoryEntry>, keys: set<string>)
    requires HistoryValid(h)
    ensures HistoryValid(h - keys)
  {
  }

  /**
   * The keys of the `toRemove` entries seen longest ago that are not
   * Connected: the entries sorted by last-seen time, the first `toRemove`
   * taken and the Connected ones filtered out. `oldest` is the set taken.
   */
  method OldestRemovable(h: map<string, ConnectionHistoryEntry>, toRemove: nat)
    returns (keys: set<string>, ghost oldest: set<string>)
    requires toRemove <= |h|
    ensures OldestFirst(h, oldest) && |oldest| == toRemove
    ensures keys == Removable(h, oldest)
  {
    var remaining := h.Keys;
    oldest, keys := {}, {};
    var i := 0;
    while i < toRemove
      invariant 0 <= i <= toRemove
      invariant oldest <= h.Keys && remaining == h.Keys - oldest && |oldest| == i
      invariant OldestFirst(h, oldest)
      invariant keys == Removable(h, oldest)
    {
      MapMinusSize(h, oldest);
      assert |remaining| == |h| - i;
      var k := OldestKey(h, remaining);
      OldestFirstStep(h, oldest, k);
      RemovableStep(h, oldest, k);
      oldest := oldest + {k};
      remaining := remaining - {k};
      if !h[k].status.Connected? {
        keys := keys + {k};
      }
      i := i + 1;
    }
  }

  /** Taking the oldest of the entries not yet chosen keeps the chosen ones oldest first. */
  lemma OldestFirstStep(h: map<string, ConnectionHistoryEntry>, chosen: set<string>, k: string)
    requires OldestFirst(h, chosen) && k in h && k !in chosen
    requires forall j :: j in h.Keys - chosen ==> h[k].lastSeen <= h[j].lastSeen
    ensures OldestFirst(h, chosen + {k})
  {
  }

  /** A newly chosen key is removable exactly when its entry is not Connected. */
  lemma RemovableStep(h: map<string, ConnectionHistoryEntry>, chosen: set<string>, k: string)
    requires chosen <= h.Keys && k in h
    ensures Removable(h, chosen + {k}) == Removable(h, chosen) + (if h[k].status.Connected? then {} else {k})
  {
  }

  /** The new selection after scrolling by `amount` rows in a table of `len` rows. */
  function ScrollTarget(current: nat, amount: int, len: nat): (r: nat)
    requires len > 0
    ensures amount < 0 ==> r <= current && (r == 0 || r == current + amount)
    ensures amount >= 0 ==> r <= len - 1 && (r == len - 1 || r == current + amount)
    ensures amount >= 0 && current <= len - 1 ==> current <= r
  {
    if amount < 0 then (if current >= -amount then current + amount else 0)
    else if current + amount < len - 1 then current + amount else len - 1
  }

  /** A selection inside the table stays inside it, whichever way it scrolls. */
  lemma ScrollStaysInside(current: nat, amount: int, len: nat)
    requires len > 0 && current <= len - 1
    ensures ScrollTarget(current, amount, len) <= len - 1
  {
  }

  /**
   * `update_traffic_type` on one peer: protocol and test-data traffic set the
   * tx/rx pair of their kind to the direction; relay traffic only switches
   * one protocol flag on.
   */
  function WithTraffic(p: ConnectedPeer, trafficType: TrafficType, direction: FrameDirection): (q: ConnectedPeer)
    ensures trafficType == Protocol ==> q.protocolTx == (direction == Sent) && q.protocolRx == (direction == Received)
    ensures trafficType == TestData ==> q.dataTx == (direction == Sent) && q.dataRx == (direction == Received)
    ensures trafficType == Relay ==>
      if direction == Sent then q.protocolTx && q.protocolRx == p.protocolRx else q.protocolRx && q.protocolTx == p.protocolTx
    ensures trafficType != TestData ==> q.dataTx == p.dataTx && q.dataRx == p.dataRx
    ensures trafficType == TestData ==> q.protocolTx == p.protocolTx && q.protocolRx == p.protocolRx
    ensures q.(protocolTx := p.protocolTx, protocolRx := p.protocolRx, dataTx := p.dataTx, dataRx := p.dataRx) == p
  {
    match trafficType
    case Protocol => p.(protocolTx := direction == Sent, protocolRx := direction == Received)
    case TestData => p.(dataTx := direction == Sent, dataRx := direction == Received)
    case Relay => if direction == Sent then p.(protocolTx := true) else p.(protocolRx := true)
  }

  class App {
    var state: AppState
    var localNode: LocalNodeInfo
    var connectedPeers: map<string, ConnectedPeer>
    var connectionHistory: map<string, ConnectionHistoryEntry>
    var stats: NetworkStatistics
    var autoConnecting: bool
    var totalRegisteredNodes: nat
    var peersSeen: set<string>
    var registryUrl: string
    var errorMessage: Option<string>
    var infoMessage: Option<string>
    var protocolFrames: seq<ProtocolFrame>
    var geographicDistribution: Option<GeographicDistribution>
    var connectivityTest: ConnectivityTestResults
    /** The selected row of the connections table (`connections_table_state.selected()`). */
    var selectedConnection: Option<nat>
    var gossipTestsRunning: bool
    var activeTab: Tab
    var showProofHelp: bool
    /** `mcp_state.contacts`. */
    var contacts: seq<ContactDisplay>
    /** `mcp_state.current_messages`. */
    var currentMessages: seq<MessageDisplay>

    /**
     * Peers and history entries are stored under their full id, every history
     * entry keeps attempts = successes + failures, the protocol log holds at
     * most 200 frames and the connectivity counters are consistent.
     */
    ghost predicate Valid()
      reads this`connectedPeers, this`connectionHistory, this`protocolFrames, this`connectivityTest
    {
      PeersKeyed(connectedPeers) &&
      HistoryValid(connectionHistory) &&
      |protocolFrames| <= MAX_PROTOCOL_FRAMES &&
      connectivityTest.Valid()
    }

    /** `App::new`. */
    constructor (now: nat)
      ensures Valid()
      ensures state == Running && autoConnecting && activeTab == Overview && !showProofHelp
      ensures connectedPeers == map[] && connectionHistory == map[] && peersSeen == {} && protocolFrames == []
      ensures stats.startedAt == Some(now) && stats.connectionAttempts == 0 && stats.uniquePeersAttempted == {}
      ensures connectivityTest == NewConnectivityTest
      ensures registryUrl == "https://saorsa-1.saorsalabs.com"
    {
      state := Running;
      localNode := DefaultLocalNode;
      connectedPeers := map[];
      connectionHistory := map[];
      stats := NetworkStatistics(0, 0, 0, 0, 0, 0, 0, 0, 0, 0, 0, 0, 0, 0, Some(now), 0, 0, 0, 0, 0, 0, 0, {}, {});
      autoConnecting := true;
      totalRegisteredNodes := 0;
      peersSeen := {};
      registryUrl := "https://saorsa-1.saorsalabs.com";
      errorMessage := None;
      infoMessage := None;
      protocolFrames := [];
      geographicDistribution := None;
      connectivityTest := NewConnectivityTest;
      selectedConnection := None;
      gossipTestsRunning := false;
      activeTab := Overview;
      showProofHelp := false;
      contacts := [];
      currentMessages := [];
    }

    method ToggleProofHelp()
      modifies this`showProofHelp
      ensures showProofHelp == !old(showProofHelp)
    {
      showProofHelp := !showProofHelp;
    }

    /** `next_tab`. */
    method NextTab()
      modifies this`activeTab
      ensures activeTab == TabAfter(old(activeTab))
    {
      activeTab := TabAfter(activeTab);
    }

    /** `prev_tab`. */
    method PrevTab()
      modifies this`activeTab
      ensures activeTab == TabBefore(old(activeTab))
    {
      activeTab := TabBefore(activeTab);
    }

    method StartGossipTests()
      modifies this`gossipTestsRunning
      ensures gossipTestsRunning
    {
      gossipTestsRunning := true;
    }

    method PeerSeen(peerId: string)
      modifies this`peersSeen
      ensures peersSeen == old(peersSeen) + {peerId}
    {
      peersSeen := peersSeen + {peerId};
    }

    predicate ShouldQuit()
      reads this`state
    {
      state == Quitting
    }

    method Quit()
      modifies this`state
      ensures ShouldQuit()
    {
      state := Quitting;
    }

    /**
     * `update_peer`: store the peer under its full id and create or refresh
     * its history entry, which is then Connected.
     */
    method UpdatePeer(peer: ConnectedPeer, now: nat)
      requires Valid()
      modifies this`connectedPeers, this`connectionHistory
      ensures Valid()
      ensures connectedPeers == old(connectedPeers)[peer.fullId := peer]
      ensures connectionHistory == ConnectHistory(old(connectionHistory), peer, now)
    {
      var history := ConnectHistory(connectionHistory, peer, now);
      var peers := connectedPeers[peer.fullId := peer];
      ConnectHistoryValid(connectionHistory, peer, now);
      PeersKeyedUpdate(connectedPeers, peer.fullId, peer);
      connectionHistory, connectedPeers := history, peers;
    }

    /** `remove_peer`: forget the live peer but keep its history, now Disconnected. */
    method RemovePeer(peerId: string, now: nat)
      requires Valid()
      modifies this`connectedPeers, this`connectionHistory
      ensures Valid()
      ensures connectedPeers == old(connectedPeers) - {peerId}
      ensures connectionHistory.Keys == old(connectionHistory).Keys
      ensures peerId in connectionHistory ==>
        connectionHistory == old(connectionHistory)[peerId := MarkDisconnected(old(connectionHistory)[peerId], now)]
      ensures peerId !in connectionHistory ==> connectionHistory == old(connectionHistory)
      ensures connectionHistory == if peerId in old(connectionHistory)
        then old(connectionHistory)[peerId := MarkDisconnected(old(connectionHistory)[peerId], now)]
        else old(connectionHistory)
    {
      if peerId in connectionHistory {
        connectionHistory := connectionHistory[peerId := MarkDisconnected(connectionHistory[peerId], now)];
      }
      connectedPeers := connectedPeers - {peerId};
    }

    /** `packet_sent`: count a 5 KiB test packet, and the peer's own counters if it is known. */
    method PacketSent(peerId: string, now: nat)
      requires Valid()
      modifies this`stats, this`connectedPeers, this`connectionHistory
      ensures Valid()
      ensures stats == old(stats).(packetsSent := old(stats).packetsSent + 1,
                                   bytesSent := old(stats).bytesSent + TEST_PACKET_BYTES)
      ensures connectedPeers.Keys == old(connectedPeers).Keys && connectionHistory.Keys == old(connectionHistory).Keys
      ensures connectedPeers == if peerId in old(connectedPeers)
        then old(connectedPeers)[peerId := old(connectedPeers)[peerId].CountSent()] else old(connectedPeers)
      ensures connectionHistory == if peerId in old(connectionHistory)
        then old(connectionHistory)[peerId := old(connectionHistory)[peerId].CountPacket(now)] else old(connectionHistory)
    {
      stats := stats.(packetsSent := stats.packetsSent + 1, bytesSent := stats.bytesSent + TEST_PACKET_BYTES);
      if peerId in connectedPeers {
        PeersKeyedUpdate(connectedPeers, peerId, connectedPeers[peerId].CountSent());
        connectedPeers := connectedPeers[peerId := connectedPeers[peerId].CountSent()];
      }
      if peerId in connectionHistory {
        HistoryValidUpdate(connectionHistory, peerId, connectionHistory[peerId].CountPacket(now));
        connectionHistory := connectionHistory[peerId := connectionHistory[peerId].CountPacket(now)];
      }
    }

    /** `packet_received`: the receiving counterpart of `packet_sent`. */
    method PacketReceived(peerId: string, now: nat)
      requires Valid()
      modifies this`stats, this`connectedPeers, this`connectionHistory
      ensures Valid()
      ensures stats == old(stats).(packetsReceived := old(stats).packetsReceived + 1,
                                   bytesReceived := old(stats).bytesReceived + TEST_PACKET_BYTES)
      ensures connectedPeers.Keys == old(connectedPeers).Keys && connectionHistory.Keys == old(connectionHistory).Keys
      ensures connectedPeers == if peerId in old(connectedPeers)
        then old(connectedPeers)[peerId := old(connectedPeers)[peerId].CountReceived()] else old(connectedPeers)
      ensures connectionHistory == if peerId in old(connectionHistory)
        then old(connectionHistory)[peerId := old(connectionHistory)[peerId].CountPacket(now)] else old(connectionHistory)
    {
      stats := stats.(packetsReceived := stats.packetsReceived + 1, bytesReceived := stats.bytesReceived + TEST_PACKET_BYTES);
      if peerId in connectedPeers {
        PeersKeyedUpdate(connectedPeers, peerId, connectedPeers[peerId].CountReceived());
        connectedPeers := connectedPeers[peerId := connectedPeers[peerId].CountReceived()];
      }
      if peerId in connectionHistory {
        HistoryValidUpdate(connectionHistory, peerId, connectionHistory[peerId].CountPacket(now));
        connectionHistory := connectionHistory[peerId := connectionHistory[peerId].CountPacket(now)];
      }
    }

    /** `clear_traffic_indicators`: every peer's tx/rx activity flags go off. */
    method ClearTrafficIndicators()
      requires Valid()
      modifies this`connectedPeers
      ensures Valid()
      ensures connectedPeers.Keys == old(connectedPeers).Keys
      ensures forall id :: id in connectedPeers ==>
        connectedPeers[id] == old(connectedPeers)[id].(txActive := false, rxActive := false)
    {
      connectedPeers := map id | id in connectedPeers :: connectedPeers[id].(txActive := false, rxActive := false);
    }

    method ConnectionAttempted()
      modifies this`stats
      ensures stats == old(stats).(connectionAttempts := old(stats).connectionAttempts + 1)
    {
      stats := stats.(connectionAttempts := stats.connectionAttempts + 1);
    }

    /** `connection_succeeded`: one more success, counted under its method. */
    method ConnectionSucceeded(m: ConnectionMethod)
      modifies this`stats
      ensures stats == CountSuccess(old(stats), m).(connectionSuccesses := old(stats).connectionSuccesses + 1)
    {
      stats := CountSuccess(stats, m).(connectionSuccesses := stats.connectionSuccesses + 1);
    }

    method ConnectionFailed()
      modifies this`stats
      ensures stats == old(stats).(connectionFailures := old(stats).connectionFailures + 1)
    {
      stats := stats.(connectionFailures := stats.connectionFailures + 1);
    }

    method SetError(message: string)
      modifies this`errorMessage
      ensures errorMessage == Some(message)
    {
      errorMessage := Some(message);
    }

    method ClearError()
      modifies this`errorMessage
      ensures errorMessage == None
    {
      errorMessage := None;
    }

    method SetInfo(message: string)
      modifies this`infoMessage
      ensures infoMessage == Some(message)
    {
      infoMessage := Some(message);
    }

    method ClearInfo()
      modifies this`infoMessage
      ensures infoMessage == None
    {
      infoMessage := None;
    }

    /** `set_registered`: registering also stamps the heartbeat time. */
    method SetRegistered(registered: bool, now: nat)
      modifies this`localNode
      ensures localNode.registered == registered
      ensures registered ==> localNode.lastHeartbeat == Some(now)
      ensures !registered ==> localNode.lastHeartbeat == old(localNode).lastHeartbeat
      ensures localNode.(registered := old(localNode).registered, lastHeartbeat := old(localNode).lastHeartbeat) == old(localNode)
      ensures localNode == old(localNode).(registered := registered,
                                           lastHeartbeat := if registered then Some(now) else old(localNode).lastHeartbeat)
    {
      localNode := localNode.(registered := registered);
      if registered {
        localNode := localNode.(lastHeartbeat := Some(now));
      }
    }

    method HeartbeatSent(now: nat)
      modifies this`localNode
      ensures localNode == old(localNode).(lastHeartbeat := Some(now))
    {
      localNode := localNode.(lastHeartbeat := Some(now));
    }

    /** `update_peer_rtt`: only a known peer is updated. */
    method UpdatePeerRtt(peerId: string, rttMs: nat)
      requires Valid()
      modifies this`connectedPeers
      ensures Valid()
      ensures peerId in old(connectedPeers) ==> connectedPeers == old(connectedPeers)[peerId := UpdateRtt(old(connectedPeers)[peerId], rttMs)]
      ensures peerId !in old(connectedPeers) ==> connectedPeers == old(connectedPeers)
    {
      if peerId in connectedPeers {
        connectedPeers := connectedPeers[peerId := UpdateRtt(connectedPeers[peerId], rttMs)];
      }
    }

    /**
     * `add_protocol_frame`: a frame naming a peer (other than the registry)
     * refreshes or creates that peer's history entry; the frame is appended,
     * only the 200 most recent frames are kept, and the history is pruned.
     */
    method AddProtocolFrame(frame: ProtocolFrame, now: nat)
      requires Valid()
      modifies this`connectionHistory, this`protocolFrames
      ensures Valid()
      ensures protocolFrames == KeepLast(old(protocolFrames) + [frame], MAX_PROTOCOL_FRAMES)
      ensures protocolFrames[|protocolFrames| - 1] == frame
      ensures PrunedFrom(TouchHistory(old(connectionHistory), frame.peerId, now), connectionHistory)
    {
      TouchHistoryValid(connectionHistory, frame.peerId, now);
      var history := TouchHistory(connectionHistory, frame.peerId, now);
      var frames := protocolFrames + [frame];
      if |frames| > MAX_PROTOCOL_FRAMES {
        frames := frames[|frames| - MAX_PROTOCOL_FRAMES..];
      }
      connectionHistory, protocolFrames := history, frames;
      PruneHistoryIfNeeded();
    }

    /** `update_nat_phase`. */
    method UpdateNatPhase(peerId: string, phase: NatTraversalPhase, coordinatorId: Option<string>)
      requires Valid()
      modifies this`connectedPeers
      ensures Valid()
      ensures peerId in old(connectedPeers) ==>
        connectedPeers == old(connectedPeers)[peerId := old(connectedPeers)[peerId].(natPhase := phase, coordinatorId := coordinatorId)]
      ensures peerId !in old(connectedPeers) ==> connectedPeers == old(connectedPeers)
    {
      if peerId in connectedPeers {
        connectedPeers := connectedPeers[peerId := connectedPeers[peerId].(natPhase := phase, coordinatorId := coordinatorId)];
      }
    }

    /**
     * `update_traffic_type`: protocol and test-data traffic set the tx/rx pair
     * of their kind to the direction; relay traffic only switches one flag on.
     */
    method UpdateTrafficType(peerId: string, trafficType: TrafficType, direction: FrameDirection)
      requires Valid()
      modifies this`connectedPeers
      ensures Valid()
      ensures connectedPeers.Keys == old(connectedPeers).Keys
      ensures forall id :: id in connectedPeers && id != peerId ==> connectedPeers[id] == old(connectedPeers)[id]
      ensures peerId in connectedPeers ==>
        var p, q := old(connectedPeers)[peerId], connectedPeers[peerId];
        match trafficType
        case Protocol => q == p.(protocolTx := direction == Sent, protocolRx := direction == Received)
        case TestData => q == p.(dataTx := direction == Sent, dataRx := direction == Received)
        case Relay => q == if direction == Sent then p.(protocolTx := true) else p.(protocolRx := true)
      ensures connectedPeers == if peerId in old(connectedPeers)
        then old(connectedPeers)[peerId := WithTraffic(old(connectedPeers)[peerId], trafficType, direction)]
        else old(connectedPeers)
    {
      if peerId in connectedPeers {
        connectedPeers := connectedPeers[peerId := WithTraffic(connectedPeers[peerId], trafficType, direction)];
      }
    }

    method UpdatePeerNatTestState(peerId: string, testState: PeerNatTestState)
      requires Valid()
      modifies this`connectedPeers
      ensures Valid()
      ensures peerId in old(connectedPeers) ==>
        connectedPeers == old(connectedPeers)[peerId := old(connectedPeers)[peerId].(natTestState := testState)]
      ensures peerId !in old(connectedPeers) ==> connectedPeers == old(connectedPeers)
    {
      if peerId in connectedPeers {
        connectedPeers := connectedPeers[peerId := connectedPeers[peerId].(natTestState := testState)];
      }
    }

    method UpdateGeographicDistribution(distribution: GeographicDistribution)
      modifies this`geographicDistribution
      ensures geographicDistribution == Some(distribution)
    {
      geographicDistribution := Some(distribution);
    }

    method StartConnectivityTest(now: nat)
      requires Valid()
      modifies this`connectivityTest
      ensures Valid()
      ensures connectivityTest == StartTest(old(connectivityTest), now)
    {
      connectivityTest := StartTest(connectivityTest, now);
    }

    method ConnectivityTestInboundPhase(now: nat)
      requires Valid()
      modifies this`connectivityTest
      ensures Valid()
      ensures connectivityTest == StartInboundPhase(old(connectivityTest), now)
    {
      connectivityTest := StartInboundPhase(connectivityTest, now);
    }

    /** `record_inbound_connection`: count the test attempt and record it in the peer's history. */
    method RecordInboundConnection(peerId: string, testMethod: TestConnectivityMethod, success: bool, rttMs: Option<nat>, now: nat)
      requires Valid()
      modifies this`connectivityTest, this`connectionHistory
      ensures Valid()
      ensures connectivityTest == RecordInbound(old(connectivityTest), peerId, testMethod, success, rttMs, None)
      ensures PrunedFrom(AttemptHistory(old(connectionHistory), peerId, Inbound, testMethod, success, now), connectionHistory)
    {
      connectivityTest := RecordInbound(connectivityTest, peerId, testMethod, success, rttMs, None);
      RecordHistoryAttempt(peerId, Inbound, testMethod, success, now);
    }

    /** `record_outbound_connection`. */
    method RecordOutboundConnection(peerId: string, testMethod: TestConnectivityMethod, success: bool, rttMs: Option<nat>, now: nat)
      requires Valid()
      modifies this`connectivityTest, this`connectionHistory
      ensures Valid()
      ensures connectivityTest == RecordOutbound(old(connectivityTest), peerId, testMethod, success, rttMs, None)
      ensures PrunedFrom(AttemptHistory(old(connectionHistory), peerId, Outbound, testMethod, success, now), connectionHistory)
    {
      connectivityTest := RecordOutbound(connectivityTest, peerId, testMethod, success, rttMs, None);
      RecordHistoryAttempt(peerId, Outbound, testMethod, success, now);
    }

    /** `record_history_attempt`. */
    method RecordHistoryAttempt(peerId: string, direction: ConnectionDirection, testMethod: TestConnectivityMethod,
                                success: bool, now: nat)
      requires Valid()
      modifies this`connectionHistory
      ensures Valid()
      ensures PrunedFrom(AttemptHistory(old(connectionHistory), peerId, direction, testMethod, success, now), connectionHistory)
    {
      AttemptHistoryValid(connectionHistory, peerId, direction, testMethod, success, now);
      connectionHistory := AttemptHistory(connectionHistory, peerId, direction, testMethod, success, now);
      PruneHistoryIfNeeded();
    }

    /** `prune_history_if_needed`. */
    method PruneHistoryIfNeeded()
      requires Valid()
      modifies this`connectionHistory
      ensures Valid()
      ensures PrunedFrom(old(connectionHistory), connectionHistory)
    {
      if |connectionHistory| <= MAX_HISTORY_ENTRIES {
        return;
      }
      var h := connectionHistory;
      ghost var oldest;
      var keysToRemove;
      keysToRemove, oldest := OldestRemovable(h, |h| - MAX_HISTORY_ENTRIES);
      var pending, remaining := keysToRemove, h;
      assert keysToRemove - pending == {};
      while pending != {}
        invariant pending <= keysToRemove
        invariant remaining == h - (keysToRemove - pending)
        decreases |pending|
      {
        var k :| k in pending;
        remaining := remaining - {k};
        pending := pending - {k};
      }
      assert keysToRemove - pending == keysToRemove;
      HistoryValidRemove(h, keysToRemove);
      connectionHistory := remaining;
    }

    /** `connectivity_countdown`. */
    function ConnectivityCountdown(now: nat): (r: nat)
      reads this`connectivityTest
      ensures r <= WAIT_SECONDS
    {
      CountdownSeconds(connectivityTest, now)
    }

    /** `scroll_connections_by`: nothing happens while the history is empty. */
    method ScrollConnectionsBy(amount: int)
      modifies this`selectedConnection
      ensures |connectionHistory| == 0 ==> selectedConnection == old(selectedConnection)
      ensures |connectionHistory| > 0 ==>
        selectedConnection == Some(ScrollTarget(old(selectedConnection).UnwrapOr(0), amount, |connectionHistory|))
    {
      var len := |connectionHistory|;
      if len == 0 {
        return;
      }
      var current := selectedConnection.UnwrapOr(0);
      selectedConnection := Some(ScrollTarget(current, amount, len));
    }

    method ScrollConnectionsUp()
      modifies this`selectedConnection
      ensures |connectionHistory| > 0 ==> selectedConnection == Some(ScrollTarget(old(selectedConnection).UnwrapOr(0), -1, |connectionHistory|))
      ensures |connectionHistory| == 0 ==> selectedConnection == old(selectedConnection)
    {
      ScrollConnectionsBy(-1);
    }

    method ScrollConnectionsDown()
      modifies this`selectedConnection
      ensures |connectionHistory| > 0 ==> selectedConnection == Some(ScrollTarget(old(selectedConnection).UnwrapOr(0), 1, |connectionHistory|))
      ensures |connectionHistory| == 0 ==> selectedConnection == old(selectedConnection)
    {
      ScrollConnectionsBy(1);
    }

    method ScrollConnectionsPageUp()
      modifies this`selectedConnection
      ensures |connectionHistory| > 0 ==> selectedConnection == Some(ScrollTarget(old(selectedConnection).UnwrapOr(0), -10, |connectionHistory|))
      ensures |connectionHistory| == 0 ==> selectedConnection == old(selectedConnection)
    {
      ScrollConnectionsBy(-10);
    }

    method ScrollConnectionsPageDown()
      modifies this`selectedConnection
      ensures |connectionHistory| > 0 ==> selectedConnection == Some(ScrollTarget(old(selectedConnection).UnwrapOr(0), 10, |connectionHistory|))
      ensures |connectionHistory| == 0 ==> selectedConnection == old(selectedConnection)
    {
      ScrollConnectionsBy(10);
    }
  }

  /** Frames naming no peer, or the registry, leave the history alone. */
  predicate NamesPeer(peerId: string)
  {
    peerId != "" && peerId != "registry"
  }

  /**
   * The history after `peer` connects: its entry, new or refreshed, is
   * Connected and seen now, and every other entry is untouched.
   */
  function ConnectHistory(h: map<string, ConnectionHistoryEntry>, peer: ConnectedPeer, now: nat)
    : (r: map<string, ConnectionHistoryEntry>)
    ensures r.Keys == h.Keys + {peer.fullId}
    ensures forall k :: k in h && k != peer.fullId ==> r[k] == h[k]
    ensures r[peer.fullId].status == ConnectionStatus.Connected && r[peer.fullId].lastSeen == now
    ensures peer.fullId in h ==> r[peer.fullId] == UpdateFromPeer(h[peer.fullId], peer, now)
    ensures peer.fullId !in h ==> r[peer.fullId] == FromConnectedPeer(peer, now)
  {
    if peer.fullId in h then h[peer.fullId := UpdateFromPeer(h[peer.fullId], peer, now)]
    else h[peer.fullId := FromConnectedPeer(peer, now)]
  }

  lemma ConnectHistoryValid(h: map<string, ConnectionHistoryEntry>, peer: ConnectedPeer, now: nat)
    requires HistoryValid(h)
    ensures HistoryValid(ConnectHistory(h, peer, now))
  {
    HistoryValidUpdate(h, peer.fullId, ConnectHistory(h, peer, now)[peer.fullId]);
  }

  /** The history after a frame from `peerId` was seen at `now`, before pruning. */
  function TouchHistory(h: map<string, ConnectionHistoryEntry>, peerId: string, now: nat): (r: map<string, ConnectionHistoryEntry>)
    ensures !NamesPeer(peerId) ==> r == h
    ensures NamesPeer(peerId) ==> r.Keys == h.Keys + {peerId} && r[peerId].lastSeen == now
    ensures NamesPeer(peerId) ==> forall k :: k in h && k != peerId ==> r[k] == h[k]
    ensures NamesPeer(peerId) && peerId in h ==> r[peerId] == h[peerId].(lastSeen := now)
    ensures NamesPeer(peerId) && peerId !in h ==> r[peerId] == NewEntry(peerId, now)
  {
    if !NamesPeer(peerId) then h
    else if peerId in h then h[peerId := h[peerId].(lastSeen := now)]
    else h[peerId := NewEntry(peerId, now)]
  }

  /** The history after a connectivity-test attempt is recorded, before pruning. */
  function AttemptHistory(h: map<string, ConnectionHistoryEntry>, peerId: string, direction: ConnectionDirection,
                          testMethod: TestConnectivityMethod, success: bool, now: nat): (r: map<string, ConnectionHistoryEntry>)
    ensures r.Keys == h.Keys + {peerId}
    ensures forall k :: k in h && k != peerId ==> r[k] == h[k]
    ensures r[peerId] == RecordAttemptWithIp(if peerId in h then h[peerId] else NewEntry(peerId, now),
                                             direction, testMethod.registryMethod, success, testMethod.isIpv6, now)
  {
    var entry := if peerId in h then h[peerId] else NewEntry(peerId, now);
    h[peerId := RecordAttemptWithIp(entry, direction, testMethod.registryMethod, success, testMethod.isIpv6, now)]
  }

  lemma TouchHistoryValid(h: map<string, ConnectionHistoryEntry>, peerId: string, now: nat)
    requires HistoryValid(h)
    ensures HistoryValid(TouchHistory(h, peerId, now))
  {
    if NamesPeer(peerId) {
      HistoryValidUpdate(h, peerId, TouchHistory(h, peerId, now)[peerId]);
    }
  }

  lemma AttemptHistoryValid(h: map<string, ConnectionHistoryEntry>, peerId: string, direction: ConnectionDirection,
                            testMethod: TestConnectivityMethod, success: bool, now: nat)
    requires HistoryValid(h)
    ensures HistoryValid(AttemptHistory(h, peerId, direction, testMethod, success, now))
  {
    HistoryValidUpdate(h, peerId, AttemptHistory(h, peerId, direction, testMethod, success, now)[peerId]);
  }

  // ---------------------------------------------------------------------------
  // Key map
  // ---------------------------------------------------------------------------

  /** The crossterm key codes the key map distinguishes. */
  datatype KeyCode = Char(c: char) | Up | Down | PageUp | PageDown | TabKey | BackTab | Esc | OtherKey

  datatype InputEvent =
    | Quit | ToggleAutoConnect | Refresh | ResetConnectivityTest
    | ScrollUp | ScrollDown | PageUpEvent | PageDownEvent | NextTabEvent | PrevTabEvent
    | TabOverview | TabGossipHealth | TabConnectivityMatrix | TabProtocolLog
    | TabDht | TabEigenTrust | TabAdaptive | TabPlacement | TabHealth | TabMcp
    | ToggleProofHelp | UnknownInput

  /** `InputEvent::from_key`. */
  function FromKey(key: KeyCode): (e: InputEvent)
  {
    match key
    case Char(c) => (
      match c
      case 'q' | 'Q' => Quit
      case 'a' | 'A' => ToggleAutoConnect
      case 'r' | 'R' => Refresh
      case 't' | 'T' => ResetConnectivityTest
      case 'k' => ScrollUp
      case 'j' => ScrollDown
      case '1' => TabOverview
      case '2' | 'g' | 'G' => TabGossipHealth
      case '3' | 'c' | 'C' => TabConnectivityMatrix
      case '4' | 'l' | 'L' => TabProtocolLog
      case '5' | 'd' | 'D' => TabDht
      case '6' | 'e' | 'E' => TabEigenTrust
      case '7' => TabAdaptive
      case '8' => TabPlacement
      case '9' | 'h' | 'H' => TabHealth
      case '0' | 'm' | 'M' => TabMcp
      case 'p' | 'P' => ToggleProofHelp
      case _ => UnknownInput)
    case Up => ScrollUp
    case Down => ScrollDown
    case PageUp => PageUpEvent
    case PageDown => PageDownEvent
    case TabKey => NextTabEvent
    case BackTab => PrevTabEvent
    case Esc => Quit
    case OtherKey => UnknownInput
  }

  /** The characters `from_key` binds to some action. */
  const BOUND_CHARS: set<char> := {
    'q', 'Q', 'a', 'A', 'r', 'R', 't', 'T', 'k', 'j', '1', '2', 'g', 'G', '3', 'c', 'C', '4', 'l', 'L',
    '5', 'd', 'D', '6', 'e', 'E', '7', '8', '9', 'h', 'H', '0', 'm', 'M', 'p', 'P'}

  /** q, Q and Esc quit; Tab and BackTab cycle tabs; the arrow keys and j/k scroll. */
  lemma FromKeyMap()
    ensures FromKey(Char('q')) == Quit && FromKey(Char('Q')) == Quit && FromKey(Esc) == Quit
    ensures FromKey(TabKey) == NextTabEvent && FromKey(BackTab) == PrevTabEvent
    ensures FromKey(Up) == ScrollUp && FromKey(Char('k')) == ScrollUp
    ensures FromKey(Down) == ScrollDown && FromKey(Char('j')) == ScrollDown
    ensures FromKey(OtherKey) == UnknownInput
  {
  }

  /** Every character outside the bound set is Unknown, and only q and Q quit. */
  lemma FromKeyChars(c: char)
    ensures FromKey(Char(c)) == UnknownInput <==> c !in BOUND_CHARS
    ensures FromKey(Char(c)) == Quit <==> c == 'q' || c == 'Q'
  {
  }

  /** The tab each tab-selection event shows. */
  function TabOf(e: InputEvent): Option<Tab>
  {
    match e
    case TabOverview => Some(Overview)
    case TabGossipHealth => Some(GossipHealth)
    case TabConnectivityMatrix => Some(ConnectivityMatrix)
    case TabProtocolLog => Some(ProtocolLog)
    case TabDht => Some(Dht)
    case TabEigenTrust => Some(EigenTrust)
    case TabAdaptive => Some(Adaptive)
    case TabPlacement => Some(Placement)
    case TabHealth => Some(Health)
    case TabMcp => Some(Mcp)
    case _ => None
  }

  /** Digit key n selects the tab at position n - 1, and 0 the tenth. */
  lemma DigitKeysSelectTabs(d: nat)
    requires d < 10
    ensures TabOf(FromKey(Char(DigitChar(d)))).Some?
    ensures TabIndex(TabOf(FromKey(Char(DigitChar(d)))).value) == (d + 9) % 10
  {

  }
}

=== FILE: tui_events.dfy ===
/**
 * `handle_tui_event`: the dispatcher that applies each event from the
 * network tasks to the `App`. Events are values; the handler is a method
 * over the `App` object, each case calling the `App` method the source calls
 * or updating the fields it updates. `now` stands for `Instant::now()`.
 *
 * Each variant of the source's `TuiEvent` is one constructor here. They are
 * grouped by the part of the state they change (the peers, the connectivity
 * test, the counters, the registration, the status line, the messages), and
 * each group has one handler and one two-state predicate stating what each of
 * its events does.
 */
module TuiEvents {
  import opened Wrappers
  import opened Text
  import opened TuiTypes
  import opened TuiApp

  /** Events about the live peers, their traffic and the frame log. */
  datatype PeerEvent =
    | UpdatePeerEvent(peer: ConnectedPeer)
    | RemovePeerEvent(peerId: string)
    | PacketSentEvent(peerId: string)
    | PacketReceivedEvent(peerId: string)
    | PeerConnected(connected: ConnectedPeer)
    | TestPacketResult(testPeerId: string, success: bool, rttMs: Option<nat>)
    | ProtocolFrameEvent(frame: ProtocolFrame)
    | NatPhaseUpdate(phasePeerId: string, phase: NatTraversalPhase, coordinatorId: Option<string>)
    | TrafficTypeUpdate(trafficPeerId: string, trafficType: TrafficType, trafficDirection: FrameDirection)
    | GeographicDistributionUpdate(distribution: GeographicDistribution)

  /** Events of the connectivity test and of the NAT connect-back test. */
  datatype ConnectivityEvent =
    | ConnectivityTestInbound(inboundPeerId: string, inboundMethod: TestConnectivityMethod, inboundSuccess: bool, inboundRttMs: Option<nat>)
    | ConnectivityTestStart
    | ConnectivityTestOutbound(outboundPeerId: string, outboundMethod: TestConnectivityMethod, outboundSuccess: bool, outboundRttMs: Option<nat>)
    | ConnectivityTestComplete
    | NatTestOutbound(natPeerId: string, address: string)
    | NatTestWaitingForConnectBack(waitingPeerId: string, secondsRemaining: nat)
    | NatTestConnectBackSuccess(successPeerId: string)
    | NatTestConnectBackTimeout(timeoutPeerId: string)
    | NatTestRetrying(retryPeerId: string)
    | NatTestPeerUnreachable(unreachablePeerId: string)

  /** Events that only move the network counters and the set of peers seen. */
  datatype CountEvent =
    | ConnectionFailedEvent
    | ConnectionAttemptedEvent
    | InboundConnection
    | OutboundConnection
    | Ipv4Connection
    | Ipv6Connection
    | GossipPeerDiscovered(gossipPeerId: string)
    | GossipRelayDiscovered(relayPeerId: string)
    | PeerSeenEvent(seenPeerId: string)
    | SwimLivenessUpdate(alive: nat, suspect: nat, dead: nat, active: nat, passive: nat)

  /** Events about the local node, its registration and the run state. */
  datatype StatusEvent =
    | UpdateLocalNode(node: LocalNodeInfo)
    | UpdateRegisteredCount(count: nat)
    | RegistrationUpdated(registered: bool)
    | HeartbeatSentEvent
    | QuitEvent
    | RegistrationComplete

  /** Events that set or clear the status line. */
  datatype StatusLineEvent =
    | ErrorEvent(errorText: string)
    | InfoEvent(infoText: string)
    | ClearMessages
    | FirewallDetected(attemptedCount: nat)
    | GossipTestsStarted
    | GossipCrateTestComplete(crateName: string, passed: bool, testsPassed: nat, testsTotal: nat)

  /** Events of the contacts and messaging screen. */
  datatype MessagingEvent =
    | ContactCreated(contact: ContactDisplay)
    | ContactCreateFailed(fourWords: string, createError: string)
    | ContactsUpdated(contacts: seq<ContactDisplay>)
    | MessageSent(recipient: string)
    | MessageSendFailed(failedRecipient: string, sendError: string)
    | MessageReceived(received: MessageDisplay)

  /** The events the model handles (see README for the statistics-screen events it leaves out). */
  datatype TuiEvent =
    | Peer(peerEvent: PeerEvent)
    | Connectivity(connectivityEvent: ConnectivityEvent)
    | Count(countEvent: CountEvent)
    | Status(statusEvent: StatusEvent)
    | StatusLine(statusLineEvent: StatusLineEvent)
    | Messaging(messagingEvent: MessagingEvent)

  /** The label a CONNECTED frame carries for each connection method. */
  function MethodLabel(m: ConnectionMethod): (r: string)
    ensures r in {"DIRECT", "PUNCHED", "RELAYED"}
    ensures m == Direct <==> r == "DIRECT"
    ensures m == HolePunched <==> r == "PUNCHED"
  {
    match m
    case Direct => "DIRECT"
    case HolePunched => "PUNCHED"
    case Relayed => "RELAYED"
  }

  /** The frame logged when a peer connects. */
  function ConnectedFrame(peer: ConnectedPeer, now: nat): (f: ProtocolFrame)
    ensures f.peerId == peer.fullId && f.frameType == "CONNECTED" && f.direction == Received
    ensures f.context == Some(MethodLabel(peer.connMethod)) && f.timestamp == now
  {
    ProtocolFrame(peer.fullId, "CONNECTED", Received, now, Some(MethodLabel(peer.connMethod)))
  }

  /** The statistics after a connected peer has been counted. */
  function ConnectedStats(s: NetworkStatistics, peer: ConnectedPeer): (r: NetworkStatistics)
    ensures r.connectionAttempts == s.connectionAttempts + 1
    ensures r.connectionSuccesses == s.connectionSuccesses + 1
    ensures r.connectionFailures == s.connectionFailures
    ensures r.directConnections + r.holePunchedConnections + r.relayedConnections
         == s.directConnections + s.holePunchedConnections + s.relayedConnections + 1
    ensures r.directConnections == s.directConnections + (if peer.connMethod == Direct then 1 else 0)
    ensures r.holePunchedConnections == s.holePunchedConnections + (if peer.connMethod == HolePunched then 1 else 0)
    ensures r.relayedConnections == s.relayedConnections + (if peer.connMethod == Relayed then 1 else 0)
    ensures r.uniquePeersAttempted == s.uniquePeersAttempted + {peer.fullId}
    ensures r.uniquePeersConnected == s.uniquePeersConnected + {peer.fullId}
    ensures r.(connectionAttempts := s.connectionAttempts, connectionSuccesses := s.connectionSuccesses,
               directConnections := s.directConnections, holePunchedConnections := s.holePunchedConnections,
               relayedConnections := s.relayedConnections, uniquePeersAttempted := s.uniquePeersAttempted,
               uniquePeersConnected := s.uniquePeersConnected) == s
  {
    var c := CountSuccess(s, peer.connMethod);
    c.(uniquePeersAttempted := c.uniquePeersAttempted + {peer.fullId},
       uniquePeersConnected := c.uniquePeersConnected + {peer.fullId},
       connectionSuccesses := c.connectionSuccesses + 1,
       connectionAttempts := c.connectionAttempts + 1)
  }

  /** The info line shown when a NAT test step is reported. */
  function NatTestInfo(e: ConnectivityEvent): (r: Option<string>)
    ensures r.Some? <==>
      (e.NatTestOutbound? || e.NatTestWaitingForConnectBack? || e.NatTestConnectBackSuccess?
       || e.NatTestConnectBackTimeout? || e.NatTestRetrying? || e.NatTestPeerUnreachable?)
  {
    match e
    case NatTestOutbound(p, address) => Some("Connecting to " + ShortId(p) + " at " + address)
    case NatTestWaitingForConnectBack(p, n) =>
      Some("Waiting " + NatToString(n) + "s for " + ShortId(p) + " to connect back")
    case NatTestConnectBackSuccess(p) => Some("✓ " + ShortId(p) + " connected back - NAT traversal verified!")
    case NatTestConnectBackTimeout(p) => Some("Timeout waiting for " + ShortId(p) + " - retrying to check if peer is alive")
    case NatTestRetrying(p) => Some("Retrying connection to " + ShortId(p) + " to verify peer is still online")
    case NatTestPeerUnreachable(p) => Some("✗ " + ShortId(p) + " unreachable - peer may have gone offline")
    case _ => None
  }

  /** The peer a NAT test step is about, and the state it moves that peer to. */
  function NatTestStep(e: ConnectivityEvent): (r: Option<(string, PeerNatTestState)>)
    ensures r.Some? <==> NatTestInfo(e).Some?
    ensures e.NatTestConnectBackSuccess? ==> r == Some((e.successPeerId, Verified))
    ensures e.NatTestPeerUnreachable? ==> r == Some((e.unreachablePeerId, Unreachable))
  {
    match e
    case NatTestOutbound(p, _) => Some((p, ConnectingOutbound))
    case NatTestWaitingForConnectBack(p, n) => Some((p, WaitingForConnectBack(n)))
    case NatTestConnectBackSuccess(p) => Some((p, Verified))
    case NatTestConnectBackTimeout(p) => Some((p, TimedOut))
    case NatTestRetrying(p) => Some((p, Retrying))
    case NatTestPeerUnreachable(p) => Some((p, Unreachable))
    case _ => None
  }

  /** The warning shown when no peer could be reached. */
  function FirewallMessage(attempted: nat): (r: string)
    ensures |r| > 0 && r[0] == '⚠'
  {
    "⚠ Cannot connect to any peers (" + NatToString(attempted)
    + " attempted). Your firewall or network may be blocking outbound connections."
  }

  /** The history after one test packet exchanged with `peerId` at `now`: its entry, if any, counts it. */
  function PacketHistory(h: map<string, ConnectionHistoryEntry>, peerId: string, now: nat)
    : (r: map<string, ConnectionHistoryEntry>)
    ensures r.Keys == h.Keys
    ensures forall k :: k in h && k != peerId ==> r[k] == h[k]
    ensures peerId in h ==> r[peerId].totalPackets == h[peerId].totalPackets + 1 && r[peerId].lastSeen == now
  {
    if peerId in h then h[peerId := h[peerId].CountPacket(now)] else h
  }

  /**
   * The peers after a successful test packet with `peerId`: one packet out and
   * one back, and the measured RTT, if any, with the quality it implies.
   */
  function TestPacketPeers(peers: map<string, ConnectedPeer>, peerId: string, rttMs: Option<nat>)
    : (r: map<string, ConnectedPeer>)
    ensures r.Keys == peers.Keys
    ensures forall id :: id in peers && id != peerId ==> r[id] == peers[id]
    ensures peerId in peers ==>
      r[peerId].packetsSent == peers[peerId].packetsSent + 1 &&
      r[peerId].packetsReceived == peers[peerId].packetsReceived + 1 &&
      r[peerId].txActive && r[peerId].rxActive
    ensures peerId in peers ==> r[peerId].rttMs == if rttMs.Some? then rttMs else peers[peerId].rttMs
  {
    var sent := if peerId in peers then peers[peerId := peers[peerId].CountSent()] else peers;
    var received := if peerId in sent then sent[peerId := sent[peerId].CountReceived()] else sent;
    if rttMs.Some? && peerId in received then received[peerId := UpdateRtt(received[peerId], rttMs.value)]
    else received
  }

  /** The peers after a NAT test step: a known peer moves to the step's state. */
  function NatTestPeers(peers: map<string, ConnectedPeer>, peerId: string, testState: PeerNatTestState)
    : (r: map<string, ConnectedPeer>)
    ensures r.Keys == peers.Keys
    ensures forall id :: id in peers && id != peerId ==> r[id] == peers[id]
    ensures peerId in peers ==> r[peerId] == peers[peerId].(natTestState := testState)
  {
    if peerId in peers then peers[peerId := peers[peerId].(natTestState := testState)] else peers
  }

  /** The connectivity-test results after a peer connected: a successful attempt in its direction. */
  function ConnectedTest(t: ConnectivityTestResults, peer: ConnectedPeer): ConnectivityTestResults
  {
    var m := TestConnectivityMethod(peer.connMethod, peer.activeIsIpv6);
    if peer.direction == Inbound then RecordInbound(t, peer.fullId, m, true, None, None)
    else RecordOutbound(t, peer.fullId, m, true, None, None)
  }

  /**
   * The history after a peer connected: touched by the CONNECTED frame and
   * pruned, then the attempt recorded and pruned, then the peer's entry
   * refreshed as Connected.
   */
  ghost predicate ConnectedHistory(h: map<string, ConnectionHistoryEntry>, peer: ConnectedPeer, now: nat,
                                   after: map<string, ConnectionHistoryEntry>)
  {
    var m := TestConnectivityMethod(peer.connMethod, peer.activeIsIpv6);
    exists touched, attempted ::
      PrunedFrom(TouchHistory(h, peer.fullId, now), touched) &&
      PrunedFrom(AttemptHistory(touched, peer.fullId, peer.direction, m, true, now), attempted) &&
      after == ConnectHistory(attempted, peer, now)
  }

  /**
   * `PeerConnected`: mark the peer seen, count it under its method, log a
   * CONNECTED frame, record a successful attempt in its direction, store it,
   * and count one more attempt and success.
   */
  method HandlePeerConnected(app: App, peer: ConnectedPeer, now: nat)
    requires app.Valid()
    modifies app`peersSeen, app`stats, app`connectionHistory, app`protocolFrames, app`connectivityTest, app`connectedPeers
    ensures app.Valid()
    ensures app.peersSeen == old(app.peersSeen) + {peer.fullId}
    ensures app.stats == ConnectedStats(old(app.stats), peer)
    ensures app.protocolFrames == KeepLast(old(app.protocolFrames) + [ConnectedFrame(peer, now)], MAX_PROTOCOL_FRAMES)
    ensures app.connectedPeers == old(app.connectedPeers)[peer.fullId := peer]
    ensures peer.fullId in app.connectionHistory
    ensures app.connectionHistory[peer.fullId].status == ConnectionStatus.Connected
    ensures var m := TestConnectivityMethod(peer.connMethod, peer.activeIsIpv6);
      if peer.direction == Inbound then app.connectivityTest == RecordInbound(old(app.connectivityTest), peer.fullId, m, true, None, None)
      else app.connectivityTest == RecordOutbound(old(app.connectivityTest), peer.fullId, m, true, None, None)
    ensures app.connectivityTest == ConnectedTest(old(app.connectivityTest), peer)
    ensures ConnectedHistory(old(app.connectionHistory), peer, now, app.connectionHistory)
  {
    app.PeerSeen(peer.fullId);
    app.stats := ConnectedStats(app.stats, peer);
    LogConnectedPeer(app, peer, now);
  }

  /** The part of `PeerConnected` that goes through the frame log, the connectivity test and the peer tables. */
  method LogConnectedPeer(app: App, peer: ConnectedPeer, now: nat)
    requires app.Valid()
    modifies app`connectionHistory, app`protocolFrames, app`connectivityTest, app`connectedPeers
    ensures app.Valid()
    ensures app.protocolFrames == KeepLast(old(app.protocolFrames) + [ConnectedFrame(peer, now)], MAX_PROTOCOL_FRAMES)
    ensures app.connectedPeers == old(app.connectedPeers)[peer.fullId := peer]
    ensures peer.fullId in app.connectionHistory
    ensures app.connectionHistory[peer.fullId].status == ConnectionStatus.Connected
    ensures var m := TestConnectivityMethod(peer.connMethod, peer.activeIsIpv6);
      if peer.direction == Inbound then app.connectivityTest == RecordInbound(old(app.connectivityTest), peer.fullId, m, true, None, None)
      else app.connectivityTest == RecordOutbound(old(app.connectivityTest), peer.fullId, m, true, None, None)
    ensures ConnectedHistory(old(app.connectionHistory), peer, now, app.connectionHistory)
  {
    ghost var h := app.connectionHistory;
    app.AddProtocolFrame(ConnectedFrame(peer, now), now);
    ghost var touched := app.connectionHistory;
    RecordConnectedAttempt(app, peer, now);
    ghost var attempted := app.connectionHistory;
    app.UpdatePeer(peer, now);
  }

  /** A connected peer counts as a successful connectivity-test attempt in the direction it connected. */
  method RecordConnectedAttempt(app: App, peer: ConnectedPeer, now: nat)
    requires app.Valid()
    modifies app`connectionHistory, app`connectivityTest
    ensures app.Valid()
    ensures app.connectivityTest == ConnectedTest(old(app.connectivityTest), peer)
    ensures PrunedFrom(AttemptHistory(old(app.connectionHistory), peer.fullId, peer.direction,
                                      TestConnectivityMethod(peer.connMethod, peer.activeIsIpv6), true, now),
                       app.connectionHistory)
  {
    var testMethod := TestConnectivityMethod(peer.connMethod, peer.activeIsIpv6);
    if peer.direction == Inbound {
      app.RecordInboundConnection(peer.fullId, testMethod, true, None, now);
    } else {
      app.RecordOutboundConnection(peer.fullId, testMethod, true, None, now);
    }
  }

  /**
   * `TestPacketResult`: a successful round trip marks the peer seen, counts
   * one packet each way and refreshes its RTT; a failed one changes nothing.
   */
  method HandleTestPacketResult(app: App, peerId: string, success: bool, rttMs: Option<nat>, now: nat)
    requires app.Valid()
    modifies app`peersSeen, app`stats, app`connectedPeers, app`connectionHistory
    ensures app.Valid()
    ensures !success ==> unchanged(app)
    ensures success ==> app.peersSeen == old(app.peersSeen) + {peerId}
    ensures success ==> app.stats == old(app.stats).(packetsSent := old(app.stats).packetsSent + 1,
                                                     bytesSent := old(app.stats).bytesSent + TEST_PACKET_BYTES,
                                                     packetsReceived := old(app.stats).packetsReceived + 1,
                                                     bytesReceived := old(app.stats).bytesReceived + TEST_PACKET_BYTES)
    ensures app.connectedPeers.Keys == old(app.connectedPeers).Keys
    ensures app.connectionHistory.Keys == old(app.connectionHistory).Keys
    ensures success ==> app.connectedPeers == TestPacketPeers(old(app.connectedPeers), peerId, rttMs)
    ensures success ==>
      app.connectionHistory == PacketHistory(PacketHistory(old(app.connectionHistory), peerId, now), peerId, now)
  {
    if success {
      app.PeerSeen(peerId);
      app.PacketSent(peerId, now);
      app.PacketReceived(peerId, now);
      if rttMs.Some? {
        app.UpdatePeerRtt(peerId, rttMs.value);
      }
    }
  }

  /** The NAT test events: an info line, then the peer's NAT test state. */
  method HandleNatTest(app: App, e: ConnectivityEvent)
    requires app.Valid() && NatTestStep(e).Some?
    modifies app`infoMessage, app`connectedPeers
    ensures app.Valid()
    ensures app.infoMessage == NatTestInfo(e)
    ensures app.connectedPeers == NatTestPeers(old(app.connectedPeers), NatTestStep(e).value.0, NatTestStep(e).value.1)
    ensures unchanged(app`connectivityTest, app`connectionHistory)
  {
    app.SetInfo(NatTestInfo(e).value);
    var (peerId, s) := NatTestStep(e).value;
    app.UpdatePeerNatTestState(peerId, s);
  }

  /**
   * What each statistics event does to the counters and the set of peers
   * seen; of the two, the part an event does not name stays as it was.
   */
  twostate predicate CountEffect(app: App, e: CountEvent)
    reads app
  {
    var s := old(app.stats);
    match e
    case ConnectionFailedEvent =>
      app.stats == s.(connectionFailures := s.connectionFailures + 1, connectionAttempts := s.connectionAttempts + 1) &&
      unchanged(app`peersSeen)
    case ConnectionAttemptedEvent =>
      app.stats == s.(connectionAttempts := s.connectionAttempts + 1) && unchanged(app`peersSeen)
    case InboundConnection =>
      app.stats == s.(inboundConnections := s.inboundConnections + 1) && unchanged(app`peersSeen)
    case OutboundConnection =>
      app.stats == s.(outboundConnections := s.outboundConnections + 1) && unchanged(app`peersSeen)
    case Ipv4Connection =>
      app.stats == s.(ipv4Connections := s.ipv4Connections + 1) && unchanged(app`peersSeen)
    case Ipv6Connection =>
      app.stats == s.(ipv6Connections := s.ipv6Connections + 1) && unchanged(app`peersSeen)
    case GossipPeerDiscovered(peerId) =>
      app.stats == s.(gossipPeersDiscovered := s.gossipPeersDiscovered + 1) &&
      app.peersSeen == old(app.peersSeen) + {peerId}
    case GossipRelayDiscovered(peerId) =>
      app.stats == s.(gossipRelaysDiscovered := s.gossipRelaysDiscovered + 1) &&
      app.peersSeen == old(app.peersSeen) + {peerId}
    case PeerSeenEvent(peerId) =>
      app.peersSeen == old(app.peersSeen) + {peerId} && unchanged(app`stats)
    case SwimLivenessUpdate(alive, suspect, dead, active, passive) =>
      app.stats == s.(swimAlive := alive, swimSuspect := suspect, swimDead := dead,
                      hyparviewActive := active, hyparviewPassive := passive) &&
      unchanged(app`peersSeen)
  }

  /** The cases of `handle_tui_event` that only change the statistics and the set of peers seen. */
  method HandleCountEvent(app: App, event: CountEvent)
    requires app.Valid()
    modifies app`stats, app`peersSeen
    ensures app.Valid()
    ensures CountEffect(app, event)
  {
    match event {
      case ConnectionFailedEvent =>
        app.stats := app.stats.(connectionFailures := app.stats.connectionFailures + 1,
                                connectionAttempts := app.stats.connectionAttempts + 1);
      case ConnectionAttemptedEvent =>
        app.ConnectionAttempted();
      case InboundConnection =>
        app.stats := app.stats.(inboundConnections := app.stats.inboundConnections + 1);
      case OutboundConnection =>
        app.stats := app.stats.(outboundConnections := app.stats.outboundConnections + 1);
      case Ipv4Connection =>
        app.stats := app.stats.(ipv4Connections := app.stats.ipv4Connections + 1);
      case Ipv6Connection =>
        app.stats := app.stats.(ipv6Connections := app.stats.ipv6Connections + 1);
      case GossipPeerDiscovered(peerId) =>
        app.stats := app.stats.(gossipPeersDiscovered := app.stats.gossipPeersDiscovered + 1);
        app.PeerSeen(peerId);
      case GossipRelayDiscovered(peerId) =>
        app.stats := app.stats.(gossipRelaysDiscovered := app.stats.gossipRelaysDiscovered + 1);
        app.PeerSeen(peerId);
      case PeerSeenEvent(peerId) =>
        app.PeerSeen(peerId);
      case SwimLivenessUpdate(alive, suspect, dead, active, passive) =>
        app.stats := app.stats.(swimAlive := alive, swimSuspect := suspect, swimDead := dead,
                                hyparviewActive := active, hyparviewPassive := passive);
    }
  }

  /**
   * What each registration event does to the local node, the registered
   * count, the info line and the run state; a node once registered stays
   * registered when the network task replaces it.
   */
  twostate predicate StatusEffect(app: App, e: StatusEvent, now: nat)
    reads app
  {
    var node := old(app.localNode);
    match e
    case UpdateLocalNode(newNode) =>
      app.localNode == newNode.(registered := newNode.registered || node.registered) &&
      unchanged(app`totalRegisteredNodes, app`infoMessage, app`state)
    case UpdateRegisteredCount(count) =>
      app.totalRegisteredNodes == count && unchanged(app`localNode, app`infoMessage, app`state)
    case RegistrationUpdated(registered) =>
      app.localNode == node.(registered := registered,
                             lastHeartbeat := if registered then Some(now) else node.lastHeartbeat) &&
      unchanged(app`totalRegisteredNodes, app`infoMessage, app`state)
    case HeartbeatSentEvent =>
      app.localNode == node.(lastHeartbeat := Some(now)) &&
      unchanged(app`totalRegisteredNodes, app`infoMessage, app`state)
    case QuitEvent =>
      app.ShouldQuit() && unchanged(app`localNode, app`totalRegisteredNodes, app`infoMessage)
    case RegistrationComplete =>
      app.localNode == node.(registered := true, lastHeartbeat := Some(now)) &&
      app.infoMessage == Some("Registered with network registry") &&
      unchanged(app`totalRegisteredNodes, app`state)
  }

  /** The cases of `handle_tui_event` that change the local node, its registration or the run state. */
  method HandleStatusEvent(app: App, event: StatusEvent, now: nat)
    requires app.Valid()
    modifies app`localNode, app`totalRegisteredNodes, app`infoMessage, app`state
    ensures app.Valid()
    ensures StatusEffect(app, event, now)
  {
    match event {
      case UpdateLocalNode(node) =>
        var wasRegistered := app.localNode.registered;
        app.localNode := node;
        if wasRegistered {
          app.localNode := app.localNode.(registered := true);
        }
      case UpdateRegisteredCount(count) =>
        app.totalRegisteredNodes := count;
      case RegistrationUpdated(registered) =>
        app.SetRegistered(registered, now);
      case HeartbeatSentEvent =>
        app.HeartbeatSent(now);
      case QuitEvent =>
        app.Quit();
      case RegistrationComplete =>
        app.SetRegistered(true, now);
        app.SetInfo("Registered with network registry");
    }
  }

  /** What each status-line event does to the error line, the info line and the gossip-tests flag. */
  twostate predicate StatusLineEffect(app: App, e: StatusLineEvent)
    reads app
  {
    match e
    case ErrorEvent(text) =>
      app.errorMessage == Some(text) && unchanged(app`infoMessage, app`gossipTestsRunning)
    case InfoEvent(text) =>
      app.infoMessage == Some(text) && unchanged(app`errorMessage, app`gossipTestsRunning)
    case ClearMessages =>
      app.errorMessage == None && app.infoMessage == None && unchanged(app`gossipTestsRunning)
    case FirewallDetected(attempted) =>
      app.errorMessage == Some(FirewallMessage(attempted)) && unchanged(app`infoMessage, app`gossipTestsRunning)
    case GossipTestsStarted =>
      app.gossipTestsRunning && app.infoMessage == Some("Running gossip crate tests...") &&
      unchanged(app`errorMessage)
    case GossipCrateTestComplete(_, _, _, _) =>
      unchanged(app`errorMessage, app`infoMessage, app`gossipTestsRunning)
  }

  /** The cases of `handle_tui_event` that only set or clear the status line. */
  method HandleStatusLineEvent(app: App, event: StatusLineEvent)
    requires app.Valid()
    modifies app`errorMessage, app`infoMessage, app`gossipTestsRunning
    ensures app.Valid()
    ensures StatusLineEffect(app, event)
  {
    match event {
      case ErrorEvent(text) =>
        app.SetError(text);
      case InfoEvent(text) =>
        app.SetInfo(text);
      case ClearMessages =>
        app.ClearError();
        app.ClearInfo();
      case FirewallDetected(attempted) =>
        app.SetError(FirewallMessage(attempted));
      case GossipTestsStarted =>
        app.StartGossipTests();
        app.SetInfo("Running gossip crate tests...");
      case GossipCrateTestComplete(_, _, _, _) =>
    }
  }

  /** What each messaging event does to the contacts, the open conversation and the status line. */
  twostate predicate MessagingEffect(app: App, e: MessagingEvent)
    reads app
  {
    match e
    case ContactCreated(contact) =>
      app.contacts == old(app.contacts) + [contact] &&
      unchanged(app`currentMessages, app`errorMessage, app`infoMessage)
    case ContactCreateFailed(fourWords, error) =>
      app.errorMessage == Some("Failed to add " + fourWords + ": " + error) &&
      unchanged(app`contacts, app`currentMessages, app`infoMessage)
    case ContactsUpdated(contacts) =>
      app.contacts == contacts && unchanged(app`currentMessages, app`errorMessage, app`infoMessage)
    case MessageSent(recipient) =>
      app.infoMessage == Some("Message sent to " + recipient) &&
      unchanged(app`contacts, app`currentMessages, app`errorMessage)
    case MessageSendFailed(recipient, error) =>
      app.errorMessage == Some("Failed to send to " + recipient + ": " + error) &&
      unchanged(app`contacts, app`currentMessages, app`infoMessage)
    case MessageReceived(message) =>
      app.currentMessages == old(app.currentMessages) + [message] &&
      app.infoMessage == Some("New message received") && unchanged(app`contacts, app`errorMessage)
  }

  /** The cases of `handle_tui_event` for contacts and messages. */
  method HandleMessagingEvent(app: App, event: MessagingEvent)
    requires app.Valid()
    modifies app`contacts, app`currentMessages, app`errorMessage, app`infoMessage
    ensures app.Valid()
    ensures MessagingEffect(app, event)
  {
    match event {
      case ContactCreated(contact) =>
        app.contacts := app.contacts + [contact];
      case ContactCreateFailed(fourWords, error) =>
        app.errorMessage := Some("Failed to add " + fourWords + ": " + error);
      case ContactsUpdated(contacts) =>
        app.contacts := contacts;
      case MessageSent(recipient) =>
        app.infoMessage := Some("Message sent to " + recipient);
      case MessageSendFailed(recipient, error) =>
        app.errorMessage := Some("Failed to send to " + recipient + ": " + error);
      case MessageReceived(message) =>
        app.currentMessages := app.currentMessages + [message];
        app.infoMessage := Some("New message received");
    }
  }

  /** `ConnectivityTestInbound`: record the inbound attempt in the test results and the peer's history. */
  method HandleConnectivityTestInbound(app: App, peerId: string, testMethod: TestConnectivityMethod, success: bool,
                                       rttMs: Option<nat>, now: nat)
    requires app.Valid()
    modifies app`connectivityTest, app`connectionHistory
    ensures app.Valid()
    ensures app.connectivityTest == RecordInbound(old(app.connectivityTest), peerId, testMethod, success, rttMs, None)
    ensures PrunedFrom(AttemptHistory(old(app.connectionHistory), peerId, Inbound, testMethod, success, now), app.connectionHistory)
    ensures unchanged(app`infoMessage, app`connectedPeers)
  {
    app.RecordInboundConnection(peerId, testMethod, success, rttMs, now);
  }

  /** `ConnectivityTestOutbound`: record the outbound attempt in the test results and the peer's history. */
  method HandleConnectivityTestOutbound(app: App, peerId: string, testMethod: TestConnectivityMethod, success: bool,
                                        rttMs: Option<nat>, now: nat)
    requires app.Valid()
    modifies app`connectivityTest, app`connectionHistory
    ensures app.Valid()
    ensures app.connectivityTest == RecordOutbound(old(app.connectivityTest), peerId, testMethod, success, rttMs, None)
    ensures PrunedFrom(AttemptHistory(old(app.connectionHistory), peerId, Outbound, testMethod, success, now), app.connectionHistory)
    ensures unchanged(app`infoMessage, app`connectedPeers)
  {
    app.RecordOutboundConnection(peerId, testMethod, success, rttMs, now);
  }

  /** `ConnectivityTestStart`: the test enters its inbound phase. */
  method HandleConnectivityTestStart(app: App, now: nat)
    requires app.Valid()
    modifies app`connectivityTest
    ensures app.Valid()
    ensures app.connectivityTest == StartInboundPhase(old(app.connectivityTest), now)
    ensures unchanged(app`infoMessage, app`connectedPeers, app`connectionHistory)
  {
    app.ConnectivityTestInboundPhase(now);
  }

  /** `ConnectivityTestComplete`: the test is complete. */
  method HandleConnectivityTestComplete(app: App)
    requires app.Valid()
    modifies app`connectivityTest
    ensures app.Valid()
    ensures app.connectivityTest == old(app.connectivityTest).(phase := Complete)
    ensures unchanged(app`infoMessage, app`connectedPeers, app`connectionHistory)
  {
    app.connectivityTest := app.connectivityTest.(phase := Complete);
  }

  /**
   * What each connectivity-test and NAT-test event does to the info line,
   * the peers, the test results and the history; a test result goes through
   * `prune_history_if_needed`, which may choose any pruning it allows.
   */
  twostate predicate ConnectivityEffect(app: App, e: ConnectivityEvent, now: nat)
    reads app
  {
    match e
    case ConnectivityTestInbound(peerId, m, success, rttMs) =>
      app.connectivityTest == RecordInbound(old(app.connectivityTest), peerId, m, success, rttMs, None) &&
      PrunedFrom(AttemptHistory(old(app.connectionHistory), peerId, Inbound, m, success, now), app.connectionHistory) &&
      unchanged(app`infoMessage, app`connectedPeers)
    case ConnectivityTestStart =>
      app.connectivityTest == StartInboundPhase(old(app.connectivityTest), now) &&
      unchanged(app`infoMessage, app`connectedPeers, app`connectionHistory)
    case ConnectivityTestOutbound(peerId, m, success, rttMs) =>
      app.connectivityTest == RecordOutbound(old(app.connectivityTest), peerId, m, success, rttMs, None) &&
      PrunedFrom(AttemptHistory(old(app.connectionHistory), peerId, Outbound, m, success, now), app.connectionHistory) &&
      unchanged(app`infoMessage, app`connectedPeers)
    case ConnectivityTestComplete =>
      app.connectivityTest == old(app.connectivityTest).(phase := Complete) &&
      unchanged(app`infoMessage, app`connectedPeers, app`connectionHistory)
    case NatTestOutbound(_, _) | NatTestWaitingForConnectBack(_, _) | NatTestConnectBackSuccess(_)
       | NatTestConnectBackTimeout(_) | NatTestRetrying(_) | NatTestPeerUnreachable(_) =>
      NatTestStep(e).Some? &&
      app.infoMessage == NatTestInfo(e) &&
      app.connectedPeers == NatTestPeers(old(app.connectedPeers), NatTestStep(e).value.0, NatTestStep(e).value.1) &&
      unchanged(app`connectivityTest, app`connectionHistory)
  }

  /** The cases of `handle_tui_event` that drive the connectivity test and the NAT test. */
  method HandleConnectivityEvent(app: App, event: ConnectivityEvent, now: nat)
    requires app.Valid()
    modifies app`infoMessage, app`connectedPeers, app`connectivityTest, app`connectionHistory
    ensures app.Valid()
    ensures ConnectivityEffect(app, event, now)
  {
    match event {
      case ConnectivityTestInbound(peerId, m, success, rttMs) =>
        HandleConnectivityTestInbound(app, peerId, m, success, rttMs, now);
      case ConnectivityTestStart =>
        HandleConnectivityTestStart(app, now);
      case ConnectivityTestOutbound(peerId, m, success, rttMs) =>
        HandleConnectivityTestOutbound(app, peerId, m, success, rttMs, now);
      case ConnectivityTestComplete =>
        HandleConnectivityTestComplete(app);
      case NatTestOutbound(_, _) | NatTestWaitingForConnectBack(_, _) | NatTestConnectBackSuccess(_)
         | NatTestConnectBackTimeout(_) | NatTestRetrying(_) | NatTestPeerUnreachable(_) =>
        HandleNatTest(app, event);
    }
  }

  /** `UpdatePeer`: store the peer and refresh its history entry. */
  method HandleUpdatePeer(app: App, peer: ConnectedPeer, now: nat)
    requires app.Valid()
    modifies app`connectedPeers, app`connectionHistory
    ensures app.Valid()
    ensures app.connectedPeers == old(app.connectedPeers)[peer.fullId := peer]
    ensures app.connectionHistory == ConnectHistory(old(app.connectionHistory), peer, now)
    ensures unchanged(app`peersSeen, app`stats, app`protocolFrames, app`connectivityTest,
                      app`geographicDistribution)
  {
    app.UpdatePeer(peer, now);
  }

  /** `RemovePeer`: forget the live peer; its history entry, if any, is now Disconnected. */
  method HandleRemovePeer(app: App, peerId: string, now: nat)
    requires app.Valid()
    modifies app`connectedPeers, app`connectionHistory
    ensures app.Valid()
    ensures app.connectedPeers == old(app.connectedPeers) - {peerId}
    ensures app.connectionHistory == if peerId in old(app.connectionHistory)
      then old(app.connectionHistory)[peerId := MarkDisconnected(old(app.connectionHistory)[peerId], now)]
      else old(app.connectionHistory)
    ensures unchanged(app`peersSeen, app`stats, app`protocolFrames, app`connectivityTest,
                      app`geographicDistribution)
  {
    app.RemovePeer(peerId, now);
  }

  /** `PacketSent`: count one test packet overall, for the peer and in its history. */
  method HandlePacketSent(app: App, peerId: string, now: nat)
    requires app.Valid()
    modifies app`stats, app`connectedPeers, app`connectionHistory
    ensures app.Valid()
    ensures app.stats == old(app.stats).(packetsSent := old(app.stats).packetsSent + 1, bytesSent := old(app.stats).bytesSent + TEST_PACKET_BYTES)
    ensures app.connectedPeers == if peerId in old(app.connectedPeers)
      then old(app.connectedPeers)[peerId := old(app.connectedPeers)[peerId].CountSent()] else old(app.connectedPeers)
    ensures app.connectionHistory == PacketHistory(old(app.connectionHistory), peerId, now)
    ensures unchanged(app`peersSeen, app`protocolFrames, app`connectivityTest, app`geographicDistribution)
  {
    app.PacketSent(peerId, now);
  }

  /** `PacketReceived`: count one test packet overall, for the peer and in its history. */
  method HandlePacketReceived(app: App, peerId: string, now: nat)
    requires app.Valid()
    modifies app`stats, app`connectedPeers, app`connectionHistory
    ensures app.Valid()
    ensures app.stats == old(app.stats).(packetsReceived := old(app.stats).packetsReceived + 1, bytesReceived := old(app.stats).bytesReceived + TEST_PACKET_BYTES)
    ensures app.connectedPeers == if peerId in old(app.connectedPeers)
      then old(app.connectedPeers)[peerId := old(app.connectedPeers)[peerId].CountReceived()] else old(app.connectedPeers)
    ensures app.connectionHistory == PacketHistory(old(app.connectionHistory), peerId, now)
    ensures unchanged(app`peersSeen, app`protocolFrames, app`connectivityTest, app`geographicDistribution)
  {
    app.PacketReceived(peerId, now);
  }

  /** `ProtocolFrame`: log the frame, which also refreshes the history of the peer it names. */
  method HandleProtocolFrame(app: App, frame: ProtocolFrame, now: nat)
    requires app.Valid()
    modifies app`connectionHistory, app`protocolFrames
    ensures app.Valid()
    ensures app.protocolFrames == KeepLast(old(app.protocolFrames) + [frame], MAX_PROTOCOL_FRAMES)
    ensures PrunedFrom(TouchHistory(old(app.connectionHistory), frame.peerId, now), app.connectionHistory)
    ensures unchanged(app`peersSeen, app`stats, app`connectedPeers, app`connectivityTest,
                      app`geographicDistribution)
  {
    app.AddProtocolFrame(frame, now);
  }

  /** `NatPhaseUpdate`: a known peer takes the new phase and coordinator. */
  method HandleNatPhaseUpdate(app: App, peerId: string, phase: NatTraversalPhase, coordinatorId: Option<string>)
    requires app.Valid()
    modifies app`connectedPeers
    ensures app.Valid()
    ensures app.connectedPeers == if peerId in old(app.connectedPeers)
      then old(app.connectedPeers)[peerId := old(app.connectedPeers)[peerId].(natPhase := phase, coordinatorId := coordinatorId)]
      else old(app.connectedPeers)
    ensures unchanged(app`peersSeen, app`stats, app`connectionHistory, app`protocolFrames,
                      app`connectivityTest, app`geographicDistribution)
  {
    app.UpdateNatPhase(peerId, phase, coordinatorId);
  }

  /** `TrafficTypeUpdate`: a known peer's traffic flags follow the traffic seen. */
  method HandleTrafficTypeUpdate(app: App, peerId: string, trafficType: TrafficType, direction: FrameDirection)
    requires app.Valid()
    modifies app`connectedPeers
    ensures app.Valid()
    ensures app.connectedPeers == if peerId in old(app.connectedPeers)
      then old(app.connectedPeers)[peerId := WithTraffic(old(app.connectedPeers)[peerId], trafficType, direction)]
      else old(app.connectedPeers)
    ensures unchanged(app`peersSeen, app`stats, app`connectionHistory, app`protocolFrames,
                      app`connectivityTest, app`geographicDistribution)
  {
    app.UpdateTrafficType(peerId, trafficType, direction);
  }

  /** `GeographicDistributionUpdate`: replace the distribution. */
  method HandleGeographicDistributionUpdate(app: App, distribution: GeographicDistribution)
    requires app.Valid()
    modifies app`geographicDistribution
    ensures app.Valid()
    ensures app.geographicDistribution == Some(distribution)
    ensures unchanged(app`peersSeen, app`stats, app`connectedPeers, app`connectionHistory, app`protocolFrames,
                      app`connectivityTest)
  {
    app.UpdateGeographicDistribution(distribution);
  }

  /**
   * What each event about the live peers does to the seven parts of the state
   * the peer handlers change: the peers seen, the statistics, the peer and
   * history tables, the frame log, the connectivity test and the geographic
   * distribution. Every part an event does not name stays as it was.
   */
  twostate predicate PeerEffect(app: App, e: PeerEvent, now: nat)
    reads app
  {
    var peers, h, s := old(app.connectedPeers), old(app.connectionHistory), old(app.stats);
    match e
    case UpdatePeerEvent(peer) =>
      app.connectedPeers == peers[peer.fullId := peer] &&
      app.connectionHistory == ConnectHistory(h, peer, now) &&
      unchanged(app`peersSeen, app`stats, app`protocolFrames, app`connectivityTest, app`geographicDistribution)
    case RemovePeerEvent(peerId) =>
      app.connectedPeers == peers - {peerId} &&
      app.connectionHistory == (if peerId in h then h[peerId := MarkDisconnected(h[peerId], now)] else h) &&
      unchanged(app`peersSeen, app`stats, app`protocolFrames, app`connectivityTest, app`geographicDistribution)
    case PacketSentEvent(peerId) =>
      app.stats == s.(packetsSent := s.packetsSent + 1, bytesSent := s.bytesSent + TEST_PACKET_BYTES) &&
      app.connectedPeers == (if peerId in peers then peers[peerId := peers[peerId].CountSent()] else peers) &&
      app.connectionHistory == PacketHistory(h, peerId, now) &&
      unchanged(app`peersSeen, app`protocolFrames, app`connectivityTest, app`geographicDistribution)
    case PacketReceivedEvent(peerId) =>
      app.stats == s.(packetsReceived := s.packetsReceived + 1, bytesReceived := s.bytesReceived + TEST_PACKET_BYTES) &&
      app.connectedPeers == (if peerId in peers then peers[peerId := peers[peerId].CountReceived()] else peers) &&
      app.connectionHistory == PacketHistory(h, peerId, now) &&
      unchanged(app`peersSeen, app`protocolFrames, app`connectivityTest, app`geographicDistribution)
    case PeerConnected(peer) =>
      app.peersSeen == old(app.peersSeen) + {peer.fullId} &&
      app.stats == ConnectedStats(s, peer) &&
      app.connectedPeers == peers[peer.fullId := peer] &&
      ConnectedHistory(h, peer, now, app.connectionHistory) &&
      app.protocolFrames == KeepLast(old(app.protocolFrames) + [ConnectedFrame(peer, now)], MAX_PROTOCOL_FRAMES) &&
      app.connectivityTest == ConnectedTest(old(app.connectivityTest), peer) &&
      unchanged(app`geographicDistribution)
    case TestPacketResult(peerId, success, rttMs) =>
      if success then
        app.peersSeen == old(app.peersSeen) + {peerId} &&
        app.stats == s.(packetsSent := s.packetsSent + 1, bytesSent := s.bytesSent + TEST_PACKET_BYTES,
                        packetsReceived := s.packetsReceived + 1, bytesReceived := s.bytesReceived + TEST_PACKET_BYTES) &&
        app.connectedPeers == TestPacketPeers(peers, peerId, rttMs) &&
        app.connectionHistory == PacketHistory(PacketHistory(h, peerId, now), peerId, now) &&
        unchanged(app`protocolFrames, app`connectivityTest, app`geographicDistribution)
      else
        unchanged(app`peersSeen, app`stats, app`connectedPeers, app`connectionHistory, app`protocolFrames,
                  app`connectivityTest, app`geographicDistribution)
    case ProtocolFrameEvent(frame) =>
      app.protocolFrames == KeepLast(old(app.protocolFrames) + [frame], MAX_PROTOCOL_FRAMES) &&
      PrunedFrom(TouchHistory(h, frame.peerId, now), app.connectionHistory) &&
      unchanged(app`peersSeen, app`stats, app`connectedPeers, app`connectivityTest, app`geographicDistribution)
    case NatPhaseUpdate(peerId, phase, coordinatorId) =>
      app.connectedPeers == (if peerId in peers
        then peers[peerId := peers[peerId].(natPhase := phase, coordinatorId := coordinatorId)]
        else peers) &&
      unchanged(app`peersSeen, app`stats, app`connectionHistory, app`protocolFrames, app`connectivityTest,
                app`geographicDistribution)
    case TrafficTypeUpdate(peerId, trafficType, direction) =>
      app.connectedPeers == (if peerId in peers
        then peers[peerId := WithTraffic(peers[peerId], trafficType, direction)]
        else peers) &&
      unchanged(app`peersSeen, app`stats, app`connectionHistory, app`protocolFrames, app`connectivityTest,
                app`geographicDistribution)
    case GeographicDistributionUpdate(distribution) =>
      app.geographicDistribution == Some(distribution) &&
      unchanged(app`peersSeen, app`stats, app`connectedPeers, app`connectionHistory, app`protocolFrames,
                app`connectivityTest)
  }

  /** The cases of `handle_tui_event` that go through the peer tables or the frame log. */
  method HandlePeerEvent(app: App, event: PeerEvent, now: nat)
    requires app.Valid()
    modifies app`peersSeen, app`stats, app`connectedPeers, app`connectionHistory, app`protocolFrames,
             app`connectivityTest, app`geographicDistribution
    ensures app.Valid()
    ensures PeerEffect(app, event, now)
  {
    match event {
      case UpdatePeerEvent(peer) =>
        HandleUpdatePeer(app, peer, now);
      case RemovePeerEvent(peerId) =>
        HandleRemovePeer(app, peerId, now);
      case PacketSentEvent(peerId) =>
        HandlePacketSent(app, peerId, now);
      case PacketReceivedEvent(peerId) =>
        HandlePacketReceived(app, peerId, now);
      case PeerConnected(peer) =>
        HandlePeerConnected(app, peer, now);
      case TestPacketResult(peerId, success, rttMs) =>
        HandleTestPacketResult(app, peerId, success, rttMs, now);
      case ProtocolFrameEvent(frame) =>
        HandleProtocolFrame(app, frame, now);
      case NatPhaseUpdate(peerId, phase, coordinatorId) =>
        HandleNatPhaseUpdate(app, peerId, phase, coordinatorId);
      case TrafficTypeUpdate(peerId, trafficType, direction) =>
        HandleTrafficTypeUpdate(app, peerId, trafficType, direction);
      case GeographicDistributionUpdate(distribution) =>
        HandleGeographicDistributionUpdate(app, distribution);
    }
  }

  /**
   * `handle_tui_event`: each event goes to the handler of its group and has
   * that group's effect. The group handler may change only the parts of the
   * state its own `modifies` clause names.
   */
  method HandleTuiEvent(app: App, event: TuiEvent, now: nat)
    requires app.Valid()
    modifies app`peersSeen, app`stats, app`connectedPeers, app`connectionHistory, app`protocolFrames,
             app`connectivityTest, app`geographicDistribution, app`infoMessage, app`errorMessage, app`localNode,
             app`totalRegisteredNodes, app`state, app`gossipTestsRunning, app`contacts, app`currentMessages
    ensures app.Valid()
    ensures event.Peer? ==> PeerEffect(app, event.peerEvent, now)
    ensures event.Connectivity? ==> ConnectivityEffect(app, event.connectivityEvent, now)
    ensures event.Count? ==> CountEffect(app, event.countEvent)
    ensures event.Status? ==> StatusEffect(app, event.statusEvent, now)
    ensures event.StatusLine? ==> StatusLineEffect(app, event.statusLineEvent)
    ensures event.Messaging? ==> MessagingEffect(app, event.messagingEvent)
  {
    match event {
      case Peer(e) => HandlePeerEvent(app, e, now);
      case Connectivity(e) => HandleConnectivityEvent(app, e, now);
      case Count(e) => HandleCountEvent(app, e);
      case Status(e) => HandleStatusEvent(app, e, now);
      case StatusLine(e) => HandleStatusLineEvent(app, e);
      case Messaging(e) => HandleMessagingEvent(app, e);
    }
  }
}

=== FILE: tui_types.dfy ===
/**
 * The value types of the terminal UI: per-direction connection outcomes over
 * the six (method, IP version) paths, connection-history entries and their
 * status machine, RTT quality buckets, rolling latency statistics, the
 * connectivity-test countdown and counters, the geographic distribution and
 * the MCP category sub-tab cycle.
 *
 * In the source these are plain structs that `App` owns by value (inside its
 * maps or as direct fields) and mutates through `&mut self` methods. Because
 * nothing else can hold a reference to them, each mutating method is modelled
 * here as a function from the old value to the new one.
 *
 * `Instant` readings are `nat` timestamps in seconds; durations are `nat`
 * milliseconds.
 */
module TuiTypes {
  import opened Wrappers
  import opened Text
  import opened MapSums

  // ---------------------------------------------------------------------------
  // format_elapsed_short
  // ---------------------------------------------------------------------------

  /** Number of seconds in one unit of the short elapsed-time format. */
  function UnitSeconds(unit: char): nat
  {
    if unit == 'h' then 3600 else if unit == 'm' then 60 else 1
  }

  /** `format_elapsed_short`: "30s", "5m", "2h". */
  function FormatElapsedShort(secs: nat): (r: string)
    ensures |r| >= 2 && r[|r| - 1] in {'s', 'm', 'h'}
    ensures r[|r| - 1] == 's' <==> secs < 60
    ensures r[|r| - 1] == 'm' <==> 60 <= secs < 3600
  {
    if secs < 60 then NatToString(secs) + "s"
    else if secs < 3600 then NatToString(secs / 60) + "m"
    else NatToString(secs / 3600) + "h"
  }

  /**
   * Reading the number back from the short format gives the elapsed time
   * rounded down to whole units of the suffix.
   */
  lemma FormatElapsedShortReadsBack(secs: nat)
    ensures var r := FormatElapsedShort(secs);
      var unit := r[|r| - 1];
      ParseNat(r[..|r| - 1]).Some? &&
      ParseNat(r[..|r| - 1]).value * UnitSeconds(unit) <= secs <
        (ParseNat(r[..|r| - 1]).value + 1) * UnitSeconds(unit)
  {
    var r := FormatElapsedShort(secs);
    var q := if secs < 60 then secs else if secs < 3600 then secs / 60 else secs / 3600;
    assert r[..|r| - 1] == NatToString(q);
    ParseNatToString(q);
  }

  // ---------------------------------------------------------------------------
  // Path outcomes
  // ---------------------------------------------------------------------------

  datatype ConnectionMethod = Direct | HolePunched | Relayed
  datatype ConnectionDirection = Outbound | Inbound

  datatype MethodOutcome = Unknown | Success | Failed
  {
    /** `MethodOutcome::symbol`. */
    function Symbol(): string
    {
      match this
      case Unknown => "·"
      case Success => "✓"
      case Failed => "×"
    }
  }

  /** How far an outcome has progressed: Unknown, then Failed, then Success. */
  function Rank(o: MethodOutcome): nat
  {
    match o
    case Unknown => 0
    case Failed => 1
    case Success => 2
  }

  /** The six tracked paths: direct, NAT traversal and relay, each over IPv4 and IPv6. */
  datatype Slot = D4 | D6 | N4 | N6 | R4 | R6

  function SlotOf(connMethod: ConnectionMethod, isIpv6: bool): (s: Slot)
    ensures s in {D6, N6, R6} <==> isIpv6
  {
    match connMethod
    case Direct => if isIpv6 then D6 else D4
    case HolePunched => if isIpv6 then N6 else N4
    case Relayed => if isIpv6 then R6 else R4
  }

  /** Each path belongs to exactly one (method, IP version) pair. */
  lemma SlotOfInjective(m1: ConnectionMethod, v1: bool, m2: ConnectionMethod, v2: bool)
    ensures SlotOf(m1, v1) == SlotOf(m2, v2) <==> m1 == m2 && v1 == v2
  {
  }

  datatype DirectionalMethodStats = DirectionalMethodStats(
    lastMethod: Option<ConnectionMethod>,
    attempts: nat,
    successes: nat,
    failures: nat,
    directIpv4: MethodOutcome,
    directIpv6: MethodOutcome,
    natIpv4: MethodOutcome,
    natIpv6: MethodOutcome,
    relayIpv4: MethodOutcome,
    relayIpv6: MethodOutcome)
  {
    /** The outcome stored for one path. */
    function Outcome(s: Slot): MethodOutcome
    {
      match s
      case D4 => directIpv4
      case D6 => directIpv6
      case N4 => natIpv4
      case N6 => natIpv6
      case R4 => relayIpv4
      case R6 => relayIpv6
    }

    /** Every attempt was counted as exactly one success or one failure. */
    predicate Balanced()
    {
      attempts == successes + failures
    }

    /** `has_ipv4`: some IPv4 path was tried. */
    predicate HasIpv4()
    {
      directIpv4 != Unknown || natIpv4 != Unknown || relayIpv4 != Unknown
    }

    /** `has_ipv6`: some IPv6 path was tried. */
    predicate HasIpv6()
    {
      directIpv6 != Unknown || natIpv6 != Unknown || relayIpv6 != Unknown
    }

    /** `summary_compact`: "D4?D6?N4?N6?R4?R6?" with each path's symbol. */
    function SummaryCompact(): string
    {
      "D4" + directIpv4.Symbol() + "D6" + directIpv6.Symbol() + "N4" + natIpv4.Symbol()
      + "N6" + natIpv6.Symbol() + "R4" + relayIpv4.Symbol() + "R6" + relayIpv6.Symbol()
    }
  }

  /** `DirectionalMethodStats::default()`. */
  const DefaultStats := DirectionalMethodStats(None, 0, 0, 0, Unknown, Unknown, Unknown, Unknown, Unknown, Unknown)

  lemma DefaultStatsFresh()
    ensures DefaultStats.Balanced()
    ensures forall s: Slot :: DefaultStats.Outcome(s) == Unknown
    ensures !DefaultStats.HasIpv4() && !DefaultStats.HasIpv6()
  {
    forall s: Slot ensures DefaultStats.Outcome(s) == Unknown {
      match s
      case D4 => case D6 => case N4 => case N6 => case R4 => case R6 =>
    }
  }

  /** `update_outcome`: Success always wins; Failed only replaces Unknown. */
  function UpdateOutcome(slot: MethodOutcome, outcome: MethodOutcome): (r: MethodOutcome)
    ensures slot == Success ==> r == Success
    ensures r != slot ==> r == outcome && (r == Success || slot == Unknown)
    ensures outcome == Success ==> r == Success
  {
    match outcome
    case Success => Success
    case Failed => if slot == Unknown then MethodOutcome.Failed else slot
    case Unknown => slot
  }

  /** `best_of`: prefer success, then failure, then unknown. */
  function BestOf(a: MethodOutcome, b: MethodOutcome): (r: MethodOutcome)
    ensures r == a || r == b
    ensures Rank(r) >= Rank(a) && Rank(r) >= Rank(b)
  {
    if a.Success? || b.Success? then Success
    else if a.Failed? || b.Failed? then MethodOutcome.Failed
    else Unknown
  }

  /**
   * Updating a path keeps the better of the two outcomes: `update_outcome`
   * and `best_of` are the same join on Unknown < Failed < Success.
   */
  lemma UpdateOutcomeIsBestOf(slot: MethodOutcome, outcome: MethodOutcome)
    ensures UpdateOutcome(slot, outcome) == BestOf(slot, outcome)
    ensures BestOf(slot, outcome) == BestOf(outcome, slot)
    ensures UpdateOutcome(UpdateOutcome(slot, outcome), outcome) == UpdateOutcome(slot, outcome)
  {
  }

  /** `direct_best`, `nat_best` and `relay_best`. */
  function MethodBest(s: DirectionalMethodStats, connMethod: ConnectionMethod): (r: MethodOutcome)
    ensures r == s.Outcome(SlotOf(connMethod, false)) || r == s.Outcome(SlotOf(connMethod, true))
    ensures r == Unknown <==> s.Outcome(SlotOf(connMethod, false)) == Unknown && s.Outcome(SlotOf(connMethod, true)) == Unknown
  {
    BestOf(s.Outcome(SlotOf(connMethod, false)), s.Outcome(SlotOf(connMethod, true)))
  }

  /** `record_with_ip_version`: count the attempt and update the one path it used. */
  function RecordWithIpVersion(s: DirectionalMethodStats, connMethod: ConnectionMethod, success: bool, isIpv6: bool)
    : (r: DirectionalMethodStats)
    ensures r.attempts == s.attempts + 1
    ensures r.successes == s.successes + (if success then 1 else 0)
    ensures r.failures == s.failures + (if success then 0 else 1)
    ensures r.lastMethod == Some(connMethod)
    ensures r.Outcome(SlotOf(connMethod, isIpv6)) == UpdateOutcome(s.Outcome(SlotOf(connMethod, isIpv6)), if success then Success else MethodOutcome.Failed)
    ensures forall p: Slot :: p != SlotOf(connMethod, isIpv6) ==> r.Outcome(p) == s.Outcome(p)
  {
    var o := if success then Success else MethodOutcome.Failed;
    var t := s.(attempts := s.attempts + 1,
                successes := s.successes + (if success then 1 else 0),
                failures := s.failures + (if success then 0 else 1),
                lastMethod := Some(connMethod));
    match SlotOf(connMethod, isIpv6)
    case D4 => t.(directIpv4 := UpdateOutcome(s.directIpv4, o))
    case D6 => t.(directIpv6 := UpdateOutcome(s.directIpv6, o))
    case N4 => t.(natIpv4 := UpdateOutcome(s.natIpv4, o))
    case N6 => t.(natIpv6 := UpdateOutcome(s.natIpv6, o))
    case R4 => t.(relayIpv4 := UpdateOutcome(s.relayIpv4, o))
    case R6 => t.(relayIpv6 := UpdateOutcome(s.relayIpv6, o))
  }

  /** `record`: an attempt whose IP version is not known counts as IPv4. */
  function RecordAttempt(s: DirectionalMethodStats, connMethod: ConnectionMethod, success: bool): (r: DirectionalMethodStats)
    ensures r == RecordWithIpVersion(s, connMethod, success, false)
    ensures r.Outcome(SlotOf(connMethod, false)) != Unknown
  {
    RecordWithIpVersion(s, connMethod, success, false)
  }

  /**
   * Recording keeps attempts = successes + failures, a path at Success never
   * changes again, a path only changes to Success or from Unknown to Failed,
   * and recorded paths stay recorded.
   */
  lemma RecordKeepsInvariants(s: DirectionalMethodStats, connMethod: ConnectionMethod, success: bool, isIpv6: bool)
    ensures var r := RecordWithIpVersion(s, connMethod, success, isIpv6);
      (s.Balanced() ==> r.Balanced()) &&
      (forall p: Slot :: s.Outcome(p) == Success ==> r.Outcome(p) == Success) &&
      (forall p: Slot :: r.Outcome(p) != s.Outcome(p) ==>
         r.Outcome(p) == Success || (s.Outcome(p) == Unknown && r.Outcome(p) == MethodOutcome.Failed)) &&
      (forall p: Slot :: Rank(r.Outcome(p)) >= Rank(s.Outcome(p))) &&
      (s.HasIpv4() ==> r.HasIpv4()) && (s.HasIpv6() ==> r.HasIpv6()) &&
      (isIpv6 ==> r.HasIpv6()) && (!isIpv6 ==> r.HasIpv4())
  {
    var r := RecordWithIpVersion(s, connMethod, success, isIpv6);
    forall p: Slot ensures Rank(r.Outcome(p)) >= Rank(s.Outcome(p)) {
      if p == SlotOf(connMethod, isIpv6) {
        UpdateOutcomeIsBestOf(s.Outcome(p), if success then Success else MethodOutcome.Failed);
      }
    }
    assert r.Outcome(SlotOf(connMethod, isIpv6)) != Unknown;
  }

  // ---------------------------------------------------------------------------
  // Connected peers
  // ---------------------------------------------------------------------------

  /** RTT quality, from best to worst. */
  datatype ConnectionQuality = Excellent | Good | Fair | Poor | VeryPoor

  function QualityRank(q: ConnectionQuality): nat
  {
    match q
    case Excellent => 0
    case Good => 1
    case Fair => 2
    case Poor => 3
    case VeryPoor => 4
  }

  /** The RTT band each quality level stands for, in milliseconds, as documented on the enum. */
  predicate InBand(ms: nat, q: ConnectionQuality)
  {
    match q
    case Excellent => ms < 50
    case Good => 50 <= ms < 100
    case Fair => 100 <= ms < 200
    case Poor => 200 <= ms < 500
    case VeryPoor => ms >= 500
  }

  /** `ConnectionQuality::from_rtt` on the RTT in whole milliseconds. */
  function FromRtt(ms: nat): (q: ConnectionQuality)
  {
    if ms < 50 then Excellent
    else if ms < 100 then Good
    else if ms < 200 then Fair
    else if ms < 500 then Poor
    else VeryPoor
  }

  /** `from_rtt` picks exactly the level whose documented band holds the RTT. */
  lemma FromRttBands(ms: nat, q: ConnectionQuality)
    ensures FromRtt(ms) == q <==> InBand(ms, q)
  {
  }

  /** A larger RTT never gives a better quality. */
  lemma FromRttMonotone(a: nat, b: nat)
    requires a <= b
    ensures QualityRank(FromRtt(a)) <= QualityRank(FromRtt(b))
  {
  }

  /** The registry's NAT classification, which this model treats as opaque. */
  datatype NatType = NatUnknown | NatKnown(name: string)

  /** `NatTraversalPhase`; its variant names carry a prefix to keep them apart from the status and method names. */
  datatype NatTraversalPhase = PhaseDiscovering | PhaseCoordinating | PhasePunching | PhaseConnected | PhaseRelayed

  datatype PeerNatTestState =
    | Pending
    | ConnectingOutbound
    | WaitingForConnectBack(secondsRemaining: nat)
    | Verified
    | TimedOut
    | Retrying
    | Unreachable

  /** `short_id`: the first 8 characters of a longer id, else the whole id. */
  function ShortId(peerId: string): (r: string)
    ensures |peerId| > 8 ==> r == peerId[..8]
    ensures |peerId| <= 8 ==> r == peerId
    ensures r <= peerId && |r| <= 8
  {
    Take(peerId, 8)
  }

  /** The fields of `ConnectedPeer` that the modelled bookkeeping reads or writes. */
  datatype ConnectedPeer = ConnectedPeer(
    shortId: string,
    fullId: string,
    location: string,
    connMethod: ConnectionMethod,
    direction: ConnectionDirection,
    rttMs: Option<nat>,
    quality: ConnectionQuality,
    txActive: bool,
    rxActive: bool,
    packetsSent: nat,
    packetsReceived: nat,
    connectedAt: nat,
    activeIsIpv6: bool,
    outboundVerified: bool,
    inboundVerified: bool,
    lastConnectionTime: nat,
    natPhase: NatTraversalPhase,
    coordinatorId: Option<string>,
    protocolTx: bool,
    protocolRx: bool,
    dataTx: bool,
    dataRx: bool,
    natTestState: PeerNatTestState,
    natType: NatType)
  {
    /** `is_nat_verified`: reachable in both directions. */
    predicate IsNatVerified()
    {
      outboundVerified && inboundVerified
    }

    /** The peer after one more test packet sent to it: one more packet out, transmit indicator on. */
    function CountSent(): (r: ConnectedPeer)
      ensures r.packetsSent == packetsSent + 1 && r.txActive
      ensures r.(packetsSent := packetsSent, txActive := txActive) == this
    {
      this.(packetsSent := packetsSent + 1, txActive := true)
    }

    /** The peer after one more test packet received from it: one more packet in, receive indicator on. */
    function CountReceived(): (r: ConnectedPeer)
      ensures r.packetsReceived == packetsReceived + 1 && r.rxActive
      ensures r.(packetsReceived := packetsReceived, rxActive := rxActive) == this
    {
      this.(packetsReceived := packetsReceived + 1, rxActive := true)
    }
  }

  /** `ConnectedPeer::with_direction`: a new peer is verified in the direction it connected. */
  function WithDirection(peerId: string, connMethod: ConnectionMethod, direction: ConnectionDirection, now: nat)
    : (p: ConnectedPeer)
    ensures p.fullId == peerId && p.shortId == ShortId(peerId)
    ensures p.outboundVerified <==> direction == Outbound
    ensures p.inboundVerified <==> direction == Inbound
    ensures !p.IsNatVerified()
    ensures p.rttMs == None && p.quality == Fair && p.packetsSent == 0 && p.packetsReceived == 0
  {
    ConnectedPeer(ShortId(peerId), peerId, "??", connMethod, direction, None, Fair, false, false, 0, 0,
                  now, false, direction == Outbound, direction == Inbound, now, PhaseDiscovering, None,
                  false, false, false, false, Pending, NatUnknown)
  }

  /** `update_rtt`: store the RTT and the quality it implies. */
  function UpdateRtt(p: ConnectedPeer, ms: nat): (r: ConnectedPeer)
    ensures r.rttMs == Some(ms) && InBand(ms, r.quality)
    ensures r.(rttMs := p.rttMs, quality := p.quality) == p
  {
    FromRttBands(ms, FromRtt(ms));
    p.(rttMs := Some(ms), quality := FromRtt(ms))
  }

  datatype FrameDirection = Sent | Received

  /** `ProtocolFrame`. */
  datatype ProtocolFrame = ProtocolFrame(
    peerId: string, frameType: string, direction: FrameDirection, timestamp: nat, context: Option<string>)

  datatype TrafficType = Protocol | TestData | Relay

  /** The fields of `ContactDisplay` the model carries. */
  datatype ContactDisplay = ContactDisplay(id: string, displayName: string, fourWords: Option<string>, isFavourite: bool)

  /** `MessageDisplay`. */
  datatype MessageDisplay = MessageDisplay(id: string, text: string, author: string, isOutgoing: bool, timestamp: string, edited: bool)

  // ---------------------------------------------------------------------------
  // Connection history
  // ---------------------------------------------------------------------------

  datatype ConnectionStatus = Connected | Disconnected | Failed | Coordinating

  datatype ConnectionHistoryEntry = ConnectionHistoryEntry(
    shortId: string,
    fullId: string,
    location: string,
    connMethod: Option<ConnectionMethod>,
    direction: Option<ConnectionDirection>,
    status: ConnectionStatus,
    outbound: DirectionalMethodStats,
    inbound: DirectionalMethodStats,
    firstConnected: nat,
    lastSeen: nat,
    totalPackets: nat,
    bestRttMs: Option<nat>,
    connectionCount: nat,
    natVerified: bool,
    natType: NatType)
  {
    /** Both directions keep attempts = successes + failures. */
    predicate Valid()
    {
      outbound.Balanced() && inbound.Balanced()
    }

    /** The entry after one more test packet exchanged with its peer at `now`. */
    function CountPacket(now: nat): (r: ConnectionHistoryEntry)
      ensures r.totalPackets == totalPackets + 1 && r.lastSeen == now
      ensures r.(totalPackets := totalPackets, lastSeen := lastSeen) == this
    {
      this.(totalPackets := totalPackets + 1, lastSeen := now)
    }

    /** The stats kept for one direction. */
    function Stats(d: ConnectionDirection): DirectionalMethodStats
    {
      if d == Outbound then outbound else inbound
    }
  }

  /** `ConnectionHistoryEntry::new`: a peer seen in coordination frames only. */
  function NewEntry(peerId: string, now: nat): (e: ConnectionHistoryEntry)
    ensures e.fullId == peerId && e.shortId == ShortId(peerId)
    ensures e.status == Coordinating && e.lastSeen == now
    ensures e.outbound == DefaultStats && e.inbound == DefaultStats
    ensures e.connectionCount == 0 && e.totalPackets == 0 && !e.natVerified
  {
    ConnectionHistoryEntry(ShortId(peerId), peerId, "---", None, None, Coordinating,
                           DefaultStats, DefaultStats, now, now, 0, None, 0, false, NatUnknown)
  }

  /**
   * `record_attempt_with_ip`: count the attempt in its direction and move the
   * status. Connected never changes; a success moves Failed or Coordinating
   * to Disconnected; a failure moves only Coordinating to Failed.
   */
  function RecordAttemptWithIp(e: ConnectionHistoryEntry, direction: ConnectionDirection, connMethod: ConnectionMethod,
                               success: bool, isIpv6: bool, now: nat): (r: ConnectionHistoryEntry)
    ensures r.lastSeen == now && r.connMethod == Some(connMethod) && r.direction == Some(direction)
    ensures r.Stats(direction) == RecordWithIpVersion(e.Stats(direction), connMethod, success, isIpv6)
    ensures direction == Outbound ==> r.inbound == e.inbound
    ensures direction == Inbound ==> r.outbound == e.outbound
    ensures e.status == Connected ==> r.status == Connected
    ensures e.status != Connected && success ==> r.status == Disconnected
    ensures e.status != Connected && !success ==> r.status == (if e.status == Coordinating then ConnectionStatus.Failed else e.status)
    ensures r.(lastSeen := e.lastSeen, connMethod := e.connMethod, direction := e.direction, status := e.status,
               outbound := e.outbound, inbound := e.inbound) == e
  {
    var e1 := e.(lastSeen := now, connMethod := Some(connMethod), direction := Some(direction));
    var e2 := match direction
      case Outbound => e1.(outbound := RecordWithIpVersion(e1.outbound, connMethod, success, isIpv6))
      case Inbound => e1.(inbound := RecordWithIpVersion(e1.inbound, connMethod, success, isIpv6));
    if !e2.status.Connected? then
      if success then
        if e2.status.Failed? || e2.status.Coordinating? then e2.(status := Disconnected) else e2
      else if e2.status.Coordinating? then e2.(status := ConnectionStatus.Failed)
      else e2
    else e2
  }

  /** Recording an attempt keeps both directions balanced and never makes an entry Connected. */
  lemma RecordAttemptWithIpKeeps(e: ConnectionHistoryEntry, direction: ConnectionDirection, connMethod: ConnectionMethod,
                                 success: bool, isIpv6: bool, now: nat)
    ensures var r := RecordAttemptWithIp(e, direction, connMethod, success, isIpv6, now);
      (e.Valid() ==> r.Valid()) &&
      (r.status == Connected <==> e.status == Connected) &&
      (r.status == Coordinating ==> e.status == Coordinating)
  {
    RecordKeepsInvariants(e.Stats(direction), connMethod, success, isIpv6);
  }

  /** The smaller of two optional RTTs, where a missing one is ignored. */
  function BetterRtt(best: Option<nat>, rtt: Option<nat>): (r: Option<nat>)
    ensures r.None? <==> best.None? && rtt.None?
    ensures r.Some? ==> r == best || r == rtt
    ensures best.Some? ==> r.Some? && r.value <= best.value
    ensures rtt.Some? ==> r.Some? && r.value <= rtt.value
  {
    match rtt
    case None => best
    case Some(v) =>
      match best
      case Some(b) => if v < b then rtt else best
      case None => rtt
  }

  /** `from_connected_peer`: a Connected entry with the peer's first successful attempt recorded. */
  function FromConnectedPeer(p: ConnectedPeer, now: nat): (e: ConnectionHistoryEntry)
    ensures e.fullId == p.fullId && e.shortId == p.shortId && e.location == p.location
    ensures e.status == Connected && e.connectionCount == 1 && e.lastSeen == now
    ensures e.totalPackets == p.packetsSent + p.packetsReceived
    ensures e.bestRttMs == p.rttMs && e.natVerified == p.IsNatVerified()
    ensures e.Stats(p.direction) == RecordWithIpVersion(DefaultStats, p.connMethod, true, false)
    ensures e.Stats(if p.direction == Outbound then Inbound else Outbound) == DefaultStats
  {
    var e0 := ConnectionHistoryEntry(p.shortId, p.fullId, p.location, Some(p.connMethod), Some(p.direction), Connected,
                                     DefaultStats, DefaultStats, p.connectedAt, now,
                                     p.packetsSent + p.packetsReceived, p.rttMs, 1, p.IsNatVerified(), p.natType);
    var e1 := RecordAttemptWithIp(e0, p.direction, p.connMethod, true, false, now);
    RecordAttemptWithIpKeeps(e0, p.direction, p.connMethod, true, false, now);
    e1.(status := Connected)
  }

  /** `update_from_peer`: a reconnect. */
  function UpdateFromPeer(e: ConnectionHistoryEntry, p: ConnectedPeer, now: nat): (r: ConnectionHistoryEntry)
    ensures r.status == Connected && r.lastSeen == now
    ensures r.connMethod == Some(p.connMethod) && r.direction == Some(p.direction)
    ensures r.Stats(p.direction) == RecordWithIpVersion(e.Stats(p.direction), p.connMethod, true, false)
    ensures r.totalPackets == e.totalPackets + p.packetsSent + p.packetsReceived
    ensures r.connectionCount == e.connectionCount + 1
    ensures r.bestRttMs == BetterRtt(e.bestRttMs, p.rttMs)
    ensures r.natVerified == (e.natVerified || p.IsNatVerified())
    ensures r.natType == p.natType
    ensures r.shortId == e.shortId && r.fullId == e.fullId && r.location == e.location
    ensures r.firstConnected == e.firstConnected
  {
    var e1 := e.(status := Connected, lastSeen := now, connMethod := Some(p.connMethod), direction := Some(p.direction));
    var e2 := RecordAttemptWithIp(e1, p.direction, p.connMethod, true, false, now);
    RecordAttemptWithIpKeeps(e1, p.direction, p.connMethod, true, false, now);
    e2.(totalPackets := e2.totalPackets + p.packetsSent + p.packetsReceived,
        connectionCount := e2.connectionCount + 1,
        bestRttMs := BetterRtt(e2.bestRttMs, p.rttMs),
        natVerified := e2.natVerified || p.IsNatVerified(),
        natType := p.natType)
  }

  /** A new entry starts with both directions balanced. */
  lemma NewEntryValid(peerId: string, now: nat)
    ensures NewEntry(peerId, now).Valid()
  {
    DefaultStatsFresh();
  }

  /** An entry built from a live peer has both directions balanced. */
  lemma FromConnectedPeerValid(p: ConnectedPeer, now: nat)
    ensures FromConnectedPeer(p, now).Valid()
  {
    var e := FromConnectedPeer(p, now);
    if p.direction == Outbound {
      assert e.outbound.Balanced() && e.inbound == DefaultStats;
    } else {
      assert e.inbound.Balanced() && e.outbound == DefaultStats;
    }
  }

  /** A reconnect keeps both directions balanced. */
  lemma UpdateFromPeerValid(e: ConnectionHistoryEntry, p: ConnectedPeer, now: nat)
    requires e.Valid()
    ensures UpdateFromPeer(e, p, now).Valid()
  {
    RecordKeepsInvariants(e.Stats(p.direction), p.connMethod, true, false);
  }

  /** `mark_disconnected`. */
  function MarkDisconnected(e: ConnectionHistoryEntry, now: nat): (r: ConnectionHistoryEntry)
    ensures r.status == Disconnected && r.lastSeen == now
    ensures r.(status := e.status, lastSeen := e.lastSeen) == e
  {
    e.(status := Disconnected, lastSeen := now)
  }

  // ---------------------------------------------------------------------------
  // Latency statistics
  // ---------------------------------------------------------------------------

  /** Longest latency history kept for the sparkline. */
  const LATENCY_HISTORY: nat := 60

  /** `LatencyStats` without the floating-point rolling average. */
  datatype LatencyStats = LatencyStats(
    minMs: nat, maxMs: nat, p50Ms: nat, p95Ms: nat, p99Ms: nat, samples: nat, history: seq<nat>)
  {
    /**
     * At most 60 samples are kept, never more than were recorded, and every
     * kept sample lies between the recorded minimum and maximum.
     */
    predicate Valid()
    {
      |history| <= LATENCY_HISTORY && |history| <= samples &&
      forall i :: 0 <= i < |history| ==> minMs <= history[i] <= maxMs
    }
  }

  const DefaultLatency := LatencyStats(0, 0, 0, 0, 0, 0, [])

  /** `LatencyStats::record`. */
  function RecordLatency(l: LatencyStats, ms: nat): (r: LatencyStats)
    ensures r.samples == l.samples + 1
    ensures r.minMs <= ms <= r.maxMs
    ensures r.maxMs == if ms > l.maxMs then ms else l.maxMs
    ensures l.samples > 0 ==> r.minMs == if ms < l.minMs then ms else l.minMs
    ensures |l.history| < LATENCY_HISTORY ==> r.history == l.history + [ms]
    ensures |l.history| >= LATENCY_HISTORY ==> r.history == l.history[1..] + [ms]
    ensures r.p50Ms == l.p50Ms && r.p95Ms == l.p95Ms && r.p99Ms == l.p99Ms
  {
    var samples := l.samples + 1;
    var minMs := if ms < l.minMs || samples == 1 then ms else l.minMs;
    var maxMs := if ms > l.maxMs then ms else l.maxMs;
    var pushed := l.history + [ms];
    var history := if |pushed| > LATENCY_HISTORY then pushed[1..] else pushed;
    LatencyStats(minMs, maxMs, l.p50Ms, l.p95Ms, l.p99Ms, samples, history)
  }

  /** Recording a sample keeps the statistics consistent. */
  lemma RecordLatencyValid(l: LatencyStats, ms: nat)
    requires l.Valid()
    ensures RecordLatency(l, ms).Valid()
  {
    var r := RecordLatency(l, ms);
    var kept := if |l.history| < LATENCY_HISTORY then l.history else l.history[1..];
    assert r.history == kept + [ms];
    forall i | 0 <= i < |r.history| ensures r.minMs <= r.history[i] <= r.maxMs {
      if i < |kept| {
        var k := if |l.history| < LATENCY_HISTORY then i else i + 1;
        assert r.history[i] == l.history[k];
      }
    }
  }


  // ---------------------------------------------------------------------------
  // Connectivity test
  // ---------------------------------------------------------------------------

  datatype ConnectivityTestPhase = Registering | WaitingForInbound | Complete

  /**
   * The registry's `TestConnectivityMethod`, represented by the
   * (connection connMethod, IP version) pair its `to_registry_method` yields.
   */
  datatype TestConnectivityMethod = TestConnectivityMethod(registryMethod: ConnectionMethod, isIpv6: bool)

  /** One attempt handed on to a peer's `PeerConnectivityResult`. */
  datatype TestAttempt = TestAttempt(testMethod: TestConnectivityMethod, success: bool, rttMs: Option<nat>, error: Option<string>)

  /**
   * A peer's connectivity result. Its own `record_inbound`/`record_outbound`
   * live in the registry; the model keeps the attempts delegated to them.
   */
  datatype PeerConnectivityResult = PeerConnectivityResult(
    shortId: string, peerId: string, inbound: seq<TestAttempt>, outbound: seq<TestAttempt>)

  datatype ConnectivityTestResults = ConnectivityTestResults(
    phase: ConnectivityTestPhase,
    startedAt: Option<nat>,
    peerResults: map<string, PeerConnectivityResult>,
    expectedInboundPeers: seq<string>,
    inboundPhaseStarted: Option<nat>,
    totalInbound: nat,
    totalOutbound: nat,
    successfulInbound: nat,
    successfulOutbound: nat)
  {
    /** Successes never exceed attempts, and each result is stored under its own peer id. */
    predicate Valid()
    {
      successfulInbound <= totalInbound && successfulOutbound <= totalOutbound &&
      forall id :: id in peerResults ==> peerResults[id].peerId == id
    }
  }

  /** `ConnectivityTestResults::new`, which `reset` also restores. */
  const NewConnectivityTest := ConnectivityTestResults(Registering, None, map[], [], None, 0, 0, 0, 0)

  /** How long the inbound phase must wait for peers to connect back. */
  const WAIT_SECONDS: nat := 30

  /** `Instant::elapsed`, which never goes below zero. */
  function Elapsed(started: nat, now: nat): nat
  {
    if now >= started then now - started else 0
  }

  /** `start`. */
  function StartTest(t: ConnectivityTestResults, now: nat): (r: ConnectivityTestResults)
    ensures r.phase == Registering && r.startedAt == Some(now)
    ensures r.(phase := t.phase, startedAt := t.startedAt) == t
  {
    t.(startedAt := Some(now), phase := Registering)
  }

  /** `start_inbound_phase`. */
  function StartInboundPhase(t: ConnectivityTestResults, now: nat): (r: ConnectivityTestResults)
    ensures r.phase == WaitingForInbound && r.inboundPhaseStarted == Some(now)
    ensures r.(phase := t.phase, inboundPhaseStarted := t.inboundPhaseStarted) == t
  {
    t.(phase := WaitingForInbound, inboundPhaseStarted := Some(now))
  }

  /** `countdown_seconds`: seconds left in the inbound wait. */
  function CountdownSeconds(t: ConnectivityTestResults, now: nat): (r: nat)
    ensures r <= WAIT_SECONDS
    ensures t.inboundPhaseStarted.None? ==> r == WAIT_SECONDS
    ensures t.inboundPhaseStarted.Some? ==>
      (r == 0 <==> Elapsed(t.inboundPhaseStarted.value, now) >= WAIT_SECONDS)
    ensures t.inboundPhaseStarted.Some? && r > 0 ==> r + Elapsed(t.inboundPhaseStarted.value, now) == WAIT_SECONDS
  {
    match t.inboundPhaseStarted
    case Some(started) =>
      var elapsed := Elapsed(started, now);
      if elapsed >= WAIT_SECONDS then 0 else WAIT_SECONDS - elapsed
    case None => WAIT_SECONDS
  }

  /** `countdown_complete`. */
  predicate CountdownComplete(t: ConnectivityTestResults, now: nat)
  {
    CountdownSeconds(t, now) == 0
  }

  /** The countdown is complete exactly when the inbound phase began at least 30 s ago. */
  lemma CountdownCompleteWhen(t: ConnectivityTestResults, now: nat)
    ensures CountdownComplete(t, now) <==>
      t.inboundPhaseStarted.Some? && Elapsed(t.inboundPhaseStarted.value, now) >= WAIT_SECONDS
  {
  }

  /** A later reading never shows more seconds left. */
  lemma CountdownNonIncreasing(t: ConnectivityTestResults, now1: nat, now2: nat)
    requires now1 <= now2
    ensures CountdownSeconds(t, now2) <= CountdownSeconds(t, now1)
  {
  }

  /** The peer's entry, created with its short id on first use (`entry().or_insert_with`). */
  function ResultFor(t: ConnectivityTestResults, peerId: string): (r: PeerConnectivityResult)
    ensures peerId in t.peerResults ==> r == t.peerResults[peerId]
    ensures peerId !in t.peerResults ==> r == PeerConnectivityResult(ShortId(peerId), peerId, [], [])
  {
    if peerId in t.peerResults then t.peerResults[peerId]
    else PeerConnectivityResult(ShortId(peerId), peerId, [], [])
  }

  /** `record_inbound`: count the attempt and hand it to the peer's result. */
  function RecordInbound(t: ConnectivityTestResults, peerId: string, connMethod: TestConnectivityMethod, success: bool,
                         rttMs: Option<nat>, error: Option<string>): (r: ConnectivityTestResults)
    ensures r.totalInbound == t.totalInbound + 1
    ensures r.successfulInbound == t.successfulInbound + (if success then 1 else 0)
    ensures r.peerResults.Keys == t.peerResults.Keys + {peerId}
    ensures r.peerResults[peerId].inbound == ResultFor(t, peerId).inbound + [TestAttempt(connMethod, success, rttMs, error)]
    ensures r.peerResults[peerId].outbound == ResultFor(t, peerId).outbound
    ensures forall id :: id in t.peerResults && id != peerId ==> r.peerResults[id] == t.peerResults[id]
    ensures r.(totalInbound := t.totalInbound, successfulInbound := t.successfulInbound,
               peerResults := t.peerResults) == t
    ensures t.Valid() ==> r.Valid()
  {
    var res := ResultFor(t, peerId);
    t.(totalInbound := t.totalInbound + 1,
       successfulInbound := t.successfulInbound + (if success then 1 else 0),
       peerResults := t.peerResults[peerId := res.(inbound := res.inbound + [TestAttempt(connMethod, success, rttMs, error)])])
  }

  /** `record_outbound`: count the attempt and hand it to the peer's result. */
  function RecordOutbound(t: ConnectivityTestResults, peerId: string, connMethod: TestConnectivityMethod, success: bool,
                          rttMs: Option<nat>, error: Option<string>): (r: ConnectivityTestResults)
    ensures r.totalOutbound == t.totalOutbound + 1
    ensures r.successfulOutbound == t.successfulOutbound + (if success then 1 else 0)
    ensures r.peerResults.Keys == t.peerResults.Keys + {peerId}
    ensures r.peerResults[peerId].outbound == ResultFor(t, peerId).outbound + [TestAttempt(connMethod, success, rttMs, error)]
    ensures r.peerResults[peerId].inbound == ResultFor(t, peerId).inbound
    ensures forall id :: id in t.peerResults && id != peerId ==> r.peerResults[id] == t.peerResults[id]
    ensures r.(totalOutbound := t.totalOutbound, successfulOutbound := t.successfulOutbound,
               peerResults := t.peerResults) == t
    ensures t.Valid() ==> r.Valid()
  {
    var res := ResultFor(t, peerId);
    t.(totalOutbound := t.totalOutbound + 1,
       successfulOutbound := t.successfulOutbound + (if success then 1 else 0),
       peerResults := t.peerResults[peerId := res.(outbound := res.outbound + [TestAttempt(connMethod, success, rttMs, error)])])
  }

  // ---------------------------------------------------------------------------
  // Geographic distribution
  // ---------------------------------------------------------------------------

  datatype GeographicDistribution = GeographicDistribution(regions: map<string, nat>, totalPeers: nat)
  {
    /** The total is the sum of the per-region counts. */
    ghost predicate Valid()
    {
      totalPeers == SumOf(regions, Count)
    }
  }

  function Count(n: nat): nat { n }

  /** `add_peer`: one more peer in `region`. */
  function AddPeer(g: GeographicDistribution, region: string): (r: GeographicDistribution)
    ensures r.totalPeers == g.totalPeers + 1
    ensures r.regions.Keys == g.regions.Keys + {region}
    ensures r.regions[region] == (if region in g.regions then g.regions[region] else 0) + 1
    ensures forall k :: k in g.regions && k != region ==> r.regions[k] == g.regions[k]
  {
    var old_count := if region in g.regions then g.regions[region] else 0;
    GeographicDistribution(g.regions[region := old_count + 1], g.totalPeers + 1)
  }

  /** Adding a peer keeps the total equal to the sum over regions. */
  lemma AddPeerKeepsTotal(g: GeographicDistribution, region: string)
    requires g.Valid()
    ensures AddPeer(g, region).Valid()
  {
    var c := if region in g.regions then g.regions[region] else 0;
    SumOfUpdate(g.regions, Count, region, c + 1);
  }

  lemma EmptyDistributionValid()
    ensures GeographicDistribution(map[], 0).Valid()
  {
  }

  // ---------------------------------------------------------------------------
  // MCP category sub-tabs
  // ---------------------------------------------------------------------------

  datatype McpToolCategory = Auth | Entities | Messages | Files | Kanban | Network | Social

  /** `McpToolCategory::ALL`, in display order. */
  const AllCategories: seq<McpToolCategory> := [Auth, Entities, Messages, Files, Kanban, Network, Social]

  /** Position of a category in `ALL`. */
  function CategoryIndex(c: McpToolCategory): (i: nat)
    ensures i < |AllCategories| && AllCategories[i] == c
  {
    match c
    case Auth => 0
    case Entities => 1
    case Messages => 2
    case Files => 3
    case Kanban => 4
    case Network => 5
    case Social => 6
  }

  /** `next`: the following category, wrapping. */
  function NextCategory(c: McpToolCategory): (r: McpToolCategory)
    ensures CategoryIndex(r) == (CategoryIndex(c) + 1) % 7
  {
    match c
    case Auth => Entities
    case Entities => Messages
    case Messages => Files
    case Files => Kanban
    case Kanban => Network
    case Network => Social
    case Social => Auth
  }

  /** `prev`: the preceding category, wrapping. */
  function PrevCategory(c: McpToolCategory): (r: McpToolCategory)
    ensures CategoryIndex(r) == (CategoryIndex(c) + 6) % 7
  {
    match c
    case Auth => Social
    case Entities => Auth
    case Messages => Entities
    case Files => Messages
    case Kanban => Files
    case Network => Kanban
    case Social => Network
  }

  function IterateNext(c: McpToolCategory, n: nat): McpToolCategory
    decreases n
  {
    if n == 0 then c else IterateNext(NextCategory(c), n - 1)
  }

  lemma {:induction false} IterateNextIndex(c: McpToolCategory, n: nat)
    ensures CategoryIndex(IterateNext(c, n)) == (CategoryIndex(c) + n) % 7
    decreases n
  {
    if n > 0 {
      IterateNextIndex(NextCategory(c), n - 1);
    }
  }

  /** `next` and `prev` undo each other, and seven steps go once round. */
  lemma CategoryCycle(c: McpToolCategory)
    ensures PrevCategory(NextCategory(c)) == c && NextCategory(PrevCategory(c)) == c
    ensures IterateNext(c, 7) == c
    ensures forall n: nat :: 0 < n < 7 ==> IterateNext(c, n) != c
  {
    IterateNextIndex(c, 7);
    forall n: nat | 0 < n < 7 ensures IterateNext(c, n) != c {
      IterateNextIndex(c, n);
    }
    CategoryIndexInjective(IterateNext(c, 7), c);
  }

  lemma CategoryIndexInjective(a: McpToolCategory, b: McpToolCategory)
    requires CategoryIndex(a) == CategoryIndex(b)
    ensures a == b
  {
  }
}

=== FILE: wrappers.dfy ===
/** Option and Result values shared by every module of the model. */
module Wrappers {
  /** An optional value (Rust's `Option`). */
  datatype Option<T> = None | Some(value: T)
  {
    function UnwrapOr(default: T): (r: T)
      ensures Some? ==> r == value
      ensures None? ==> r == default
    {
      match this
      case Some(v) => v
      case None => default
    }
  }

  /** A value or an error (Rust's `Result`). */
  datatype Result<T, E> = Ok(value: T) | Err(error: E)
}
